=== FILE: README.md ===
# A verified model of a genetic-programming engine

This project models, in Dafny, the core of a tree-based genetic-programming
(GP) engine written in Java. The engine evolves Boolean expression trees
for the multiplexer and even-parity problems. It has three search
strategies, and this model covers all three:

- the simple generational GP: tournament selection, subtree crossover,
  replication, point mutation and elitism;
- the age-layered population structure (ALPS): individuals are sorted
  into layers by age, move up as they grow old, and layer 0 is
  regenerated periodically;
- Pareto GP: structural tags describe diversity, and a Pareto front
  decides which individuals are deleted. The objectives are age,
  density and fitness.

Every operation is a pure function or a short method over immutable
data:

- Trees are `Node(prim, num, kids)` values. A path (a sequence of child
  positions) stands in for a Java node reference.
- An individual is a record. Its id is a natural-number counter.
- A population is a sequence.
- Random numbers come from an `Rng` oracle: a stream of draws and a
  position in it. Each Java call into `Random` consumes exactly one draw.
- Java exceptions and `System.exit` become `None` or `Err` results.
- Loops that the Java code repeats until a random draw succeeds are
  bounded by a `fuel` parameter.

Modules, in dependency order:

| file | module | what it holds |
|---|---|---|
| wrappers.dfy | Wrappers | `Option` and `Result` |
| prims.dfy | Prims | node kinds (AND, OR, NOR, XOR, NOT, IF, data and address terminals) and their printed names |
| tree.dfy | Tree | trees, pre-order numbering, depth, size, paths, subtree replacement, findNode |
| rand.dfy | Rand | the generator oracle: randBetween, nextDouble, nextBool, nextGaussian |
| individual.dfy | Individuals | individuals, clone, replicate, fitness, compareTo and equals, node lists, subtree crossover |
| genotype.dfy | Genotype | the printed form of a tree and `fromString` |
| boolean.dfy | BoolNodes | Boolean evaluation of trees on one test case |
| problems.dfy | Problems | the multiplexer and parity test tables, hits and fitness |
| mutation.dfy | Mutation | point mutation |
| selection.dfy | Selection | tournament and random-mating selection, with the HashSet's iteration order |
| build.dfy | Build | grow and full tree generation, and the initial population |
| gp.dfy | GP | crossover, replication, mutation pass, elites, evaluation, breed and step |
| layers.dfy | Layers | layer capacity, the ALPS age ceilings, elite ageing |
| layered.dfy | LayeredGP | moving up, displacement, layer breeding, regeneration and the layered step |
| diversity.dfy | Diversity | structural tags, tag statistics, densities, the per-level tag store |
| pareto.dfy | Pareto | dominance, the global front, tournament deletion |
| paretogp.dfy | ParetoGP | objectives, unique random individuals, the Pareto breed and step |

Where this model and the code differ in a way the authors evidently did
not intend, the model follows the intended behaviour. Each such case is
a row under "## Findings". That row names both halves: a member that
models the code as written, and the corrected member that the rest of
the model uses.

## Model

Paths in the source column are relative to the repository root.

| member | source | states |
|---|---|---|
| Prims.IntToString | src/main/java/ec/research/gp/simple/bool/nodes/Di.java:57-59 | The index printed after "D" or "A" is the decimal text of a Java int: never empty, digits with an optional leading minus. |
| Prims.IntToStringInjective | src/main/java/ec/research/gp/simple/bool/nodes/Di.java:57-59 | Different indices print differently, so a node's name determines its index. |
| Prims.IndexedNamesDistinct | src/main/java/msu/research/gp/simple/multiplexer/nodes/Ai.java:50-52 | "D" + i names coincide exactly when the indices do, "A" + j likewise, and no data terminal shares a name with an address terminal. |
| Prims.BuiltinNamesPlain | src/main/java/msu/research/gp/simple/representation/Individual.java:674-677 | The names of the built-in nodes contain no space or parenthesis, so the reader's split and strip keep each one intact. |
| Tree.TerminalIffLeaf | src/main/java/msu/research/gp/simple/representation/Node.java:348-363 | A well-formed node is a terminal exactly when it has no children (arity 0 gives no child slots). |
| Tree.NumsArePreorderNums | src/main/java/msu/research/gp/simple/representation/Individual.java:128-135 | The node numbers of a tree, listed in pre-order: one per node, in the order the numbering pass visits them. |
| Tree.DepthKidsIsMax | src/main/java/msu/research/gp/simple/representation/Node.java:327-340 | A function's children contribute the largest of their depths, and a node without children contributes 0. |
| Tree.DepthIsLongestPath | src/main/java/msu/research/gp/simple/representation/Node.java:327-340 | depthFrom bounds the length of every root-to-node path. |
| Tree.DepthAttained | src/main/java/msu/research/gp/simple/representation/Node.java:327-340 | Some root-to-node path is exactly as long as depthFrom. |
| Tree.ReplaceAt | src/main/java/msu/research/gp/simple/representation/Node.java:609-627 | After swapNode the substituted subtree sits at the swap point. |
| Tree.ReplaceElsewhere | src/main/java/msu/research/gp/simple/representation/Node.java:609-627 | swapNode leaves every subtree off the swap point's path unchanged. |
| Tree.ReplaceSize | src/main/java/msu/research/gp/simple/representation/Node.java:609-627 | The swapped tree's size is the recipient's size minus the replaced subtree plus the inserted one: the quantity crossPointGood bounds. |
| Tree.ReplaceDepth | src/main/java/msu/research/gp/simple/representation/Node.java:609-627 | The swapped tree is at least as deep as the swap point's depth plus the inserted subtree's depth and at most the larger of that and the original depth. |
| Tree.ReplaceWellFormed | src/main/java/msu/research/gp/simple/representation/Node.java:609-627 | Swapping a well-formed subtree into a well-formed tree gives a well-formed tree. |
| Tree.RenumberNumbers | src/main/java/msu/research/gp/simple/representation/Individual.java:128-135 | numberAndCountNodes numbers the nodes start, start + 1, ... in pre-order and changes nothing else about the tree. |
| Tree.SameShapeFacts | src/main/java/msu/research/gp/simple/representation/Node.java:170-188 | Trees that differ only in node numbers print alike and have the same size and depth. |
| Tree.FindSound | src/main/java/msu/research/gp/simple/representation/Individual.java:98-118 | findNode only returns a node carrying the requested number. |
| Tree.FindComplete | src/main/java/msu/research/gp/simple/representation/Individual.java:98-118 | findNode finds a node exactly when some node carries the number; otherwise it reports none. |
| Tree.FindAfterRenumber | src/main/java/msu/research/gp/simple/representation/Individual.java:523-532 | After numbering, findNode(k) succeeds exactly for 0 <= k < size. |
| Rand.RandBetween | src/main/java/ec/research/gp/simple/util/Context.java:88-90 | randBetween(min, max) lies in [min, max] and uses one draw of the generator. |
| Rand.RandBetweenReaches | src/main/java/ec/research/gp/simple/util/Context.java:88-90 | Every value of the range is the result of some draw. |
| Rand.NextDouble | src/main/java/ec/research/gp/simple/util/Context.java:108-110 | randDouble lies in [0, 1) and uses one draw. |
| Rand.NextBoolAsWritten | src/main/java/ec/research/gp/simple/util/Context.java:75-77 | nextBool as written: true when the double drawn is at most the probability. |
| Rand.NextBoolAsWrittenZeroProbability | src/main/java/ec/research/gp/simple/util/Context.java:75-77 | A zero draw makes the as-written coin true even at probability 0. |
| Rand.NextBool | src/main/java/ec/research/gp/simple/util/Context.java:75-77 | The corrected coin: true when the draw is below the probability, hence never at probability 0 or less and always at 1 or more. |
| Rand.NextGaussian | src/main/java/ec/research/gp/simple/gp/GP.java:543-545 | The Gaussian value for a constant terminal uses one draw. |
| Individuals.NewIndividual | src/main/java/msu/research/gp/simple/representation/Individual.java:158-161 | A new individual holds the tree, is unevaluated and not optimal, has fitness 0, hits 0, age 0, no id, no tag and layer -1. |
| Individuals.NumberAndCount | src/main/java/msu/research/gp/simple/representation/Individual.java:800-803 | numberAndCountNodes renumbers the nodes 0 .. n - 1, sets numNodes to the tree's size and changes nothing else. |
| Individuals.FindNode | src/main/java/msu/research/gp/simple/representation/Individual.java:523-532 | findNode(k) returns the node numbered k exactly when there is one, and null otherwise. |
| Individuals.FindNodeAfterNumbering | src/main/java/msu/research/gp/simple/representation/Individual.java:523-532 | After numbering, every k in [0, numNodes) is found and nothing else is. |
| Individuals.Copy | src/main/java/msu/research/gp/simple/representation/Individual.java:821-837 | clone copies every field, the id included, so the copy equals the original and prints alike; its tree is renumbered from 0. |
| Individuals.Replicate | src/main/java/msu/research/gp/simple/representation/Individual.java:463-470 | replicate is a light clone: the same tree shape, counted, with fitness, hits, the evaluated flag and age kept. |
| Individuals.SetFitness | src/main/java/msu/research/gp/simple/representation/Individual.java:274-281 | setFitness stores the value and marks the individual optimal at 1.0; the optimal mark is never cleared. |
| Individuals.CompareTo | src/main/java/msu/research/gp/simple/representation/Individual.java:871-880 | compareTo orders by fitness alone: negative, zero or positive as the fitness is lower, equal or higher. |
| Individuals.CompareToAntisymmetric | src/main/java/msu/research/gp/simple/representation/Individual.java:871-880 | Swapping the arguments of compareTo negates the result. |
| Individuals.EqualsIgnoresTree | src/main/java/msu/research/gp/simple/representation/Individual.java:904-920 | equals compares ids only: a new id makes an individual unequal to itself, while changing the tree, fitness or age keeps it equal. |
| Individuals.RemoveFirst | src/main/java/msu/research/gp/simple/representation/Individual.java:904-920 | Vector.remove under id equality: the list shrinks by one exactly when some element has the id, only elements with that id can go, and every other element stays. |
| Individuals.MaxAge | src/main/java/msu/research/gp/simple/representation/Individual.java:229-234 | setAge gives a child the older parent's age. |
| Individuals.TrackAge | src/main/java/msu/research/gp/simple/representation/Individual.java:491-513 | A child that received a subtree takes the older parent's age; a copied child keeps its own parent's age; nothing else changes. |
| Individuals.PathsValid | src/main/java/msu/research/gp/simple/representation/Individual.java:545-564 | getAllNodes lists one entry per node, each a node of the tree. |
| Individuals.GetRandomNode | src/main/java/msu/research/gp/simple/representation/Individual.java:571-592 | getRandomNode returns a node of the tree; it is of the kind the coin asked for unless the tree has one node or the draws ran out. |
| Individuals.CrossPointGoodBounds | src/main/java/msu/research/gp/simple/representation/Individual.java:323-339 | An accepted non-root cross point keeps the child within maxDepth and maxSize; at the root the child is the donated subtree. |
| Individuals.CrossAttempts | src/main/java/msu/research/gp/simple/representation/Individual.java:359-383 | The attempts loop always ends with a node of each parent. |
| Individuals.Finish | src/main/java/msu/research/gp/simple/representation/Individual.java:416-422 | A child is renumbered from 0, its numNodes is its size and its depth its depthFrom. |
| Individuals.CrossChild | src/main/java/msu/research/gp/simple/representation/Individual.java:416-441 | A crossover child at a good point has the donated subtree swapped in, is unevaluated and takes the older parent's age; otherwise it is a copy of its own parent with its score and age. |
| Individuals.SubtreeCrossover | src/main/java/msu/research/gp/simple/representation/Individual.java:351-441 | The cross points are nodes of the parents; both children are renumbered, counted and within maxDepth; crossover aborts exactly when a child would exceed maxDepth. |
| Individuals.CrossoverNeverAborts | src/main/java/msu/research/gp/simple/representation/Individual.java:425-431 | Correctly counted parents within maxDepth never make crossover abort, and a swapped child stays within maxSize. |
| Genotype.DropTrailingEmpty | src/main/java/msu/research/gp/simple/representation/Individual.java:674 | Java's split drops trailing empty strings and keeps everything before them. |
| Genotype.Strip | src/main/java/msu/research/gp/simple/representation/Individual.java:677 | Stripping leaves no parenthesis in a token. |
| Genotype.FromString | src/main/java/msu/research/gp/simple/representation/Individual.java:670-757 | fromString yields a fresh individual whose numNodes is the number of tokens and whose depth is its tree's depth. |
| Genotype.ParseNode | src/main/java/msu/research/gp/simple/representation/Individual.java:700-748 | Rebuilding from token i consumes at least that token and no more than there are. |
| Genotype.ShowJoin | src/main/java/msu/research/gp/simple/representation/Node.java:170-188 | The printed tree is its words joined by single spaces. |
| Genotype.WordsStrip | src/main/java/msu/research/gp/simple/representation/Individual.java:677 | Stripping the parentheses from the printed words gives the pre-order node names. |
| Genotype.SplitJoin | src/main/java/msu/research/gp/simple/representation/Individual.java:674 | Splitting a space-joined list of non-empty, space-free words gives the words back. |
| Genotype.ParseNames | src/main/java/msu/research/gp/simple/representation/Individual.java:676-748 | Rebuilding from a run of tokens that are a tree's pre-order names gives that tree, numbered from the run's start, and consumes exactly its nodes. |
| Genotype.RoundTrip | src/main/java/msu/research/gp/simple/representation/Individual.java:670-757 | Reading back the printout of a well-formed tree with plain, mapped names gives the same tree numbered in pre-order, with numNodes its size and depth its depth. |
| BoolNodes.JavaBitTest | src/main/java/ec/research/gp/simple/bool/nodes/Di.java:36-38 | ((1 << s) & data) > 0 on Java ints is bit s of a non-negative datum for 0 <= s < 31, and is never true when the shift amount is 31 modulo 32. |
| BoolNodes.Both | src/main/java/ec/research/gp/simple/bool/nodes/AND.java:17-23 | A binary node evaluates both children, with no short circuit: it fails when either fails. |
| BoolNodes.BinarySemantics | src/main/java/ec/research/gp/simple/bool/nodes/AND.java:13-24 | AND, OR, NOR and XOR combine their children's values on the same input, and AND fails when its second child fails even after a false first child. |
| BoolNodes.NotSemantics | src/main/java/msu/research/gp/simple/bool/nodes/NOT.java:13-21 | NOT negates its child's value on the same input. |
| BoolNodes.IfSemantics | src/main/java/ec/research/gp/simple/bool/nodes/IF.java:20-33 | IF returns its second child's value when the first is true and its third's otherwise, and only evaluates the branch it takes. |
| BoolNodes.BitTerminals | src/main/java/msu/research/gp/simple/multiplexer/nodes/Ai.java:44-47 | A data terminal reads bit i of the input; an address terminal reads bit numDataBits + i of a multiplexer input and fails without multiplexer information. |
| BoolNodes.DataBitOnlyReadsItsBit | src/main/java/ec/research/gp/simple/bool/nodes/Di.java:36-38 | A data terminal's value depends only on its own bit of the input, not on the problem. |
| Problems.ParityInputs | src/main/java/msu/research/gp/simple/parity/NParity.java:36-44 | The parity size is the "n" parameter, or 5 when it is absent. |
| Problems.TargetTable | src/main/java/ec/research/gp/simple/multiplexer/Multiplexer.java:58-65 | The target table has one entry per test case, the target of that case. |
| Problems.ParityTargets | src/main/java/msu/research/gp/simple/parity/NParity.java:51-63 | The parity target of a case is true exactly when the case has an even number of set bits. |
| Problems.BinaryOnesArePopCount | src/main/java/msu/research/gp/simple/parity/NParity.java:53-60 | Counting '1' characters in the binary string counts the set bits. |
| Problems.MultiplexerTargets | src/main/java/ec/research/gp/simple/multiplexer/Multiplexer.java:58-65 | The address bits select a valid data bit, and the multiplexer target of a case is that data bit. |
| Problems.CountHits | src/main/java/msu/research/gp/simple/parity/NParity.java:73-79 | The hits counted from case i on are at most the number of those cases. |
| Problems.AllHitsIffPerfect | src/main/java/ec/research/gp/simple/multiplexer/Multiplexer.java:72-93 | The hit count equals the number of cases exactly when the tree is right on every case. |
| Problems.HitsBetween | src/main/java/ec/research/gp/simple/multiplexer/Multiplexer.java:72-93 | One right and one wrong case put the hit count strictly between 0 and the number of cases. |
| Problems.Fitness | src/main/java/ec/research/gp/simple/multiplexer/Multiplexer.java:72-93 | fitness leaves an evaluated individual alone; otherwise it sets hits, fitness = hits / combinations within [0, 1], marks it evaluated, and fitness is 1 exactly when every case is hit. |
| Problems.PerfectIffAllCorrect | src/main/java/msu/research/gp/simple/parity/NParity.java:69-90 | An individual scores 1.0 exactly when it is right on every test case. |
| Problems.Mux6SolutionPerfect | src/test/java/ec/research/gp/simple/multiplexer/MultiplexerTest.java:64-73 | (IF (AND A0 A1) D3 (IF A0 D1 (IF A1 D2 D0))) is right on all 64 cases of the 6-multiplexer and scores 1.0. |
| Problems.Mux6SingleTerminalImperfect | src/test/java/ec/research/gp/simple/multiplexer/MultiplexerTest.java:79-89 | A lone D0 scores strictly between 0 and 1 on the 6-multiplexer. |
| Problems.Parity2SolutionPerfect | src/test/java/ec/research/gp/simple/parity/NParityTest.java:60-69 | (OR (AND D0 D1) (NOR D0 D1)) solves even 2-parity with fitness 1.0. |
| Mutation.RandomFunction | src/main/java/msu/research/gp/simple/operators/PointMutation.java:19-39 | A replacement function has the old node's arity and comes from the function set; none is returned only when no function of that arity exists or the draws ran out. |
| Mutation.RandomFunctionNoCandidate | src/main/java/msu/research/gp/simple/operators/PointMutation.java:19-39 | With no function of the arity among distinctly named functions, the search gives up and returns none. |
| Mutation.RandomFunctionFirstHit | src/main/java/msu/research/gp/simple/operators/PointMutation.java:19-39 | A first draw of the right arity is the replacement. |
| Mutation.RandomTerminal | src/main/java/msu/research/gp/simple/operators/PointMutation.java:41-47 | A replacement terminal exists exactly when the terminal set is non-empty, comes from it and uses one draw. |
| Mutation.ReplaceNode | src/main/java/msu/research/gp/simple/operators/PointMutation.java:49-83 | replaceNode puts the new node at the old node's place with the old node's number; a function keeps the old children; every other part of the tree is unchanged. |
| Mutation.MutateStep | src/main/java/msu/research/gp/simple/operators/PointMutation.java:107-140 | One node's step leaves the tree unchanged unless the mutation coin fires; with a terminal set of terminals a mutant keeps the tree's skeleton; it fails only when the coin fired and the node or a terminal is missing. |
| Mutation.MutantSkeleton | src/main/java/msu/research/gp/simple/operators/PointMutation.java:112-119 | Replacing a node by one of the same arity keeps the tree's shape. |
| Mutation.MutateFrom | src/main/java/msu/research/gp/simple/operators/PointMutation.java:106-142 | The loop over node numbers uses at least one draw per remaining number and keeps the tree's skeleton. |
| Mutation.Mutate | src/main/java/msu/research/gp/simple/operators/PointMutation.java:96-146 | mutate works on a clone: the mutant is unevaluated with fitness 0 and hits 0, keeps the id, age, optimal flag and layer, and counts the parent's nodes. |
| Mutation.MutateKeepsSkeleton | src/test/java/ec/research/gp/simple/operators/PointMutationTest.java:107-134 | A mutant prints the same numbered skeleton as its parent's clone and has the same numbers, size and depth, and is well formed. |
| Mutation.ZeroProbabilityUnchanged | src/test/java/ec/research/gp/simple/operators/PointMutationTest.java:91-99 | At mutation probability 0 the printed tree is unchanged. |
| Mutation.MutateDefined | src/main/java/msu/research/gp/simple/operators/PointMutation.java:96-146 | Mutating a well-formed, correctly counted individual with a non-empty terminal set never fails. |
| Selection.BestFrom | src/main/java/msu/research/gp/simple/operators/TournamentSelection.java:30-40 | The scan keeps the first strictly fittest entry seen, or the initial best when none beats it. |
| Selection.WinnerIsFirstBest | src/main/java/msu/research/gp/simple/operators/TournamentSelection.java:71-81 | The winner is an entry of greatest fitness and every entry before it is strictly less fit; with no fitness above -1 the winner is 0. |
| Selection.SelectFromAll | src/main/java/msu/research/gp/simple/operators/TournamentSelection.java:25-41 | selectFromAllIndividuals returns a valid index (0 for an empty population), the lowest of greatest fitness once some fitness exceeds -1. |
| Selection.DrawEntrants | src/main/java/msu/research/gp/simple/operators/TournamentSelection.java:62-69 | The entrant set grows by distinct valid indices up to tournamentSize, and stays short only when the draws ran out. |
| Selection.Entrants | src/main/java/msu/research/gp/simple/operators/TournamentSelection.java:62-69 | A tournament draws at most tournamentSize distinct valid indices. |
| Selection.TableSize | src/main/java/msu/research/gp/simple/operators/TournamentSelection.java:62 | The HashSet's table after n insertions: at least 16 buckets with n at most three quarters of them, and 16 or else more than three quarters used at half the size. |
| Selection.HashOrder | src/main/java/msu/research/gp/simple/operators/TournamentSelection.java:62-74 | The HashSet hands out exactly the drawn indices, bucket by bucket (index modulo the table size), each bucket in insertion order. |
| Selection.SmallHashOrderIncreasing | src/main/java/msu/research/gp/simple/operators/TournamentSelection.java:74 | At most twelve distinct indices below 16 are handed out in increasing order, whatever the order of the draws. |
| Selection.HashWinner | src/main/java/msu/research/gp/simple/operators/TournamentSelection.java:71-81 | Once some entrant is fitter than -1, the winner is an entrant of greatest fitness and every entrant visited before it is strictly less fit. |
| Selection.TournamentSelectOne | src/main/java/msu/research/gp/simple/operators/TournamentSelection.java:52-84 | selectOne returns a valid index of a non-empty population; with tournamentSize at least the population size it is selectFromAllIndividuals; otherwise it is an entrant of greatest fitness, the first the HashSet visits, once some entrant is fitter than -1. |
| Selection.SmallTournamentTieGoesToLowestIndex | src/main/java/msu/research/gp/simple/operators/TournamentSelection.java:71-81 | With at most 16 individuals and a tournament of at most twelve, a tie among the fittest entrants goes to the lowest index, not the first drawn. |
| Selection.TournamentSelect | src/main/java/msu/research/gp/simple/operators/TournamentSelection.java:95-107 | select returns two valid indices, the first from one tournament. |
| Selection.WholePopulationTournamentSameParents | src/main/java/msu/research/gp/simple/operators/TournamentSelection.java:55-58 | When the tournament covers the population both parents are the same best individual. |
| Selection.RandomSelectOne | src/main/java/msu/research/gp/simple/operators/RandomMatingSelection.java:26-28 | Random selectOne is a valid index from one draw, and fails on an empty population. |
| Selection.RandomMatingSelect | src/main/java/msu/research/gp/simple/operators/RandomMatingSelection.java:40-52 | select returns two valid indices from two draws; when they coincide the second is redrawn once, so equality remains possible. |
| Selection.RandomMatingIgnoresFitness | src/main/java/ec/research/gp/simple/operators/RandomMatingSelection.java:26-28 | Random mating never looks at fitness: equally large populations get the same parents from the same draws. |
| Build.GrowThreshold | src/main/java/ec/research/gp/simple/gp/GP.java:529-531 | The grow threshold is an integer division: 0 when there is any function, 1 with terminals only, a division by zero with neither. |
| Build.TerminalTest | src/main/java/ec/research/gp/simple/gp/GP.java:529-531 | A terminal is forced at depth 0; grow mode draws and compares with the threshold; full mode picks a function without a draw. |
| Build.Gen | src/main/java/ec/research/gp/simple/gp/GP.java:518-570 | generateRandomExpression numbers its nodes in pre-order from the counter, advances it by the tree's size, and stays within the depth budget. |
| Build.GenKids | src/main/java/ec/research/gp/simple/gp/GP.java:561-566 | The children loop builds exactly arity children, numbered consecutively, each within the reduced budget. |
| Build.GenShape | src/main/java/ec/research/gp/simple/gp/GP.java:518-570 | A built tree is well formed, and its depth equals the budget in full mode or whenever functions exist. |
| Build.RandomIndividual | src/main/java/ec/research/gp/simple/gp/GP.java:600-618 | getRandomIndividual draws a depth in [minBuildDepth, maxBuildDepth], fails on an empty range, and numbers and counts the tree. |
| Build.RandomIndividualDepth | src/main/java/ec/research/gp/simple/gp/GP.java:600-618 | The depth recorded for a random individual is its tree's depth. |
| Build.InitFill | src/main/java/ec/research/gp/simple/gp/GP.java:171-190 | init's loop fills the population to popSize, keeping what was there and never lowering the retry count. |
| Build.Offer | src/main/java/ec/research/gp/simple/gp/GP.java:178-189 | A candidate with a new printed form, or any once the retries are past maxUniqueRetries, joins with a new id; a repeat within the limit is dropped as a retry; its form is recorded as seen. |
| Build.InitFillUnique | src/main/java/ec/research/gp/simple/gp/GP.java:178-189 | While the retries stay within maxUniqueRetries no duplicate printed form is accepted. |
| Build.Init | src/main/java/ec/research/gp/simple/gp/GP.java:164-190 | init creates popSize individuals, pairwise distinct in print while the retries stay within the limit; every one is unevaluated and carries the next id in turn. |
| Build.InitFillNew | src/main/java/ec/research/gp/simple/gp/GP.java:171-190 | init's loop adds only unevaluated individuals, each with the next id from the counter. |
| GP.DoCrossover | src/main/java/ec/research/gp/simple/gp/GP.java:227-249 | doCrossover appends the first child, and a second only when there is room below fillSize and discardSecondChild is off; each added child is a copy of a population member or that member with a subtree of another grafted in. |
| GP.DoReplication | src/main/java/ec/research/gp/simple/gp/GP.java:263-282 | doReplication does nothing once fillSize offspring exist; otherwise it adds one replicate of a population member, which is a copy of it. |
| GP.BreedRound | src/main/java/ec/research/gp/simple/gp/GP.java:643-651 | One round of breed's loop adds one or two offspring, never passing fillSize, each a copy or a crossover child of population members. |
| GP.BreedFrom | src/main/java/ec/research/gp/simple/gp/GP.java:643-651 | breed's loop extends the offspring to exactly fillSize (none for a negative size), every new one a copy or crossover child of population members. |
| GP.NoCrossoverOnlyReplicates | src/main/java/ec/research/gp/simple/gp/GP.java:643-651 | At crossover probability 0 every offspring is a replicate of a population member. |
| GP.DoMutation | src/main/java/ec/research/gp/simple/gp/GP.java:321-329 | doMutation as evidently intended: each individual is kept or replaced by a fresh unevaluated mutant with the same age and a new id; probability 0 keeps all, probability 1 replaces all. |
| GP.MutateOne | src/main/java/ec/research/gp/simple/gp/GP.java:323-327 | One individual's turn in the corrected mutation pass: kept as it is, or replaced by a mutant with its age and a new id; kept at probability 0, mutated at probability 1. |
| GP.DoMutationAsWritten | src/main/java/ec/research/gp/simple/gp/GP.java:321-329 | doMutation as written: the collection comes back unchanged while the generator advances once per individual. |
| GP.MutantsDiscardedAsWritten | src/main/java/ec/research/gp/simple/gp/GP.java:321-329 | At mutation probability 1 an evaluated individual survives the as-written step unchanged, while the corrected step replaces it with an unevaluated mutant. |
| GP.MutatedBrood | src/main/java/ec/research/gp/simple/gp/GP.java:643-656 | The bred part of a new generation: fillSize members, each an offspring of the old population or a mutant of one. |
| GP.InsertByFitness | src/main/java/ec/research/gp/simple/gp/GP.java:125-137 | Insertion into a list sorted by fitness keeps it sorted and adds exactly the new element. |
| GP.SortByFitness | src/main/java/ec/research/gp/simple/gp/GP.java:125-137 | Collections.sort by compareTo gives a list sorted by ascending fitness with the same members. |
| GP.SortPermutes | src/main/java/ec/research/gp/simple/gp/GP.java:125-137 | The sort is a permutation: every individual occurs as often as before. |
| GP.CopiesFromTop | src/main/java/ec/research/gp/simple/gp/GP.java:130-135 | The elites are copies of the last n members, the last one first. |
| GP.AddElites | src/main/java/ec/research/gp/simple/gp/GP.java:125-137 | addElites returns numElites copies of the fittest members, fittest first; no elites for numElites <= 0; a failure when numElites exceeds the population. |
| GP.SortedLastIsFittest | src/main/java/ec/research/gp/simple/gp/GP.java:125-137 | After sorting the last member is at least as fit as every member. |
| GP.FirstEliteIsFittest | src/main/java/ec/research/gp/simple/gp/GP.java:125-137 | The first elite is at least as fit as every member of the population. |
| GP.Record | src/main/java/ec/research/gp/simple/gp/GP.java:698-756 | Each evaluation is counted; a fitter individual, or the first, becomes the best; the optimum is found exactly when the best fitness is 1.0. |
| GP.EvaluateOne | src/main/java/ec/research/gp/simple/gp/GP.java:699-720 | Evaluating one individual changes only its hits, fitness and flags, leaves an evaluated one alone and records a fresh one in the tally with a fitness in [0, 1]. |
| GP.EvaluateAll | src/main/java/ec/research/gp/simple/gp/GP.java:337-374 | Evaluation keeps the population's size and order, evaluates every member changing only its score, leaves evaluated ones alone, and never loses the best or the optimum; the count grows by exactly the number of unevaluated members, a newly evaluated member scoring 1.0 marks the optimum found, and a best fitness of at most 1.0 stays so. |
| GP.EvaluatePop | src/main/java/ec/research/gp/simple/gp/GP.java:337-374 | evaluatePop scores every member in place, counts exactly the members it scores, never loses a found optimum, and marks it found when a newly scored member reaches 1.0. |
| GP.StartRun | src/main/java/ec/research/gp/simple/gp/GP.java:164-204 | init fills the population and then evaluates it: popSize members, every one scored and counted once, the best within 1.0, and the optimum marked found when a member scores 1.0. |
| GP.Breed | src/main/java/ec/research/gp/simple/gp/GP.java:637-662 | breed replaces the population by popSize members when 0 <= numElites <= popSize: first popSize - numElites offspring of the old population or mutants of them, then copies of its numElites fittest members, fittest first. |
| GP.Step | src/main/java/ec/research/gp/simple/gp/GP.java:381-406 | step does nothing once doTerminate holds; otherwise it advances the generation and leaves popSize evaluated members, which are breed's result with only their scores changed. |
| GP.OptimumStopsRun | src/main/java/ec/research/gp/simple/gp/GP.java:107-113 | With stop-on-optimal, a step in which a new individual scores 1.0 ends the run. |
| Layers.Capacity | src/main/java/ec/research/gp/layers/LayerScheme.java:51-58 | Layer capacity is popSize / numLayers in integer division: capacity full layers fit and one more does not; zero layers throw. |
| Layers.CeilingsIncrease | src/main/java/msu/research/gp/layers/AlpsLayerScheme.java:129-140 | With a positive age gap the age ceilings strictly increase from layer to layer below the top. |
| Layers.OnlyTopUnbounded | src/main/java/msu/research/gp/layers/AlpsLayerScheme.java:129-140 | Only the top layer, from index 2 on, has no ceiling; with one or two layers the top keeps a finite one. |
| Layers.CeilingsExample | src/main/java/msu/research/gp/layers/AlpsLayerScheme.java:129-140 | Gap 10 with nine layers gives ceilings 10, 20, 40, 90, ..., 360, 490 and none for the top. |
| Layers.MoveUpFacts | src/main/java/msu/research/gp/layers/AlpsLayerScheme.java:66-74 | Nobody leaves the unbounded top layer; an individual old enough to move up stays so as it ages; one that may leave layer j may leave any lower layer. |
| Layers.AlpsDoAddLayer | src/main/java/msu/research/gp/layers/AlpsLayerScheme.java:153-162 | A layer is added only below maxNumLayers, and then exactly when the generation reaches the top layer's ceiling. |
| Layers.AddLayerExamples | src/test/java/ec/research/gp/layers/AlpsLayerSchemeTest.java:72-144 | Gap 10 and 9 layers: generation 360 with 7 layers adds one; 361 with 8 does not; 490 with 8 does; 491 with 9 does not. |
| Layers.AgeGapPeriod | src/main/java/ec/research/gp/layers/LayerScheme.java:161-166 | Regeneration falls due exactly ageGap generations after the last one. |
| Layers.RemoveFirstIds | src/main/java/msu/research/gp/layers/AlpsLayerScheme.java:59-62 | Removing an elite from the parent list drops exactly its id and keeps the rest distinct. |
| Layers.AgeOne | src/main/java/msu/research/gp/layers/AlpsLayerScheme.java:54-63 | One pass of the loop touches only the age of the elite at size - 1 - i. |
| Layers.AgeElites | src/main/java/msu/research/gp/layers/AlpsLayerScheme.java:54-63 | Each elite ages by one exactly when it is a parent, and its id leaves the parent list; nothing else changes. |
| Layers.UpdateElitesAges | src/main/java/msu/research/gp/layers/AlpsLayerScheme.java:50-64 | updateElitesAges fails exactly when numElites exceeds the layer, does nothing for numElites <= 0, and otherwise ages the parent elites. |
| LayeredGP.Climb | src/main/java/ec/research/gp/layers/LayeredGP.java:676-692 | The mover lands at the end of the next layer whenever that layer has room; from the top layer it never lands; lower layers are untouched and no upper layer grows beyond capacity. |
| LayeredGP.MoveUpAt | src/main/java/ec/research/gp/layers/LayeredGP.java:664-699 | moveIndividualUp(index) always removes the mover from its layer; it lands at the end of the next layer on success, and layers below are untouched. |
| LayeredGP.Evict | src/main/java/ec/research/gp/layers/LayeredGP.java:799-808 | Evicting an occupant removes it from its layer, leaves the layers below untouched and lets no upper layer grow beyond capacity. |
| LayeredGP.Displace | src/main/java/ec/research/gp/layers/LayeredGP.java:778-821 | displace succeeds exactly when some occupant from another layer is less fit or qualifies to move up; the first such one is replaced by the mover, appended at the end. |
| LayeredGP.MoveUpInd | src/main/java/ec/research/gp/layers/LayeredGP.java:723-755 | moveIndividualUp(individual) removes the first holder of the mover's id and touches nothing below. |
| LayeredGP.MoveUpVariantsAgree | src/main/java/ec/research/gp/layers/LayeredGP.java:723-755 | Moving an individual by reference and by index agree when no earlier member shares its id. |
| LayeredGP.Staying | src/main/java/msu/research/gp/layers/AlpsLayerScheme.java:91-98 | The members that do not qualify to move up stay, and only they. |
| LayeredGP.ScanFrom | src/main/java/msu/research/gp/layers/AlpsLayerScheme.java:91-98 | Scanning a layer with the rewind moves every qualifying member up and keeps the others in order. |
| LayeredGP.MoveAll | src/main/java/msu/research/gp/layers/AlpsLayerScheme.java:85-99 | After the scan no layer below maxNumLayers - 1 holds a member that qualifies to move up, and no layer exceeds capacity. |
| LayeredGP.MoveAllWithinCapacity | src/main/java/ec/research/gp/layers/LayeredGP.java:682-692 | Moving up keeps every layer within capacity. |
| LayeredGP.UpdateLayerIndices | src/main/java/ec/research/gp/layers/LayeredGP.java:634-640 | Every member's current layer becomes its layer's index; nothing else changes. |
| LayeredGP.AddParent | src/main/java/ec/research/gp/layers/LayeredGP.java:145-153 | addParents adds a parent only if it is not already listed, and keeps the list free of repeats. |
| LayeredGP.CrossedAges | src/main/java/msu/research/gp/simple/representation/Individual.java:491-513 | Each crossover child has one of its parents' ages. |
| LayeredGP.CrossFromPool | src/main/java/ec/research/gp/layers/LayeredGP.java:169-190 | Layer crossover's parents come from the pool and its children are one generation older than a pool member, numbered nextId and nextId + 1. |
| LayeredGP.TakeChildren | src/main/java/ec/research/gp/layers/LayeredGP.java:185-198 | The first child joins, the second only with room below fillSize and no discard; the ids advance by two. |
| LayeredGP.LayerCrossover | src/main/java/ec/research/gp/layers/LayeredGP.java:169-198 | Layer crossover appends one child, or two when there is room and no discard; each is one generation older than a pool member and has a fresh id; the parents are recorded without repeats. |
| LayeredGP.LayerReplication | src/main/java/ec/research/gp/layers/LayeredGP.java:214-242 | Layer replication appends one replicate of a pool member, one generation older and with a fresh id, unless the layer is full; that member joins the parents. |
| LayeredGP.BreedStep | src/main/java/ec/research/gp/layers/LayeredGP.java:517-524 | One breeding step adds at least one offspring without exceeding fillSize. |
| LayeredGP.FillLayer | src/main/java/ec/research/gp/layers/LayeredGP.java:517-524 | The fill loop produces exactly fillSize offspring, each one generation older than a pool member and with a fresh id. |
| LayeredGP.FillAndMutate | src/main/java/ec/research/gp/layers/LayeredGP.java:517-528 | The fill loop and the mutation pass give exactly fillSize offspring, each one generation older than a pool member and with an id new in this generation. |
| LayeredGP.AddElitesToLayer | src/main/java/ec/research/gp/layers/LayeredGP.java:115-135 | Corrected elites: min(numElites, size) copies of the fittest members of the layer, each aged by one when it was a parent, which leaves the parent list; every elite is a member of the old layer. |
| LayeredGP.AddElitesToLayerAsWritten | src/main/java/ec/research/gp/layers/LayeredGP.java:115-135 | addElitesToLayer as written: the bred members followed by the copied elites, and a failure exactly when numElites exceeds the layer. |
| LayeredGP.CopiedElites | src/main/java/ec/research/gp/layers/LayeredGP.java:115-135 | As written, the elite copies carry the ages and fitnesses of the top of the sorted layer from before updateElitesAges. |
| LayeredGP.ParentEliteCopyNotAged | src/main/java/ec/research/gp/layers/LayeredGP.java:115-135 | A one-member layer whose member is a parent: as written the member ages but its elite copy does not; the corrected copy ages. |
| LayeredGP.ShortLayerAsWrittenFails | src/main/java/msu/research/gp/layers/AlpsLayerScheme.java:54-56 | A layer shorter than numElites makes the as-written version fail, while the corrected one copies the whole layer. |
| LayeredGP.FillSize | src/main/java/ec/research/gp/layers/LayeredGP.java:512-515 | The fill size plus the elites kept makes the layer exactly capacity. |
| LayeredGP.Pool | src/main/java/ec/research/gp/layers/LayeredGP.java:500-507 | The pool (layer i - 1 then layer i) is empty exactly when both layers are. |
| LayeredGP.BreedFresh | src/main/java/ec/research/gp/layers/LayeredGP.java:510-534 | A bred layer is exactly full when 0 <= numElites <= capacity, its offspring aged from the pool, and every member either new in this generation or a member of the old layer. |
| LayeredGP.BreedOne | src/main/java/ec/research/gp/layers/LayeredGP.java:490-541 | A kept layer (just added and full, or with an empty pool) is left as it was; any other is refilled to capacity when 0 <= numElites <= capacity, its members new or from the old layer; other layers are untouched. |
| LayeredGP.BreedLayers | src/main/java/ec/research/gp/layers/LayeredGP.java:490-542 | Every layer is kept or refilled to capacity, in order, none exceeds capacity, and each member is new in this generation or came from that layer. |
| LayeredGP.InterLayerBreed | src/main/java/ec/research/gp/layers/LayeredGP.java:476-550 | numElites = capacity is fatal; otherwise every layer is kept or refilled to capacity, layers stay within capacity, and each layer holds only new members or members it had before. |
| LayeredGP.LayeredRecord | src/main/java/ec/research/gp/layers/LayeredGP.java:1032-1035 | An evaluation is counted unless the optimum was already found with stop-on-optimal set. |
| LayeredGP.EvaluateLayer | src/main/java/ec/research/gp/layers/LayeredGP.java:333-363 | Evaluating a layer evaluates every member, counts at most one evaluation each and never loses the best or the optimum. |
| LayeredGP.EvaluateLayers | src/main/java/ec/research/gp/layers/LayeredGP.java:280-324 | Evaluating all layers evaluates every member of every layer. |
| LayeredGP.NoCountAfterOptimum | src/main/java/ec/research/gp/layers/LayeredGP.java:1026-1092 | Once the optimum is found with stop-on-optimal, evaluations are no longer counted. |
| LayeredGP.EvaluateMember | src/main/java/ec/research/gp/layers/LayeredGP.java:1026-1092 | Evaluating one member changes only its score and flags, leaves an evaluated one alone and records a fresh one. |
| LayeredGP.InitLayer | src/main/java/ec/research/gp/layers/LayeredGP.java:896-934 | initLayer fills a layer to exactly capacity, with the run-wide retry counter never decreasing. |
| LayeredGP.RegenerateInitialLayer | src/main/java/ec/research/gp/layers/LayeredGP.java:942-949 | Regeneration replaces layer 0 by capacity evaluated members and leaves the other layers alone. |
| LayeredGP.CheckAndRegen | src/main/java/ec/research/gp/layers/LayeredGP.java:856-875 | Layer 0 is regenerated when empty or when the age gap has passed, and then lastRegen is the current generation; otherwise nothing changes. |
| LayeredGP.AddLayer | src/main/java/ec/research/gp/layers/LayeredGP.java:590-625 | Below maxNumLayers, addLayer appends a layer of capacity members bred from the top layer; at the limit nothing changes. |
| LayeredGP.AddIfDue | src/main/java/msu/research/gp/layers/AlpsLayerScheme.java:79-82 | updateLayers adds one layer exactly when the ALPS scheme says one is due, keeping the layers within capacity. |
| LayeredGP.MoveAndRegen | src/main/java/msu/research/gp/layers/AlpsLayerScheme.java:84-105 | After the moves and regeneration no layer from 1 up to below the top holds a member that should move up, the layers stay within capacity and the parent list is empty. |
| LayeredGP.UpdateLayers | src/main/java/msu/research/gp/layers/AlpsLayerScheme.java:76-106 | updateLayers adds a layer when one is due, leaves no layer from 1 up to below the top with a member that should move up, keeps layers within capacity and clears the parents. |
| LayeredGP.Init | src/main/java/ec/research/gp/layers/LayeredGP.java:371-397 | init builds one evaluated layer of capacity members at generation 0, where capacity times maxNumLayers fits in popSize. |
| LayeredGP.BreedAndEvaluate | src/main/java/ec/research/gp/layers/LayeredGP.java:476-550 | Breeding and evaluation leave every member evaluated and keep the layers within capacity. |
| LayeredGP.UpdateAndBreed | src/main/java/ec/research/gp/layers/LayeredGP.java:404-430 | After updating the layers the run either stops at this generation or advances one generation with every member evaluated, within capacity. |
| LayeredGP.Step | src/main/java/ec/research/gp/layers/LayeredGP.java:404-430 | step updates the layers and stops if the run should terminate; otherwise it advances the generation and breeds, leaving every member evaluated and layers within capacity. |
| Diversity.BuildTag | src/main/java/ec/research/gp/pareto/DiversityUtils.java:83-134 | buildIndividualTag only appends to its buffer. |
| Diversity.TagIndividual | src/main/java/ec/research/gp/pareto/DiversityUtils.java:293-305 | tagIndividual sets the tag and nothing else; with the window covering the tree the tag is its printout. |
| Diversity.WindowIsTrunc | src/main/java/ec/research/gp/pareto/DiversityUtils.java:86-112 | Inside the window the tag is the tree printed down to the window's end, a function at the last depth closed as "(f)". |
| Diversity.WholeWindowIsPrint | src/main/java/ec/research/gp/pareto/DiversityUtils.java:83-134 | A window from the root reaching the deepest leaf gives the full printed tree. |
| Diversity.ShallowAddsNothing | src/main/java/ec/research/gp/pareto/DiversityUtils.java:115-131 | A branch ending above the tag level contributes nothing. |
| Diversity.ShallowTreeEmptyTag | src/main/java/ec/research/gp/pareto/DiversityUtils.java:115-131 | A tree shallower than the tag level gets the empty tag. |
| Diversity.AboveWindowIsFragments | src/main/java/ec/research/gp/pareto/DiversityUtils.java:115-131 | Above the window the tag is the list of fragments rooted at the tag level. |
| Diversity.FragmentTag | src/main/java/ec/research/gp/pareto/DiversityUtils.java:115-131 | With tag level > 0 the tag is the comma-separated fragments rooted at that depth, left to right. |
| Diversity.StatisticsTagDiffersAtRoot | src/main/java/ec/research/gp/pareto/DiversityUtils.java:601-621 | Collecting statistics builds the tag without the root-name shortcut: "(f)" where tagIndividual gives "f". |
| Diversity.ExampleRootTags | src/test/java/msu/research/gp/pareto/DiversityUtilsTest.java:66-106 | On (+ (* x x) x), level 0 depth 0 gives "+", and depth 1 gives "(+ (*) x)". |
| Diversity.ExampleFragmentTag | src/test/java/msu/research/gp/pareto/DiversityUtilsTest.java:188-206 | On (+ (* x x) x), level 1 depth 1 gives "(* x x),x". |
| Diversity.TallyFrom | src/main/java/ec/research/gp/pareto/DiversityUtils.java:601-621 | The tally counts every occurrence of a key and adds its value. |
| Diversity.Summarise | src/main/java/ec/research/gp/pareto/DiversityUtils.java:423-435 | Each count becomes a fraction of the size in (0, 1] and each sum a mean. |
| Diversity.TagStatistics | src/main/java/ec/research/gp/pareto/DiversityUtils.java:382-438 | Statistics map each present tag to [the fraction of individuals with it, their mean fitness], and no other tag. |
| Diversity.Densities | src/main/java/msu/research/gp/util/Utils.java:36-45 | Each key's density is its count divided by capacity, for present keys only. |
| Diversity.TagDensities | src/main/java/msu/research/gp/util/Utils.java:34-53 | getTagDensities maps each present tag to its count over capacity, strictly positive; a capacity of 0 with individuals present gives Java's Infinity, which the model marks as None. |
| Diversity.DensityIsFraction | src/main/java/msu/research/gp/pareto/ParetoOperators.java:309-310 | With the population size as capacity each density lies in (0, 1]. |
| Diversity.Lookup | src/main/java/ec/research/gp/pareto/DiversityUtils.java:530-537 | getTags(level) is null exactly for a level never initialised. |
| Diversity.AddTag | src/main/java/ec/research/gp/pareto/DiversityUtils.java:202-210 | addTag puts the tag into its level's set and changes no other level. |
| Diversity.AddedTagNotUnique | src/main/java/ec/research/gp/pareto/DiversityUtils.java:506-509 | After addTag the tag is no longer unique at its level. |
| Diversity.AddTagCount | src/main/java/ec/research/gp/pareto/DiversityUtils.java:229-237 | getNumTags grows by one exactly when the added tag was new at its level. |
| Diversity.CollectTags | src/main/java/ec/research/gp/pareto/DiversityUtils.java:165-175 | collectTags adds every individual's tag at the level and changes no other level. |
| Diversity.SetTagLevel | src/main/java/ec/research/gp/pareto/DiversityUtils.java:465-472 | setTagLevel changes the current level, creating its set empty if missing, and adds no tag. |
| Pareto.BetterOnOne | src/main/java/msu/research/gp/pareto/ParetoOperators.java:141-173 | isBetterOnOne holds when a is strictly younger, less dense or fitter on an active objective. |
| Pareto.EqualOnObjectives | src/main/java/msu/research/gp/pareto/ParetoOperators.java:194-209 | Individuals are tied when no active objective differs. |
| Pareto.IsDominated | src/main/java/msu/research/gp/pareto/ParetoOperators.java:231-280 | Outside a tie a is dominated when it is better on no active objective; on a tie only size tie-breaking can clear a strictly smaller a. |
| Pareto.DominatedIsParetoDominance | src/main/java/msu/research/gp/pareto/ParetoOperators.java:236-254 | Away from ties domination is exactly Pareto dominance, and a tie is never Pareto dominance. |
| Pareto.DominationAsymmetric | src/main/java/msu/research/gp/pareto/ParetoOperators.java:236-254 | Outside ties, if b dominates a then a does not dominate b. |
| Pareto.SelfDominated | src/main/java/msu/research/gp/pareto/ParetoOperators.java:256-278 | An individual compared with itself is dominated. |
| Pareto.PopDensities | src/main/java/msu/research/gp/pareto/ParetoOperators.java:309-310 | The front and the trimming use densities covering every member of the population. |
| Pareto.ScanRow | src/main/java/msu/research/gp/pareto/ParetoOperators.java:314-336 | One row records exactly the pairs that eliminate i, and i is dominated exactly when it does not survive. |
| Pareto.GlobalFront | src/main/java/msu/research/gp/pareto/ParetoOperators.java:297-340 | The front flags exactly the individuals that survive every pairwise comparison, with recorded pairs blocking the reverse elimination. |
| Pareto.FrontIdsAreFrontSet | src/main/java/msu/research/gp/pareto/ParetoOperators.java:297-340 | The ids globalFront flags (FrontIds, the ids of the flagged members) are exactly the closed-form front (FrontSet, the ids of the members that survive every comparison). |
| Pareto.MutualTieKeepsLater | src/main/java/msu/research/gp/pareto/ParetoOperators.java:314-336 | Of two individuals dominating each other, the later eliminates the earlier and not the reverse. |
| Pareto.FrontMemberUndominatedByLater | src/main/java/msu/research/gp/pareto/ParetoOperators.java:297-340 | A front member is not Pareto-dominated by any later individual. |
| Pareto.TournamentIndices | src/main/java/msu/research/gp/pareto/ParetoOperators.java:46-65 | getTournamentIndices returns at most min(tournamentSize, size) distinct valid indices, that many unless the draws ran out. |
| Pareto.TrimTournament | src/main/java/msu/research/gp/pareto/ParetoOperators.java:382-412 | A trimming tournament removes only non-front members, each of them an entrant that met another entrant in the front or dominating it; a lone entrant removes nothing. |
| Pareto.SingleTagDeletion | src/main/java/msu/research/gp/pareto/ParetoOperators.java:362-414 | Trimming never removes a front member, removes only members beaten in some tournament, and stops at the target or the front's size; with tournamentSize <= 1 it removes nothing and never finishes. |
| Pareto.Delete | src/main/java/msu/research/gp/pareto/ParetoOperators.java:433-460 | delete returns the front, keeps every front member, removes only beaten members, leaves a population equal to its front untouched and trims towards popSize - 1 (popSize for age/fitness). |
| ParetoGP.LastNamed | src/main/java/ec/research/gp/pareto/ParetoGP.java:80-103 | The lookup finds a value with the given name when one exists. |
| ParetoGP.ParseObjectives | src/main/java/ec/research/gp/pareto/ParetoGP.java:80-103 | A missing setting gives DENSITY_FITNESS, a known name selects that objective, an unknown name falls back to DENSITY_FITNESS. |
| ParetoGP.ParseName | src/main/java/ec/research/gp/pareto/ParetoGP.java:80-103 | Every objective's own name parses back to it. |
| ParetoGP.FlipAlternates | src/main/java/ec/research/gp/pareto/ParetoGP.java:360 | randMethod ^= 1 swaps grow and full, and flipping twice restores it. |
| ParetoGP.TagAll | src/main/java/ec/research/gp/pareto/DiversityUtils.java:316-319 | tagIndividuals tags every individual at the level and depth and changes nothing else. |
| ParetoGP.AddRandom | src/main/java/ec/research/gp/pareto/ParetoGP.java:346-361 | addRandomIndividual appends one random individual with the next id, tagged at the level, and flips grow and full. |
| ParetoGP.Search | src/main/java/ec/research/gp/pareto/ParetoGP.java:409-420 | The search stops at the first unique tag or after maxTries attempts, flipping the mode after each attempt. |
| ParetoGP.GenerateUnique | src/main/java/ec/research/gp/pareto/ParetoGP.java:399-432 | At most maxTries attempts; the result's tag is unique or the tries ran out, and it is recorded either way. |
| ParetoGP.FirstUniqueStops | src/main/java/ec/research/gp/pareto/ParetoGP.java:409-420 | A first individual with a new tag ends the search after one attempt. |
| ParetoGP.AddUniqueRandom | src/main/java/ec/research/gp/pareto/ParetoGP.java:372-390 | addUniqueRandomIndividual appends one individual with the next id, tagged at the current level. |
| ParetoGP.UniqueNewcomerIsNew | src/main/java/ec/research/gp/pareto/ParetoGP.java:372-390 | A newcomer found before the attempts ran out carries a tag unseen before and absent from the population. |
| ParetoGP.TagAndAge | src/main/java/ec/research/gp/pareto/ParetoGP.java:163-185 | init tags every individual at level 0 and sets its age to 1. |
| ParetoGP.ParetoInit | src/main/java/ec/research/gp/pareto/ParetoGP.java:163-185 | init runs GP's init, so every member is evaluated and counted and an optimum is recorded, then tags every member at level 0 with age 1 and collects the tags; the population has popSize members. |
| ParetoGP.BreedAndMutate | src/main/java/ec/research/gp/pareto/ParetoGP.java:194-215 | breedAndMutate yields exactly popSize - 1 offspring (none for popSize < 1), each a copy or crossover child of a member, or a mutant of one. |
| ParetoGP.BreedWithoutCrossover | src/main/java/ec/research/gp/pareto/ParetoGP.java:119-138 | With crossover and mutation probabilities 0 every offspring is a replicate of a population member. |
| ParetoGP.Newcomers | src/main/java/ec/research/gp/pareto/ParetoGP.java:220-228 | The offspring are tagged, with one random individual more for age/fitness. |
| ParetoGP.EvaluateTagged | src/main/java/ec/research/gp/pareto/ParetoGP.java:304-335 | Evaluating the newcomers evaluates each and keeps its tag. |
| ParetoGP.Offspring | src/main/java/ec/research/gp/pareto/ParetoGP.java:220-231 | All newcomers are tagged and evaluated before the deletion. |
| ParetoGP.EvaluateKeepsTags | src/main/java/ec/research/gp/pareto/ParetoGP.java:304-335 | Evaluation keeps every tag and tree. |
| ParetoGP.AgeAll | src/main/java/ec/research/gp/pareto/ParetoGP.java:240-242 | Every survivor ages by one and nothing else changes. |
| ParetoGP.TrimAndAge | src/main/java/ec/research/gp/pareto/ParetoGP.java:234-242 | Every member of the merged population's front survives the deletion, one generation older; the survivors are aged members of the merged population, no more than the target or the front. |
| ParetoGP.AddNewcomer | src/main/java/ec/research/gp/pareto/ParetoGP.java:245-256 | For other objectives one tagged, evaluated random individual is appended after the deletion. |
| ParetoGP.Settle | src/main/java/ec/research/gp/pareto/ParetoGP.java:244-256 | The end of breed keeps the front survivors and, for objectives other than age/fitness, ends with an evaluated, tagged newcomer; for age/fitness the trimmed population is the result. |
| ParetoGP.ParetoBreed | src/main/java/ec/research/gp/pareto/ParetoGP.java:218-257 | breed keeps the merged population's front and, for objectives other than age/fitness, ends with an evaluated, tagged newcomer. |
| ParetoGP.TagLevelSchedule | src/main/java/ec/research/gp/pareto/ParetoGP.java:271-291 | A generation g > 0 with g + 1 divisible by the period is due; the level goes one deeper below maxDepth - 1, otherwise back to 0 only when cycling. |
| ParetoGP.TagLevelStaysInTree | src/main/java/ec/research/gp/pareto/ParetoGP.java:278-287 | The tag level stays within [0, maxDepth - 1]. |
| ParetoGP.EveryGenerationDue | src/main/java/ec/research/gp/pareto/ParetoGP.java:272-274 | With a period of 1 every generation from 1 on is due. |
| ParetoGP.Advance | src/main/java/ec/research/gp/pareto/ParetoGP.java:268 | The GP step with the Pareto breed does nothing when the run should terminate, and otherwise advances the generation with every member evaluated. |
| ParetoGP.ApplySchedule | src/main/java/ec/research/gp/pareto/ParetoGP.java:271-291 | A due generation records the change and sets the chosen level without changing the tag count; a generation not due changes nothing. |
| ParetoGP.ParetoStep | src/main/java/ec/research/gp/pareto/ParetoGP.java:266-292 | step runs the GP step and then the tag-level schedule, keeping the objectives. |
| Individuals.DrawNode | src/main/java/msu/research/gp/simple/representation/Individual.java:579-590 | A drawn node is one of the listed nodes; it is of the wanted kind unless the tree has one node or the draws ran out. |
| Mutation.SkeletonFacts | src/test/java/ec/research/gp/simple/operators/PointMutationTest.java:107-134 | Trees with the same skeleton print alike with numbers, and have the same numbers, size, depth and well-formedness. |
| GP.SelectOne | src/main/java/ec/research/gp/simple/gp/GP.java:263-282 | The selection used by replication returns a valid index of a non-empty population. |
| GP.SelectParents | src/main/java/ec/research/gp/simple/gp/GP.java:227-249 | The selection used by crossover returns two valid indices of a non-empty population. |
| Layers.JavaDiv | src/main/java/ec/research/gp/layers/LayerScheme.java:51-58 | Java integer division: the quotient is negative only when the operands' signs differ. |
| Layers.JavaDivTruncates | src/main/java/ec/research/gp/layers/LayerScheme.java:51-58 | Java's division truncates towards zero, unlike Euclidean division: -7 / 2 is -3. |
| Problems.Combinations | src/main/java/ec/research/gp/simple/multiplexer/Multiplexer.java:49-54 | A problem has at least one test case: 2 to the number of input bits. |
| Diversity.EnsureLookup | src/main/java/ec/research/gp/pareto/DiversityUtils.java:465-472 | Creating a level's set makes it present, empty when new, and leaves other levels alone. |
| ParetoGP.KeepsFrontGrows | src/main/java/ec/research/gp/pareto/ParetoGP.java:234-242 | Keeping the front survives adding members. |

## Left out

- Threads. `evaluatePop`, `evaluateLayer` and `evaluateOffspring` split the population over threads that share one lock. The model evaluates in order.
  - When every fitness is defined this gives the same fitnesses. The best-so-far individual could still differ when two equally fit individuals finish in a different order.
  - When one fitness fails, the model fails the whole evaluation. In the source, `EvalThread.run` has no catch around `problem.fitness`, so the exception ends only that thread. The rest of that thread's share stays unevaluated, and the run carries on. This happens only for trees that `Problems.Fitness` rejects (a non-Boolean node, an address terminal outside a multiplexer, or a missing child).
- Statistics output, logging, printers, the per-generation averages (`calculateAverages`) and `outputGenerationFitnessInfo`: they produce output only.
- Configuration parsing. Settings are record fields. Only the Pareto objectives setting (`ParetoGP.ParseObjectives`) and the parity size are parsed, because the run's behaviour depends on their fallbacks.
- The base `LayerScheme` class's own `updateLayers` and `moveUpCriteria`: only the ALPS scheme is modelled. The capacity and the regeneration period come from the base class and are modelled.
- Symbolic regression: its floating-point nodes are not modelled, and constants are kept as their text (see `Genotype.FromString` below).
- `doCountMoves` bookkeeping, the node `memId`/`mutId` fields, and the `Node` parent pointer.
  - Paths stand in for parent pointers.
  - So the case where a grafted subtree's root keeps a stale parent after `lightClone` (Node.java:565-627) cannot be expressed.
  - Nor can the case where `PointMutation.replaceNode` treats a non-root node with a null parent as the root (PointMutation.java:50-65).
  - The model replaces by path. That is the behaviour for trees whose parent links are consistent.
- UUID ids. `setId` draws a random UUID. The model hands out a counter, so fresh ids are distinct by construction.
- Fuel bounds.
  - `Individuals.GetRandomNode` (the draw-until-kind loop), `Selection.DrawEntrants` (the draw-until-size loop), `Mutation.RandomFunction` (the draw-until-arity loop) and `Pareto.SingleTagDeletion` (the tournament loop) run for at most `fuel` rounds. The Java loops are unbounded.
  - When the fuel runs out the model returns a marked result: `None`, a short entrant set, or `done == false`.
  - So the model says nothing about runs that would need more rounds than the fuel allows.
- Pareto.SingleTagDeletion: with `tournamentSize <= 1` the source's deletion loop never ends (ParetoOperators.java:369-413). A lone entrant is only ever compared with itself, and that comparison is skipped, so no individual is ever removed.
  - The model proves that this case removes nothing and never reports `done`.
  - `ParetoGP.TrimAndAge` then returns `None`, so the Pareto breed fails instead of hanging.
- Selection.HashOrder: exact only while every index is below 65536, and while no bucket collects more than eight entries.
  - Above 65536 the HashSet mixes the high half of the hash into the bucket.
  - A larger bucket is restructured: the table is resized, or the bucket becomes a tree.
  - A tournament hits either case only with more than 65536 individuals, or with nine entrants that are equal modulo the table size.
- Genotype.FromString: three differences from the code.
  - When the tokens run out with child slots unfilled, the model returns an error; `fromString` instead returns a tree with null children.
  - Constants are recognised by a plain decimal grammar (optional sign, digits, one optional point). Forms that `Double.parseDouble` also accepts are rejected: a leading or trailing point (`.5`, `-.5`, `5.`), exponents, `NaN`, `Infinity`, hexadecimal forms and `d`/`f` suffixes.
  - A constant keeps its token text, not `Double.toString` of the parsed value.
- Layers.CalculateMaxAge and Problems.Combinations use unbounded integers, where the source uses 32-bit `int` arithmetic.
  - They agree with the code while layerIndex² · ageGap stays below 2^31 and the problem has at most 30 input bits.
  - Beyond that the two differ from the code in different ways, and the model's values keep growing in both.
  - `calculateMaxAge`'s `int` multiplication (AlpsLayerScheme.java:139) wraps around.
  - `combinations` is `(int) Math.pow(2, n)` (NParity.java:46, Multiplexer.java:55). Java's narrowing of a `double` saturates, so from 31 input bits on it is 2^31 - 1 (`Integer.MAX_VALUE`).
- Floating point. Java `double`s are modelled as exact reals.
  - Fitness (hits over combinations) and the tag densities (counts over capacity) divide integer counts by one common divisor. So their comparisons order the same way in both.
  - The sums and means of the tag statistics (`Diversity.TallyFrom`, `Diversity.Summarise`) are rounded in the source and exact in the model.
  - Division by zero gives Infinity or NaN in Java. The model marks it as `None` where it can happen (`Diversity.TagDensities`).
- Randomness: the oracle is an arbitrary stream of draws, not `java.util.Random`'s actual sequence. Each of `randBetween`, `nextDouble`, `nextBool` and `nextGaussian` consumes one draw of the right range.

## Findings

| source | as written | input that shows it | evidently intended | confidence | as-written member | corrected member |
|---|---|---|---|---|---|---|
| src/main/java/ec/research/gp/simple/gp/GP.java:321-329 | `doMutation` assigns the mutant only to the for-each variable, so the collection keeps every original individual | mutationProb = 1.0 and one evaluated offspring: after the pass it is still the same, evaluated individual | each individual whose coin fires is replaced in the collection by its mutant | high; not executed | GP.MutantsDiscardedAsWritten (with GP.DoMutationAsWritten) | GP.DoMutation |
| src/main/java/ec/research/gp/layers/LayeredGP.java:115-135 | the elites are cloned before `updateElitesAges` ages the originals, so an elite that was a parent enters the new layer with its old age | a one-member layer whose member is in the parent list, numElites = 1: the member ages, its copy does not | the elite carried into the next generation is one generation older, like every other parent | medium; not executed | LayeredGP.ParentEliteCopyNotAged (with LayeredGP.AddElitesToLayerAsWritten) | LayeredGP.AddElitesToLayer |
| src/main/java/msu/research/gp/layers/AlpsLayerScheme.java:54-56 | `updateElitesAges` indexes `layer.size() - 1 - i` for every i below numElites, which is -1 for a layer shorter than numElites and throws | a layer of 0 members with numElites = 1 | elites limited to the layer's size, as `addElitesToLayer` already checks and as interLayerBreed's fill size provides for (LayeredGP.java:513-515) | high; not executed | LayeredGP.ShortLayerAsWrittenFails (with LayeredGP.AddElitesToLayerAsWritten) | LayeredGP.AddElitesToLayer |
| src/main/java/ec/research/gp/simple/util/Context.java:75-77 | `nextBool(p)` is `nextDouble() <= p`, which is true for a draw of exactly 0.0 even at p = 0 | p = 0.0 and a draw of 0.0: the coin fires, so a zero mutation probability can still mutate | a coin that is true with probability p: never at p = 0 | low; not executed | Rand.NextBoolAsWrittenZeroProbability (with Rand.NextBoolAsWritten) | Rand.NextBool |

=== FILE: boolean.dfy ===
/**
 * The boolean function and terminal nodes: AND, OR, NOR, XOR, NOT, IF and
 * the data (Di, D0 .. D7) and address (Ai, A0 .. A2) bit terminals, which
 * test one bit of the integer test case with Java int shift semantics.
 */
module BoolNodes {
  import opened Prims
  import opened Tree
  import opened Wrappers

  function Pow2(n: nat): (r: nat)
    ensures r >= 1
  {
    if n == 0 then 1 else 2 * Pow2(n - 1)
  }

  /** A Java int as its 32-bit two's complement pattern. */
  function Unsigned32(x: int): (r: nat)
    ensures r < 0x1_0000_0000
  {
    x % 0x1_0000_0000
  }

  /** Bit j of a natural number. */
  function Bit(x: nat, j: nat): bool
  {
    (x / Pow2(j)) % 2 == 1
  }

  /**
   * ((1 << s) & data) > 0 on Java ints: the shift count is taken mod 32, and
   * at count 31 the mask is negative, so the test is false whatever the data.
   */
  function JavaBitTest(data: int, s: int): (b: bool)
    ensures s % 32 == 31 ==> !b
    ensures 0 <= s < 31 && 0 <= data < 0x8000_0000 ==> (b <==> Bit(data, s))
  {
    var sh := s % 32;
    if sh == 31 then false else Bit(Unsigned32(data), sh)
  }

  /**
   * Evaluates a tree on one test case. A multiplexer supplies its number of
   * data bits, which the address terminals read; None stands for the
   * exception the source raises: an address terminal outside a multiplexer
   * (ClassCastException), a non-boolean node, or a missing child.
   */
  function Eval(t: Node, muxDataBits: Option<int>, data: int): (r: Option<bool>)
    decreases t
  {
    if |t.kids| != Arity(t.prim) then None
    else
      match t.prim
      case And => Both(Eval(t.kids[0], muxDataBits, data), Eval(t.kids[1], muxDataBits, data), (a, b) => a && b)
      case Or => Both(Eval(t.kids[0], muxDataBits, data), Eval(t.kids[1], muxDataBits, data), (a, b) => a || b)
      case Nor => Both(Eval(t.kids[0], muxDataBits, data), Eval(t.kids[1], muxDataBits, data), (a, b) => !(a || b))
      case Xor => Both(Eval(t.kids[0], muxDataBits, data), Eval(t.kids[1], muxDataBits, data), (a, b) => a != b)
      case Not =>
        (match Eval(t.kids[0], muxDataBits, data)
         case Some(a) => Some(!a)
         case None => None)
      case If =>
        (match Eval(t.kids[0], muxDataBits, data)
         case Some(c) => if c then Eval(t.kids[1], muxDataBits, data) else Eval(t.kids[2], muxDataBits, data)
         case None => None)
      case D(i) => Some(JavaBitTest(data, i))
      case A(i) =>
        (match muxDataBits
         case Some(n) => Some(JavaBitTest(data, n + i))
         case None => None)
      case Const(_) => None
      case Op(_, _) => None
  }

  /** Both children are evaluated (no short circuit): either failing fails the node. */
  function Both(x: Option<bool>, y: Option<bool>, f: (bool, bool) -> bool): (r: Option<bool>)
    ensures r.Some? <==> x.Some? && y.Some?
    ensures r.Some? ==> r.value == f(x.value, y.value)
  {
    if x.Some? && y.Some? then Some(f(x.value, y.value)) else None
  }

  function Leaf(p: Prim): Node
  {
    Node(p, 0, [])
  }

  function Apply2(p: Prim, a: Node, b: Node): Node
  {
    Node(p, 0, [a, b])
  }

  /** The binary functions combine their children's values; a child that fails fails the node even when the other would decide it. */
  lemma BinarySemantics(a: Node, b: Node, mux: Option<int>, data: int)
    ensures Eval(Apply2(And, a, b), mux, data).Some? <==> Eval(a, mux, data).Some? && Eval(b, mux, data).Some?
    ensures Eval(a, mux, data).Some? && Eval(b, mux, data).Some? ==>
      var x, y := Eval(a, mux, data).value, Eval(b, mux, data).value;
      Eval(Apply2(And, a, b), mux, data) == Some(x && y)
      && Eval(Apply2(Or, a, b), mux, data) == Some(x || y)
      && Eval(Apply2(Nor, a, b), mux, data) == Some(!(x || y))
      && Eval(Apply2(Xor, a, b), mux, data) == Some(x != y)
    ensures Eval(a, mux, data) == Some(false) && Eval(b, mux, data).None? ==> Eval(Apply2(And, a, b), mux, data).None?
  {
  }

  /** NOT negates its child, evaluated on the same input. */
  lemma NotSemantics(a: Node, mux: Option<int>, data: int)
    ensures Eval(Node(Not, 0, [a]), mux, data) ==
      (if Eval(a, mux, data).Some? then Some(!Eval(a, mux, data).value) else None)
  {
  }

  /** IF picks its second or third child by its first; only the chosen branch is evaluated, so the other may even fail. */
  lemma IfSemantics(c: Node, x: Node, y: Node, y': Node, mux: Option<int>, data: int)
    ensures Eval(c, mux, data) == Some(true) ==> Eval(Node(If, 0, [c, x, y]), mux, data) == Eval(x, mux, data)
    ensures Eval(c, mux, data) == Some(false) ==> Eval(Node(If, 0, [c, x, y]), mux, data) == Eval(y, mux, data)
    ensures Eval(c, mux, data) == Some(true) ==>
      Eval(Node(If, 0, [c, x, y]), mux, data) == Eval(Node(If, 0, [c, x, y']), mux, data)
  {
  }

  /**
   * A data terminal reads bit i of the test case for 0 <= i <= 30, whatever
   * the problem; an address terminal reads bit numDataBits + i of a
   * multiplexer's test case and fails outside a multiplexer.
   */
  lemma BitTerminals(i: int, n: int, mux: Option<int>, data: int)
    requires 0 <= i < 31 && 0 <= data < 0x8000_0000
    ensures Eval(Leaf(D(i)), mux, data) == Some(Bit(data, i))
    ensures 0 <= n + i < 31 ==> Eval(Leaf(A(i)), Some(n), data) == Some(Bit(data, n + i))
    ensures Eval(Leaf(A(i)), None, data).None?
  {
  }

  /** Two test cases that agree on bit i give D(i) the same value: no other bit matters. */
  lemma DataBitOnlyReadsItsBit(i: int, mux: Option<int>, mux': Option<int>, x: int, y: int)
    requires 0 <= i < 31 && 0 <= x < 0x8000_0000 && 0 <= y < 0x8000_0000
    requires Bit(x, i) == Bit(y, i)
    ensures Eval(Leaf(D(i)), mux, x) == Eval(Leaf(D(i)), mux', y)
  {
  }
}

=== FILE: build.dfy ===
/**
 * Random tree construction for the initial population: the recursive
 * generateRandomExpression with its grow/full modes (whose grow test, in
 * integer arithmetic, never picks a terminal early when there are
 * functions), getRandomIndividual, and init's duplicate-avoiding fill.
 */
module Build {
  import opened Prims
  import opened Tree
  import opened Wrappers
  import opened Rand
  import opened Individuals

  /** Grow (0) or full (any other value). */
  const Grow: int := 0
  const Full: int := 1

  /** The result of building a subtree: the tree, the next free node number and the generator. */
  datatype Built = Built(tree: Node, next: int, rng: Rng)

  /** A built forest of siblings. */
  datatype BuiltKids = BuiltKids(kids: seq<Node>, next: int, rng: Rng)

  /**
   * The grow test's threshold terminalSet.size() / (terminalSet.size() +
   * functionSet.size()) in Java int division: 0 as soon as there is a
   * function, 1 when there are only terminals, and a division by zero
   * (None) when both sets are empty.
   */
  function GrowThreshold(numTerminals: nat, numFunctions: nat): (q: Option<nat>)
    ensures q.None? <==> numTerminals + numFunctions == 0
    ensures numFunctions > 0 ==> q == Some(0)
    ensures numFunctions == 0 && numTerminals > 0 ==> q == Some(1)
  {
    if numTerminals + numFunctions == 0 then None
    else Some(numTerminals / (numTerminals + numFunctions))
  }

  /**
   * The choice between a terminal and a function: a terminal at budget 0;
   * in grow mode otherwise a double is drawn and compared with the
   * threshold; in full mode otherwise a function, without a draw.
   */
  function TerminalTest(d: int, mode: int, numTerminals: nat, numFunctions: nat, r: Rng): (res: Option<(bool, Rng)>)
    ensures d == 0 ==> res == Some((true, r))
    ensures d != 0 && mode != Grow ==> res == Some((false, r))
    ensures d != 0 && mode == Grow && numFunctions > 0 ==> res == Some((false, r.(pos := r.pos + 1)))
    ensures res.None? <==> d != 0 && mode == Grow && numTerminals + numFunctions == 0
  {
    if d == 0 || mode != Grow then Some((d == 0, r))
    else
      match GrowThreshold(numTerminals, numFunctions)
      case None => None
      case Some(q) =>
        var (u, r1) := NextDouble(r);
        Some((u < q as real, r1))
  }

  /**
   * generateRandomExpression: a terminal at depth budget 0 (or when the
   * grow test fires), otherwise a random function whose children are built
   * with budget d - 1. Nodes are numbered in pre-order from the counter.
   * A constant terminal gets a Gaussian value. None stands for the source's
   * failures: an empty set to draw from, the grow test dividing by zero,
   * and a negative budget with functions available, which recurses without
   * end.
   */
  function Gen(d: int, mode: int, fs: seq<Prim>, ts: seq<Prim>, counter: int, r: Rng): (res: Option<Built>)
    ensures res.Some? ==> res.value.next - counter == Size(res.value.tree)
    ensures res.Some? ==> Nums(res.value.tree) == Range(counter, Size(res.value.tree))
    ensures res.Some? && d >= 0 ==> Depth(res.value.tree) <= d
    decreases if d < 0 then 0 else d, 0
  {
    match TerminalTest(d, mode, |ts|, |fs|, r)
    case None => None
    case Some((terminal, r1)) =>
      if terminal then
        if |ts| == 0 then None
        else
          var (k, r2) := RandBetween(r1, 0, |ts| - 1);
          if ts[k].Const? then
            var (g, r3) := NextGaussian(r2);
            LeafSize(Node(Const(g), counter, []));
            Some(Built(Node(Const(g), counter, []), counter + 1, r3))
          else
            LeafSize(Node(ts[k], counter, []));
            Some(Built(Node(ts[k], counter, []), counter + 1, r2))
      else if |fs| == 0 || d < 0 then None
      else
        var (k, r2) := RandBetween(r1, 0, |fs| - 1);
        match GenKids(Arity(fs[k]), d - 1, mode, fs, ts, counter + 1, r2)
        case None => None
        case Some(b) =>
          FunctionNodeBuilt(fs[k], counter, d - 1, b);
          Some(Built(Node(fs[k], counter, b.kids), b.next, b.rng))
  }

  /** A function node over children numbered from counter + 1 is numbered from counter, and one level deeper than their budget at most. */
  lemma FunctionNodeBuilt(f: Prim, counter: int, d: nat, b: BuiltKids)
    requires b.next - (counter + 1) == SizeKids(b.kids) && NumsKids(b.kids) == Range(counter + 1, SizeKids(b.kids))
    requires forall i :: 0 <= i < |b.kids| ==> Depth(b.kids[i]) <= d
    ensures b.next - counter == Size(Node(f, counter, b.kids))
    ensures Nums(Node(f, counter, b.kids)) == Range(counter, Size(Node(f, counter, b.kids)))
    ensures Depth(Node(f, counter, b.kids)) <= d + 1
  {
    DepthKidsIsMax(b.kids);
    RangeSplit(counter, 1, SizeKids(b.kids));
  }

  /** The children loop: n siblings built one after the other, each with budget d. */
  function GenKids(n: nat, d: int, mode: int, fs: seq<Prim>, ts: seq<Prim>, counter: int, r: Rng): (res: Option<BuiltKids>)
    requires d >= 0
    ensures res.Some? ==> |res.value.kids| == n
    ensures res.Some? ==> res.value.next - counter == SizeKids(res.value.kids)
    ensures res.Some? ==> NumsKids(res.value.kids) == Range(counter, SizeKids(res.value.kids))
    ensures res.Some? ==> forall i :: 0 <= i < n ==> Depth(res.value.kids[i]) <= d
    decreases d, 1, n
  {
    if n == 0 then Some(BuiltKids([], counter, r))
    else
      match Gen(d, mode, fs, ts, counter, r)
      case None => None
      case Some(b) =>
        match GenKids(n - 1, d, mode, fs, ts, b.next, b.rng)
        case None => None
        case Some(rest) =>
          var kids := [b.tree] + rest.kids;
          assert kids[1..] == rest.kids;
          RangeSplit(counter, Size(b.tree), SizeKids(rest.kids));
          SizeKidsCons(kids);
          Some(BuiltKids(kids, rest.next, rest.rng))
  }

  lemma LeafSize(t: Node)
    requires t.kids == []
    ensures Size(t) == 1 && Nums(t) == [t.num] && Depth(t) == 0
  {
    assert NumsKids([]) == [];
  }

  /**
   * With proper function and terminal sets, a built tree is well formed,
   * and in full mode, or in grow mode once there is any function, its depth
   * is exactly the budget: the grow test never fires early.
   */
  lemma {:induction false} GenShape(d: int, mode: int, fs: seq<Prim>, ts: seq<Prim>, counter: int, r: Rng)
    requires AllFunctions(fs) && AllTerminals(ts) && Gen(d, mode, fs, ts, counter, r).Some?
    ensures WellFormed(Gen(d, mode, fs, ts, counter, r).value.tree)
    ensures d >= 0 && (mode != Grow || |fs| > 0) ==> Depth(Gen(d, mode, fs, ts, counter, r).value.tree) == d
    decreases if d < 0 then 0 else d, 0
  {
    var t := Gen(d, mode, fs, ts, counter, r).value.tree;
    var (terminal, r1) := TerminalTest(d, mode, |ts|, |fs|, r).value;
    if terminal {
      assert d > 0 ==> mode == Grow && |fs| == 0;
      assert t.kids == [] && IsTerminal(t.prim);
    } else {
      var (k, r2) := RandBetween(r1, 0, |fs| - 1);
      var bk := GenKids(Arity(fs[k]), d - 1, mode, fs, ts, counter + 1, r2).value;
      assert t == Node(fs[k], counter, bk.kids);
      FunctionNodeShape(fs[k], counter, d - 1, mode, fs, ts, r2);
    }
  }

  /** A function node over children built with budget d is well formed and, where the budget is met, one deeper. */
  lemma FunctionNodeShape(f: Prim, counter: int, d: int, mode: int, fs: seq<Prim>, ts: seq<Prim>, r: Rng)
    requires d >= 0 && Arity(f) >= 1 && AllFunctions(fs) && AllTerminals(ts)
    requires GenKids(Arity(f), d, mode, fs, ts, counter + 1, r).Some?
    ensures WellFormed(Node(f, counter, GenKids(Arity(f), d, mode, fs, ts, counter + 1, r).value.kids))
    ensures mode != Grow || |fs| > 0 ==> Depth(Node(f, counter, GenKids(Arity(f), d, mode, fs, ts, counter + 1, r).value.kids)) == d + 1
    decreases d, 2
  {
    var kids := GenKids(Arity(f), d, mode, fs, ts, counter + 1, r).value.kids;
    GenKidsShape(Arity(f), d, mode, fs, ts, counter + 1, r);
    if mode != Grow || |fs| > 0 {
      DepthKidsAttained(kids, d);
    }
  }

  lemma {:induction false} GenKidsShape(n: nat, d: int, mode: int, fs: seq<Prim>, ts: seq<Prim>, counter: int, r: Rng)
    requires d >= 0 && AllFunctions(fs) && AllTerminals(ts) && GenKids(n, d, mode, fs, ts, counter, r).Some?
    ensures forall i :: 0 <= i < n ==> WellFormed(GenKids(n, d, mode, fs, ts, counter, r).value.kids[i])
    ensures mode != Grow || |fs| > 0 ==> forall i :: 0 <= i < n ==> Depth(GenKids(n, d, mode, fs, ts, counter, r).value.kids[i]) == d
    decreases d, 1, n
  {
    if n > 0 {
      var kids := GenKids(n, d, mode, fs, ts, counter, r).value.kids;
      var b := Gen(d, mode, fs, ts, counter, r).value;
      var rest := GenKids(n - 1, d, mode, fs, ts, b.next, b.rng).value.kids;
      assert kids == [b.tree] + rest;
      GenShape(d, mode, fs, ts, counter, r);
      GenKidsShape(n - 1, d, mode, fs, ts, b.next, b.rng);
      forall i | 0 <= i < n
        ensures WellFormed(kids[i]) && (mode != Grow || |fs| > 0 ==> Depth(kids[i]) == d)
      {
        if i == 0 {
          assert kids[i] == b.tree;
        } else {
          assert kids[i] == rest[i - 1];
        }
      }
    }
  }

  /** A non-empty forest whose members all have depth d has DepthKids d. */
  lemma DepthKidsAttained(ks: seq<Node>, d: int)
    requires |ks| > 0 && forall i :: 0 <= i < |ks| ==> Depth(ks[i]) == d
    ensures DepthKids(ks) == d
  {
    DepthKidsIsMax(ks);
  }

  /** The configuration tree construction reads. */
  datatype BuildConfig = BuildConfig(functionSet: seq<Prim>, terminalSet: seq<Prim>,
                                     minBuildDepth: int, maxBuildDepth: int, popSize: int, maxUniqueRetries: int)

  /**
   * getRandomIndividual: a depth drawn from [minBuildDepth, maxBuildDepth]
   * (an empty range makes nextInt throw), a tree built to that depth with
   * numbering from 0, and that drawn depth recorded as the individual's
   * depth without measuring the tree.
   */
  function RandomIndividual(cfg: BuildConfig, mode: int, r: Rng): (res: Option<(Individual, Rng)>)
    ensures cfg.minBuildDepth > cfg.maxBuildDepth ==> res.None?
    ensures res.Some? ==>
      var ind := res.value.0;
      cfg.minBuildDepth <= ind.depth <= cfg.maxBuildDepth
      && ind.numNodes == Size(ind.root) && Nums(ind.root) == Range(0, ind.numNodes)
      && ind == NewIndividual(ind.root).(numNodes := ind.numNodes, depth := ind.depth)
      && (ind.depth >= 0 ==> Depth(ind.root) <= ind.depth)
  {
    if cfg.minBuildDepth > cfg.maxBuildDepth then None
    else
      var (d, r1) := RandBetween(r, cfg.minBuildDepth, cfg.maxBuildDepth);
      match Gen(d, mode, cfg.functionSet, cfg.terminalSet, 0, r1)
      case None => None
      case Some(b) => Some((NewIndividual(b.tree).(numNodes := b.next, depth := d), b.rng))
  }

  /**
   * The recorded depth is the tree's depth in full mode, and in grow mode
   * whenever there are functions; the tree is well formed.
   */
  lemma RandomIndividualDepth(cfg: BuildConfig, mode: int, r: Rng)
    requires AllFunctions(cfg.functionSet) && AllTerminals(cfg.terminalSet) && cfg.minBuildDepth >= 0
    requires mode != Grow || |cfg.functionSet| > 0
    requires RandomIndividual(cfg, mode, r).Some?
    ensures Depth(RandomIndividual(cfg, mode, r).value.0.root) == RandomIndividual(cfg, mode, r).value.0.depth
    ensures WellFormed(RandomIndividual(cfg, mode, r).value.0.root)
  {
    var (d, r1) := RandBetween(r, cfg.minBuildDepth, cfg.maxBuildDepth);
    GenShape(d, mode, cfg.functionSet, cfg.terminalSet, 0, r1);
  }

  /** init's loop state: the population so far, the printed forms seen, the retry counter, the id counter and the generator. */
  datatype Filling = Filling(pop: seq<Individual>, seen: set<string>, retries: int, nextId: nat, rng: Rng)

  /** Every member is unevaluated and numbered in order from base. */
  predicate NewMembers(pop: seq<Individual>, base: int)
  {
    forall i :: 0 <= i < |pop| ==> !pop[i].evaluated && pop[i].id == Some(base + i)
  }

  /** The loop measure for retries: how many more rejections the counter allows. */
  function RetriesLeft(cfg: BuildConfig, retries: int): nat
  {
    if retries <= cfg.maxUniqueRetries then cfg.maxUniqueRetries + 1 - retries else 0
  }

  /**
   * init: individuals are generated, in grow mode while the population is
   * below half of popSize and in full mode afterwards, until there are
   * popSize of them. One whose printed form was seen before is dropped and
   * counted as a retry, unless the counter already exceeds
   * maxUniqueRetries, when duplicates are accepted. Every accepted one gets
   * a new id.
   */
  function InitFill(cfg: BuildConfig, f: Filling): (res: Option<Filling>)
    ensures res.Some? ==> f.pop <= res.value.pop && res.value.retries >= f.retries
    ensures res.Some? && |f.pop| <= cfg.popSize ==> |res.value.pop| == cfg.popSize
    ensures res.Some? && cfg.popSize <= |f.pop| ==> res.value == f
    decreases cfg.popSize - |f.pop|, RetriesLeft(cfg, f.retries)
  {
    if |f.pop| >= cfg.popSize then Some(f)
    else
      var mode := if |f.pop| < cfg.popSize / 2 then Grow else Full;
      match RandomIndividual(cfg, mode, f.rng)
      case None => None
      case Some((ind, r1)) => InitFill(cfg, Offer(cfg, f, ind, r1))
  }

  /**
   * One candidate offered to init's loop: its printed form is recorded as
   * seen; it joins the population with a new id when the form is new or
   * the retry counter is past maxUniqueRetries, and is otherwise dropped
   * as a retry.
   */
  function Offer(cfg: BuildConfig, f: Filling, ind: Individual, r1: Rng): (g: Filling)
    ensures g.seen == f.seen + {ToString(ind)} && g.rng == r1
    ensures ToString(ind) !in f.seen || f.retries > cfg.maxUniqueRetries ==>
      g.pop == f.pop + [ind.(id := Some(f.nextId))] && g.retries == f.retries && g.nextId == f.nextId + 1
    ensures ToString(ind) in f.seen && f.retries <= cfg.maxUniqueRetries ==>
      g.pop == f.pop && g.retries == f.retries + 1 && g.nextId == f.nextId
  {
    var expr := ToString(ind);
    if expr !in f.seen || f.retries > cfg.maxUniqueRetries then
      Filling(f.pop + [ind.(id := Some(f.nextId))], f.seen + {expr}, f.retries, f.nextId + 1, r1)
    else
      Filling(f.pop, f.seen + {expr}, f.retries + 1, f.nextId, r1)
  }

  /** From position start on, the population's printed forms are all seen and pairwise different. */
  predicate UniqueFrom(pop: seq<Individual>, start: nat, seen: set<string>)
  {
    start <= |pop|
    && (forall i :: start <= i < |pop| ==> ToString(pop[i]) in seen)
    && (forall i, j :: start <= i < j < |pop| ==> ToString(pop[i]) != ToString(pop[j]))
  }

  /** Appending an individual whose printed form is new keeps the population unique. */
  lemma UniqueExtend(pop: seq<Individual>, start: nat, seen: set<string>, x: Individual)
    requires UniqueFrom(pop, start, seen) && ToString(x) !in seen
    ensures UniqueFrom(pop + [x], start, seen + {ToString(x)})
  {
    var q := pop + [x];
    forall i | start <= i < |q|
      ensures ToString(q[i]) in seen + {ToString(x)}
    {
      if i < |pop| {
        assert q[i] == pop[i];
      }
    }
    forall i, j | start <= i < j < |q|
      ensures ToString(q[i]) != ToString(q[j])
    {
      assert q[i] == pop[i];
      if j < |pop| {
        assert q[j] == pop[j];
      }
    }
  }

  /**
   * While the retry counter stays within maxUniqueRetries no duplicate is
   * accepted: the printed forms of the individuals init adds are pairwise
   * different and different from every form seen before.
   */
  lemma {:induction false} InitFillUnique(cfg: BuildConfig, f: Filling, start: nat)
    requires UniqueFrom(f.pop, start, f.seen)
    requires InitFill(cfg, f).Some? && InitFill(cfg, f).value.retries <= cfg.maxUniqueRetries
    ensures UniqueFrom(InitFill(cfg, f).value.pop, start, InitFill(cfg, f).value.seen)
    ensures f.seen <= InitFill(cfg, f).value.seen
    decreases cfg.popSize - |f.pop|, RetriesLeft(cfg, f.retries)
  {
    if |f.pop| < cfg.popSize {
      var mode := if |f.pop| < cfg.popSize / 2 then Grow else Full;
      var (ind, r1) := RandomIndividual(cfg, mode, f.rng).value;
      var expr := ToString(ind);
      var g := Offer(cfg, f, ind, r1);
      assert InitFill(cfg, f) == InitFill(cfg, g);
      if expr !in f.seen || f.retries > cfg.maxUniqueRetries {
        var x := ind.(id := Some(f.nextId));
        assert expr !in f.seen;
        assert ToString(x) == expr;
        UniqueExtend(f.pop, start, f.seen, x);
      }
      InitFillUnique(cfg, g, start);
    }
  }

  /** init's loop adds only new members, each numbered by the id counter in turn. */
  lemma {:induction false} InitFillNew(cfg: BuildConfig, f: Filling, base: int)
    requires InitFill(cfg, f).Some? && f.nextId == base + |f.pop| && NewMembers(f.pop, base)
    ensures NewMembers(InitFill(cfg, f).value.pop, base)
    ensures InitFill(cfg, f).value.nextId == base + |InitFill(cfg, f).value.pop|
    decreases cfg.popSize - |f.pop|, RetriesLeft(cfg, f.retries)
  {
    if |f.pop| < cfg.popSize {
      var mode := if |f.pop| < cfg.popSize / 2 then Grow else Full;
      var (ind, r1) := RandomIndividual(cfg, mode, f.rng).value;
      var g := Offer(cfg, f, ind, r1);
      assert InitFill(cfg, f) == InitFill(cfg, g);
      OfferNew(cfg, f, ind, r1, base);
      InitFillNew(cfg, g, base);
    }
  }

  /** Offering an unevaluated candidate keeps the members new and the counter one past the last id. */
  lemma OfferNew(cfg: BuildConfig, f: Filling, ind: Individual, r1: Rng, base: int)
    requires !ind.evaluated && f.nextId == base + |f.pop| && NewMembers(f.pop, base)
    ensures NewMembers(Offer(cfg, f, ind, r1).pop, base)
    ensures Offer(cfg, f, ind, r1).nextId == base + |Offer(cfg, f, ind, r1).pop|
  {
    var g := Offer(cfg, f, ind, r1);
    if ToString(ind) !in f.seen || f.retries > cfg.maxUniqueRetries {
      forall i | 0 <= i < |g.pop|
        ensures !g.pop[i].evaluated && g.pop[i].id == Some(base + i)
      {
        if i < |f.pop| {
          assert g.pop[i] == f.pop[i];
        }
      }
    }
  }

  /** init: the fill from an empty population with no forms seen and the counter at 0. */
  function Init(cfg: BuildConfig, nextId: nat, r: Rng): (res: Option<Filling>)
    ensures res.Some? && cfg.popSize >= 0 ==> |res.value.pop| == cfg.popSize
    ensures res.Some? && res.value.retries <= cfg.maxUniqueRetries ==>
      forall i, j :: 0 <= i < j < |res.value.pop| ==> ToString(res.value.pop[i]) != ToString(res.value.pop[j])
    ensures res.Some? ==> NewMembers(res.value.pop, nextId)
  {
    var f := Filling([], {}, 0, nextId, r);
    var res := InitFill(cfg, f);
    if res.Some? then
      InitFillNew(cfg, f, nextId);
      if res.value.retries <= cfg.maxUniqueRetries then
        InitFillUnique(cfg, f, 0);
        res
      else res
    else res
  }

}

=== FILE: diversity.dfy ===
/**
 * Structural diversity (DiversityUtils and Utils.getTagDensities): the tag
 * of a tree, which prints the nodes whose depth lies in a window
 * [tagLevel, tagLevel + tagDepth]; tag statistics; tag densities; and the
 * per-level store of tags seen so far.
 */
module Diversity {
  import opened Prims
  import opened Tree
  import opened Wrappers
  import opened Individuals

  // ------------------------------------------------------------- the tag

  /**
   * buildIndividualTag, with the StringBuilder as an accumulator: a node in
   * the window is printed lisp-style (a function at the window's last depth
   * is closed at once, as "(f)"); a node above the window passes through to
   * its children, and the children at depth tagLevel are separated by commas
   * (a comma goes before a child unless it is the first child and the buffer
   * is still empty); a node below the window adds nothing.
   */
  function BuildTag(t: Node, level: int, depth: int, cur: int, buf: string): (r: string)
    ensures buf <= r
    decreases t
  {
    if level <= cur <= level + depth then
      if IsTerminal(t.prim) then buf + Name(t.prim)
      else
        var head := buf + "(" + Name(t.prim);
        var inner := if cur < level + depth then SpacedKids(t.kids, level, depth, cur + 1, head) else head;
        if |t.kids| > 0 then inner + ")" else inner
    else if cur < level then
      CommaKids(t.kids, true, |t.kids| > 0 && cur == level - 1, level, depth, cur + 1, buf)
    else buf
  }

  /** The children of a node in the window: each after a space. */
  function SpacedKids(ks: seq<Node>, level: int, depth: int, cur: int, buf: string): (r: string)
    ensures buf <= r
    decreases ks
  {
    if ks == [] then buf
    else SpacedKids(ks[1..], level, depth, cur, BuildTag(ks[0], level, depth, cur, buf + " "))
  }

  /** The children of a node above the window; with nextUp they start fragments and get the comma rule. */
  function CommaKids(ks: seq<Node>, first: bool, nextUp: bool, level: int, depth: int, cur: int, buf: string): (r: string)
    ensures buf <= r
    decreases ks
  {
    if ks == [] then buf
    else
      var b := if nextUp && (!first || |buf| > 0) then buf + "," else buf;
      CommaKids(ks[1..], false, nextUp, level, depth, cur, BuildTag(ks[0], level, depth, cur, b))
  }

  /**
   * tagIndividual: with tag level 0 and tag depth 0 the tag is just the
   * root's name; otherwise it is built from the root at depth 0.
   */
  function TagOf(t: Node, level: int, depth: int): string
  {
    if depth == 0 && level == 0 then Name(t.prim) else BuildTag(t, level, depth, 0, "")
  }

  /** tagIndividual on an individual: the tag is set and nothing else changes. */
  function TagIndividual(ind: Individual, level: int, depth: int): (r: Individual)
    ensures r.tag.Some? && r == ind.(tag := r.tag)
    ensures WellFormed(ind.root) && level == 0 && Depth(ind.root) <= depth ==> r.tag == Some(Print(ind.root))
  {
    var r := ind.(tag := Some(TagOf(ind.root, level, depth)));
    if level == 0 && WellFormed(ind.root) && Depth(ind.root) <= depth then
      WholeWindowIsPrint(ind.root, depth);
      r
    else r
  }

  // ------------------------------------------------- reference definitions

  /** A tree printed down to n more levels; a function whose children are cut off prints as "(f)". */
  function Trunc(t: Node, n: nat): string
    decreases t
  {
    if IsTerminal(t.prim) then Name(t.prim)
    else "(" + Name(t.prim) + (if n > 0 then TruncKids(t.kids, n - 1) else "") + (if |t.kids| > 0 then ")" else "")
  }

  function TruncKids(ks: seq<Node>, n: nat): string
    decreases ks
  {
    if ks == [] then "" else " " + Trunc(ks[0], n) + TruncKids(ks[1..], n)
  }

  /** The fragments of the tag: the trees at depth level, left to right, each printed down to depth more levels. */
  function Fragments(t: Node, level: int, depth: nat, cur: int): seq<string>
    requires cur <= level
    decreases t
  {
    if cur == level then [Trunc(t, depth)] else FragmentsKids(t.kids, level, depth, cur + 1)
  }

  function FragmentsKids(ks: seq<Node>, level: int, depth: nat, cur: int): seq<string>
    requires cur <= level
    decreases ks
  {
    if ks == [] then [] else Fragments(ks[0], level, depth, cur) + FragmentsKids(ks[1..], level, depth, cur)
  }

  /** Appends the fragments to buf, a comma before each one while the text so far is not empty. */
  function Extend(buf: string, ws: seq<string>): string
    decreases |ws|
  {
    if ws == [] then buf
    else Extend((if |buf| > 0 then buf + "," else buf) + ws[0], ws[1..])
  }

  /** The comma-separated list of the fragments. */
  function Join(ws: seq<string>): string
  {
    Extend("", ws)
  }

  /** Every node has a non-empty printed name (true of every built-in node). */
  predicate NamesNonEmpty(t: Node)
    decreases t
  {
    |Name(t.prim)| > 0 && forall i :: 0 <= i < |t.kids| ==> NamesNonEmpty(t.kids[i])
  }

  // ---------------------------------------------------------------- facts

  /** Inside the window the tag text does not depend on the buffer: it appends the tree printed down to the window's end. */
  lemma {:induction false} WindowIsTrunc(t: Node, level: int, depth: int, cur: int, buf: string)
    requires level <= cur <= level + depth
    ensures BuildTag(t, level, depth, cur, buf) == buf + Trunc(t, level + depth - cur)
    decreases t
  {
    if !IsTerminal(t.prim) && cur < level + depth {
      SpacedKidsAreTrunc(t.kids, level, depth, cur + 1, buf + "(" + Name(t.prim));
      OpenWindowIsTrunc(t, level, depth, cur, buf);
    } else {
      ClosedWindowIsTrunc(t, level, depth, cur, buf);
    }
  }

  /** A function node inside the window, given its children's text: its parenthesised name, the children, and the closing parenthesis. */
  lemma OpenWindowIsTrunc(t: Node, level: int, depth: int, cur: int, buf: string)
    requires !IsTerminal(t.prim) && level <= cur < level + depth
    requires SpacedKids(t.kids, level, depth, cur + 1, buf + "(" + Name(t.prim))
      == buf + "(" + Name(t.prim) + TruncKids(t.kids, level + depth - cur - 1)
    ensures BuildTag(t, level, depth, cur, buf) == buf + Trunc(t, level + depth - cur)
  {
    var n := Name(t.prim);
    var inner := TruncKids(t.kids, level + depth - cur - 1);
    var close := if |t.kids| > 0 then ")" else "";
    var spaced := buf + "(" + n + inner;
    if |t.kids| == 0 {
      assert spaced + close == spaced;
    }
    assert BuildTag(t, level, depth, cur, buf) == spaced + close;
    AppendFive(buf, "(", n, inner, close);
    assert Trunc(t, level + depth - cur) == "(" + n + inner + close;
  }

  lemma AppendFive(a: string, b: string, c: string, d: string, e: string)
    ensures a + b + c + d + e == a + (b + c + d + e)
  {
  }

  /** A terminal, or a node at the window's last level: its name, parenthesised for a function. */
  lemma ClosedWindowIsTrunc(t: Node, level: int, depth: int, cur: int, buf: string)
    requires level <= cur <= level + depth && (IsTerminal(t.prim) || cur == level + depth)
    ensures BuildTag(t, level, depth, cur, buf) == buf + Trunc(t, level + depth - cur)
  {
    if !IsTerminal(t.prim) {
      var close := if |t.kids| > 0 then ")" else "";
      assert BuildTag(t, level, depth, cur, buf) == buf + "(" + Name(t.prim) + close;
      AppendFour(buf, "(" + Name(t.prim), "", close);
      assert Trunc(t, 0) == "(" + Name(t.prim) + "" + close;
    }
  }

  lemma {:induction false} SpacedKidsAreTrunc(ks: seq<Node>, level: int, depth: int, cur: int, buf: string)
    requires level <= cur <= level + depth
    ensures SpacedKids(ks, level, depth, cur, buf) == buf + TruncKids(ks, level + depth - cur)
    decreases ks
  {
    if ks != [] {
      var n: nat := level + depth - cur;
      var tr := Trunc(ks[0], n);
      var rest := TruncKids(ks[1..], n);
      WindowIsTrunc(ks[0], level, depth, cur, buf + " ");
      var b1 := buf + " " + tr;
      SpacedKidsAreTrunc(ks[1..], level, depth, cur, b1);
      calc {
        SpacedKids(ks, level, depth, cur, buf);
        SpacedKids(ks[1..], level, depth, cur, BuildTag(ks[0], level, depth, cur, buf + " "));
        b1 + rest;
        { AppendFour(buf, " ", tr, rest); }
        buf + (" " + tr + rest);
        buf + TruncKids(ks, n);
      }
    }
  }

  lemma AppendFour(a: string, b: string, c: string, d: string)
    ensures a + b + c + d == a + (b + c + d)
  {
  }

  lemma WindowAtRoot(t: Node, depth: int)
    requires depth >= 0
    ensures BuildTag(t, 0, depth, 0, "") == Trunc(t, depth)
  {
    WindowIsTrunc(t, 0, depth, 0, "");
  }

  /** A well-formed tree printed down to at least its depth is its full lisp-style print. */
  lemma {:induction false} TruncWholeTree(t: Node, n: nat)
    requires WellFormed(t) && Depth(t) <= n
    ensures Trunc(t, n) == Show(t, false)
    decreases t
  {
    if !IsTerminal(t.prim) {
      DepthKidsIsMax(t.kids);
      TruncKidsWhole(t.kids, n - 1);
    }
  }

  lemma {:induction false} TruncKidsWhole(ks: seq<Node>, n: nat)
    requires forall i :: 0 <= i < |ks| ==> WellFormed(ks[i]) && Depth(ks[i]) <= n
    ensures TruncKids(ks, n) == ShowKids(ks, false)
    decreases ks
  {
    if ks != [] {
      TruncWholeTree(ks[0], n);
      TruncKidsWhole(ks[1..], n);
    }
  }

  /** When the window starts at the root and reaches the deepest leaf, the tag is the printed tree. */
  lemma WholeWindowIsPrint(t: Node, depth: int)
    requires WellFormed(t) && Depth(t) <= depth
    ensures TagOf(t, 0, depth) == Print(t)
  {
    if depth == 0 {
      assert t.kids == [];
    } else {
      WindowAtRoot(t, depth);
      TruncWholeTree(t, depth);
    }
  }

  /** A tree whose leaves all end above the window adds nothing to the buffer. */
  lemma {:induction false} ShallowAddsNothing(t: Node, level: int, depth: int, cur: int, buf: string)
    requires cur + Depth(t) < level
    ensures BuildTag(t, level, depth, cur, buf) == buf
    decreases t
  {
    DepthKidsIsMax(t.kids);
    ShallowKidsAddNothing(t.kids, true, |t.kids| > 0 && cur == level - 1, level, depth, cur + 1, buf);
  }

  lemma {:induction false} ShallowKidsAddNothing(ks: seq<Node>, first: bool, nextUp: bool, level: int, depth: int, cur: int, buf: string)
    requires forall i :: 0 <= i < |ks| ==> cur + Depth(ks[i]) < level
    requires !nextUp
    ensures CommaKids(ks, first, nextUp, level, depth, cur, buf) == buf
    decreases ks
  {
    if ks != [] {
      ShallowAddsNothing(ks[0], level, depth, cur, buf);
      ShallowKidsAddNothing(ks[1..], false, nextUp, level, depth, cur, buf);
    }
  }

  /** A tree shallower than the tag level gets the empty tag. */
  lemma ShallowTreeEmptyTag(t: Node, level: int, depth: int)
    requires Depth(t) < level
    ensures TagOf(t, level, depth) == ""
  {
    ShallowAddsNothing(t, level, depth, 0, "");
  }

  lemma {:induction false} ExtendAppend(buf: string, ws: seq<string>, vs: seq<string>)
    ensures Extend(buf, ws + vs) == Extend(Extend(buf, ws), vs)
    decreases ws
  {
    if ws != [] {
      var b1 := (if |buf| > 0 then buf + "," else buf) + ws[0];
      assert (ws + vs)[0] == ws[0];
      assert (ws + vs)[1..] == ws[1..] + vs;
      assert Extend(buf, ws + vs) == Extend(b1, ws[1..] + vs);
      assert Extend(buf, ws) == Extend(b1, ws[1..]);
      ExtendAppend(b1, ws[1..], vs);
    } else {
      assert ws + vs == vs;
    }
  }

  lemma TruncNonEmpty(t: Node, n: nat)
    requires NamesNonEmpty(t)
    ensures |Trunc(t, n)| > 0
  {
  }

  /**
   * Above the window the tag is the fragment list: the trees at depth
   * tagLevel, left to right, each printed down to tagDepth more levels,
   * joined by commas.
   */
  lemma {:induction false} AboveWindowIsFragments(t: Node, level: int, depth: nat, cur: int, buf: string)
    requires cur < level && NamesNonEmpty(t)
    ensures BuildTag(t, level, depth, cur, buf) == Extend(buf, Fragments(t, level, depth, cur))
    decreases t, 1
  {
    CommaKidsAreFragments(t.kids, true, |t.kids| > 0 && cur == level - 1, level, depth, cur + 1, buf);
  }

  lemma {:induction false} CommaKidsAreFragments(ks: seq<Node>, first: bool, nextUp: bool, level: int, depth: nat, cur: int, buf: string)
    requires cur <= level && (forall i :: 0 <= i < |ks| ==> NamesNonEmpty(ks[i]))
    requires ks != [] ==> (nextUp <==> cur == level)
    requires nextUp && !first ==> |buf| > 0
    ensures CommaKids(ks, first, nextUp, level, depth, cur, buf) == Extend(buf, FragmentsKids(ks, level, depth, cur))
    decreases ks, 0
  {
    if ks != [] {
      var b := if nextUp && (!first || |buf| > 0) then buf + "," else buf;
      var b' := BuildTag(ks[0], level, depth, cur, b);
      var frs := FragmentsKids(ks, level, depth, cur);
      if cur == level {
        WindowIsTrunc(ks[0], level, depth, cur, b);
        assert b' == b + Trunc(ks[0], depth);
        TruncNonEmpty(ks[0], depth);
        assert Fragments(ks[0], level, depth, cur) == [Trunc(ks[0], depth)];
        assert frs == Fragments(ks[0], level, depth, cur) + FragmentsKids(ks[1..], level, depth, cur);
        CommaKidsAreFragments(ks[1..], false, nextUp, level, depth, cur, b');
      } else {
        AboveWindowIsFragments(ks[0], level, depth, cur, buf);
        assert frs == Fragments(ks[0], level, depth, cur) + FragmentsKids(ks[1..], level, depth, cur);
        ExtendAppend(buf, Fragments(ks[0], level, depth, cur), FragmentsKids(ks[1..], level, depth, cur));
        if ks[1..] != [] {
          CommaKidsAreFragments(ks[1..], false, nextUp, level, depth, cur, b');
        }
      }
    }
  }

  /** With tagLevel > 0 the tag is the comma-separated list of the fragments rooted at depth tagLevel. */
  lemma FragmentTag(t: Node, level: int, depth: nat)
    requires level > 0 && NamesNonEmpty(t)
    ensures TagOf(t, level, depth) == Join(Fragments(t, level, depth, 0))
  {
    AboveWindowIsFragments(t, level, depth, 0, "");
  }

  /**
   * Collecting statistics builds the tag from the root without the
   * root-name shortcut, so at level 0 and depth 0 a function root gets
   * "(f)" there while tagIndividual would give "f".
   */
  lemma StatisticsTagDiffersAtRoot(t: Node)
    requires !IsTerminal(t.prim) && |t.kids| > 0
    ensures BuildTag(t, 0, 0, 0, "") == "(" + Name(t.prim) + ")"
    ensures TagOf(t, 0, 0) == Name(t.prim)
  {
    WindowIsTrunc(t, 0, 0, 0, "");
  }

  /** The tree (+ (* x x) x) of the tag examples. */
  function ExampleTree(): Node
  {
    var x := Node(Op("x", 0), 0, []);
    Node(Op("+", 2), 0, [Node(Op("*", 2), 0, [x, x]), x])
  }

  /** On (+ (* x x) x): level 0 depth 0 gives "+", and depth 1 gives "(+ (*) x)". */
  lemma ExampleRootTags()
    ensures TagOf(ExampleTree(), 0, 0) == "+"
    ensures TagOf(ExampleTree(), 0, 1) == "(+ (*) x)"
  {
    var t := ExampleTree();
    var x := Node(Op("x", 0), 0, []);
    var m := Node(Op("*", 2), 0, [x, x]);
    WindowAtRoot(t, 1);
    assert Trunc(m, 0) == "(*)";
    assert TruncKids([x], 0) == " x";
    assert Trunc(t, 1) == "(+ (*) x)";
  }

  /** The fragments of (+ (* x x) x) at level 1 and depth 1. */
  lemma ExampleFragments()
    ensures Fragments(ExampleTree(), 1, 1, 0) == ["(* x x)", "x"]
  {
    var x := Node(Op("x", 0), 0, []);
    var m := Node(Op("*", 2), 0, [x, x]);
    assert [m, x][1..] == [x];
    assert FragmentsKids([x], 1, 1, 1) == [Trunc(x, 1)] == ["x"];
    assert FragmentsKids([m, x], 1, 1, 1) == [Trunc(m, 1)] + ["x"];
    assert [x, x][1..] == [x];
    assert TruncKids([x], 0) == " x";
    assert TruncKids([x, x], 0) == " x x";
    assert Trunc(m, 1) == "(* x x)";
  }

  /** On (+ (* x x) x), level 1 and depth 1 give the fragments "(* x x),x". */
  lemma ExampleFragmentTag()
    ensures TagOf(ExampleTree(), 1, 1) == "(* x x),x"
  {
    ExampleNamesNonEmpty();
    FragmentTag(ExampleTree(), 1, 1);
    ExampleFragments();
    JoinTwo("(* x x)", "x");
  }

  /** Every node of the example tree has a name. */
  lemma ExampleNamesNonEmpty()
    ensures NamesNonEmpty(ExampleTree())
  {
    var x := Node(Op("x", 0), 0, []);
    assert NamesNonEmpty(x);
    assert NamesNonEmpty(Node(Op("*", 2), 0, [x, x]));
  }

  /** Two non-empty fragments are joined by one comma. */
  lemma JoinTwo(a: string, b: string)
    requires |a| > 0
    ensures Join([a, b]) == a + "," + b
  {
    assert [a, b][1..] == [b];
    assert "" + a == a;
    assert Extend("", [a, b]) == Extend(a, [b]);
    assert [b][1..] == [];
    assert Extend(a, [b]) == Extend(a + "," + b, []);
  }

  // ------------------------------------------------------------ counting

  /** How often k occurs in ks. */
  function Occurrences<K(==)>(ks: seq<K>, k: K): nat
  {
    if ks == [] then 0 else (if ks[0] == k then 1 else 0) + Occurrences(ks[1..], k)
  }

  /** The sum of the values paired with k. */
  function SumWhere<K(==)>(ks: seq<K>, vs: seq<real>, k: K): real
    requires |ks| == |vs|
  {
    if ks == [] then 0.0 else (if ks[0] == k then vs[0] else 0.0) + SumWhere(ks[1..], vs[1..], k)
  }

  /** The (count, sum) entry of k, (0, 0) when absent. */
  function Entry<K>(m: map<K, (real, real)>, k: K): (real, real)
  {
    if k in m then m[k] else (0.0, 0.0)
  }

  /** The counting loop: for each key, its entry is created at (0, 0) if missing, then gets one more and the value added. */
  function TallyFrom<K(==,!new)>(ks: seq<K>, vs: seq<real>, acc: map<K, (real, real)>): (r: map<K, (real, real)>)
    requires |ks| == |vs|
    ensures forall k :: k in r <==> k in acc || k in ks
    ensures forall k :: Entry(r, k) == (Entry(acc, k).0 + Occurrences(ks, k) as real, Entry(acc, k).1 + SumWhere(ks, vs, k))
  {
    if ks == [] then acc
    else
      var e := Entry(acc, ks[0]);
      var acc' := acc[ks[0] := (e.0 + 1.0, e.1 + vs[0])];
      var r := TallyFrom(ks[1..], vs[1..], acc');
      assert forall k :: k in ks <==> k == ks[0] || k in ks[1..] by {
        assert ks == [ks[0]] + ks[1..];
      }
      r
  }

  lemma {:induction false} OccursIffPositive<K>(ks: seq<K>, k: K)
    ensures k in ks <==> Occurrences(ks, k) > 0
    ensures Occurrences(ks, k) <= |ks|
  {
    if ks != [] {
      OccursIffPositive(ks[1..], k);
      assert k in ks <==> k == ks[0] || k in ks[1..] by {
        assert ks == [ks[0]] + ks[1..];
      }
    }
  }

  /**
   * The end of the statistics pass: each key's count becomes a fraction of
   * size and its summed value becomes a mean.
   */
  function Summarise<K(==,!new)>(ks: seq<K>, vs: seq<real>): (r: map<K, (real, real)>)
    requires |ks| == |vs|
    ensures forall k :: k in r <==> k in ks
    ensures forall k :: k in r ==>
      0 < Occurrences(ks, k) <= |ks|
      && r[k] == (Occurrences(ks, k) as real / |ks| as real, SumWhere(ks, vs, k) / Occurrences(ks, k) as real)
      && 0.0 < r[k].0 <= 1.0
  {
    var m := TallyFrom(ks, vs, map[]);
    forall k | k in m
      ensures 0 < Occurrences(ks, k) <= |ks|
      ensures 0.0 < Occurrences(ks, k) as real / |ks| as real <= 1.0
    {
      OccursIffPositive(ks, k);
      assert Entry(m, k) == m[k];
      FractionBounds(Occurrences(ks, k), |ks|);
    }
    map k | k in m :: (m[k].0 / |ks| as real, m[k].1 / m[k].0)
  }

  lemma FractionBounds(a: nat, b: nat)
    requires 0 < a <= b
    ensures 0.0 < a as real / b as real <= 1.0
  {
  }

  /** The tags the statistics collector computes, one per individual. */
  function StatTags(inds: seq<Individual>, level: int, depth: int): (r: seq<string>)
    ensures |r| == |inds| && forall i :: 0 <= i < |inds| ==> r[i] == BuildTag(inds[i].root, level, depth, 0, "")
  {
    seq(|inds|, i requires 0 <= i < |inds| => BuildTag(inds[i].root, level, depth, 0, ""))
  }

  function Fitnesses(inds: seq<Individual>): (r: seq<real>)
    ensures |r| == |inds| && forall i :: 0 <= i < |inds| ==> r[i] == inds[i].fitness
  {
    seq(|inds|, i requires 0 <= i < |inds| => inds[i].fitness)
  }

  /**
   * tagIndividuals with doSetTags false: individuals are left as they are;
   * every tag present maps to [the fraction of individuals with that tag,
   * their mean fitness].
   */
  function TagStatistics(inds: seq<Individual>, level: int, depth: int): (r: map<string, (real, real)>)
    ensures forall tag :: tag in r <==> tag in StatTags(inds, level, depth)
    ensures forall tag :: tag in r ==>
      var n := Occurrences(StatTags(inds, level, depth), tag);
      n > 0 && r[tag] == (n as real / |inds| as real, SumWhere(StatTags(inds, level, depth), Fitnesses(inds), tag) / n as real)
      && 0.0 < r[tag].0 <= 1.0
  {
    var r := Summarise(StatTags(inds, level, depth), Fitnesses(inds));
    r
  }

  /** The tag field of every individual, the unset tag as None. */
  function TagsOf(inds: seq<Individual>): (r: seq<Option<string>>)
    ensures |r| == |inds| && forall i :: 0 <= i < |inds| ==> r[i] == inds[i].tag
  {
    seq(|inds|, i requires 0 <= i < |inds| => inds[i].tag)
  }

  /** Counts per key, each divided by capacity. */
  function Densities<K(==,!new)>(ks: seq<K>, capacity: int): (r: map<K, real>)
    requires capacity != 0
    ensures forall k :: k in r <==> k in ks
    ensures forall k :: k in r ==> 0 < Occurrences(ks, k) && r[k] == Occurrences(ks, k) as real / capacity as real
  {
    var m := TallyFrom(ks, seq(|ks|, _ => 0.0), map[]);
    forall k | k in m
      ensures 0 < Occurrences(ks, k)
    {
      OccursIffPositive(ks, k);
      assert Entry(m, k) == m[k];
    }
    map k | k in m :: m[k].0 / capacity as real
  }

  /**
   * getTagDensities: every tag present (the unset tag included) maps to the
   * number of individuals carrying it divided by capacity. A capacity of 0
   * with individuals present gives an infinite density, which is None here.
   */
  function TagDensities(inds: seq<Individual>, capacity: int): (r: Option<map<Option<string>, real>>)
    ensures r.None? <==> capacity == 0 && |inds| > 0
    ensures r.Some? ==> forall tag :: tag in r.value <==> tag in TagsOf(inds)
    ensures r.Some? ==> forall tag :: tag in r.value ==> r.value[tag] == Occurrences(TagsOf(inds), tag) as real / capacity as real
    ensures r.Some? && capacity > 0 ==> forall tag :: tag in r.value ==> r.value[tag] > 0.0
  {
    if capacity == 0 && |inds| > 0 then None
    else if |inds| == 0 then Some(map[])
    else
      var d := Densities(TagsOf(inds), capacity);
      if capacity > 0 then DensitiesPositive(TagsOf(inds), capacity); Some(d) else Some(d)
  }

  /** With a positive capacity every density is positive. */
  lemma DensitiesPositive<K(!new)>(ks: seq<K>, capacity: int)
    requires capacity > 0
    ensures forall k :: k in Densities(ks, capacity) ==> Densities(ks, capacity)[k] > 0.0
  {
    var d := Densities(ks, capacity);
    forall k | k in d
      ensures d[k] > 0.0
    {
      QuotientPositive(Occurrences(ks, k), capacity);
    }
  }

  lemma QuotientPositive(a: nat, b: int)
    requires 0 < a && 0 < b
    ensures a as real / b as real > 0.0
  {
  }

  /** With the population size as capacity, every density lies in (0, 1]: it is the fraction of the population sharing the tag. */
  lemma DensityIsFraction(inds: seq<Individual>, tag: Option<string>)
    requires |inds| > 0 && tag in TagDensities(inds, |inds|).value
    ensures 0.0 < TagDensities(inds, |inds|).value[tag] <= 1.0
  {
    var ts := TagsOf(inds);
    var n := Occurrences(ts, tag);
    OccursIffPositive(ts, tag);
    assert TagDensities(inds, |inds|).value[tag] == n as real / |inds| as real;
    FractionBounds(n, |inds|);
  }

  // ------------------------------------------------------------ tag store

  /** The tags seen at one tag level. */
  datatype LevelTags = LevelTags(level: int, tags: set<Option<string>>)

  /** The collection of tags seen, per level in creation order, and the current tag level. */
  datatype TagStore = TagStore(entries: seq<LevelTags>, current: int)

  /** The set kept for a level, None for a level never initialised. */
  function Lookup(entries: seq<LevelTags>, level: int): (r: Option<set<Option<string>>>)
    ensures r.None? <==> forall i :: 0 <= i < |entries| ==> entries[i].level != level
  {
    if entries == [] then None
    else if entries[0].level == level then Some(entries[0].tags)
    else
      var r := Lookup(entries[1..], level);
      assert forall i :: 1 <= i < |entries| ==> entries[i] == entries[1..][i - 1];
      r
  }

  /** getTags(level): None for a level never initialised. */
  function GetTags(s: TagStore, level: int): Option<set<Option<string>>>
  {
    Lookup(s.entries, level)
  }

  /** The set of a level, empty for a level never initialised. */
  function TagsAt(s: TagStore, level: int): set<Option<string>>
  {
    match GetTags(s, level)
    case None => {}
    case Some(ts) => ts
  }

  /** isTagUnique: the tag was never added at that level. */
  predicate IsTagUnique(s: TagStore, tag: Option<string>, level: int)
  {
    GetTags(s, level).None? || tag !in GetTags(s, level).value
  }

  /** getNumTags: the number of tags over all levels. */
  function NumTags(entries: seq<LevelTags>): nat
  {
    if entries == [] then 0 else |entries[0].tags| + NumTags(entries[1..])
  }

  /** The set of one level created empty if missing. */
  function Ensure(entries: seq<LevelTags>, level: int): seq<LevelTags>
  {
    if entries == [] then [LevelTags(level, {})]
    else if entries[0].level == level then entries
    else [entries[0]] + Ensure(entries[1..], level)
  }

  /** A tag added to one level, the level's set created on first use. */
  function Add(entries: seq<LevelTags>, tag: Option<string>, level: int): seq<LevelTags>
  {
    if entries == [] then [LevelTags(level, {tag})]
    else if entries[0].level == level then [entries[0].(tags := entries[0].tags + {tag})] + entries[1..]
    else [entries[0]] + Add(entries[1..], tag, level)
  }

  lemma {:induction false} AddLookup(entries: seq<LevelTags>, tag: Option<string>, level: int, l: int)
    ensures Lookup(Add(entries, tag, level), l) ==
      if l == level then Some((if Lookup(entries, l).Some? then Lookup(entries, l).value else {}) + {tag})
      else Lookup(entries, l)
  {
    var r := Add(entries, tag, level);
    if entries == [] {
      assert r[1..] == [];
      assert {} + {tag} == {tag};
    } else if entries[0].level == level {
      assert r[1..] == entries[1..];
    } else {
      assert r[1..] == Add(entries[1..], tag, level);
      AddLookup(entries[1..], tag, level, l);
    }
  }

  lemma {:induction false} EnsureLookup(entries: seq<LevelTags>, level: int, l: int)
    ensures Lookup(Ensure(entries, level), l) ==
      if l == level then Some(if Lookup(entries, l).Some? then Lookup(entries, l).value else {})
      else Lookup(entries, l)
  {
    if entries != [] && entries[0].level != level {
      var r := Ensure(entries, level);
      assert r[1..] == Ensure(entries[1..], level);
      EnsureLookup(entries[1..], level, l);
    }
  }

  /** addTag(tag, level): the tag joins that level's set and no other level changes. */
  function AddTag(s: TagStore, tag: Option<string>, level: int): (r: TagStore)
    ensures r.current == s.current
    ensures GetTags(r, level) == Some(TagsAt(s, level) + {tag})
    ensures forall l :: l != level ==> GetTags(r, l) == GetTags(s, l)
  {
    var r := s.(entries := Add(s.entries, tag, level));
    AddLookup(s.entries, tag, level, level);
    forall l | l != level
      ensures GetTags(r, l) == GetTags(s, l)
    {
      AddLookup(s.entries, tag, level, l);
    }
    r
  }

  /** After addTag the tag is no longer unique at its level. */
  lemma AddedTagNotUnique(s: TagStore, tag: Option<string>, level: int)
    ensures !IsTagUnique(AddTag(s, tag, level), tag, level)
  {
  }

  /** The total count grows by one exactly when the added tag was new at its level. */
  lemma {:induction false} AddTagCount(entries: seq<LevelTags>, tag: Option<string>, level: int)
    ensures NumTags(Add(entries, tag, level)) == NumTags(entries) + (if IsTagUnique(TagStore(entries, 0), tag, level) then 1 else 0)
  {
    var r := Add(entries, tag, level);
    if entries == [] {
      assert r[1..] == [];
    } else if entries[0].level == level {
      assert r[1..] == entries[1..];
      var ts := entries[0].tags;
      if tag in ts {
        assert ts + {tag} == ts;
      } else {
        assert |ts + {tag}| == |ts| + 1;
      }
    } else {
      AddTagCount(entries[1..], tag, level);
      assert r[1..] == Add(entries[1..], tag, level);
    }
  }

  /** The tags carried by a collection of individuals. */
  function TagSet(inds: seq<Individual>): (r: set<Option<string>>)
    ensures forall x :: x in r <==> exists i :: 0 <= i < |inds| && inds[i].tag == x
  {
    if inds == [] then {}
    else
      var r := {inds[0].tag} + TagSet(inds[1..]);
      assert forall i :: 1 <= i < |inds| ==> inds[i] == inds[1..][i - 1];
      r
  }

  /** collectTags(individuals, level): every individual's tag added at that level, whose set exists afterwards. */
  function CollectTags(s: TagStore, inds: seq<Individual>, level: int): (r: TagStore)
    ensures r.current == s.current
    ensures GetTags(r, level) == Some(TagsAt(s, level) + TagSet(inds))
    ensures forall l :: l != level ==> GetTags(r, l) == GetTags(s, l)
    decreases |inds|
  {
    if inds == [] then
      var r := s.(entries := Ensure(s.entries, level));
      EnsureLookup(s.entries, level, level);
      forall l | l != level
        ensures GetTags(r, l) == GetTags(s, l)
      {
        EnsureLookup(s.entries, level, l);
      }
      assert TagSet(inds) == {};
      assert GetTags(r, level) == Some(TagsAt(s, level));
      assert TagsAt(s, level) + {} == TagsAt(s, level);
      r
    else
      var s1 := AddTag(s, inds[0].tag, level);
      var r := CollectTags(s1, inds[1..], level);
      assert TagsAt(s1, level) == TagsAt(s, level) + {inds[0].tag};
      assert TagSet(inds) == {inds[0].tag} + TagSet(inds[1..]);
      assert TagsAt(s1, level) + TagSet(inds[1..]) == TagsAt(s, level) + TagSet(inds);
      r
  }

  /** setTagLevel: the current level changes and its set is created empty if missing; no tag is added. */
  function SetTagLevel(s: TagStore, level: int): (r: TagStore)
    ensures r.current == level
    ensures GetTags(r, level) == Some(TagsAt(s, level))
    ensures forall l :: l != level ==> GetTags(r, l) == GetTags(s, l)
    ensures NumTags(r.entries) == NumTags(s.entries)
  {
    var r := TagStore(Ensure(s.entries, level), level);
    EnsureLookup(s.entries, level, level);
    forall l | l != level
      ensures GetTags(r, l) == GetTags(s, l)
    {
      EnsureLookup(s.entries, level, l);
    }
    EnsureCount(s.entries, level);
    r
  }

  lemma {:induction false} EnsureCount(entries: seq<LevelTags>, level: int)
    ensures NumTags(Ensure(entries, level)) == NumTags(entries)
  {
    if entries != [] && entries[0].level != level {
      EnsureCount(entries[1..], level);
      assert Ensure(entries, level)[1..] == Ensure(entries[1..], level);
    }
  }
}

=== FILE: genotype.dfy ===
/**
 * Individual.fromString: splitting a printed genotype on spaces, stripping
 * parentheses, resolving each token through the configured name-to-node map
 * (or as a numeric constant) and rebuilding the tree from arities; and the
 * round trip with the printer.
 */
module Genotype {
  import opened Prims
  import opened Tree
  import opened Wrappers
  import opened Individuals

  // ------------------------------------------------------------ splitting

  /** The fields between single spaces: n spaces give n + 1 fields. */
  function Fields(s: string): (r: seq<string>)
    ensures |r| > 0
    decreases |s|
  {
    if s == [] then [""]
    else
      var rest := Fields(s[1..]);
      if s[0] == ' ' then [""] + rest else [[s[0]] + rest[0]] + rest[1..]
  }

  function DropTrailingEmpty(fs: seq<string>): (r: seq<string>)
    ensures |r| <= |fs| && r == fs[..|r|]
    ensures r != [] ==> r[|r| - 1] != ""
    ensures forall k :: |r| <= k < |fs| ==> fs[k] == ""
    decreases |fs|
  {
    if fs == [] then []
    else if fs[|fs| - 1] == "" then DropTrailingEmpty(fs[..|fs| - 1])
    else fs
  }

  /** Java's String.split(" "): the whole string when it has no space, else the fields without trailing empty ones. */
  function JavaSplit(s: string): seq<string>
  {
    if ' ' !in s then [s] else DropTrailingEmpty(Fields(s))
  }

  /** replaceAll("\\(|\\)", ""): the token without any parenthesis. */
  function Strip(w: string): (r: string)
    ensures forall k :: 0 <= k < |r| ==> r[k] != '(' && r[k] != ')'
    decreases |w|
  {
    if w == [] then []
    else (if w[0] == '(' || w[0] == ')' then [] else [w[0]]) + Strip(w[1..])
  }

  // ------------------------------------------------------------- tokens

  /** Decimal numerals: an optional sign, digits, optionally '.' and more digits. */
  predicate IsDecimal(s: string)
  {
    var body := if |s| > 0 && (s[0] == '-' || s[0] == '+') then s[1..] else s;
    |body| > 0 && body[0] != '.' && body[|body| - 1] != '.'
    && (forall k :: 0 <= k < |body| ==> body[k] == '.' || '0' <= body[k] <= '9')
    && (forall j, k :: 0 <= j < k < |body| && body[j] == '.' ==> body[k] != '.')
  }

  /** A mapped node first; otherwise a numeric token becomes a constant; otherwise nothing. */
  function Resolve(tok: string, mapping: map<string, Prim>): Option<Prim>
  {
    if tok in mapping then Some(mapping[tok])
    else if IsDecimal(tok) then Some(Const(tok))
    else None
  }

  /** Why fromString yields no individual. */
  datatype ParseError =
      /** A token that is neither mapped nor numeric: the source logs it and returns null. */
    | NotMapped(token: string)
      /** A token after the tree was complete: popping the empty stack throws. */
    | EmptyStack
      /** No token at all: the source dereferences a null root. */
    | NoRoot
      /** The tokens ran out with child slots unfilled, where the source would leave those slots null. */
    | Incomplete

  /**
   * The stack-driven rebuild, as a recursive descent over the stripped
   * tokens: the node for token i takes number i, and its children are the
   * subtrees that follow, each filling the first empty slot of the deepest
   * unfinished function, which is the slot the source's stack selects.
   */
  function ParseNode(toks: seq<string>, i: nat, mapping: map<string, Prim>): (res: Result<(Node, nat), ParseError>)
    ensures res.Ok? ==> i < res.value.1 <= |toks|
    decreases |toks| - i, 0
  {
    if i >= |toks| then Err(Incomplete)
    else
      match Resolve(toks[i], mapping)
      case None => Err(NotMapped(toks[i]))
      case Some(p) =>
        match ParseKids(toks, i + 1, Arity(p), mapping)
        case Err(e) => Err(e)
        case Ok((kids, j)) => Ok((Node(p, i, kids), j))
  }

  function ParseKids(toks: seq<string>, i: nat, n: nat, mapping: map<string, Prim>): (res: Result<(seq<Node>, nat), ParseError>)
    requires i <= |toks|
    ensures res.Ok? ==> i <= res.value.1 <= |toks| && |res.value.0| == n
    decreases |toks| - i, 1, n
  {
    if n == 0 then Ok(([], i))
    else
      match ParseNode(toks, i, mapping)
      case Err(e) => Err(e)
      case Ok((c, j)) =>
        match ParseKids(toks, j, n - 1, mapping)
        case Err(e) => Err(e)
        case Ok((cs, k)) => Ok(([c] + cs, k))
  }

  function StripAll(ws: seq<string>): (r: seq<string>)
    ensures |r| == |ws| && forall k :: 0 <= k < |ws| ==> r[k] == Strip(ws[k])
  {
    seq(|ws|, k requires 0 <= k < |ws| => Strip(ws[k]))
  }

  /**
   * fromString. A terminal first token ends the rebuild whatever follows;
   * numNodes is the token count and the depth is the tree's depth.
   */
  function FromString(genotype: string, mapping: map<string, Prim>): (res: Result<Individual, ParseError>)
    ensures res.Ok? ==> res.value.numNodes == |JavaSplit(genotype)| && res.value.depth == Depth(res.value.root)
    ensures res.Ok? ==> res.value == NewIndividual(res.value.root).(numNodes := res.value.numNodes, depth := res.value.depth)
  {
    var toks := StripAll(JavaSplit(genotype));
    if |toks| == 0 then Err(NoRoot)
    else
      match ParseNode(toks, 0, mapping)
      case Err(e) => Err(e)
      case Ok((t, j)) =>
        if j == |toks| || IsTerminal(t.prim) then
          Ok(NewIndividual(t).(numNodes := |toks|, depth := Depth(t)))
        else if Resolve(toks[j], mapping).None? then Err(NotMapped(toks[j]))
        else Err(EmptyStack)
  }

  // ============================================================ round trip

  /** Every node's name prints as one token and reads back as that node. */
  predicate Readable(t: Node, mapping: map<string, Prim>)
    decreases t
  {
    PlainName(Name(t.prim)) && Resolve(Name(t.prim), mapping) == Some(t.prim)
    && forall i :: 0 <= i < |t.kids| ==> Readable(t.kids[i], mapping)
  }

  /** Every node's name prints as one token. */
  predicate PlainNames(t: Node)
    decreases t
  {
    PlainName(Name(t.prim)) && forall i :: 0 <= i < |t.kids| ==> PlainNames(t.kids[i])
  }

  /** The node names in pre-order. */
  function Names(t: Node): seq<string>
    decreases t
  {
    [Name(t.prim)] + NamesKids(t.kids)
  }

  function NamesKids(ks: seq<Node>): seq<string>
    decreases ks
  {
    if ks == [] then [] else Names(ks[0]) + NamesKids(ks[1..])
  }

  lemma {:induction false} NamesLength(t: Node)
    ensures |Names(t)| == Size(t)
    decreases t
  {
    NamesKidsLength(t.kids);
  }

  lemma {:induction false} NamesKidsLength(ks: seq<Node>)
    ensures |NamesKids(ks)| == SizeKids(ks)
    decreases ks
  {
    if ks != [] {
      NamesLength(ks[0]);
      NamesKidsLength(ks[1..]);
    }
  }

  /** The space-separated words of a printout: names with their parentheses attached. */
  function Words(t: Node): (r: seq<string>)
    ensures |r| > 0
    decreases t
  {
    if IsTerminal(t.prim) then [Name(t.prim)] else CloseLast(["(" + Name(t.prim)] + WordsKids(t.kids))
  }

  function WordsKids(ks: seq<Node>): (r: seq<string>)
    ensures ks != [] ==> |r| > 0
    decreases ks
  {
    if ks == [] then [] else Words(ks[0]) + WordsKids(ks[1..])
  }

  function CloseLast(ws: seq<string>): (r: seq<string>)
    requires |ws| > 0
    ensures |r| == |ws| && r[..|ws| - 1] == ws[..|ws| - 1] && r[|ws| - 1] == ws[|ws| - 1] + ")"
  {
    ws[..|ws| - 1] + [ws[|ws| - 1] + ")"]
  }

  function JoinSpace(ws: seq<string>): string
    decreases |ws|
  {
    if |ws| == 0 then "" else if |ws| == 1 then ws[0] else ws[0] + " " + JoinSpace(ws[1..])
  }

  predicate SpaceFree(w: string)
  {
    forall k :: 0 <= k < |w| ==> w[k] != ' '
  }

  predicate GoodWords(ws: seq<string>)
  {
    forall k :: 0 <= k < |ws| ==> |ws[k]| > 0 && SpaceFree(ws[k])
  }

  lemma {:induction false} JoinAppend(a: seq<string>, b: seq<string>)
    requires |a| > 0 && |b| > 0
    ensures JoinSpace(a + b) == JoinSpace(a) + " " + JoinSpace(b)
    decreases |a|
  {
    if |a| == 1 {
      assert (a + b)[1..] == b;
    } else {
      assert (a + b)[1..] == a[1..] + b;
      JoinAppend(a[1..], b);
    }
  }

  lemma {:induction false} JoinCloseLast(ws: seq<string>)
    requires |ws| > 0
    ensures JoinSpace(CloseLast(ws)) == JoinSpace(ws) + ")"
    decreases |ws|
  {
    if |ws| > 1 {
      assert CloseLast(ws)[1..] == CloseLast(ws[1..]);
      JoinCloseLast(ws[1..]);
    }
  }

  lemma {:induction false} StripAppend(a: string, b: string)
    ensures Strip(a + b) == Strip(a) + Strip(b)
    decreases |a|
  {
    if a != [] {
      assert (a + b)[1..] == a[1..] + b;
      StripAppend(a[1..], b);
    } else {
      assert a + b == b;
    }
  }

  lemma {:induction false} StripPlain(w: string)
    requires forall k :: 0 <= k < |w| ==> w[k] != '(' && w[k] != ')'
    ensures Strip(w) == w
    decreases |w|
  {
    if w != [] {
      StripPlain(w[1..]);
    }
  }

  lemma StripAllAppend(a: seq<string>, b: seq<string>)
    ensures StripAll(a + b) == StripAll(a) + StripAll(b)
  {
  }

  /** The printout is its words joined by single spaces. */
  lemma {:induction false} ShowJoin(t: Node)
    ensures Show(t, false) == JoinSpace(Words(t))
    decreases t
  {
    if !IsTerminal(t.prim) {
      var open := "(" + Name(t.prim);
      var ws := [open] + WordsKids(t.kids);
      assert Words(t) == CloseLast(ws);
      assert Show(t, false) == open + ShowKids(t.kids, false) + ")";
      JoinCloseLast(ws);
      if t.kids == [] {
        assert ws == [open];
        assert ShowKids(t.kids, false) == "";
      } else {
        ShowKidsJoin(t.kids);
        JoinAppend([open], WordsKids(t.kids));
        assert JoinSpace(ws) == open + " " + JoinSpace(WordsKids(t.kids));
      }
    }
  }

  lemma {:induction false} ShowKidsJoin(ks: seq<Node>)
    requires |ks| > 0
    ensures ShowKids(ks, false) == " " + JoinSpace(WordsKids(ks))
    decreases ks
  {
    ShowJoin(ks[0]);
    assert ShowKids(ks, false) == " " + Show(ks[0], false) + ShowKids(ks[1..], false);
    assert WordsKids(ks) == Words(ks[0]) + WordsKids(ks[1..]);
    if |ks| == 1 {
      assert ks[1..] == [];
      assert ShowKids(ks[1..], false) == "";
      assert WordsKids(ks[1..]) == [];
      assert WordsKids(ks) == Words(ks[0]);
    } else {
      ShowKidsJoin(ks[1..]);
      JoinAppend(Words(ks[0]), WordsKids(ks[1..]));
    }
  }

  lemma StripOpen(n: string)
    requires PlainName(n)
    ensures Strip("(" + n) == n
  {
    StripPlain(n);
    assert Strip("(") == [];
    StripAppend("(", n);
  }

  lemma StripAllCloseLast(ws: seq<string>)
    requires |ws| > 0
    ensures StripAll(CloseLast(ws)) == StripAll(ws)
  {
    var cs := CloseLast(ws);
    StripAppend(ws[|ws| - 1], ")");
    assert Strip(")") == [];
    forall k | 0 <= k < |ws|
      ensures Strip(cs[k]) == Strip(ws[k])
    {
      if k < |ws| - 1 {
        assert cs[k] == cs[..|ws| - 1][k];
      }
    }
  }

  /** The words strip to the pre-order names. */
  lemma {:induction false} WordsStrip(t: Node)
    requires PlainNames(t) && WellFormed(t)
    ensures StripAll(Words(t)) == Names(t)
    decreases t
  {
    var n := Name(t.prim);
    if !IsTerminal(t.prim) {
      WordsKidsStrip(t.kids);
      var ws := ["(" + n] + WordsKids(t.kids);
      StripOpen(n);
      StripAllAppend(["(" + n], WordsKids(t.kids));
      StripAllCloseLast(ws);
    } else {
      StripPlain(n);
      assert t.kids == [];
    }
  }

  lemma {:induction false} WordsKidsStrip(ks: seq<Node>)
    requires forall i :: 0 <= i < |ks| ==> PlainNames(ks[i]) && WellFormed(ks[i])
    ensures StripAll(WordsKids(ks)) == NamesKids(ks)
    decreases ks
  {
    if ks != [] {
      WordsStrip(ks[0]);
      WordsKidsStrip(ks[1..]);
      StripAllAppend(Words(ks[0]), WordsKids(ks[1..]));
    }
  }

  /** The words are non-empty and free of spaces. */
  lemma {:induction false} WordsGood(t: Node)
    requires PlainNames(t)
    ensures GoodWords(Words(t))
    decreases t
  {
    if !IsTerminal(t.prim) {
      WordsKidsGood(t.kids);
      var open := "(" + Name(t.prim);
      assert open[0] == '(' && forall k :: 1 <= k < |open| ==> open[k] == Name(t.prim)[k - 1];
      GoodWordsAppend([open], WordsKids(t.kids));
      CloseLastGood([open] + WordsKids(t.kids));
    } else {
      assert Words(t) == [Name(t.prim)];
    }
  }

  lemma {:induction false} WordsKidsGood(ks: seq<Node>)
    requires forall i :: 0 <= i < |ks| ==> PlainNames(ks[i])
    ensures GoodWords(WordsKids(ks))
    decreases ks
  {
    if ks != [] {
      WordsGood(ks[0]);
      WordsKidsGood(ks[1..]);
      GoodWordsAppend(Words(ks[0]), WordsKids(ks[1..]));
    }
  }

  lemma GoodWordsAppend(a: seq<string>, b: seq<string>)
    requires GoodWords(a) && GoodWords(b)
    ensures GoodWords(a + b)
  {
    forall k | 0 <= k < |a + b|
      ensures |(a + b)[k]| > 0 && SpaceFree((a + b)[k])
    {
      if k < |a| {
        assert (a + b)[k] == a[k];
      } else {
        assert (a + b)[k] == b[k - |a|];
      }
    }
  }

  /** Closing the last word keeps the words non-empty and free of spaces. */
  lemma CloseLastGood(ws: seq<string>)
    requires |ws| > 0 && GoodWords(ws)
    ensures GoodWords(CloseLast(ws))
  {
    var cs := CloseLast(ws);
    var w := ws[|ws| - 1];
    forall k | 0 <= k < |cs|
      ensures |cs[k]| > 0 && SpaceFree(cs[k])
    {
      if k < |ws| - 1 {
        assert cs[k] == cs[..|ws| - 1][k];
      } else {
        assert cs[k] == w + ")";
        forall m | 0 <= m < |w + ")"|
          ensures (w + ")")[m] != ' '
        {
          if m < |w| {
            assert (w + ")")[m] == w[m];
          }
        }
      }
    }
  }

  lemma {:induction false} FieldsWord(w: string, s: string)
    requires SpaceFree(w)
    ensures Fields(w) == [w]
    ensures Fields(w + " " + s) == [w] + Fields(s)
    decreases |w|
  {
    if w == [] {
      assert (w + " " + s)[1..] == s;
    } else {
      assert (w + " " + s)[1..] == w[1..] + " " + s;
      FieldsWord(w[1..], s);
      assert [w[0]] + w[1..] == w;
    }
  }

  lemma {:induction false} FieldsJoin(ws: seq<string>)
    requires |ws| > 0 && GoodWords(ws)
    ensures Fields(JoinSpace(ws)) == ws
    decreases |ws|
  {
    FieldsWord(ws[0], JoinSpace(ws[1..]));
    if |ws| > 1 {
      FieldsJoin(ws[1..]);
    }
  }

  /** Splitting a space-joined list of non-empty space-free words gives the words back. */
  lemma SplitJoin(ws: seq<string>)
    requires |ws| > 0 && GoodWords(ws)
    ensures JavaSplit(JoinSpace(ws)) == ws
  {
    FieldsJoin(ws);
    if |ws| > 1 {
      var s := JoinSpace(ws);
      assert s[|ws[0]|] == ' ';
    }
  }

  lemma ReadablePlain(t: Node, mapping: map<string, Prim>)
    requires Readable(t, mapping)
    ensures PlainNames(t)
    decreases t
  {
    forall i | 0 <= i < |t.kids|
      ensures PlainNames(t.kids[i])
    {
      ReadablePlain(t.kids[i], mapping);
    }
  }

  /** The tokens from position i on begin with the given names. */
  predicate TokensAt(toks: seq<string>, i: nat, names: seq<string>)
  {
    i + |names| <= |toks| && forall m :: 0 <= m < |names| ==> toks[i + m] == names[m]
  }

  lemma TokensAtSplit(toks: seq<string>, i: nat, a: seq<string>, b: seq<string>)
    requires TokensAt(toks, i, a + b)
    ensures TokensAt(toks, i, a) && TokensAt(toks, i + |a|, b)
  {
    forall m | 0 <= m < |a|
      ensures toks[i + m] == a[m]
    {
      assert (a + b)[m] == a[m];
    }
    forall m | 0 <= m < |b|
      ensures toks[i + |a| + m] == b[m]
    {
      assert (a + b)[|a| + m] == b[m];
    }
  }

  /** Rebuilding from a run of tokens that are a tree's names gives the tree, numbered from the run's start. */
  lemma {:induction false} ParseNames(t: Node, toks: seq<string>, i: nat, mapping: map<string, Prim>)
    requires WellFormed(t) && Readable(t, mapping)
    requires TokensAt(toks, i, Names(t))
    ensures ParseNode(toks, i, mapping) == Ok((Renumber(t, i), i + Size(t)))
    decreases t
  {
    NamesKidsLength(t.kids);
    TokensAtSplit(toks, i, [Name(t.prim)], NamesKids(t.kids));
    assert toks[i] == [Name(t.prim)][0];
    ParseKidsNames(t.kids, toks, i + 1, mapping);
  }

  /** The names of a child list are those of its first child followed by those of the rest. */
  lemma KidsTokensSplit(ks: seq<Node>, toks: seq<string>, i: nat)
    requires ks != [] && TokensAt(toks, i, NamesKids(ks))
    ensures TokensAt(toks, i, Names(ks[0])) && TokensAt(toks, i + Size(ks[0]), NamesKids(ks[1..]))
    ensures i + Size(ks[0]) + SizeKids(ks[1..]) <= |toks|
  {
    NamesLength(ks[0]);
    NamesKidsLength(ks[1..]);
    TokensAtSplit(toks, i, Names(ks[0]), NamesKids(ks[1..]));
  }

  /** A child list parses as its first child followed by the rest. */
  lemma ParseKidsCons(toks: seq<string>, i: nat, ks: seq<Node>, mapping: map<string, Prim>, a: nat, b: nat)
    requires ks != [] && a == Size(ks[0]) && b == SizeKids(ks[1..]) && i + a + b <= |toks|
    requires ParseNode(toks, i, mapping) == Ok((Renumber(ks[0], i), i + a))
    requires ParseKids(toks, i + a, |ks[1..]|, mapping) == Ok((RenumberKids(ks[1..], i + a), i + a + b))
    ensures ParseKids(toks, i, |ks|, mapping) == Ok((RenumberKids(ks, i), i + SizeKids(ks)))
  {
    assert |ks[1..]| == |ks| - 1;
  }

  /** Given that the rest of a child list parses, so does the whole list. */
  lemma ParseKidsStep(ks: seq<Node>, toks: seq<string>, i: nat, mapping: map<string, Prim>)
    requires ks != [] && WellFormed(ks[0]) && Readable(ks[0], mapping)
    requires i + Size(ks[0]) + SizeKids(ks[1..]) <= |toks| && TokensAt(toks, i, Names(ks[0]))
    requires ParseKids(toks, i + Size(ks[0]), |ks[1..]|, mapping)
      == Ok((RenumberKids(ks[1..], i + Size(ks[0])), i + Size(ks[0]) + SizeKids(ks[1..])))
    ensures ParseKids(toks, i, |ks|, mapping) == Ok((RenumberKids(ks, i), i + SizeKids(ks)))
  {
    ParseNames(ks[0], toks, i, mapping);
    ParseKidsCons(toks, i, ks, mapping, Size(ks[0]), SizeKids(ks[1..]));
  }

  lemma {:induction false} ParseKidsNames(ks: seq<Node>, toks: seq<string>, i: nat, mapping: map<string, Prim>)
    requires forall k :: 0 <= k < |ks| ==> WellFormed(ks[k]) && Readable(ks[k], mapping)
    requires TokensAt(toks, i, NamesKids(ks))
    ensures ParseKids(toks, i, |ks|, mapping) == Ok((RenumberKids(ks, i), i + SizeKids(ks)))
    decreases ks
  {
    if ks != [] {
      KidsTokensSplit(ks, toks, i);
      ParseKidsNames(ks[1..], toks, i + Size(ks[0]), mapping);
      ParseKidsStep(ks, toks, i, mapping);
    }
  }

  /**
   * Round trip: reading back the printout of a well-formed tree whose names
   * are all plain and resolve to their own nodes gives that tree, numbered in
   * pre-order, with numNodes its size and depth its depth.
   */
  lemma RoundTrip(t: Node, mapping: map<string, Prim>)
    requires WellFormed(t) && Readable(t, mapping)
    ensures FromString(Print(t), mapping) == Ok(NewIndividual(Renumber(t, 0)).(numNodes := Size(t), depth := Depth(t)))
  {
    ReadablePlain(t, mapping);
    ShowJoin(t);
    WordsStrip(t);
    WordsGood(t);
    SplitJoin(Words(t));
    NamesLength(t);
    var toks := StripAll(JavaSplit(Print(t)));
    assert toks == Names(t);
    assert TokensAt(toks, 0, Names(t));
    ParseNames(t, toks, 0, mapping);
    RenumberNumbers(t, 0);
    SameShapeFacts(Renumber(t, 0), t);
  }
}

=== FILE: gp.dfy ===
/**
 * The generational loop (the GP class): the termination test, breeding by
 * crossover or replication up to popSize - numElites offspring, the
 * mutation pass (as evidently intended: as written its mutants are
 * discarded, see DoMutationAsWritten), elitism, sequential evaluation
 * with best-so-far tracking, and one step of the run.
 */
module GP {
  import opened Prims
  import opened Tree
  import opened Wrappers
  import opened Rand
  import opened Individuals
  import opened Mutation
  import opened Selection
  import opened Problems
  import opened Build

  datatype StopOn = Generations | Evaluations

  /** The selection scheme; the source defaults to tournaments. */
  datatype Scheme = Tournament(size: int) | RandomMating

  datatype GPConfig = GPConfig(
    popSize: int,
    numElites: int,
    numGenerations: int,
    numEvaluations: int,
    stopOn: StopOn,
    stopOnOptimal: bool,
    crossProb: real,
    discardSecondChild: bool,
    mutation: MutationConfig,
    cross: CrossConfig,
    scheme: Scheme,
    problem: BoolProblem,
    fuel: nat)

  /** The run's state; ids are drawn from a counter. */
  datatype RunState = RunState(
    population: seq<Individual>,
    generation: int,
    numEvaluations: int,
    best: Option<Individual>,
    bestFitness: real,
    foundOptimal: bool,
    nextId: nat,
    rng: Rng)

  /** doTerminate: the generation limit, the evaluation limit, or a found optimum when stopping on it. */
  predicate DoTerminate(cfg: GPConfig, st: RunState)
  {
    (cfg.stopOn == Generations && st.generation == cfg.numGenerations - 1)
    || (cfg.stopOn == Evaluations && st.numEvaluations >= cfg.numEvaluations)
    || (cfg.stopOnOptimal && st.foundOptimal)
  }

  // ------------------------------------------------------------ selection

  function SelectParents(cfg: GPConfig, pop: seq<Individual>, r: Rng): (res: Option<Parents>)
    ensures res.Some? && |pop| > 0 ==> res.value.first < |pop| && res.value.second < |pop|
  {
    match cfg.scheme
    case Tournament(size) => Some(TournamentSelect(pop, size, r, cfg.fuel))
    case RandomMating => RandomMatingSelect(pop, r)
  }

  function SelectOne(cfg: GPConfig, pop: seq<Individual>, r: Rng): (res: Option<Pick>)
    ensures res.Some? && |pop| > 0 ==> res.value.index < |pop|
  {
    match cfg.scheme
    case Tournament(size) => Some(TournamentSelectOne(pop, size, r, cfg.fuel))
    case RandomMating => RandomSelectOne(pop, r)
  }

  // ------------------------------------------------------------- breeding

  /** x's tree has the shape of a member's tree: a replica, or a crossover child left a copy of its parent. */
  ghost predicate CopyOf(x: Individual, pop: seq<Individual>)
  {
    exists i :: 0 <= i < |pop| && SameShape(x.root, pop[i].root)
  }

  /** x's tree has the shape of a member's tree with a subtree of a member grafted in at a cross point. */
  ghost predicate GraftOf(x: Individual, pop: seq<Individual>)
  {
    exists i, j, a, b :: 0 <= i < |pop| && 0 <= j < |pop| && ValidPath(pop[i].root, a) && ValidPath(pop[j].root, b)
      && SameShape(x.root, Replace(pop[i].root, a, At(pop[j].root, b)))
  }

  /** What breeding from pop can produce: a copy of a member or a crossover child of two members. */
  ghost predicate OffspringOf(x: Individual, pop: seq<Individual>)
  {
    CopyOf(x, pop) || GraftOf(x, pop)
  }

  /** A crossover child, a copy of parent i or parent i with parent j's subtree at b put in at a, is an offspring. */
  lemma CrossChildIsOffspring(x: Individual, pop: seq<Individual>, i: nat, j: nat, a: seq<nat>, b: seq<nat>, copy: bool)
    requires i < |pop| && j < |pop| && ValidPath(pop[i].root, a) && ValidPath(pop[j].root, b)
    requires copy ==> SameShape(x.root, pop[i].root)
    requires !copy ==> SameShape(x.root, Replace(pop[i].root, a, At(pop[j].root, b)))
    ensures OffspringOf(x, pop)
  {
  }

  /** Appending offspring of pop to a brood adds only offspring of pop. */
  lemma AppendedAreOffspring(prev: seq<Individual>, next: seq<Individual>, pop: seq<Individual>, first: Individual, second: Individual)
    requires OffspringOf(first, pop) && OffspringOf(second, pop)
    requires next == prev + [first] || next == prev + [first] + [second]
    ensures forall k :: |prev| <= k < |next| ==> OffspringOf(next[k], pop)
  {
    forall k | |prev| <= k < |next|
      ensures OffspringOf(next[k], pop)
    {
      assert next[k] == first || next[k] == second;
    }
  }

  /** The offspring gathered so far, the id counter and the generator. */
  datatype Brood = Brood(offspring: seq<Individual>, nextId: nat, rng: Rng)

  /**
   * doCrossover: two selected parents are crossed; the first child is
   * added, the second only if it is not discarded and there is room below
   * fillSize. None is a failure of the source: an empty population, no
   * crossover attempts (null cross points), or a child deeper than
   * maxDepth (the run exits).
   */
  function DoCrossover(cfg: GPConfig, pop: seq<Individual>, b: Brood, fillSize: int): (res: Option<Brood>)
    ensures res.Some? ==> b.offspring < res.value.offspring
    ensures res.Some? ==> (|res.value.offspring| == |b.offspring| + 1
      || (|res.value.offspring| == |b.offspring| + 2 && |b.offspring| + 1 < fillSize && !cfg.discardSecondChild))
    ensures res.Some? ==> forall k :: |b.offspring| <= k < |res.value.offspring| ==> OffspringOf(res.value.offspring[k], pop)
  {
    if |pop| == 0 || cfg.cross.maxCrossAttempts < 1 then None
    else
      match SelectParents(cfg, pop, b.rng)
      case None => None
      case Some(ps) =>
        match SubtreeCrossover(pop[ps.first], pop[ps.second], ps.rng, cfg.cross, cfg.fuel)
        case Err(_) => None
        case Ok(c) =>
          var first := c.first.(id := Some(b.nextId));
          var second := c.second.(id := Some(b.nextId + 1));
          CrossChildIsOffspring(first, pop, ps.first, ps.second, c.point1, c.point2, c.firstIsCopy);
          CrossChildIsOffspring(second, pop, ps.second, ps.first, c.point2, c.point1, c.secondIsCopy);
          var off := b.offspring + [first];
          var off' := if !cfg.discardSecondChild && |off| < fillSize then off + [second] else off;
          AppendedAreOffspring(b.offspring, off', pop, first, second);
          Some(Brood(off', b.nextId + 2, c.rng))
  }

  /** doReplication: nothing once fillSize offspring exist; otherwise one selected parent's numbered copy with a new id. */
  function DoReplication(cfg: GPConfig, pop: seq<Individual>, b: Brood, fillSize: int): (res: Option<Brood>)
    ensures |b.offspring| == fillSize ==> res == Some(b)
    ensures res.Some? && |b.offspring| != fillSize ==>
      |res.value.offspring| == |b.offspring| + 1 && b.offspring < res.value.offspring
      && exists k :: 0 <= k < |pop| && res.value.offspring[|b.offspring|] == Replicate(pop[k]).(id := Some(b.nextId))
    ensures res.Some? ==> forall k :: |b.offspring| <= k < |res.value.offspring| ==> OffspringOf(res.value.offspring[k], pop)
  {
    if |b.offspring| == fillSize then Some(b)
    else if |pop| == 0 then None
    else
      match SelectOne(cfg, pop, b.rng)
      case None => None
      case Some(p) =>
        var child := Replicate(pop[p.index]).(id := Some(b.nextId));
        Some(Brood(b.offspring + [child], b.nextId + 1, p.rng))
  }

  /** breed's loop: a crossover-probability coin picks crossover or replication until fillSize offspring exist. */
  function BreedFrom(cfg: GPConfig, pop: seq<Individual>, b: Brood, fillSize: int): (res: Option<Brood>)
    requires |b.offspring| <= fillSize || |b.offspring| == 0
    ensures res.Some? ==> b.offspring <= res.value.offspring
    ensures res.Some? ==> |res.value.offspring| == if fillSize < 0 then 0 else fillSize
    ensures res.Some? ==> forall k :: |b.offspring| <= k < |res.value.offspring| ==> OffspringOf(res.value.offspring[k], pop)
    decreases fillSize - |b.offspring|
  {
    if |b.offspring| >= fillSize then Some(b)
    else
      match BreedRound(cfg, pop, b, fillSize)
      case None => None
      case Some(b') =>
        var res := BreedFrom(cfg, pop, b', fillSize);
        if res.None? then None
        else
          OffspringJoin(b.offspring, b'.offspring, res.value.offspring, pop);
          res
  }

  /** One round of breed's loop: the crossover-probability coin, then crossover or replication. */
  function BreedRound(cfg: GPConfig, pop: seq<Individual>, b: Brood, fillSize: int): (res: Option<Brood>)
    requires |b.offspring| < fillSize
    ensures res.Some? ==> b.offspring < res.value.offspring && |res.value.offspring| <= fillSize
    ensures res.Some? ==> forall k :: |b.offspring| <= k < |res.value.offspring| ==> OffspringOf(res.value.offspring[k], pop)
  {
    var (cross, r1) := NextBool(b.rng, cfg.crossProb);
    if cross then DoCrossover(cfg, pop, b.(rng := r1), fillSize)
    else DoReplication(cfg, pop, b.(rng := r1), fillSize)
  }

  /** Offspring added in two stretches are offspring added in one. */
  lemma OffspringJoin(first: seq<Individual>, mid: seq<Individual>, last: seq<Individual>, pop: seq<Individual>)
    requires first <= mid <= last
    requires forall k :: |first| <= k < |mid| ==> OffspringOf(mid[k], pop)
    requires forall k :: |mid| <= k < |last| ==> OffspringOf(last[k], pop)
    ensures forall k :: |first| <= k < |last| ==> OffspringOf(last[k], pop)
  {
    forall k | |first| <= k < |last|
      ensures OffspringOf(last[k], pop)
    {
      if k < |mid| {
        assert last[k] == mid[k];
      }
    }
  }

  /** x is a replicate of some member of pop, under whatever id it was given. */
  predicate ReplicaOf(x: Individual, pop: seq<Individual>)
  {
    exists k :: 0 <= k < |pop| && x == Replicate(pop[k]).(id := x.id)
  }

  /** With a crossover probability of 0 one round of breed replicates: the offspring grow by one replicate and breeding carries on from there. */
  lemma NoCrossoverStep(cfg: GPConfig, pop: seq<Individual>, b: Brood, fillSize: int)
    requires cfg.crossProb <= 0.0 && |b.offspring| < fillSize
    requires BreedFrom(cfg, pop, b, fillSize).Some?
    ensures var next := DoReplication(cfg, pop, b.(rng := NextBool(b.rng, cfg.crossProb).1), fillSize);
      next.Some? && |next.value.offspring| == |b.offspring| + 1 && b.offspring < next.value.offspring
      && ReplicaOf(next.value.offspring[|b.offspring|], pop)
      && BreedFrom(cfg, pop, b, fillSize) == BreedFrom(cfg, pop, next.value, fillSize)
  {
    var r1 := NextBool(b.rng, cfg.crossProb).1;
    var b' := DoReplication(cfg, pop, b.(rng := r1), fillSize).value;
    var k :| 0 <= k < |pop| && b'.offspring[|b.offspring|] == Replicate(pop[k]).(id := Some(b.nextId));
  }

  /** With a crossover probability of 0 every bred offspring is a replicate of a member of the old population. */
  lemma {:induction false} NoCrossoverOnlyReplicates(cfg: GPConfig, pop: seq<Individual>, b: Brood, fillSize: int)
    requires cfg.crossProb <= 0.0
    requires |b.offspring| <= fillSize || |b.offspring| == 0
    requires BreedFrom(cfg, pop, b, fillSize).Some?
    ensures var off := BreedFrom(cfg, pop, b, fillSize).value.offspring;
      forall m :: |b.offspring| <= m < |off| ==> ReplicaOf(off[m], pop)
    decreases fillSize - |b.offspring|
  {
    if |b.offspring| < fillSize {
      NoCrossoverStep(cfg, pop, b, fillSize);
      var b' := DoReplication(cfg, pop, b.(rng := NextBool(b.rng, cfg.crossProb).1), fillSize).value;
      NoCrossoverOnlyReplicates(cfg, pop, b', fillSize);
      var off := BreedFrom(cfg, pop, b', fillSize).value.offspring;
      ReplicasExtend(pop, |b.offspring|, b'.offspring, off);
    }
  }

  /** A replica followed by replicas: every offspring from position n on is a replica. */
  lemma ReplicasExtend(pop: seq<Individual>, n: nat, mid: seq<Individual>, off: seq<Individual>)
    requires mid <= off && |mid| == n + 1 && ReplicaOf(mid[n], pop)
    requires forall m :: |mid| <= m < |off| ==> ReplicaOf(off[m], pop)
    ensures forall m :: n <= m < |off| ==> ReplicaOf(off[m], pop)
  {
    assert off[n] == mid[n];
  }

  /**
   * doMutation as written: every individual is mutated with the mutation
   * probability, but the mutant is only assigned to the loop variable, so
   * the collection comes back unchanged; only the generator moves on. None
   * is a failure inside mutate.
   */
  function DoMutationAsWritten(cfg: GPConfig, inds: seq<Individual>, r: Rng): (res: Option<(seq<Individual>, Rng)>)
    ensures res.Some? ==> res.value.0 == inds && res.value.1.pos >= r.pos + |inds|
    decreases |inds|
  {
    if inds == [] then Some((inds, r))
    else
      var (heads, r1) := NextBool(r, cfg.mutation.mutationProb);
      var after :=
        if heads then
          match Mutate(inds[0], cfg.mutation, r1, cfg.fuel)
          case None => None
          case Some((_, r2)) => Some(r2)
        else Some(r1);
      match after
      case None => None
      case Some(r2) =>
        match DoMutationAsWritten(cfg, inds[1..], r2)
        case None => None
        case Some((_, r3)) => Some((inds, r3))
  }

  /**
   * What doMutation makes of x when the coin fires: an unevaluated clone
   * with the same age, optimal flag, layer and node count, under a new id
   * drawn from [lo, hi).
   */
  predicate MutantOf(m: Individual, x: Individual, lo: nat, hi: nat)
  {
    !m.evaluated && m.fitness == 0.0 && m.hits == 0
    && m.age == x.age && m.optimal == x.optimal && m.currentLayer == x.currentLayer
    && m.numNodes == Size(x.root)
    && m.id.Some? && lo <= m.id.value < hi
  }

  /**
   * doMutation as evidently intended: an individual whose coin fires is
   * replaced in the collection by its mutant, which gets a new id (setId).
   * At probability 0 nothing changes; at probability 1 every member is
   * replaced by a mutant.
   */
  function DoMutation(cfg: GPConfig, inds: seq<Individual>, nextId: nat, r: Rng): (res: Option<(seq<Individual>, nat, Rng)>)
    ensures res.Some? ==>
      var (out, next, r') := res.value;
      |out| == |inds| && nextId <= next && r'.pos >= r.pos + |inds|
      && forall j :: 0 <= j < |inds| ==>
           out[j].age == inds[j].age && (out[j] == inds[j] || MutantOf(out[j], inds[j], nextId, next))
    ensures cfg.mutation.mutationProb <= 0.0 ==> res.Some? && res.value.0 == inds && res.value.1 == nextId
    ensures cfg.mutation.mutationProb >= 1.0 && res.Some? ==>
      forall j :: 0 <= j < |inds| ==> MutantOf(res.value.0[j], inds[j], nextId, res.value.1)
    decreases |inds|
  {
    if inds == [] then Some((inds, nextId, r))
    else
      match MutateOne(cfg, inds[0], nextId, r)
      case None => None
      case Some((x, n1, r2)) =>
        match DoMutation(cfg, inds[1..], n1, r2)
        case None => None
        case Some((rest, n2, r3)) =>
          MutationCons(cfg, inds, x, rest, nextId, n1, n2);
          Some(([x] + rest, n2, r3))
  }

  /** Joins one individual's mutation outcome with the rest of the collection's. */
  lemma MutationCons(cfg: GPConfig, inds: seq<Individual>, x: Individual, rest: seq<Individual>, nextId: nat, n1: nat, n2: nat)
    requires inds != [] && |rest| == |inds| - 1 && nextId <= n1 <= n2
    requires x.age == inds[0].age && ((x == inds[0] && n1 == nextId) || MutantOf(x, inds[0], nextId, n1))
    requires cfg.mutation.mutationProb >= 1.0 ==> MutantOf(x, inds[0], nextId, n1)
    requires forall j :: 0 <= j < |inds[1..]| ==>
      rest[j].age == inds[1..][j].age && (rest[j] == inds[1..][j] || MutantOf(rest[j], inds[1..][j], n1, n2))
    requires cfg.mutation.mutationProb >= 1.0 ==>
      forall j :: 0 <= j < |inds[1..]| ==> MutantOf(rest[j], inds[1..][j], n1, n2)
    ensures forall j :: 0 <= j < |inds| ==>
      ([x] + rest)[j].age == inds[j].age && (([x] + rest)[j] == inds[j] || MutantOf(([x] + rest)[j], inds[j], nextId, n2))
    ensures cfg.mutation.mutationProb >= 1.0 ==>
      forall j :: 0 <= j < |inds| ==> MutantOf(([x] + rest)[j], inds[j], nextId, n2)
  {
    var out := [x] + rest;
    forall j | 0 <= j < |inds|
      ensures out[j].age == inds[j].age && (out[j] == inds[j] || MutantOf(out[j], inds[j], nextId, n2))
      ensures cfg.mutation.mutationProb >= 1.0 ==> MutantOf(out[j], inds[j], nextId, n2)
    {
      if j == 0 {
        MutantWiden(x, inds[0], nextId, nextId, n1, n2);
      } else {
        assert out[j] == rest[j - 1] && inds[j] == inds[1..][j - 1];
        MutantWiden(out[j], inds[j], nextId, n1, n2, n2);
      }
    }
  }

  /** A mutant whose id lies in [lo, hi) has it in any wider range [lo', hi') too. */
  lemma MutantWiden(m: Individual, x: Individual, lo': nat, lo: nat, hi: nat, hi': nat)
    requires lo' <= lo && hi <= hi'
    ensures MutantOf(m, x, lo, hi) ==> MutantOf(m, x, lo', hi')
  {
  }

  /** One individual's turn in doMutation: when the coin fires it is replaced by its mutant under the next id. */
  function MutateOne(cfg: GPConfig, x: Individual, nextId: nat, r: Rng): (res: Option<(Individual, nat, Rng)>)
    ensures res.Some? ==>
      var (m, next, r') := res.value;
      m.age == x.age && nextId <= next && r'.pos >= r.pos + 1
      && ((m == x && next == nextId) || MutantOf(m, x, nextId, next))
    ensures cfg.mutation.mutationProb <= 0.0 ==> res.Some? && res.value.0 == x && res.value.1 == nextId
    ensures cfg.mutation.mutationProb >= 1.0 && res.Some? ==> MutantOf(res.value.0, x, nextId, res.value.1)
  {
    var (heads, r1) := NextBool(r, cfg.mutation.mutationProb);
    if heads then
      match Mutate(x, cfg.mutation, r1, cfg.fuel)
      case None => None
      case Some((m, r2)) => Some((m.(id := Some(nextId)), nextId + 1, r2))
    else Some((x, nextId, r1))
  }

  /**
   * The two versions part as soon as the coin fires on an evaluated
   * individual that mutate can handle: as written the collection keeps it,
   * the corrected pass replaces it by an unevaluated mutant.
   */
  lemma MutantsDiscardedAsWritten(cfg: GPConfig, x: Individual, nextId: nat, r: Rng)
    requires cfg.mutation.mutationProb >= 1.0 && x.evaluated
    requires WellFormed(x.root) && x.numNodes <= Size(x.root)
    requires |cfg.mutation.terminalSet| > 0 && AllTerminals(cfg.mutation.terminalSet)
    ensures DoMutationAsWritten(cfg, [x], r).Some? && DoMutationAsWritten(cfg, [x], r).value.0 == [x]
    ensures DoMutation(cfg, [x], nextId, r).Some?
    ensures DoMutation(cfg, [x], nextId, r).value.0[0] != x
    ensures !DoMutation(cfg, [x], nextId, r).value.0[0].evaluated
  {
    var r1 := NextBool(r, cfg.mutation.mutationProb).1;
    MutateDefined(x, cfg.mutation, r1, cfg.fuel);
    assert [x][1..] == [];
  }

  // ------------------------------------------------------------- elitism

  /** The fitness at position i; sortedness quantifies over this term only, so it is instantiated where a proof names it. */
  function FitnessAt(s: seq<Individual>, i: int): real
    requires 0 <= i < |s|
  {
    s[i].fitness
  }

  /** Ascending by fitness. */
  predicate SortedByFitness(s: seq<Individual>)
  {
    forall i, j :: 0 <= i < j < |s| ==> FitnessAt(s, i) <= FitnessAt(s, j)
  }

  /** Dropping the first element keeps a list sorted. */
  lemma SortedTail(s: seq<Individual>)
    requires SortedByFitness(s) && s != []
    ensures SortedByFitness(s[1..])
  {
    forall i, j | 0 <= i < j < |s| - 1
      ensures FitnessAt(s[1..], i) <= FitnessAt(s[1..], j)
    {
      assert FitnessAt(s, i + 1) <= FitnessAt(s, j + 1);
    }
  }

  /** Inserts x after every element not fitter than it, which keeps equal elements in arrival order. */
  function InsertByFitness(x: Individual, s: seq<Individual>): (r: seq<Individual>)
    requires SortedByFitness(s)
    ensures |r| == |s| + 1
    ensures forall y :: y in r <==> y == x || y in s
    ensures SortedByFitness(r)
  {
    if s == [] then [x]
    else if x.fitness < s[0].fitness then
      var r := [x] + s;
      forall i, j | 0 <= i < j < |r|
        ensures FitnessAt(r, i) <= FitnessAt(r, j)
      {
        if i == 0 {
          assert FitnessAt(s, 0) <= FitnessAt(s, j - 1) || j == 1;
        } else {
          assert FitnessAt(s, i - 1) <= FitnessAt(s, j - 1);
        }
      }
      r
    else
      SortedTail(s);
      var rest := InsertByFitness(x, s[1..]);
      assert s == [s[0]] + s[1..];
      assert forall k :: 0 <= k < |rest| ==> s[0].fitness <= rest[k].fitness by {
        forall k | 0 <= k < |rest|
          ensures s[0].fitness <= rest[k].fitness
        {
          assert rest[k] in rest;
          if rest[k] != x {
            var m :| 0 <= m < |s[1..]| && s[1..][m] == rest[k];
            assert s[m + 1] == rest[k];
            assert FitnessAt(s, 0) <= FitnessAt(s, m + 1);
          }
        }
      }
      var r := [s[0]] + rest;
      forall i, j | 0 <= i < j < |r|
        ensures FitnessAt(r, i) <= FitnessAt(r, j)
      {
        if i > 0 {
          assert FitnessAt(rest, i - 1) <= FitnessAt(rest, j - 1);
        }
      }
      r
  }

  /** Collections.sort by compareTo: ascending fitness, a stable insertion sort here. */
  function SortByFitness(s: seq<Individual>): (r: seq<Individual>)
    ensures |r| == |s|
    ensures forall y :: y in r <==> y in s
    ensures SortedByFitness(r)
  {
    if s == [] then []
    else
      var front := s[..|s| - 1];
      assert s == front + [s[|s| - 1]];
      InsertByFitness(s[|s| - 1], SortByFitness(front))
  }

  /** Insertion adds exactly one occurrence of x. */
  lemma {:induction false} InsertPermutes(x: Individual, s: seq<Individual>)
    requires SortedByFitness(s)
    ensures multiset(InsertByFitness(x, s)) == multiset(s) + multiset{x}
  {
    if s != [] && x.fitness >= s[0].fitness {
      SortedTail(s);
      InsertPermutes(x, s[1..]);
      assert s == [s[0]] + s[1..];
    }
  }

  /** The sort is a permutation: every individual occurs as often as before. */
  lemma {:induction false} SortPermutes(s: seq<Individual>)
    ensures multiset(SortByFitness(s)) == multiset(s)
  {
    if s != [] {
      var front := s[..|s| - 1];
      assert s == front + [s[|s| - 1]];
      SortPermutes(front);
      InsertPermutes(s[|s| - 1], SortByFitness(front));
    }
  }

  /** Copies of the last n members of s, the last one first. */
  function CopiesFromTop(s: seq<Individual>, n: nat): (r: seq<Individual>)
    requires n <= |s|
    ensures |r| == n && forall i :: 0 <= i < n ==> r[i] == Copy(s[|s| - 1 - i])
    ensures forall i :: 0 <= i < n ==> r[i].age == s[|s| - 1 - i].age && r[i].fitness == s[|s| - 1 - i].fitness
  {
    if n == 0 then [] else CopiesFromTop(s, n - 1) + [Copy(s[|s| - n])]
  }

  /** The copies from the top of a sorted list come fittest first, and none is less fit than the rest of the list. */
  lemma TopCopiesOrdered(s: seq<Individual>, n: nat)
    requires SortedByFitness(s) && n <= |s|
    ensures forall i, j :: 0 <= i < j < n ==> CopiesFromTop(s, n)[i].fitness >= CopiesFromTop(s, n)[j].fitness
    ensures forall i, j :: 0 <= i < n && 0 <= j < |s| - n ==> s[j].fitness <= CopiesFromTop(s, n)[i].fitness
  {
    var r := CopiesFromTop(s, n);
    forall i, j | 0 <= i < j < n
      ensures r[i].fitness >= r[j].fitness
    {
      assert FitnessAt(s, |s| - 1 - j) <= FitnessAt(s, |s| - 1 - i);
    }
    forall i, j | 0 <= i < n && 0 <= j < |s| - n
      ensures s[j].fitness <= r[i].fitness
    {
      assert FitnessAt(s, j) <= FitnessAt(s, |s| - 1 - i);
    }
  }

  /**
   * addElites: with numElites > 0 the population is sorted ascending and
   * copies of its last numElites members, fittest first, are the elites; a
   * numElites above the population size runs off the front (None).
   */
  function AddElites(pop: seq<Individual>, numElites: int): (res: Option<seq<Individual>>)
    ensures numElites <= 0 ==> res == Some([])
    ensures res.Some? ==> ElitesOf(res.value, pop)
    ensures res.None? <==> numElites > |pop|
    ensures res.Some? && numElites > 0 ==>
      |res.value| == numElites
      && (forall i :: 0 <= i < numElites ==> res.value[i] == Copy(SortByFitness(pop)[|pop| - 1 - i]))
      && (forall i, j :: 0 <= i < j < numElites ==> res.value[i].fitness >= res.value[j].fitness)
      && (forall i, j :: 0 <= i < numElites && 0 <= j < |pop| - numElites ==>
            SortByFitness(pop)[j].fitness <= res.value[i].fitness)
  {
    if numElites <= 0 then Some([])
    else if numElites > |pop| then None
    else
      var sorted := SortByFitness(pop);
      var r := CopiesFromTop(sorted, numElites);
      TopCopiesOrdered(sorted, numElites);
      Some(r)
  }

  /** After sorting, the last individual is at least as fit as every member of the population. */
  lemma SortedLastIsFittest(pop: seq<Individual>)
    requires |pop| > 0
    ensures forall j :: 0 <= j < |pop| ==> pop[j].fitness <= SortByFitness(pop)[|pop| - 1].fitness
  {
    var s := SortByFitness(pop);
    forall j | 0 <= j < |pop|
      ensures pop[j].fitness <= s[|pop| - 1].fitness
    {
      assert pop[j] in s;
      var k :| 0 <= k < |s| && s[k] == pop[j];
      if k < |s| - 1 {
        assert FitnessAt(s, k) <= FitnessAt(s, |s| - 1);
      }
    }
  }

  /** The first elite is at least as fit as every member of the population. */
  lemma FirstEliteIsFittest(pop: seq<Individual>, numElites: int)
    requires 0 < numElites <= |pop|
    ensures forall j :: 0 <= j < |pop| ==> pop[j].fitness <= AddElites(pop, numElites).value[0].fitness
  {
    SortedLastIsFittest(pop);
  }

  // ----------------------------------------------------------- evaluation

  /** The run-wide record the evaluation threads update under their lock. */
  datatype Tally = Tally(best: Option<Individual>, bestFitness: real, foundOptimal: bool, numEvaluations: int)

  /**
   * One evaluation counted: a fitter individual (or the first) becomes the
   * best so far, and a best fitness of exactly 1.0 marks the optimum found.
   */
  function Record(t: Tally, e: Individual): (r: Tally)
    ensures r.numEvaluations == t.numEvaluations + 1
    ensures r.best.Some? && e.fitness <= r.bestFitness
    ensures t.best.Some? ==> t.bestFitness <= r.bestFitness
    ensures r.bestFitness == t.bestFitness || r.bestFitness == e.fitness
    ensures r.foundOptimal <==> t.foundOptimal || r.bestFitness == 1.0
    ensures r.best != t.best ==> r.best == Some(Copy(e)) && r.bestFitness == e.fitness
  {
    if t.best.None? || e.fitness > t.bestFitness then
      Tally(Some(Copy(e)), e.fitness, t.foundOptimal || e.fitness == 1.0, t.numEvaluations + 1)
    else
      Tally(t.best, t.bestFitness, t.foundOptimal || t.bestFitness == 1.0, t.numEvaluations + 1)
  }

  /**
   * The evaluation of a population, done in order (the source splits it
   * over threads): each unevaluated individual gets its fitness and is
   * recorded; evaluated ones are left alone.
   */
  function EvaluateAll(p: BoolProblem, pop: seq<Individual>, t: Tally): (res: Option<(seq<Individual>, Tally)>)
    ensures res.Some? ==> EvaluatedWith(pop, res.value.0, t, res.value.1)
    ensures res.Some? ==> KeepsOptimum(pop, res.value.0, t, res.value.1)
    ensures res.Some? ==> res.value.1.numEvaluations == t.numEvaluations + Pending(pop)
    decreases |pop|
  {
    if pop == [] then Some(([], t))
    else
      match EvaluateOne(p, pop[0], t)
      case None => None
      case Some((e, t1)) =>
        match EvaluateAll(p, pop[1..], t1)
        case None => None
        case Some((rest, t2)) =>
          var out := [e] + rest;
          forall j | 1 <= j < |out|
            ensures out[j] == rest[j - 1] && pop[j] == pop[1..][j - 1]
          {
          }
          Some((out, t2))
  }

  /** The number of members still to be evaluated. */
  function Pending(pop: seq<Individual>): (n: nat)
    ensures n <= |pop|
  {
    if pop == [] then 0 else (if pop[0].evaluated then 0 else 1) + Pending(pop[1..])
  }

  /** A population none of whose members is evaluated is pending in full. */
  lemma {:induction false} AllPending(pop: seq<Individual>)
    requires forall j :: 0 <= j < |pop| ==> !pop[j].evaluated
    ensures Pending(pop) == |pop|
  {
    if pop != [] {
      assert !pop[0].evaluated;
      AllPending(pop[1..]);
    }
  }

  /**
   * out is pop with every member evaluated: the evaluated ones unchanged,
   * the others scored and no fitter than the tally's best, which only
   * grows, as do the evaluation count and the optimum mark.
   */
  predicate EvaluatedWith(pop: seq<Individual>, out: seq<Individual>, t: Tally, t': Tally)
  {
    |out| == |pop|
    && (forall j :: 0 <= j < |out| ==> out[j].evaluated)
    && (forall j :: 0 <= j < |out| && pop[j].evaluated ==> out[j] == pop[j])
    && (forall j :: 0 <= j < |out| ==> Scored(out[j], pop[j]))
    && (forall j :: 0 <= j < |out| && !pop[j].evaluated ==> t'.best.Some? && out[j].fitness <= t'.bestFitness)
    && t'.numEvaluations >= t.numEvaluations
    && (t.foundOptimal ==> t'.foundOptimal)
    && (t.best.Some? ==> t'.best.Some? && t.bestFitness <= t'.bestFitness)
  }

  /**
   * Evaluation never lifts a best fitness above 1.0, and an individual
   * scored 1.0 during it leaves the optimum marked found.
   */
  predicate KeepsOptimum(pop: seq<Individual>, out: seq<Individual>, t: Tally, t': Tally)
    requires |out| == |pop|
  {
    t.bestFitness <= 1.0 ==>
      t'.bestFitness <= 1.0
      && ((exists j :: 0 <= j < |pop| && !pop[j].evaluated && out[j].fitness == 1.0) ==> t'.foundOptimal)
  }

  /** e is x scored: only its hits, fitness and optimal mark may differ, and it is marked evaluated. */
  predicate Scored(e: Individual, x: Individual)
  {
    e == x.(hits := e.hits, fitness := e.fitness, optimal := e.optimal, evaluated := true)
  }

  /**
   * One individual's turn in evaluatePop: an evaluated one is left alone;
   * otherwise its fitness is computed and recorded in the tally. Only the
   * hits, fitness and flags of the individual change.
   */
  function EvaluateOne(p: BoolProblem, x: Individual, t: Tally): (res: Option<(Individual, Tally)>)
    ensures x.evaluated ==> res == Some((x, t))
    ensures res.Some? ==> Scored(res.value.0, x)
    ensures !x.evaluated && res.Some? ==> res.value.1 == Record(t, res.value.0) && 0.0 <= res.value.0.fitness <= 1.0
  {
    if x.evaluated then Some((x, t))
    else
      match Fitness(p, x)
      case None => None
      case Some(e) => Some((e, Record(t, e)))
  }

  /** evaluatePop's loop takes the first individual's turn, then carries on with the rest from the tally it left. */
  lemma EvaluateAllCons(p: BoolProblem, pop: seq<Individual>, t: Tally)
    requires pop != [] && EvaluateAll(p, pop, t).Some?
    ensures EvaluateOne(p, pop[0], t).Some?
    ensures var (e, t1) := EvaluateOne(p, pop[0], t).value;
      EvaluateAll(p, pop[1..], t1).Some?
      && EvaluateAll(p, pop, t).value == ([e] + EvaluateAll(p, pop[1..], t1).value.0, EvaluateAll(p, pop[1..], t1).value.1)
  {
  }

  /** The run's record of evaluations. */
  function RunTally(st: RunState): Tally
  {
    Tally(st.best, st.bestFitness, st.foundOptimal, st.numEvaluations)
  }

  /** evaluatePop on the run's state. */
  function EvaluatePop(p: BoolProblem, st: RunState): (res: Option<RunState>)
    ensures res.Some? ==>
      |res.value.population| == |st.population|
      && (forall j :: 0 <= j < |st.population| ==> res.value.population[j].evaluated)
      && res.value.numEvaluations >= st.numEvaluations
      && (st.foundOptimal ==> res.value.foundOptimal)
      && res.value.generation == st.generation
    ensures res.Some? ==> forall j :: 0 <= j < |st.population| ==> Scored(res.value.population[j], st.population[j])
    ensures res.Some? ==>
      KeepsOptimum(st.population, res.value.population, RunTally(st), RunTally(res.value))
      && res.value.numEvaluations == st.numEvaluations + Pending(st.population)
  {
    match EvaluateAll(p, st.population, RunTally(st))
    case None => None
    case Some((out, t)) =>
      Some(st.(population := out, best := t.best, bestFitness := t.bestFitness,
               foundOptimal := t.foundOptimal, numEvaluations := t.numEvaluations))
  }

  /**
   * init: the population filled to popSize (Build.Init), then evaluatePop
   * from an empty record at generation 0. Every member is scored and
   * counted once, and a member scoring 1.0 marks the optimum found.
   */
  function StartRun(p: BoolProblem, build: BuildConfig, nextId: nat, r: Rng): (res: Option<RunState>)
    ensures res.Some? && build.popSize >= 0 ==> |res.value.population| == build.popSize
    ensures res.Some? ==>
      var st := res.value;
      st.generation == 0 && st.numEvaluations == |st.population| && st.bestFitness <= 1.0
      && (forall j :: 0 <= j < |st.population| ==> st.population[j].evaluated && st.population[j].id == Some(nextId + j))
    ensures res.Some? ==>
      var st := res.value;
      (exists j :: 0 <= j < |st.population| && st.population[j].fitness == 1.0) ==> st.foundOptimal
  {
    match Init(build, nextId, r)
    case None => None
    case Some(f) =>
      var st := RunState(f.pop, 0, 0, None, 0.0, false, f.nextId, f.rng);
      AllPending(f.pop);
      EvaluatePop(p, st)
  }

  // ---------------------------------------------------------------- step

  /** What the mutation pass leaves of an offspring of pop: the offspring itself, or a mutant of it numbered below hi. */
  ghost predicate BredOrMutant(m: Individual, pop: seq<Individual>, hi: nat)
  {
    OffspringOf(m, pop) || exists x :: OffspringOf(x, pop) && MutantOf(m, x, 0, hi)
  }

  /** Every member of s is an offspring of pop or a mutant of one numbered below hi. */
  ghost predicate AllBred(s: seq<Individual>, pop: seq<Individual>, hi: nat)
  {
    forall k :: 0 <= k < |s| ==> BredOrMutant(s[k], pop, hi)
  }

  /** e holds copies of pop's |e| fittest members, fittest first. */
  ghost predicate ElitesOf(e: seq<Individual>, pop: seq<Individual>)
  {
    |e| <= |pop| && forall i :: 0 <= i < |e| ==> e[i] == Copy(SortByFitness(pop)[|pop| - 1 - i])
  }

  /**
   * breed's first two stages: fillSize offspring of pop, then the mutation
   * pass over them. Each result is an offspring of pop or a mutant of one.
   */
  function MutatedBrood(cfg: GPConfig, pop: seq<Individual>, nextId: nat, r: Rng, fillSize: int)
    : (res: Option<(seq<Individual>, nat, Rng)>)
    ensures res.Some? ==> |res.value.0| == if fillSize < 0 then 0 else fillSize
    ensures res.Some? ==> AllBred(res.value.0, pop, res.value.1)
  {
    match BreedFrom(cfg, pop, Brood([], nextId, r), fillSize)
    case None => None
    case Some(b) =>
      match DoMutation(cfg, b.offspring, b.nextId, b.rng)
      case None => None
      case Some((off, n1, r1)) =>
        MutatedAreBred(b.offspring, off, pop, b.nextId, n1);
        Some((off, n1, r1))
  }

  /** The mutation pass's results over offspring of pop are offspring of pop or mutants of them. */
  lemma MutatedAreBred(offs: seq<Individual>, out: seq<Individual>, pop: seq<Individual>, lo: nat, hi: nat)
    requires |out| == |offs| && forall k :: 0 <= k < |offs| ==> OffspringOf(offs[k], pop)
    requires forall j :: 0 <= j < |offs| ==> out[j] == offs[j] || MutantOf(out[j], offs[j], lo, hi)
    ensures AllBred(out, pop, hi)
  {
    forall k | 0 <= k < |out|
      ensures BredOrMutant(out[k], pop, hi)
    {
      if out[k] != offs[k] {
        MutantWiden(out[k], offs[k], 0, lo, hi, hi);
      }
    }
  }

  /** The two halves of the assembled population. */
  lemma Halves(out: seq<Individual>, elites: seq<Individual>)
    ensures (out + elites)[..|out|] == out && (out + elites)[|out|..] == elites
  {
  }

  /**
   * breed: popSize - numElites offspring, the mutation pass, then the
   * elites; the new population replaces the old one. Each bred member is
   * an offspring of the old population or a mutant of one, and the
   * elites are copies of its fittest members, fittest first.
   */
  function Breed(cfg: GPConfig, st: RunState): (res: Option<RunState>)
    ensures res.Some? && 0 <= cfg.numElites <= cfg.popSize ==> |res.value.population| == cfg.popSize
    ensures res.Some? ==> res.value.generation == st.generation && res.value.numEvaluations == st.numEvaluations
    ensures res.Some? && 0 <= cfg.numElites <= cfg.popSize ==>
      AllBred(res.value.population[..cfg.popSize - cfg.numElites], st.population, res.value.nextId)
      && ElitesOf(res.value.population[cfg.popSize - cfg.numElites..], st.population)
  {
    match MutatedBrood(cfg, st.population, st.nextId, st.rng, cfg.popSize - cfg.numElites)
    case None => None
    case Some((off, n1, r1)) =>
      match AddElites(st.population, cfg.numElites)
      case None => None
      case Some(elites) =>
        Halves(off, elites);
        Some(st.(population := off + elites, nextId := n1, rng := r1))
  }

  /**
   * step: nothing once the run should terminate; otherwise the generation
   * is advanced, a new population bred and evaluated.
   */
  function Step(cfg: GPConfig, st: RunState): (res: Option<RunState>)
    ensures DoTerminate(cfg, st) ==> res == Some(st)
    ensures !DoTerminate(cfg, st) && res.Some? ==>
      res.value.generation == st.generation + 1
      && (0 <= cfg.numElites <= cfg.popSize ==> |res.value.population| == cfg.popSize)
      && (forall j :: 0 <= j < |res.value.population| ==> res.value.population[j].evaluated)
      && res.value.numEvaluations >= st.numEvaluations
      && (st.foundOptimal ==> res.value.foundOptimal)
    ensures !DoTerminate(cfg, st) && res.Some? ==>
      var bred := Breed(cfg, st.(generation := st.generation + 1));
      bred.Some? && |res.value.population| == |bred.value.population|
      && forall j :: 0 <= j < |bred.value.population| ==> Scored(res.value.population[j], bred.value.population[j])
  {
    if DoTerminate(cfg, st) then Some(st)
    else
      match Breed(cfg, st.(generation := st.generation + 1))
      case None => None
      case Some(bred) => EvaluatePop(cfg.problem, bred)
  }

  /**
   * With stop-on-optimal set, a step in which some newly bred individual
   * scores 1.0 ends the run: the next state satisfies doTerminate.
   */
  lemma OptimumStopsRun(cfg: GPConfig, st: RunState, j: nat)
    requires cfg.stopOnOptimal && !DoTerminate(cfg, st) && st.bestFitness <= 1.0
    requires Breed(cfg, st.(generation := st.generation + 1)).Some?
    requires Step(cfg, st).Some?
    requires var bred := Breed(cfg, st.(generation := st.generation + 1)).value;
      j < |bred.population| && !bred.population[j].evaluated
      && Step(cfg, st).value.population[j].fitness == 1.0
    ensures DoTerminate(cfg, Step(cfg, st).value)
  {
    var bred := Breed(cfg, st.(generation := st.generation + 1)).value;
    var t := Tally(bred.best, bred.bestFitness, bred.foundOptimal, bred.numEvaluations);
    assert EvaluateAll(cfg.problem, bred.population, t).value.0[j].fitness == 1.0;
  }
}

=== FILE: individual.dfy ===
/**
 * Individuals (the Individual class): a genome tree with its bookkeeping,
 * numbering and lookup, copies, the fitness order and id equality, random
 * cross point choice and subtree crossover with its acceptance test.
 */
module Individuals {
  import opened Prims
  import opened Tree
  import opened Wrappers
  import opened Rand

  /**
   * An individual. Ids are abstract tokens (the source draws UUIDs); None
   * is the unset id and tag of a new individual.
   */
  datatype Individual = Individual(
    id: Option<nat>,
    tag: Option<string>,
    root: Node,
    depth: int,
    fitness: real,
    hits: int,
    numNodes: int,
    evaluated: bool,
    optimal: bool,
    age: int,
    currentLayer: int)

  /** A freshly constructed individual holding the given tree; its layer is -1, not 0. */
  function NewIndividual(root: Node): (r: Individual)
    ensures r.root == root && r.currentLayer == -1
    ensures !r.evaluated && !r.optimal && r.fitness == 0.0 && r.hits == 0 && r.age == 0
    ensures r.id.None? && r.tag.None?
  {
    Individual(None, None, root, 0, 0.0, 0, 0, false, false, 0, -1)
  }

  /** numberAndCountNodes: renumbers the tree in pre-order and counts its nodes. */
  function NumberAndCount(ind: Individual): (r: Individual)
    ensures r.numNodes == Size(ind.root)
    ensures Nums(r.root) == Range(0, r.numNodes)
    ensures SameShape(r.root, ind.root)
    ensures r == ind.(root := r.root, numNodes := r.numNodes)
  {
    RenumberNumbers(ind.root, 0);
    ind.(root := Renumber(ind.root, 0), numNodes := Size(ind.root))
  }

  /** findNode: the path of the node numbered k, or None (the source logs a warning and returns null). */
  function FindNode(ind: Individual, k: int): (r: Option<seq<nat>>)
    ensures r.Some? ==> ValidPath(ind.root, r.value) && At(ind.root, r.value).num == k
    ensures r.Some? <==> k in Nums(ind.root)
  {
    FindSound(ind.root, k);
    FindComplete(ind.root, k);
    Find(ind.root, k)
  }

  /** After numbering, findNode(k) succeeds exactly for 0 <= k < numNodes. */
  lemma FindNodeAfterNumbering(ind: Individual, k: int)
    ensures FindNode(NumberAndCount(ind), k).Some? <==> 0 <= k < NumberAndCount(ind).numNodes
  {
    FindAfterRenumber(ind.root, k);
  }

  /** toString: the lisp-style printout of the tree. */
  function ToString(ind: Individual): string
  {
    Print(ind.root)
  }

  /**
   * clone and lightClone: every field is copied (the id and layer too) and
   * the copy's tree is renumbered; values are immutable here, so the deep
   * copy of the tree is the tree itself.
   */
  function Copy(ind: Individual): (r: Individual)
    ensures ToString(r) == ToString(ind) && Equals(r, ind)
    ensures r.fitness == ind.fitness && r.hits == ind.hits && r.evaluated == ind.evaluated
    ensures r.age == ind.age && r.tag == ind.tag && r.depth == ind.depth && r.optimal == ind.optimal
    ensures r.currentLayer == ind.currentLayer
    ensures r.numNodes == Size(ind.root) && Nums(r.root) == Range(0, r.numNodes)
    ensures SameShape(r.root, ind.root)
  {
    var r := NumberAndCount(ind);
    SameShapeFacts(r.root, ind.root);
    r
  }

  /** replicate: a numbered light clone. */
  function Replicate(ind: Individual): (r: Individual)
    ensures SameShape(r.root, ind.root) && r.numNodes == Size(ind.root)
    ensures r.fitness == ind.fitness && r.hits == ind.hits && r.evaluated == ind.evaluated && r.age == ind.age
  {
    Copy(ind)
  }

  /** setFitness: stores the fitness and marks the individual optimal at 1.0; the mark is never cleared. */
  function SetFitness(ind: Individual, f: real): (r: Individual)
    ensures r.fitness == f
    ensures r.optimal <==> ind.optimal || f == 1.0
    ensures r == ind.(fitness := f, optimal := r.optimal)
  {
    ind.(fitness := f, optimal := ind.optimal || f == 1.0)
  }

  /** compareTo: orders by fitness alone. */
  function CompareTo(a: Individual, b: Individual): (c: int)
    ensures c == 0 <==> a.fitness == b.fitness
    ensures c < 0 <==> a.fitness < b.fitness
    ensures c > 0 <==> a.fitness > b.fitness
  {
    if a.fitness == b.fitness then 0 else if a.fitness < b.fitness then -1 else 1
  }

  /** compareTo is antisymmetric. */
  lemma CompareToAntisymmetric(a: Individual, b: Individual)
    ensures CompareTo(a, b) == -CompareTo(b, a)
  {
  }

  /** equals: two individuals are equal exactly when their ids are. */
  predicate Equals(a: Individual, b: Individual)
  {
    a.id == b.id
  }

  /** Equality ignores the tree: identical trees under different ids differ, and any change but the id keeps equality. */
  lemma EqualsIgnoresTree(a: Individual, t: Node, i: nat)
    requires a.id != Some(i)
    ensures !Equals(a, a.(id := Some(i)))
    ensures Equals(a, a.(root := t, fitness := 0.0, age := 0))
  {
  }

  /** population.remove(x): the first element equal to x (the same id) is removed, if any. */
  function RemoveFirst(pop: seq<Individual>, id: Option<nat>): (r: seq<Individual>)
    ensures |r| == |pop| || |r| == |pop| - 1
    ensures forall y :: y in r ==> y in pop
    ensures forall y :: y in pop && y.id != id ==> y in r
    ensures (exists k :: 0 <= k < |pop| && pop[k].id == id) <==> |r| == |pop| - 1
  {
    if pop == [] then []
    else if pop[0].id == id then pop[1..]
    else
      var rest := RemoveFirst(pop[1..], id);
      assert forall y :: y in pop <==> y == pop[0] || y in pop[1..] by {
        assert pop == [pop[0]] + pop[1..];
      }
      if exists k :: 0 <= k < |pop| && pop[k].id == id then
        var k :| 0 <= k < |pop| && pop[k].id == id;
        assert pop[1..][k - 1].id == id;
        [pop[0]] + rest
      else
        assert forall k :: 0 <= k < |pop[1..]| ==> pop[1..][k] == pop[k + 1];
        [pop[0]] + rest
  }

  /** setAge(child, p1, p2): the older parent's age. */
  function MaxAge(p1: Individual, p2: Individual): (a: int)
    ensures a >= p1.age && a >= p2.age
    ensures a == p1.age || a == p2.age
  {
    if p1.age < p2.age then p2.age else p1.age
  }

  /**
   * setTrackingInfo: a child that received a subtree takes the older
   * parent's age; a copied child keeps its own parent's age.
   */
  function TrackAge(child: Individual, own: Individual, p1: Individual, p2: Individual, isCopy: bool): (r: Individual)
    ensures r == child.(age := r.age)
    ensures isCopy ==> r.age == own.age
    ensures !isCopy ==> r.age == MaxAge(p1, p2)
  {
    child.(age := if isCopy then own.age else MaxAge(p1, p2))
  }

  // ------------------------------------------------------ cross points

  /** getAllNodes: the paths of the tree's nodes in pre-order. */
  function Paths(t: Node): seq<seq<nat>>
    decreases t, 1
  {
    [[]] + PathsFrom(t, 0)
  }

  function PathsFrom(t: Node, i: nat): seq<seq<nat>>
    decreases t, 0, |t.kids| - i
  {
    if i >= |t.kids| then [] else Prefixed(i, Paths(t.kids[i])) + PathsFrom(t, i + 1)
  }

  function Prefixed(i: nat, ps: seq<seq<nat>>): (r: seq<seq<nat>>)
    ensures |r| == |ps|
    ensures forall k :: 0 <= k < |ps| ==> r[k] == [i] + ps[k]
  {
    seq(|ps|, k requires 0 <= k < |ps| => [i] + ps[k])
  }

  /** There is one path per node, and every one of them leads into the tree. */
  lemma {:induction false} PathsValid(t: Node)
    ensures |Paths(t)| == Size(t)
    ensures forall k :: 0 <= k < |Paths(t)| ==> ValidPath(t, Paths(t)[k])
    decreases t, 1
  {
    PathsFromValid(t, 0);
    assert t.kids[0..] == t.kids;
  }

  lemma {:induction false} PathsFromValid(t: Node, i: nat)
    requires i <= |t.kids|
    ensures |PathsFrom(t, i)| == SizeKids(t.kids[i..])
    ensures forall k :: 0 <= k < |PathsFrom(t, i)| ==> ValidPath(t, PathsFrom(t, i)[k])
    decreases t, 0, |t.kids| - i
  {
    if i < |t.kids| {
      PathsValid(t.kids[i]);
      PathsFromValid(t, i + 1);
      assert t.kids[i..][1..] == t.kids[i + 1..];
      var pre := Prefixed(i, Paths(t.kids[i]));
      var ps := pre + PathsFrom(t, i + 1);
      forall k | 0 <= k < |ps|
        ensures ValidPath(t, ps[k])
      {
        if k < |pre| {
          assert ps[k][1..] == Paths(t.kids[i])[k];
        } else {
          assert ps[k] == PathsFrom(t, i + 1)[k - |pre|];
        }
      }
    }
  }

  /**
   * getRandomNode: a coin with probability crossFuncProb decides between a
   * function and a terminal; uniform draws over all nodes are repeated until
   * one of that kind comes up, except that a one-node individual takes its
   * node at once. The fuel bounds the redraws (the source keeps drawing);
   * when it runs out the last draw is kept.
   */
  function GetRandomNode(ind: Individual, r: Rng, crossFuncProb: real, fuel: nat): (res: (seq<nat>, Rng))
    ensures ValidPath(ind.root, res.0)
    ensures res.1.pos > r.pos
    ensures !NodeKindMatches(ind, res.0, NextBool(r, crossFuncProb).0) ==>
      ind.numNodes == 1 || res.1.pos == r.pos + 2 + fuel
  {
    PathsValid(ind.root);
    var (wantFunc, r1) := NextBool(r, crossFuncProb);
    DrawNode(ind, Paths(ind.root), wantFunc, r1, fuel)
  }

  /** The redraw loop of getRandomNode. */
  function DrawNode(ind: Individual, all: seq<seq<nat>>, wantFunc: bool, r: Rng, fuel: nat): (res: (seq<nat>, Rng))
    requires |all| > 0 && forall k :: 0 <= k < |all| ==> ValidPath(ind.root, all[k])
    ensures ValidPath(ind.root, res.0) && res.0 in all
    ensures res.1.pos > r.pos
    ensures !NodeKindMatches(ind, res.0, wantFunc) ==> ind.numNodes == 1 || res.1.pos == r.pos + 1 + fuel
    decreases fuel
  {
    var (k, r1) := RandBetween(r, 0, |all| - 1);
    var p := all[k];
    if ind.numNodes == 1 || NodeKindMatches(ind, p, wantFunc) || fuel == 0 then (p, r1)
    else DrawNode(ind, all, wantFunc, r1, fuel - 1)
  }

  predicate NodeKindMatches(ind: Individual, p: seq<nat>, wantFunc: bool)
    requires ValidPath(ind.root, p)
  {
    wantFunc != IsTerminal(At(ind.root, p).prim)
  }

  /** The configuration values crossover reads. */
  datatype CrossConfig = CrossConfig(maxDepth: int, maxSize: int, maxCrossAttempts: int, crossFuncProb: real)

  /**
   * crossPointGood: a root cross point is always acceptable; otherwise the
   * donated subtree must fit under maxDepth at the cross point's depth and the
   * recipient, counted by its numNodes, must stay within maxSize.
   */
  predicate CrossPointGood(t: Node, p: seq<nat>, q: Node, recipientSize: int, cfg: CrossConfig)
    requires ValidPath(t, p)
  {
    |p| == 0
    || (NodeDepth(p) + Depth(q) <= cfg.maxDepth && recipientSize - Size(At(t, p)) + Size(q) <= cfg.maxSize)
  }

  /** A subtree is no deeper than what remains below its position. */
  lemma {:induction false} AtDepth(t: Node, p: seq<nat>)
    requires ValidPath(t, p)
    ensures NodeDepth(p) + Depth(At(t, p)) <= Depth(t)
    decreases |p|
  {
    if |p| > 0 {
      AtDepth(t.kids[p[0]], p[1..]);
      DepthKidsIsMax(t.kids);
    }
  }

  /**
   * What an accepted cross point guarantees: substituting q at a good
   * non-root point of a correctly counted tree within maxDepth gives a tree
   * within maxDepth and maxSize; at the root, q itself is the tree.
   */
  lemma CrossPointGoodBounds(t: Node, p: seq<nat>, q: Node, cfg: CrossConfig)
    requires ValidPath(t, p) && CrossPointGood(t, p, q, Size(t), cfg) && Depth(t) <= cfg.maxDepth
    ensures |p| > 0 ==> Depth(Replace(t, p, q)) <= cfg.maxDepth && Size(Replace(t, p, q)) <= cfg.maxSize
    ensures |p| == 0 ==> Replace(t, p, q) == q
  {
    if |p| > 0 {
      ReplaceDepth(t, p, q);
      ReplaceSize(t, p, q);
    }
  }

  /** The outcome of subtreeCrossover, with the cross points it settled on. */
  datatype Crossed = Crossed(first: Individual, second: Individual, point1: seq<nat>, point2: seq<nat>,
                             firstIsCopy: bool, secondIsCopy: bool, rng: Rng)

  /** The source exits the run when a child comes out deeper than maxDepth. */
  datatype CrossAbort = DepthExceeded

  /** The attempts loop: both points are redrawn until one is good or the attempts run out. */
  function CrossAttempts(p1: Individual, p2: Individual, r: Rng, cfg: CrossConfig, fuel: nat, i: nat): (res: (seq<nat>, seq<nat>, Rng))
    requires i < cfg.maxCrossAttempts
    ensures ValidPath(p1.root, res.0) && ValidPath(p2.root, res.1)
    decreases cfg.maxCrossAttempts - i
  {
    var (a, r1) := GetRandomNode(p1, r, cfg.crossFuncProb, fuel);
    var (b, r2) := GetRandomNode(p2, r1, cfg.crossFuncProb, fuel);
    var aGood := CrossPointGood(p1.root, a, At(p2.root, b), p1.numNodes, cfg);
    var bGood := CrossPointGood(p2.root, b, At(p1.root, a), p2.numNodes, cfg);
    if aGood || bGood || i + 1 >= cfg.maxCrossAttempts then (a, b, r2)
    else CrossAttempts(p1, p2, r2, cfg, fuel, i + 1)
  }

  /** A child that received the other parent's subtree at its own cross point. */
  function SwapChild(own: Individual, a: seq<nat>, other: Individual, b: seq<nat>): Individual
    requires ValidPath(own.root, a) && ValidPath(other.root, b)
  {
    NewIndividual(Replace(own.root, a, At(other.root, b)))
  }

  /** numberAndCountNodes followed by setDepth(depthFrom()). */
  function Finish(c: Individual): (r: Individual)
    ensures SameShape(r.root, c.root) && r.numNodes == Size(c.root) && r.depth == Depth(c.root)
    ensures r.numNodes == Size(r.root) && r.depth == Depth(r.root)
    ensures Nums(r.root) == Range(0, r.numNodes)
  {
    var n := NumberAndCount(c);
    SameShapeFacts(n.root, c.root);
    n.(depth := Depth(n.root))
  }

  lemma FinishedCopyShape(p: Individual)
    ensures SameShape(Finish(Copy(p)).root, p.root)
  {
    RenumberNumbers(p.root, 0);
    SameShapeTrans(Finish(Copy(p)).root, Copy(p).root, p.root);
  }

  /**
   * subtreeCrossover. Each child is its parent with the other parent's
   * subtree swapped in when its own cross point is good, or a copy of its
   * parent otherwise; both are renumbered and get their depth recomputed.
   * Swapped children start unevaluated with fitness 0 and take the older
   * parent's age; copies keep fitness, hits, evaluation and their parent's
   * age. A child deeper than maxDepth aborts the run.
   */
  function SubtreeCrossover(p1: Individual, p2: Individual, r: Rng, cfg: CrossConfig, fuel: nat): (res: Result<Crossed, CrossAbort>)
    requires cfg.maxCrossAttempts >= 1
    ensures res.Ok? ==>
      var c := res.value;
      ValidPath(p1.root, c.point1) && ValidPath(p2.root, c.point2)
      && c.first.depth == Depth(c.first.root) <= cfg.maxDepth
      && c.second.depth == Depth(c.second.root) <= cfg.maxDepth
      && c.first.numNodes == Size(c.first.root) && c.second.numNodes == Size(c.second.root)
      && (c.firstIsCopy <==> !CrossPointGood(p1.root, c.point1, At(p2.root, c.point2), p1.numNodes, cfg))
      && (c.secondIsCopy <==> !CrossPointGood(p2.root, c.point2, At(p1.root, c.point1), p2.numNodes, cfg))
      && (c.firstIsCopy ==> (SameShape(c.first.root, p1.root) && c.first.fitness == p1.fitness
            && c.first.hits == p1.hits && c.first.evaluated == p1.evaluated && c.first.age == p1.age))
      && (!c.firstIsCopy ==> (SameShape(c.first.root, Replace(p1.root, c.point1, At(p2.root, c.point2)))
            && !c.first.evaluated && c.first.fitness == 0.0 && c.first.hits == 0 && c.first.age == MaxAge(p1, p2)))
      && (c.secondIsCopy ==> (SameShape(c.second.root, p2.root) && c.second.fitness == p2.fitness
            && c.second.hits == p2.hits && c.second.evaluated == p2.evaluated && c.second.age == p2.age))
      && (!c.secondIsCopy ==> (SameShape(c.second.root, Replace(p2.root, c.point2, At(p1.root, c.point1)))
            && !c.second.evaluated && c.second.fitness == 0.0 && c.second.hits == 0 && c.second.age == MaxAge(p1, p2)))
    ensures res.Err? <==> !(Depth(FirstTree(p1, p2, r, cfg, fuel)) <= cfg.maxDepth && Depth(SecondTree(p1, p2, r, cfg, fuel)) <= cfg.maxDepth)
    ensures res.Ok? ==> (Size(res.value.first.root) == Size(FirstTree(p1, p2, r, cfg, fuel))
                         && Size(res.value.second.root) == Size(SecondTree(p1, p2, r, cfg, fuel)))
    ensures res.Ok? ==> (res.value.point1, res.value.point2) == (CrossAttempts(p1, p2, r, cfg, fuel, 0).0, CrossAttempts(p1, p2, r, cfg, fuel, 0).1)
  {
    var (a, b, r') := CrossAttempts(p1, p2, r, cfg, fuel, 0);
    var aGood := CrossPointGood(p1.root, a, At(p2.root, b), p1.numNodes, cfg);
    var bGood := CrossPointGood(p2.root, b, At(p1.root, a), p2.numNodes, cfg);
    var c0 := CrossChild(p1, a, p2, b, aGood, p1, p2);
    var c1 := CrossChild(p2, b, p1, a, bGood, p1, p2);
    if c0.depth > cfg.maxDepth || c1.depth > cfg.maxDepth then Err(DepthExceeded)
    else Ok(Crossed(c0, c1, a, b, !aGood, !bGood, r'))
  }

  /**
   * One child of subtreeCrossover: its own parent with the other parent's
   * subtree swapped in at a good cross point, a copy of its own parent
   * otherwise; renumbered, its depth recomputed and its age tracked.
   */
  function CrossChild(own: Individual, a: seq<nat>, other: Individual, b: seq<nat>, good: bool, p1: Individual, p2: Individual): (c: Individual)
    requires ValidPath(own.root, a) && ValidPath(other.root, b)
    ensures c.depth == Depth(c.root) && c.numNodes == Size(c.root)
    ensures c.depth == Depth(if good then Replace(own.root, a, At(other.root, b)) else own.root)
    ensures c.numNodes == Size(if good then Replace(own.root, a, At(other.root, b)) else own.root)
    ensures !good ==> (SameShape(c.root, own.root) && c.fitness == own.fitness && c.hits == own.hits
                       && c.evaluated == own.evaluated && c.age == own.age)
    ensures good ==> (SameShape(c.root, Replace(own.root, a, At(other.root, b)))
                      && !c.evaluated && c.fitness == 0.0 && c.hits == 0 && c.age == MaxAge(p1, p2))
  {
    var f := Finish(if good then SwapChild(own, a, other, b) else Copy(own));
    FinishedCopyShape(own);
    SameShapeFacts(f.root, if good then Replace(own.root, a, At(other.root, b)) else own.root);
    TrackAge(f, own, p1, p2, !good)
  }

  /** The first child's tree before numbering. */
  function FirstTree(p1: Individual, p2: Individual, r: Rng, cfg: CrossConfig, fuel: nat): Node
    requires cfg.maxCrossAttempts >= 1
  {
    var (a, b, _) := CrossAttempts(p1, p2, r, cfg, fuel, 0);
    if CrossPointGood(p1.root, a, At(p2.root, b), p1.numNodes, cfg) then Replace(p1.root, a, At(p2.root, b)) else p1.root
  }

  function SecondTree(p1: Individual, p2: Individual, r: Rng, cfg: CrossConfig, fuel: nat): Node
    requires cfg.maxCrossAttempts >= 1
  {
    var (a, b, _) := CrossAttempts(p1, p2, r, cfg, fuel, 0);
    if CrossPointGood(p2.root, b, At(p1.root, a), p2.numNodes, cfg) then Replace(p2.root, b, At(p1.root, a)) else p2.root
  }

  /**
   * Parents that are correctly counted and within maxDepth never make
   * crossover abort, and a child built at a good non-root cross point stays
   * within maxSize.
   */
  lemma CrossoverNeverAborts(p1: Individual, p2: Individual, r: Rng, cfg: CrossConfig, fuel: nat)
    requires cfg.maxCrossAttempts >= 1
    requires p1.numNodes == Size(p1.root) && p2.numNodes == Size(p2.root)
    requires Depth(p1.root) <= cfg.maxDepth && Depth(p2.root) <= cfg.maxDepth
    ensures SubtreeCrossover(p1, p2, r, cfg, fuel).Ok?
    ensures var c := SubtreeCrossover(p1, p2, r, cfg, fuel).value;
      (!c.firstIsCopy && |c.point1| > 0 ==> Size(c.first.root) <= cfg.maxSize)
      && (!c.secondIsCopy && |c.point2| > 0 ==> Size(c.second.root) <= cfg.maxSize)
  {
    var (a, b, _) := CrossAttempts(p1, p2, r, cfg, fuel, 0);
    var aGood := CrossPointGood(p1.root, a, At(p2.root, b), p1.numNodes, cfg);
    var bGood := CrossPointGood(p2.root, b, At(p1.root, a), p2.numNodes, cfg);
    CrossChildBounds(p1, a, p2, b, aGood, cfg);
    CrossChildBounds(p2, b, p1, a, bGood, cfg);
  }

  /** A child of correctly counted parents within maxDepth is within maxDepth, and within maxSize when built at a good non-root point. */
  lemma CrossChildBounds(own: Individual, a: seq<nat>, other: Individual, b: seq<nat>, good: bool, cfg: CrossConfig)
    requires ValidPath(own.root, a) && ValidPath(other.root, b)
    requires own.numNodes == Size(own.root) && Depth(own.root) <= cfg.maxDepth && Depth(other.root) <= cfg.maxDepth
    requires good <==> CrossPointGood(own.root, a, At(other.root, b), own.numNodes, cfg)
    ensures Depth(if good then Replace(own.root, a, At(other.root, b)) else own.root) <= cfg.maxDepth
    ensures good && |a| > 0 ==> Size(Replace(own.root, a, At(other.root, b))) <= cfg.maxSize
  {
    AtDepth(other.root, b);
    if good {
      CrossPointGoodBounds(own.root, a, At(other.root, b), cfg);
    }
  }
}

=== FILE: layered.dfy ===
/**
 * The layered GP (Hornby's ALPS): a population of capacity-bounded
 * layers, individuals moving up when they outgrow their layer's age
 * ceiling, layer-by-layer breeding with elites, a new layer added on the
 * scheme's schedule and layer 0 regenerated when it empties or is due.
 */
module LayeredGP {
  import opened Wrappers
  import opened Rand
  import opened Individuals
  import opened Build
  import opened Problems
  import opened GP
  import opened Layers

  // ------------------------------------------------------------ move-up

  /** What the move-up machinery needs: the layer capacity, the age gap and the configured number of layers. */
  datatype Ladder = Ladder(capacity: int, ageGap: int, maxNumLayers: int)

  /** The scheme's moveUpCriteria for an individual in layer `layer`. */
  predicate Qualifies(ld: Ladder, x: Individual, layer: int)
  {
    MoveUpCriteria(x.age, layer, ld.ageGap, ld.maxNumLayers)
  }

  function Max(a: int, b: int): int
  {
    if a < b then b else a
  }

  /** s without its element at position i. */
  function Without<T>(s: seq<T>, i: nat): (r: seq<T>)
    requires i < |s|
    ensures |r| == |s| - 1
    ensures forall k :: 0 <= k < i ==> r[k] == s[k]
    ensures forall k :: i <= k < |r| ==> r[k] == s[k + 1]
  {
    s[..i] + s[i + 1..]
  }

  /**
   * displace's test for an occupant d of layer `above`: it did not come
   * from the mover's layer this generation, and the mover is strictly
   * fitter or (when displaced individuals may move on) d is itself due to
   * move up.
   */
  predicate Displaceable(ld: Ladder, mover: Individual, d: Individual, above: int, doMoveDisplaced: bool)
  {
    d.currentLayer != mover.currentLayer
    && (CompareTo(mover, d) > 0 || (doMoveDisplaced && Qualifies(ld, d, above)))
  }

  /**
   * The part of moveIndividualUp before the mover leaves its layer L: from
   * the top layer nothing happens (failure); a next layer below capacity
   * takes the mover at its end; a full one takes it only if displace
   * succeeds.
   */
  function Climb(ld: Ladder, layers: seq<seq<Individual>>, mover: Individual, L: nat, doMoveDisplaced: bool): (res: (seq<seq<Individual>>, bool))
    requires L < |layers|
    ensures |res.0| == |layers|
    ensures forall k :: 0 <= k <= L ==> res.0[k] == layers[k]
    ensures !res.1 ==> res.0 == layers
    ensures L == |layers| - 1 ==> !res.1
    ensures res.1 ==> L + 1 < |layers| && |res.0[L + 1]| > 0 && res.0[L + 1][|res.0[L + 1]| - 1] == mover
    ensures L + 1 < |layers| && |layers[L + 1]| < ld.capacity ==>
      res.1 && res.0 == layers[L + 1 := layers[L + 1] + [mover]]
    ensures forall k :: L < k < |layers| ==> |res.0[k]| <= Max(|layers[k]|, ld.capacity)
    decreases |layers| - L, 1, 0
  {
    if L == |layers| - 1 then (layers, false)
    else if |layers[L + 1]| < ld.capacity then (layers[L + 1 := layers[L + 1] + [mover]], true)
    else Displace(ld, layers, mover, L + 1, 0, doMoveDisplaced)
  }

  /**
   * moveIndividualUp(index, ...): the individual at position i of layer L
   * climbs, and in every case leaves layer L; the layers below are
   * untouched. A failed climb (from the top layer, or with no occupant to
   * displace) drops the individual and changes nothing else. No layer above
   * grows past the capacity unless it was past it already.
   */
  function MoveUpAt(ld: Ladder, layers: seq<seq<Individual>>, L: nat, i: nat, doMoveDisplaced: bool): (res: (seq<seq<Individual>>, bool))
    requires L < |layers| && i < |layers[L]|
    ensures |res.0| == |layers|
    ensures forall k :: 0 <= k < L ==> res.0[k] == layers[k]
    ensures res.0[L] == Without(layers[L], i)
    ensures !res.1 ==> forall k :: L < k < |layers| ==> res.0[k] == layers[k]
    ensures L == |layers| - 1 ==> !res.1
    ensures res.1 ==> L + 1 < |layers| && |res.0[L + 1]| > 0 && res.0[L + 1][|res.0[L + 1]| - 1] == layers[L][i]
    ensures forall k :: L < k < |layers| ==> |res.0[k]| <= Max(|layers[k]|, ld.capacity)
    decreases |layers| - L, 2, 0
  {
    var (moved, ok) := Climb(ld, layers, layers[L][i], L, doMoveDisplaced);
    (moved[L := Without(moved[L], i)], ok)
  }

  /** Occupant m of s is the first displaceable one from position j on. */
  predicate FirstDisplaceable(ld: Ladder, mover: Individual, s: seq<Individual>, above: int, j: int, m: int, doMoveDisplaced: bool)
  {
    0 <= j <= m < |s|
    && Displaceable(ld, mover, s[m], above, doMoveDisplaced)
    && forall m' :: j <= m' < m ==> !Displaceable(ld, mover, s[m'], above, doMoveDisplaced)
  }

  /**
   * The displaced occupant j of layer `above` leaves it: it moves up itself
   * when it qualifies and displaced individuals may move on, and is deleted
   * otherwise.
   */
  function Evict(ld: Ladder, layers: seq<seq<Individual>>, above: nat, j: nat, doMoveDisplaced: bool): (out: seq<seq<Individual>>)
    requires above < |layers| && j < |layers[above]|
    ensures |out| == |layers|
    ensures forall k :: 0 <= k < above ==> out[k] == layers[k]
    ensures out[above] == Without(layers[above], j)
    ensures forall k :: above < k < |layers| ==> |out[k]| <= Max(|layers[k]|, ld.capacity)
    decreases |layers| - above + 1, 0, 0
  {
    if doMoveDisplaced && Qualifies(ld, layers[above][j], above) then MoveUpAt(ld, layers, above, j, doMoveDisplaced).0
    else layers[above := Without(layers[above], j)]
  }

  /**
   * displace, from occupant j of layer `above` on: the first displaceable
   * occupant is evicted and the mover appended; the result is whether there
   * was one. Without one nothing changes.
   */
  function Displace(ld: Ladder, layers: seq<seq<Individual>>, mover: Individual, above: nat, j: nat, doMoveDisplaced: bool): (res: (seq<seq<Individual>>, bool))
    requires above < |layers| && j <= |layers[above]|
    ensures |res.0| == |layers|
    ensures forall k :: 0 <= k < above ==> res.0[k] == layers[k]
    ensures !res.1 ==> res.0 == layers
    ensures res.1 <==> exists m :: j <= m < |layers[above]| && Displaceable(ld, mover, layers[above][m], above, doMoveDisplaced)
    ensures res.1 ==> exists m :: FirstDisplaceable(ld, mover, layers[above], above, j, m, doMoveDisplaced)
                                  && res.0[above] == Without(layers[above], m) + [mover]
    ensures forall k :: above < k < |layers| ==> |res.0[k]| <= Max(|layers[k]|, ld.capacity)
    decreases |layers| - above + 1, 0, |layers[above]| - j
  {
    if j == |layers[above]| then (layers, false)
    else if Displaceable(ld, mover, layers[above][j], above, doMoveDisplaced) then
      var cleared := Evict(ld, layers, above, j, doMoveDisplaced);
      assert FirstDisplaceable(ld, mover, layers[above], above, j, j, doMoveDisplaced);
      (cleared[above := cleared[above] + [mover]], true)
    else
      var res := Displace(ld, layers, mover, above, j + 1, doMoveDisplaced);
      if res.1 then
        var m :| FirstDisplaceable(ld, mover, layers[above], above, j + 1, m, doMoveDisplaced)
                 && res.0[above] == Without(layers[above], m) + [mover];
        assert FirstDisplaceable(ld, mover, layers[above], above, j, m, doMoveDisplaced);
        res
      else
        res
  }

  /**
   * moveIndividualUp(individual, ...): the same climb, after which the
   * first member of layer L with the mover's id is removed.
   */
  function MoveUpInd(ld: Ladder, layers: seq<seq<Individual>>, mover: Individual, L: nat, doMoveDisplaced: bool): (res: (seq<seq<Individual>>, bool))
    requires L < |layers|
    ensures |res.0| == |layers|
    ensures forall k :: 0 <= k < L ==> res.0[k] == layers[k]
    ensures res.0[L] == RemoveFirst(layers[L], mover.id)
    ensures !res.1 ==> forall k :: L < k < |layers| ==> res.0[k] == layers[k]
  {
    var (moved, ok) := Climb(ld, layers, mover, L, doMoveDisplaced);
    (moved[L := RemoveFirst(moved[L], mover.id)], ok)
  }

  /** Removing the first holder of s[i]'s id, when no earlier member shares it, removes position i. */
  lemma {:induction false} RemoveFirstAt(s: seq<Individual>, i: nat)
    requires i < |s| && forall k :: 0 <= k < i ==> s[k].id != s[i].id
    ensures RemoveFirst(s, s[i].id) == Without(s, i)
  {
    if i > 0 {
      var t := s[1..];
      assert t[i - 1] == s[i];
      RemoveFirstAt(t, i - 1);
      assert Without(s, i) == [s[0]] + Without(t, i - 1);
    }
  }

  /** Both moveIndividualUp variants agree when the individual is the first of its layer with its id. */
  lemma MoveUpVariantsAgree(ld: Ladder, layers: seq<seq<Individual>>, L: nat, i: nat, doMoveDisplaced: bool)
    requires L < |layers| && i < |layers[L]|
    requires forall k :: 0 <= k < i ==> layers[L][k].id != layers[L][i].id
    ensures MoveUpInd(ld, layers, layers[L][i], L, doMoveDisplaced) == MoveUpAt(ld, layers, L, i, doMoveDisplaced)
  {
    RemoveFirstAt(layers[L], i);
  }

  // --------------------------------------------------------- the scan

  /** The members of s that stay in layer L: those not due to move up. */
  function Staying(ld: Ladder, s: seq<Individual>, L: int): (r: seq<Individual>)
    ensures |r| <= |s|
    ensures forall x :: x in r ==> x in s && !Qualifies(ld, x, L)
    ensures forall x :: x in s && !Qualifies(ld, x, L) ==> x in r
  {
    if s == [] then []
    else if Qualifies(ld, s[0], L) then Staying(ld, s[1..], L)
    else [s[0]] + Staying(ld, s[1..], L)
  }

  /**
   * updateLayers' scan of layer L from position i: a member due to move up
   * is moved (the index rewinds, since the layer shrank), any other is
   * passed. The layer keeps exactly its first i members and the later ones
   * not due to move, so none is skipped; layers below are untouched and
   * none above grows past the capacity.
   */
  function ScanFrom(ld: Ladder, layers: seq<seq<Individual>>, L: nat, i: nat): (out: seq<seq<Individual>>)
    requires L < |layers| && i <= |layers[L]|
    ensures |out| == |layers|
    ensures forall k :: 0 <= k < L ==> out[k] == layers[k]
    ensures out[L] == layers[L][..i] + Staying(ld, layers[L][i..], L)
    ensures forall k :: L < k < |layers| ==> |out[k]| <= Max(|layers[k]|, ld.capacity)
    decreases |layers[L]| - i
  {
    if i == |layers[L]| then
      layers
    else if Qualifies(ld, layers[L][i], L) then
      var moved := MoveUpAt(ld, layers, L, i, true).0;
      assert moved[L][..i] == layers[L][..i];
      assert moved[L][i..] == layers[L][i + 1..];
      assert layers[L][i..][1..] == layers[L][i + 1..];
      ScanFrom(ld, moved, L, i)
    else
      var out := ScanFrom(ld, layers, L, i + 1);
      assert layers[L][..i + 1] == layers[L][..i] + [layers[L][i]];
      assert layers[L][i..][1..] == layers[L][i + 1..];
      out
  }

  /** No layer holds more than the capacity. */
  predicate WithinCapacity(layers: seq<seq<Individual>>, capacity: int)
  {
    forall k :: 0 <= k < |layers| ==> |layers[k]| <= capacity
  }

  /** No member of layer k is due to move up. */
  predicate Settled(ld: Ladder, layers: seq<seq<Individual>>, k: nat)
    requires k < |layers|
  {
    forall x :: x in layers[k] ==> !Qualifies(ld, x, k)
  }

  /**
   * updateLayers' outer loop: layers L, L + 1, ... are scanned bottom-up
   * while below both the layer count and maxNumLayers - 1. Afterwards no
   * scanned layer holds a member due to move up, and a population within
   * capacity stays so.
   */
  function MoveAll(ld: Ladder, layers: seq<seq<Individual>>, L: nat): (out: seq<seq<Individual>>)
    ensures |out| == |layers|
    ensures forall k :: 0 <= k < L && k < |layers| ==> out[k] == layers[k]
    ensures forall k :: L <= k < |layers| && k < ld.maxNumLayers - 1 ==> Settled(ld, out, k)
    ensures forall k :: 0 <= k < |layers| ==> |out[k]| <= Max(|layers[k]|, ld.capacity)
    decreases |layers| - L
  {
    if L >= |layers| || L >= ld.maxNumLayers - 1 then layers
    else
      var scanned := ScanFrom(ld, layers, L, 0);
      assert scanned[L] == Staying(ld, layers[L], L) by {
        assert layers[L][..0] == [] && layers[L][0..] == layers[L];
      }
      var out := MoveAll(ld, scanned, L + 1);
      assert Settled(ld, out, L) by {
        assert out[L] == scanned[L];
      }
      assert forall k :: 0 <= k < |layers| ==> |scanned[k]| <= Max(|layers[k]|, ld.capacity);
      out
  }

  /** The scan keeps a population within capacity. */
  lemma MoveAllWithinCapacity(ld: Ladder, layers: seq<seq<Individual>>, L: nat)
    ensures WithinCapacity(layers, ld.capacity) ==> WithinCapacity(MoveAll(ld, layers, L), ld.capacity)
  {
    var out := MoveAll(ld, layers, L);
    if WithinCapacity(layers, ld.capacity) {
      forall k | 0 <= k < |out|
        ensures |out[k]| <= ld.capacity
      {
        assert |out[k]| <= Max(|layers[k]|, ld.capacity);
      }
    }
  }

  /** updateLayerIndicies: every individual records the index of the layer it is in. */
  function UpdateLayerIndices(layers: seq<seq<Individual>>): (out: seq<seq<Individual>>)
    ensures |out| == |layers|
    ensures forall k :: 0 <= k < |layers| ==> |out[k]| == |layers[k]|
    ensures forall k, j :: 0 <= k < |layers| && 0 <= j < |layers[k]| ==> out[k][j] == layers[k][j].(currentLayer := k)
  {
    seq(|layers|, k requires 0 <= k < |layers| => seq(|layers[k]|, j requires 0 <= j < |layers[k]| => layers[k][j].(currentLayer := k)))
  }

  // ------------------------------------------------------------ breeding

  /** The layer bred so far, this generation's parent list, the id counter and the generator. */
  datatype LayerBrood = LayerBrood(offspring: seq<Individual>, parents: seq<Individual>, nextId: nat, rng: Rng)

  /** addParents for one parent: it joins the list unless an individual with its id is already there. */
  function AddParent(ps: seq<Individual>, p: Individual): (r: seq<Individual>)
    ensures HasId(r, p.id)
    ensures forall y :: y in ps ==> y in r
    ensures forall y :: y in r ==> y in ps || y == p
    ensures HasId(ps, p.id) ==> r == ps
    ensures DistinctIds(ps) ==> DistinctIds(r)
  {
    if HasId(ps, p.id) then ps
    else
      assert (ps + [p])[|ps|] == p;
      ps + [p]
  }

  /** The parent list only grows, by members of the mating pool, and never repeats an id it did not repeat before. */
  predicate ParentsGrow(ps: seq<Individual>, ps': seq<Individual>, pool: seq<Individual>)
  {
    (forall y :: y in ps ==> y in ps')
    && (forall y :: y in ps' ==> y in ps || y in pool)
    && (DistinctIds(ps) ==> DistinctIds(ps'))
  }

  /** x is one generation older than some member of the mating pool. */
  predicate AgedFromPool(x: Individual, pool: seq<Individual>)
  {
    exists k :: 0 <= k < |pool| && x.age == pool[k].age + 1
  }

  /** The members of s from position `from` on carry ids drawn from [lo, hi), strictly increasing. */
  predicate FreshIds(s: seq<Individual>, from: nat, lo: nat, hi: nat)
  {
    (forall m :: from <= m < |s| ==> s[m].id.Some? && lo <= s[m].id.value < hi)
    && (forall m, m' :: from <= m < m' < |s| && s[m].id.Some? && s[m'].id.Some? ==> s[m].id.value < s[m'].id.value)
  }

  /** What one breeding step promises: offspring appended, each one generation older than a pool member and under a new id, and the parent list grown from the pool. */
  predicate Extends(b: LayerBrood, b': LayerBrood, pool: seq<Individual>)
  {
    b.offspring <= b'.offspring
    && (forall m :: |b.offspring| <= m < |b'.offspring| ==> AgedFromPool(b'.offspring[m], pool))
    && b.nextId <= b'.nextId && FreshIds(b'.offspring, |b.offspring|, b.nextId, b'.nextId)
    && ParentsGrow(b.parents, b'.parents, pool)
  }

  /** Two breeding steps in a row make one. */
  lemma ExtendsTrans(b: LayerBrood, b': LayerBrood, b'': LayerBrood, pool: seq<Individual>)
    requires Extends(b, b', pool) && Extends(b', b'', pool)
    ensures Extends(b, b'', pool)
  {
    forall m | |b.offspring| <= m < |b''.offspring|
      ensures AgedFromPool(b''.offspring[m], pool)
    {
      if m < |b'.offspring| {
        assert b''.offspring[m] == b'.offspring[m];
      }
    }
  }

  /** Crossover's children are as old as one of their parents: a copy keeps its own parent's age, a swapped child takes the older one's. */
  lemma CrossedAges(p1: Individual, p2: Individual, r: Rng, cfg: CrossConfig, fuel: nat)
    requires cfg.maxCrossAttempts >= 1
    requires SubtreeCrossover(p1, p2, r, cfg, fuel).Ok?
    ensures var c := SubtreeCrossover(p1, p2, r, cfg, fuel).value;
      (c.first.age == p1.age || c.first.age == p2.age) && (c.second.age == p1.age || c.second.age == p2.age)
  {
    assert MaxAge(p1, p2) == p1.age || MaxAge(p1, p2) == p2.age;
  }

  /** The end of doCrossover: the first child joins, the second too when it is kept and there is room, and both parents join the parent list. */
  function TakeChildren(b: LayerBrood, pool: seq<Individual>, p1: Individual, p2: Individual, first: Individual, second: Individual,
                        fillSize: int, discardSecondChild: bool, r: Rng): (res: LayerBrood)
    requires p1 in pool && p2 in pool
    requires AgedFromPool(first, pool) && AgedFromPool(second, pool)
    requires first.id == Some(b.nextId) && second.id == Some(b.nextId + 1)
    ensures |res.offspring| == |b.offspring| + 1
      || (|res.offspring| == |b.offspring| + 2 && |b.offspring| + 1 < fillSize && !discardSecondChild)
    ensures Extends(b, res, pool) && res.nextId == b.nextId + 2
  {
    var off := b.offspring + [first];
    var off' := if !discardSecondChild && |off| < fillSize then off + [second] else off;
    LayerBrood(off', AddParent(AddParent(b.parents, p1), p2), b.nextId + 2, r)
  }

  /**
   * LayeredGP's doCrossover: as the plain GP's, but both children are one
   * generation older than crossover made them (a copy's own parent's age,
   * otherwise the older parent's), and both parents join the parent list.
   */
  function LayerCrossover(cfg: GPConfig, pool: seq<Individual>, b: LayerBrood, fillSize: int): (res: Option<LayerBrood>)
    ensures res.Some? ==> (|res.value.offspring| == |b.offspring| + 1
      || (|res.value.offspring| == |b.offspring| + 2 && |b.offspring| + 1 < fillSize && !cfg.discardSecondChild))
    ensures res.Some? ==> Extends(b, res.value, pool) && res.value.nextId == b.nextId + 2
  {
    match CrossFromPool(cfg, pool, b)
    case None => None
    case Some((p1, p2, first, second, r)) =>
      Some(TakeChildren(b, pool, p1, p2, first, second, fillSize, cfg.discardSecondChild, r))
  }

  /** The selection and crossover half of doCrossover: two parents from the pool and their children, aged one generation and numbered from nextId. */
  function CrossFromPool(cfg: GPConfig, pool: seq<Individual>, b: LayerBrood): (res: Option<(Individual, Individual, Individual, Individual, Rng)>)
    ensures res.Some? ==> var (p1, p2, first, second, _) := res.value;
      p1 in pool && p2 in pool && AgedFromPool(first, pool) && AgedFromPool(second, pool)
      && first.id == Some(b.nextId) && second.id == Some(b.nextId + 1)
  {
    if |pool| == 0 || cfg.cross.maxCrossAttempts < 1 then None
    else
      match SelectParents(cfg, pool, b.rng)
      case None => None
      case Some(ps) =>
        var p1 := pool[ps.first];
        var p2 := pool[ps.second];
        match SubtreeCrossover(p1, p2, ps.rng, cfg.cross, cfg.fuel)
        case Err(_) => None
        case Ok(c) =>
          CrossedAges(p1, p2, ps.rng, cfg.cross, cfg.fuel);
          var first := c.first.(id := Some(b.nextId), age := c.first.age + 1);
          var second := c.second.(id := Some(b.nextId + 1), age := c.second.age + 1);
          assert AgedFromPool(first, pool) && AgedFromPool(second, pool);
          Some((p1, p2, first, second, c.rng))
  }

  /**
   * LayeredGP's doReplication: nothing once fillSize offspring exist;
   * otherwise a copy of one selected pool member, one generation older and
   * with a new id, and that member joins the parent list.
   */
  function LayerReplication(cfg: GPConfig, pool: seq<Individual>, b: LayerBrood, fillSize: int): (res: Option<LayerBrood>)
    ensures |b.offspring| == fillSize ==> res == Some(b)
    ensures res.Some? && |b.offspring| != fillSize ==>
      |res.value.offspring| == |b.offspring| + 1 && b.offspring < res.value.offspring
      && exists k :: 0 <= k < |pool|
           && res.value.offspring[|b.offspring|] == Replicate(pool[k]).(id := Some(b.nextId), age := pool[k].age + 1)
           && res.value.parents == AddParent(b.parents, pool[k])
    ensures res.Some? ==> forall m :: |b.offspring| <= m < |res.value.offspring| ==> AgedFromPool(res.value.offspring[m], pool)
    ensures res.Some? ==> b.nextId <= res.value.nextId && FreshIds(res.value.offspring, |b.offspring|, b.nextId, res.value.nextId)
    ensures res.Some? ==> ParentsGrow(b.parents, res.value.parents, pool)
  {
    if |b.offspring| == fillSize then Some(b)
    else if |pool| == 0 then None
    else
      match SelectOne(cfg, pool, b.rng)
      case None => None
      case Some(p) =>
        var parent := pool[p.index];
        var child := Replicate(parent).(id := Some(b.nextId), age := parent.age + 1);
        assert AgedFromPool(child, pool);
        Some(LayerBrood(b.offspring + [child], AddParent(b.parents, parent), b.nextId + 1, p.rng))
  }

  /**
   * interLayerBreed's fill loop: a crossover-probability coin picks
   * crossover or replication until fillSize offspring exist. Every
   * offspring is one generation older than a pool member and carries a new
   * id.
   */
  /** One pass of the fill loop: the coin, then crossover or replication. */
  function BreedStep(cfg: GPConfig, pool: seq<Individual>, b: LayerBrood, fillSize: int): (res: Option<LayerBrood>)
    requires |b.offspring| < fillSize
    ensures res.Some? ==> |b.offspring| < |res.value.offspring| <= fillSize && Extends(b, res.value, pool)
  {
    var (cross, r1) := NextBool(b.rng, cfg.crossProb);
    if cross then LayerCrossover(cfg, pool, b.(rng := r1), fillSize)
    else LayerReplication(cfg, pool, b.(rng := r1), fillSize)
  }

  function FillLayer(cfg: GPConfig, pool: seq<Individual>, b: LayerBrood, fillSize: int): (res: Option<LayerBrood>)
    requires |b.offspring| <= fillSize || |b.offspring| == 0
    ensures res.Some? ==> |res.value.offspring| == Max(fillSize, 0)
    ensures res.Some? ==> Extends(b, res.value, pool)
    decreases fillSize - |b.offspring|
  {
    if |b.offspring| >= fillSize then Some(b)
    else
      match BreedStep(cfg, pool, b, fillSize)
      case None => None
      case Some(b') =>
        var res := FillLayer(cfg, pool, b', fillSize);
        if res.Some? then ExtendsTrans(b, b', res.value, pool); res else res
  }



  function Min(a: int, b: int): int
  {
    if a < b then a else b
  }

  /**
   * The elites after the bred offspring: the j-th is a copy of the j-th
   * fittest member of the sorted old layer, one generation older when that
   * member was a parent this generation.
   */
  predicate AgedElites(elites: seq<Individual>, sorted: seq<Individual>, parents: seq<Individual>)
  {
    |elites| <= |sorted|
    && forall j :: 0 <= j < |elites| ==>
         elites[j].id == sorted[|sorted| - 1 - j].id && elites[j].fitness == sorted[|sorted| - 1 - j].fitness
         && elites[j].age == sorted[|sorted| - 1 - j].age + (if HasId(parents, sorted[|sorted| - 1 - j].id) then 1 else 0)
  }

  /** Copies of the top n members after aging are the aged elites of the sorted layer. */
  lemma AgedCopies(sorted: seq<Individual>, parents: seq<Individual>, n: nat)
    requires n <= |sorted| && DistinctIds(sorted)
    ensures AgedElites(CopiesFromTop(AgeElites(sorted, parents, 0, n).0, n), sorted, parents)
  {
    var aged := AgeElites(sorted, parents, 0, n).0;
    var elites := CopiesFromTop(aged, n);
    forall j | 0 <= j < n
      ensures elites[j].id == sorted[|sorted| - 1 - j].id && elites[j].fitness == sorted[|sorted| - 1 - j].fitness
      ensures elites[j].age == sorted[|sorted| - 1 - j].age + (if HasId(parents, sorted[|sorted| - 1 - j].id) then 1 else 0)
    {
      var k := |sorted| - 1 - j;
      assert elites[j] == Copy(aged[k]);
      assert aged[k] == sorted[k].(age := aged[k].age);
    }
  }

  /**
   * addElitesToLayer as evidently intended: with numElites > 0 the old
   * layer is sorted ascending, its last min(numElites, |layer|) members
   * that were parents age by one and leave the parent list, and copies of
   * them, fittest first and already aged, follow the bred offspring. The
   * sorted, aged layer comes back too: the mating pool of the layer above
   * still sees it.
   */
  function AddElitesToLayer(layer: seq<Individual>, bred: seq<Individual>, parents: seq<Individual>, numElites: int)
    : (res: (seq<Individual>, seq<Individual>, seq<Individual>))
    ensures numElites <= 0 ==> res == (bred, layer, parents)
    ensures bred <= res.0 && |res.0| == |bred| + (if numElites <= 0 then 0 else Min(numElites, |layer|))
    ensures |res.1| == |layer|
    ensures forall y :: y in res.2 ==> y in parents
    ensures numElites > 0 && DistinctIds(layer) ==> AgedElites(res.0[|bred|..], SortByFitness(layer), parents)
    ensures numElites > 0 && DistinctIds(layer) && DistinctIds(parents) ==>
      DistinctIds(res.2) && IdsOf(res.2) == IdsOf(parents) - EliteIds(SortByFitness(layer), 0, Min(numElites, |layer|))
    ensures forall m :: |bred| <= m < |res.0| ==> HasId(layer, res.0[m].id)
  {
    if numElites <= 0 then (bred, layer, parents)
    else
      var sorted := SortByFitness(layer);
      var n := Min(numElites, |layer|);
      var (aged, ps) := AgeElites(sorted, parents, 0, n);
      var elites := CopiesFromTop(aged, n);
      ElitesFromLayer(layer, aged, n);
      assert DistinctIds(layer) ==> DistinctIds(sorted) && AgedElites(elites, sorted, parents) by {
        if DistinctIds(layer) {
          SortKeepsDistinct(layer);
          AgedCopies(sorted, parents, n);
        }
      }
      assert (bred + elites)[|bred|..] == elites;
      (bred + elites, aged, ps)
  }

  /** Copies from the top of the layer sorted and re-aged carry ids of the layer's members. */
  lemma ElitesFromLayer(layer: seq<Individual>, aged: seq<Individual>, n: nat)
    requires |aged| == |layer| && n <= |aged|
    requires forall k :: 0 <= k < |layer| ==> aged[k] == SortByFitness(layer)[k].(age := aged[k].age)
    ensures forall j :: 0 <= j < n ==> HasId(layer, CopiesFromTop(aged, n)[j].id)
  {
    var sorted := SortByFitness(layer);
    var elites := CopiesFromTop(aged, n);
    forall j | 0 <= j < n
      ensures HasId(layer, elites[j].id)
    {
      var k := |aged| - 1 - j;
      assert elites[j] == Copy(aged[k]);
      assert aged[k].id == sorted[k].id;
      assert sorted[k] in layer;
      var q :| 0 <= q < |layer| && layer[q] == sorted[k];
      assert layer[q].id == elites[j].id;
    }
  }

  /** The as-written elite copies: taken from the sorted layer before any aging, fittest first. */
  function CopiedElites(layer: seq<Individual>, numElites: nat): (r: seq<Individual>)
    requires numElites <= |layer|
    ensures |r| == numElites
    ensures forall j :: 0 <= j < numElites ==> r[j].age == SortByFitness(layer)[|layer| - 1 - j].age
    ensures forall j :: 0 <= j < numElites ==> r[j].fitness == SortByFitness(layer)[|layer| - 1 - j].fitness
  {
    var sorted := SortByFitness(layer);
    var r := CopiesFromTop(sorted, numElites);
    forall j | 0 <= j < numElites
      ensures r[j].age == sorted[|layer| - 1 - j].age && r[j].fitness == sorted[|layer| - 1 - j].fitness
    {
    }
    r
  }

  /**
   * addElitesToLayer as written: the elite copies are taken from the
   * sorted layer first (skipping positions before its start) and
   * updateElitesAges ages the originals afterwards, which fails (None)
   * when numElites exceeds the layer size. The copies added are
   * CopiedElites, so none of them carries the age its original gains.
   */
  function AddElitesToLayerAsWritten(layer: seq<Individual>, bred: seq<Individual>, parents: seq<Individual>, numElites: int)
    : (res: Option<(seq<Individual>, seq<Individual>, seq<Individual>)>)
    ensures numElites <= 0 ==> res == Some((bred, layer, parents))
    ensures res.None? <==> numElites > |layer|
    ensures res.Some? && numElites > 0 ==> res.value.0 == bred + CopiedElites(layer, numElites)
  {
    if numElites <= 0 then Some((bred, layer, parents))
    else
      var sorted := SortByFitness(layer);
      var elites := CopiesFromTop(sorted, Min(numElites, |layer|));
      match UpdateElitesAges(sorted, parents, numElites)
      case None => None
      case Some((aged, ps)) => Some((bred + elites, aged, ps))
  }

  /**
   * The discrepancy on the smallest input: a one-member layer whose member
   * was a parent. The original ages to age + 1, but the elite copy written
   * into the new layer as written keeps the old age; the corrected step
   * copies the aged member.
   */
  lemma ParentEliteCopyNotAged(x: Individual)
    ensures AddElitesToLayerAsWritten([x], [], [x], 1).Some?
    ensures AddElitesToLayerAsWritten([x], [], [x], 1).value.1[0].age == x.age + 1
    ensures AddElitesToLayerAsWritten([x], [], [x], 1).value.0[0].age == x.age
    ensures AddElitesToLayer([x], [], [x], 1).0[0].age == x.age + 1
  {
    assert SortByFitness([x]) == [x];
    assert HasId([x], x.id);
    var res := AddElitesToLayer([x], [], [x], 1);
    assert res.0[0..] == res.0;
  }

  /**
   * The second discrepancy: a layer with fewer members than numElites (an
   * empty layer above a non-empty one, say) makes the as-written step fail,
   * while the corrected one adds every member the layer has.
   */
  lemma ShortLayerAsWrittenFails(layer: seq<Individual>, bred: seq<Individual>, parents: seq<Individual>, numElites: int)
    requires 0 <= |layer| < numElites
    ensures AddElitesToLayerAsWritten(layer, bred, parents, numElites).None?
    ensures |AddElitesToLayer(layer, bred, parents, numElites).0| == |bred| + |layer|
  {
  }

  /** interLayerBreed's fill size: room for the elites, or for as many as a short layer can give. */
  function FillSize(size: int, numElites: int, capacity: int): (f: int)
    ensures 0 <= numElites <= capacity && 0 <= size ==> 0 <= f && f + Min(numElites, size) == capacity
  {
    if size < numElites then capacity - size else capacity - numElites
  }

  /** The layer sizes of a population. */
  function Sizes(layers: seq<seq<Individual>>): (z: seq<nat>)
    ensures |z| == |layers| && forall k :: 0 <= k < |layers| ==> z[k] == |layers[k]|
  {
    seq(|layers|, k requires 0 <= k < |layers| => |layers[k]|)
  }

  /**
   * interLayerBreed leaves layer i as it is when it is the top layer, just
   * added and already full, or when its mating pool (layer i - 1 and
   * layer i together) is empty.
   */
  predicate KeepsLayer(sizes: seq<nat>, i: nat, capacity: int, addedLayer: bool)
    requires i < |sizes|
  {
    (i == |sizes| - 1 && addedLayer && sizes[i] == capacity)
    || (sizes[i] == 0 && (i == 0 || sizes[i - 1] == 0))
  }

  /** Layer i's mating pool: the layer below it, if any, followed by the layer itself. */
  function Pool(prev: seq<seq<Individual>>, i: nat): (pool: seq<Individual>)
    requires i < |prev|
    ensures |pool| == 0 <==> |prev[i]| == 0 && (i == 0 || |prev[i - 1]| == 0)
  {
    (if i > 0 then prev[i - 1] else []) + prev[i]
  }

  /** Every member of after is new, under an id drawn from [lo, hi), or carries the id of a member of before. */
  predicate NewOrFrom(after: seq<Individual>, before: seq<Individual>, lo: nat, hi: nat)
  {
    forall m :: 0 <= m < |after| ==> (after[m].id.Some? && lo <= after[m].id.value < hi) || HasId(before, after[m].id)
  }

  /** A wider id range admits more. */
  lemma NewOrFromWidens(after: seq<Individual>, before: seq<Individual>, lo: nat, hi: nat, lo': nat, hi': nat)
    requires NewOrFrom(after, before, lo, hi) && lo' <= lo && hi <= hi'
    ensures NewOrFrom(after, before, lo', hi')
  {
    forall m | 0 <= m < |after|
      ensures (after[m].id.Some? && lo' <= after[m].id.value < hi') || HasId(before, after[m].id)
    {
    }
  }

  /** A layer kept as it is consists of its own members. */
  lemma KeptIsFrom(s: seq<Individual>, lo: nat, hi: nat)
    ensures NewOrFrom(s, s, lo, hi)
  {
    forall m | 0 <= m < |s|
      ensures HasId(s, s[m].id)
    {
    }
  }

  /**
   * The mutation pass over offspring aged from the pool, with fresh ids
   * from [lo, mid), leaves members aged from the pool with ids from [lo, hi).
   */
  lemma MutatedFromPool(offs: seq<Individual>, out: seq<Individual>, pool: seq<Individual>, lo: nat, mid: nat, hi: nat)
    requires |out| == |offs| && mid <= hi
    requires forall m :: 0 <= m < |offs| ==> AgedFromPool(offs[m], pool)
    requires FreshIds(offs, 0, lo, mid)
    requires forall j :: 0 <= j < |offs| ==> out[j].age == offs[j].age && (out[j] == offs[j] || MutantOf(out[j], offs[j], mid, hi))
    ensures forall m :: 0 <= m < |out| ==> AgedFromPool(out[m], pool)
    ensures forall m :: 0 <= m < |out| ==> out[m].id.Some? && lo <= out[m].id.value < hi
  {
    forall m | 0 <= m < |out|
      ensures AgedFromPool(out[m], pool)
    {
      assert AgedFromPool(offs[m], pool);
      var k :| 0 <= k < |pool| && offs[m].age == pool[k].age + 1;
      assert out[m].age == pool[k].age + 1;
    }
  }

  /**
   * Offspring bred from the pool up to the fill size and offered to
   * mutation: fill of them, each one generation older than a pool member,
   * with the parent list grown from the pool.
   */
  function FillAndMutate(cfg: GPConfig, pool: seq<Individual>, parents: seq<Individual>, nextId: nat, rng: Rng, fill: int)
    : (res: Option<LayerBrood>)
    ensures res.Some? ==> |res.value.offspring| == Max(fill, 0) && nextId <= res.value.nextId
    ensures res.Some? ==> forall m :: 0 <= m < |res.value.offspring| ==> AgedFromPool(res.value.offspring[m], pool)
    ensures res.Some? ==> ParentsGrow(parents, res.value.parents, pool)
    ensures res.Some? ==> forall m :: 0 <= m < |res.value.offspring| ==>
      res.value.offspring[m].id.Some? && nextId <= res.value.offspring[m].id.value < res.value.nextId
  {
    match FillLayer(cfg, pool, LayerBrood([], parents, nextId, rng), fill)
    case None => None
    case Some(b) =>
      match DoMutation(cfg, b.offspring, b.nextId, b.rng)
      case None => None
      case Some((mutated, n1, r2)) =>
        MutatedFromPool(b.offspring, mutated, pool, nextId, b.nextId, n1);
        Some(LayerBrood(mutated, b.parents, n1, r2))
  }

  /** A bred layer before it joins the population: the new members, the old layer sorted with its elites aged, the parent list, the id counter and the generator. */
  datatype Fresh = Fresh(layer: seq<Individual>, aged: seq<Individual>, parents: seq<Individual>, nextId: nat, rng: Rng)

  /**
   * Breeding of one layer that is not kept: offspring to the fill size
   * followed by the elites. With 0 <= numElites <= capacity the new layer is
   * exactly full; its first fill members are each one generation older than
   * a pool member.
   */
  function BreedFresh(cfg: GPConfig, capacity: int, layer: seq<Individual>, pool: seq<Individual>,
                      parents: seq<Individual>, nextId: nat, rng: Rng): (res: Option<Fresh>)
    ensures res.Some? ==> |res.value.aged| == |layer| && nextId <= res.value.nextId
    ensures res.Some? && 0 <= cfg.numElites <= capacity ==> |res.value.layer| == capacity
    ensures res.Some? ==>
      var fill := Max(FillSize(|layer|, cfg.numElites, capacity), 0);
      fill <= |res.value.layer| && forall m :: 0 <= m < fill ==> AgedFromPool(res.value.layer[m], pool)
    ensures res.Some? && 0 <= cfg.numElites && |layer| <= capacity ==> |res.value.layer| <= capacity
    ensures res.Some? ==> forall y :: y in res.value.parents ==> y in parents || y in pool
    ensures res.Some? ==> NewOrFrom(res.value.layer, layer, nextId, res.value.nextId)
  {
    var fill := FillSize(|layer|, cfg.numElites, capacity);
    match FillAndMutate(cfg, pool, parents, nextId, rng, fill)
    case None => None
    case Some(b) =>
      var (full, aged, ps) := AddElitesToLayer(layer, b.offspring, b.parents, cfg.numElites);
      assert forall m :: 0 <= m < |b.offspring| ==> full[m] == b.offspring[m];
      OffspringThenElites(full, b.offspring, layer, nextId, b.nextId);
      Some(Fresh(full, aged, ps, b.nextId, b.rng))
  }

  /** New offspring followed by members carrying the layer's ids: the layer is new or from the old one. */
  lemma OffspringThenElites(full: seq<Individual>, offs: seq<Individual>, layer: seq<Individual>, lo: nat, hi: nat)
    requires offs <= full
    requires forall m :: 0 <= m < |offs| ==> offs[m].id.Some? && lo <= offs[m].id.value < hi
    requires forall m :: |offs| <= m < |full| ==> HasId(layer, full[m].id)
    ensures NewOrFrom(full, layer, lo, hi)
  {
    forall m | 0 <= m < |full|
      ensures (full[m].id.Some? && lo <= full[m].id.value < hi) || HasId(layer, full[m].id)
    {
      if m < |offs| {
        assert full[m] == offs[m];
      }
    }
  }

  /**
   * What interLayerBreed makes of layer k, given the old layer sizes: a kept
   * layer stays as it was; a bred one is exactly full when 0 <= numElites <=
   * capacity, and never over the capacity when the old layer was not.
   */
  predicate LayerBred(sizes: seq<nat>, k: nat, before: seq<Individual>, after: seq<Individual>,
                      capacity: int, addedLayer: bool, numElites: int)
    requires k < |sizes|
  {
    (KeepsLayer(sizes, k, capacity, addedLayer) ==> after == before)
    && (!KeepsLayer(sizes, k, capacity, addedLayer) && 0 <= numElites <= capacity ==> |after| == capacity)
    && (0 <= numElites && |before| <= capacity ==> |after| <= capacity)
  }

  /** One layer bred: the new layer, the old population with that layer sorted and its elites aged, the parent list, the id counter and the generator. */
  datatype Bred = Bred(layer: seq<Individual>, prev: seq<seq<Individual>>, parents: seq<Individual>, nextId: nat, rng: Rng)

  /**
   * One pass of interLayerBreed's loop. A kept layer comes back as it is.
   * Otherwise offspring are bred from the pool up to the fill size,
   * offered to mutation and followed by the elites; with 0 <= numElites
   * <= capacity the new layer is exactly full. Only layer i of the prev
   * population changes, and only in order and ages.
   */
  function BreedOne(cfg: GPConfig, capacity: int, addedLayer: bool, prev: seq<seq<Individual>>, i: nat,
                    parents: seq<Individual>, nextId: nat, rng: Rng): (res: Option<Bred>)
    requires i < |prev|
    ensures res.Some? ==> Sizes(res.value.prev) == Sizes(prev) && nextId <= res.value.nextId
    ensures res.Some? ==> forall k :: 0 <= k < |prev| && k != i ==> res.value.prev[k] == prev[k]
    ensures res.Some? && KeepsLayer(Sizes(prev), i, capacity, addedLayer) ==> res.value == Bred(prev[i], prev, parents, nextId, rng)
    ensures res.Some? ==> LayerBred(Sizes(prev), i, prev[i], res.value.layer, capacity, addedLayer, cfg.numElites)
    ensures res.Some? && !KeepsLayer(Sizes(prev), i, capacity, addedLayer) ==>
      Some(Fresh(res.value.layer, res.value.prev[i], res.value.parents, res.value.nextId, res.value.rng))
        == BreedFresh(cfg, capacity, prev[i], Pool(prev, i), parents, nextId, rng)
    ensures res.Some? ==> NewOrFrom(res.value.layer, prev[i], nextId, res.value.nextId)
  {
    if KeepsLayer(Sizes(prev), i, capacity, addedLayer) then
      KeptIsFrom(prev[i], nextId, nextId);
      Some(Bred(prev[i], prev, parents, nextId, rng))
    else
      match BreedFresh(cfg, capacity, prev[i], Pool(prev, i), parents, nextId, rng)
      case None => None
      case Some(f) =>
        assert Sizes(prev[i := f.aged]) == Sizes(prev);
        Some(Bred(f.layer, prev[i := f.aged], f.parents, f.nextId, f.rng))
  }

  /** The new layers, the parent list, the id counter and the generator after breeding. */
  datatype Generation = Generation(layers: seq<seq<Individual>>, parents: seq<Individual>, nextId: nat, rng: Rng)

  /**
   * interLayerBreed's loop from layer i on, with the layers bred so far in
   * acc: kept layers stay, bred ones are full.
   */
  function BreedLayers(cfg: GPConfig, capacity: int, addedLayer: bool, prev: seq<seq<Individual>>, i: nat,
                       acc: seq<seq<Individual>>, parents: seq<Individual>, nextId: nat, rng: Rng): (res: Option<Generation>)
    requires i <= |prev| && |acc| == i
    ensures res.Some? ==> |res.value.layers| == |prev| && res.value.layers[..i] == acc && nextId <= res.value.nextId
    ensures res.Some? ==> forall k :: i <= k < |prev| ==>
      LayerBred(Sizes(prev), k, prev[k], res.value.layers[k], capacity, addedLayer, cfg.numElites)
    ensures res.Some? ==> forall k :: i <= k < |prev| ==> NewOrFrom(res.value.layers[k], prev[k], nextId, res.value.nextId)
    decreases |prev| - i
  {
    if i == |prev| then Some(Generation(acc, parents, nextId, rng))
    else
      match BreedOne(cfg, capacity, addedLayer, prev, i, parents, nextId, rng)
      case None => None
      case Some(b) =>
        var res := BreedLayers(cfg, capacity, addedLayer, b.prev, i + 1, acc + [b.layer], b.parents, b.nextId, b.rng);
        if res.Some? then
          PrefixStep(res.value.layers, acc, b.layer);
          LayersBredCons(prev, b.prev, i, res.value.layers, capacity, addedLayer, cfg.numElites);
          LayersNewCons(prev, b.prev, i, res.value.layers, nextId, b.nextId, res.value.nextId);
          res
        else res
  }

  /** Layer i bred into layers[i], and every later layer of an equally sized prev' that agrees with prev there bred too: all layers from i on are bred. */
  lemma LayersBredCons(prev: seq<seq<Individual>>, prev': seq<seq<Individual>>, i: nat, layers: seq<seq<Individual>>,
                       capacity: int, addedLayer: bool, numElites: int)
    requires i < |prev| == |layers| && Sizes(prev') == Sizes(prev)
    requires forall k :: 0 <= k < |prev| && k != i ==> prev'[k] == prev[k]
    requires LayerBred(Sizes(prev), i, prev[i], layers[i], capacity, addedLayer, numElites)
    requires forall k :: i + 1 <= k < |prev'| ==> LayerBred(Sizes(prev'), k, prev'[k], layers[k], capacity, addedLayer, numElites)
    ensures forall k :: i <= k < |prev| ==> LayerBred(Sizes(prev), k, prev[k], layers[k], capacity, addedLayer, numElites)
  {
    forall k | i < k < |prev|
      ensures LayerBred(Sizes(prev), k, prev[k], layers[k], capacity, addedLayer, numElites)
    {
      assert prev'[k] == prev[k];
    }
  }

  /** Layer i new or from prev[i] with ids up to mid, and the later layers of an agreeing prev' with ids from mid on: all of them, over the whole range. */
  lemma LayersNewCons(prev: seq<seq<Individual>>, prev': seq<seq<Individual>>, i: nat, layers: seq<seq<Individual>>,
                      lo: nat, mid: nat, hi: nat)
    requires i < |prev| == |layers| == |prev'| && lo <= mid <= hi
    requires forall k :: 0 <= k < |prev| && k != i ==> prev'[k] == prev[k]
    requires NewOrFrom(layers[i], prev[i], lo, mid)
    requires forall k :: i + 1 <= k < |prev'| ==> NewOrFrom(layers[k], prev'[k], mid, hi)
    ensures forall k :: i <= k < |prev| ==> NewOrFrom(layers[k], prev[k], lo, hi)
  {
    forall k | i <= k < |prev|
      ensures NewOrFrom(layers[k], prev[k], lo, hi)
    {
      if k == i {
        NewOrFromWidens(layers[i], prev[i], lo, mid, lo, hi);
      } else {
        assert prev'[k] == prev[k];
        NewOrFromWidens(layers[k], prev[k], mid, hi, lo, hi);
      }
    }
  }

  /** A sequence that starts with acc + [x] starts with acc and has x next. */
  lemma PrefixStep<T>(s: seq<T>, acc: seq<T>, x: T)
    requires |acc| < |s| && s[..|acc| + 1] == acc + [x]
    ensures s[..|acc|] == acc && s[|acc|] == x
  {
    assert s[..|acc|] == s[..|acc| + 1][..|acc|];
    assert s[|acc|] == s[..|acc| + 1][|acc|];
  }

  /**
   * interLayerBreed: numElites equal to the capacity is fatal (None);
   * otherwise every layer is bred or kept, so the population keeps its
   * number of layers and, with a non-negative numElites below the
   * capacity, every bred layer is exactly full.
   */
  function InterLayerBreed(cfg: GPConfig, capacity: int, addedLayer: bool, layers: seq<seq<Individual>>,
                           parents: seq<Individual>, nextId: nat, rng: Rng): (res: Option<Generation>)
    ensures cfg.numElites == capacity ==> res.None?
    ensures res.Some? ==> |res.value.layers| == |layers| && nextId <= res.value.nextId
    ensures res.Some? ==> forall k :: 0 <= k < |layers| ==>
      LayerBred(Sizes(layers), k, layers[k], res.value.layers[k], capacity, addedLayer, cfg.numElites)
    ensures res.Some? && 0 <= cfg.numElites && WithinCapacity(layers, capacity) ==> WithinCapacity(res.value.layers, capacity)
    ensures res.Some? ==> forall k :: 0 <= k < |layers| ==> NewOrFrom(res.value.layers[k], layers[k], nextId, res.value.nextId)
  {
    if cfg.numElites == capacity then None
    else
      var res := BreedLayers(cfg, capacity, addedLayer, layers, 0, [], parents, nextId, rng);
      if res.Some? && 0 <= cfg.numElites && WithinCapacity(layers, capacity) then
        assert forall k :: 0 <= k < |layers| ==> |res.value.layers[k]| <= capacity by {
          forall k | 0 <= k < |layers|
            ensures |res.value.layers[k]| <= capacity
          {
            assert LayerBred(Sizes(layers), k, layers[k], res.value.layers[k], capacity, addedLayer, cfg.numElites);
          }
        }
        res
      else res
  }

  // ----------------------------------------------------------- evaluation

  /**
   * The layered evaluation thread's bookkeeping under the lock: as the
   * plain GP's, except that an evaluation is not counted once the optimum
   * has been found and the run stops on it.
   */
  function LayeredRecord(t: Tally, e: Individual, stopOnOptimal: bool): (r: Tally)
    ensures r == Record(t, e).(numEvaluations := r.numEvaluations)
    ensures r.numEvaluations == t.numEvaluations + (if t.foundOptimal && stopOnOptimal then 0 else 1)
  {
    Record(t, e).(numEvaluations := if t.foundOptimal && stopOnOptimal then t.numEvaluations else t.numEvaluations + 1)
  }

  /** after is before evaluated: only hits, fitness and the optimal flag may change, and already evaluated members stay as they are. */
  predicate EvaluatedFrom(before: seq<Individual>, after: seq<Individual>)
  {
    |after| == |before|
    && (forall j :: 0 <= j < |after| ==>
          after[j] == before[j].(hits := after[j].hits, fitness := after[j].fitness, optimal := after[j].optimal, evaluated := true))
    && (forall j :: 0 <= j < |after| && before[j].evaluated ==> after[j] == before[j])
  }

  /** A member put in front of an evaluated rest: evaluated from the member in front of the rest. */
  lemma EvaluatedFromCons(before: seq<Individual>, e: Individual, rest: seq<Individual>)
    requires before != [] && EvaluatedFrom(before[1..], rest)
    requires e == before[0].(hits := e.hits, fitness := e.fitness, optimal := e.optimal, evaluated := true)
    requires before[0].evaluated ==> e == before[0]
    ensures EvaluatedFrom(before, [e] + rest)
  {
    var after := [e] + rest;
    forall j | 1 <= j < |after|
      ensures after[j] == rest[j - 1] && before[j] == before[1..][j - 1]
    {
    }
  }

  /**
   * One member's turn in evaluateLayer: an evaluated one is left alone;
   * otherwise its fitness is computed and recorded.
   */
  function EvaluateMember(p: BoolProblem, stopOnOptimal: bool, x: Individual, t: Tally): (res: Option<(Individual, Tally)>)
    ensures x.evaluated ==> res == Some((x, t))
    ensures res.Some? ==>
      var e := res.value.0;
      e == x.(hits := e.hits, fitness := e.fitness, optimal := e.optimal, evaluated := true)
    ensures !x.evaluated && res.Some? ==> res.value.1 == LayeredRecord(t, res.value.0, stopOnOptimal)
  {
    if x.evaluated then Some((x, t))
    else
      match Fitness(p, x)
      case None => None
      case Some(e) => Some((e, LayeredRecord(t, e, stopOnOptimal)))
  }

  /**
   * evaluateLayer, done in order: every unevaluated member gets its
   * fitness and is recorded, at most one counted evaluation each.
   */
  function EvaluateLayer(p: BoolProblem, stopOnOptimal: bool, layer: seq<Individual>, t: Tally): (res: Option<(seq<Individual>, Tally)>)
    ensures res.Some? ==>
      var (out, t') := res.value;
      EvaluatedFrom(layer, out)
      && t.numEvaluations <= t'.numEvaluations <= t.numEvaluations + |layer|
      && (t.foundOptimal ==> t'.foundOptimal)
      && (t.best.Some? ==> t'.best.Some? && t.bestFitness <= t'.bestFitness)
    decreases |layer|
  {
    if layer == [] then Some(([], t))
    else
      match EvaluateMember(p, stopOnOptimal, layer[0], t)
      case None => None
      case Some((e, t1)) =>
        match EvaluateLayer(p, stopOnOptimal, layer[1..], t1)
        case None => None
        case Some((rest, t2)) =>
          EvaluatedFromCons(layer, e, rest);
          Some(([e] + rest, t2))
  }

  /** evaluatePop: the layers evaluated one after the other. */
  function EvaluateLayers(p: BoolProblem, stopOnOptimal: bool, layers: seq<seq<Individual>>, t: Tally)
    : (res: Option<(seq<seq<Individual>>, Tally)>)
    ensures res.Some? ==>
      var (out, t') := res.value;
      |out| == |layers| && (forall k :: 0 <= k < |layers| ==> EvaluatedFrom(layers[k], out[k]))
      && t.numEvaluations <= t'.numEvaluations
      && (t.foundOptimal ==> t'.foundOptimal)
    decreases |layers|
  {
    if layers == [] then Some(([], t))
    else
      match EvaluateLayer(p, stopOnOptimal, layers[0], t)
      case None => None
      case Some((l0, t1)) =>
        match EvaluateLayers(p, stopOnOptimal, layers[1..], t1)
        case None => None
        case Some((rest, t2)) =>
          var out := [l0] + rest;
          forall k | 1 <= k < |layers|
            ensures out[k] == rest[k - 1] && layers[1..][k - 1] == layers[k]
          {
          }
          Some((out, t2))
  }

  /** Once the optimum is found and the run stops on it, evaluating a layer counts nothing more. */
  lemma {:induction false} NoCountAfterOptimum(p: BoolProblem, layer: seq<Individual>, t: Tally)
    requires t.foundOptimal
    requires EvaluateLayer(p, true, layer, t).Some?
    ensures EvaluateLayer(p, true, layer, t).value.1.numEvaluations == t.numEvaluations
    decreases |layer|
  {
    if layer != [] {
      var t1 := EvaluateMember(p, true, layer[0], t).value.1;
      NoCountAfterOptimum(p, layer[1..], t1);
    }
  }

  // ---------------------------------------------------------------- state

  /** What the layered run reads from its configuration. */
  datatype LayeredConfig = LayeredConfig(gp: GPConfig, build: BuildConfig, maxNumLayers: int, ageGap: int)

  /**
   * The layered run's state: the layers, this generation's parents, the
   * layer capacity, the generation, the run-wide tally, the generations of
   * the last regeneration and layer addition, whether a layer was added
   * this generation, the printed forms generated so far with the run-wide
   * retry counter, the id counter and the generator.
   */
  datatype LayeredState = LayeredState(
    layers: seq<seq<Individual>>,
    parents: seq<Individual>,
    capacity: int,
    generation: int,
    tally: Tally,
    lastRegen: int,
    lastLayerAdd: int,
    addedLayer: bool,
    generated: set<string>,
    uniqueRetries: int,
    nextId: nat,
    rng: Rng)

  function LadderOf(cfg: LayeredConfig, st: LayeredState): Ladder
  {
    Ladder(st.capacity, cfg.ageGap, cfg.maxNumLayers)
  }

  /**
   * initLayer: a fresh layer of capacity random individuals, grow mode for
   * the first half, with the run-wide duplicate check and retry counter.
   */
  function InitLayer(cfg: LayeredConfig, st: LayeredState): (res: Option<Filling>)
    ensures res.Some? && st.capacity >= 0 ==> |res.value.pop| == st.capacity
    ensures res.Some? ==> res.value.retries >= st.uniqueRetries
  {
    InitFill(cfg.build.(popSize := st.capacity), Filling([], st.generated, st.uniqueRetries, st.nextId, st.rng))
  }

  /** regenerateInitialLayer: layer 0 replaced by a fresh layer, which is evaluated at once. */
  function RegenerateInitialLayer(cfg: LayeredConfig, st: LayeredState): (res: Option<LayeredState>)
    requires |st.layers| > 0
    ensures res.Some? ==> |res.value.layers| == |st.layers| && forall k :: 1 <= k < |st.layers| ==> res.value.layers[k] == st.layers[k]
    ensures res.Some? && st.capacity >= 0 ==> |res.value.layers[0]| == st.capacity
    ensures res.Some? ==> forall j :: 0 <= j < |res.value.layers[0]| ==> res.value.layers[0][j].evaluated
    ensures res.Some? ==> res.value.tally.numEvaluations >= st.tally.numEvaluations && res.value.uniqueRetries >= st.uniqueRetries
  {
    match InitLayer(cfg, st)
    case None => None
    case Some(f) =>
      match EvaluateLayer(cfg.gp.problem, cfg.gp.stopOnOptimal, f.pop, st.tally)
      case None => None
      case Some((layer, t)) =>
        Some(st.(layers := st.layers[0 := layer], tally := t, generated := f.seen, uniqueRetries := f.retries,
                 nextId := f.nextId, rng := f.rng))
  }

  /**
   * checkAndRegenInitialLayer: layer 0 is regenerated when the update left
   * it empty or when ageGap generations have passed since the last
   * regeneration (never at generation 0), and that generation is recorded.
   * With no layers at all the lookup of layer 0 fails.
   */
  function CheckAndRegen(cfg: LayeredConfig, st: LayeredState): (res: Option<LayeredState>)
    ensures |st.layers| == 0 ==> res.None?
    ensures |st.layers| > 0 && |st.layers[0]| > 0 && !AgeGapReached(st.generation, cfg.ageGap, st.lastRegen) ==> res == Some(st)
    ensures res.Some? ==> |res.value.layers| == |st.layers| && forall k :: 1 <= k < |st.layers| ==> res.value.layers[k] == st.layers[k]
    ensures res.Some? && (|st.layers[0]| == 0 || AgeGapReached(st.generation, cfg.ageGap, st.lastRegen)) ==>
      res.value.lastRegen == st.generation && (st.capacity >= 0 ==> |res.value.layers[0]| == st.capacity)
    ensures res.Some? ==>
      res.value.generation == st.generation && res.value.capacity == st.capacity
      && res.value.parents == st.parents && res.value.lastLayerAdd == st.lastLayerAdd && res.value.addedLayer == st.addedLayer
  {
    if |st.layers| == 0 then None
    else if |st.layers[0]| == 0 || AgeGapReached(st.generation, cfg.ageGap, st.lastRegen) then
      match RegenerateInitialLayer(cfg, st)
      case None => None
      case Some(st') => Some(st'.(lastRegen := st.generation))
    else Some(st)
  }

  /**
   * addLayer: below maxNumLayers a new top layer is bred from the current
   * top layer up to capacity and offered to mutation, and the generation
   * and the addition are recorded; at maxNumLayers nothing happens. With
   * no layer to breed from the lookup fails.
   */
  function AddLayer(cfg: LayeredConfig, st: LayeredState): (res: Option<LayeredState>)
    ensures |st.layers| >= cfg.maxNumLayers ==> res == Some(st)
    ensures |st.layers| == 0 < cfg.maxNumLayers ==> res.None?
    ensures res.Some? && |st.layers| < cfg.maxNumLayers ==>
      var top := st.layers[|st.layers| - 1];
      |res.value.layers| == |st.layers| + 1 && res.value.layers[..|st.layers|] == st.layers
      && |res.value.layers[|st.layers|]| == Max(st.capacity, 0)
      && (forall x :: x in res.value.layers[|st.layers|] ==> AgedFromPool(x, top))
      && res.value.addedLayer && res.value.lastLayerAdd == st.generation
      && ParentsGrow(st.parents, res.value.parents, top)
    ensures res.Some? ==>
      res.value.generation == st.generation && res.value.capacity == st.capacity && res.value.tally == st.tally
      && res.value.lastRegen == st.lastRegen
  {
    if |st.layers| >= cfg.maxNumLayers then Some(st)
    else if |st.layers| == 0 then None
    else
      var top := st.layers[|st.layers| - 1];
      match FillAndMutate(cfg.gp, top, st.parents, st.nextId, st.rng, st.capacity)
      case None => None
      case Some(b) =>
        var layers := st.layers + [b.offspring];
        assert layers[..|st.layers|] == st.layers;
        Some(st.(layers := layers, parents := b.parents, nextId := b.nextId, rng := b.rng,
                 lastLayerAdd := st.generation, addedLayer := true))
  }

  /**
   * The ALPS scheme's updateLayers: a new layer when the top layer's age
   * ceiling is reached, then every layer below maxNumLayers - 1 scanned
   * bottom-up for members due to move up, then layer 0 regenerated if it
   * is empty or due, and the parent list emptied. Afterwards no layer above
   * layer 0 that was scanned holds a member due to move up, and a
   * population within capacity stays so.
   */
  function UpdateLayers(cfg: LayeredConfig, st: LayeredState): (res: Option<LayeredState>)
    ensures res.Some? ==> res.value.parents == [] && res.value.generation == st.generation && res.value.capacity == st.capacity
    ensures res.Some? ==>
      |res.value.layers| == |st.layers| + (if AlpsDoAddLayer(|st.layers|, st.generation, cfg.ageGap, cfg.maxNumLayers) then 1 else 0)
    ensures res.Some? ==> forall k :: 1 <= k < |res.value.layers| && k < cfg.maxNumLayers - 1 ==> Settled(LadderOf(cfg, st), res.value.layers, k)
    ensures res.Some? && WithinCapacity(st.layers, st.capacity) ==> WithinCapacity(res.value.layers, st.capacity)
  {
    match AddIfDue(cfg, st)
    case None => None
    case Some(s1) => MoveAndRegen(cfg, s1)
  }

  /** updateLayers' first step: a new layer when the ALPS scheme says one is due. */
  function AddIfDue(cfg: LayeredConfig, st: LayeredState): (res: Option<LayeredState>)
    ensures res.Some? ==> res.value.generation == st.generation && res.value.capacity == st.capacity
    ensures res.Some? ==>
      |res.value.layers| == |st.layers| + (if AlpsDoAddLayer(|st.layers|, st.generation, cfg.ageGap, cfg.maxNumLayers) then 1 else 0)
    ensures res.Some? && WithinCapacity(st.layers, st.capacity) ==> WithinCapacity(res.value.layers, st.capacity)
  {
    if AlpsDoAddLayer(|st.layers|, st.generation, cfg.ageGap, cfg.maxNumLayers) then
      var added := AddLayer(cfg, st);
      if added.Some? && WithinCapacity(st.layers, st.capacity) && |added.value.layers| != |st.layers| then
        assert |st.layers[0]| <= st.capacity;
        added
      else added
    else Some(st)
  }

  /** The rest of updateLayers: members moved up layer by layer, layer 0 regenerated when due, the parent list emptied. */
  function MoveAndRegen(cfg: LayeredConfig, st: LayeredState): (res: Option<LayeredState>)
    ensures res.Some? ==> res.value.parents == [] && res.value.generation == st.generation && res.value.capacity == st.capacity
    ensures res.Some? ==> |res.value.layers| == |st.layers|
    ensures res.Some? ==> forall k :: 1 <= k < |res.value.layers| && k < cfg.maxNumLayers - 1 ==> Settled(LadderOf(cfg, st), res.value.layers, k)
    ensures res.Some? && WithinCapacity(st.layers, st.capacity) ==> WithinCapacity(res.value.layers, st.capacity)
  {
    var ld := LadderOf(cfg, st);
    var moved := MoveAll(ld, st.layers, 0);
    MoveAllWithinCapacity(ld, st.layers, 0);
    match CheckAndRegen(cfg, st.(layers := moved))
    case None => None
    case Some(s2) =>
      forall k | 1 <= k < |moved| && k < cfg.maxNumLayers - 1
        ensures Settled(ld, s2.layers, k)
      {
        assert Settled(ld, moved, k);
        assert s2.layers[k] == moved[k];
      }
      Some(s2.(parents := []))
  }

  /** The plain GP's doTerminate on the layered run's generation and tally. */
  predicate Terminates(cfg: LayeredConfig, st: LayeredState)
  {
    DoTerminate(cfg.gp, RunState([], st.generation, st.tally.numEvaluations, st.tally.best, st.tally.bestFitness,
                                 st.tally.foundOptimal, st.nextId, st.rng))
  }

  /** Every member of every layer is evaluated. */
  predicate AllEvaluated(layers: seq<seq<Individual>>)
  {
    forall k, j :: 0 <= k < |layers| && 0 <= j < |layers[k]| ==> layers[k][j].evaluated
  }

  /**
   * init: the capacity popSize / maxNumLayers (no layers at all divides by
   * zero), one layer of fresh individuals, evaluated.
   */
  function Init(cfg: LayeredConfig, nextId: nat, r: Rng): (res: Option<LayeredState>)
    ensures cfg.maxNumLayers == 0 ==> res.None?
    ensures res.Some? ==> |res.value.layers| == 1 && res.value.generation == 0 && AllEvaluated(res.value.layers)
    ensures res.Some? && cfg.gp.popSize >= 0 && cfg.maxNumLayers > 0 ==>
      |res.value.layers[0]| == res.value.capacity && res.value.capacity * cfg.maxNumLayers <= cfg.gp.popSize
  {
    match Capacity(cfg.gp.popSize, cfg.maxNumLayers)
    case None => None
    case Some(cap) =>
      var st := LayeredState([[]], [], cap, 0, Tally(None, 0.0, false, 0), 0, 0, false, {}, 0, nextId, r);
      match InitLayer(cfg, st)
      case None => None
      case Some(f) =>
        match EvaluateLayers(cfg.gp.problem, cfg.gp.stopOnOptimal, [f.pop], st.tally)
        case None => None
        case Some((layers, t)) =>
          assert EvaluatedFrom(f.pop, layers[0]);
          Some(st.(layers := layers, tally := t, generated := f.seen, uniqueRetries := f.retries, nextId := f.nextId, rng := f.rng))
  }

  /** breed, which ends with evaluatePop: every layer bred or kept, then evaluated. */
  function BreedAndEvaluate(cfg: LayeredConfig, st: LayeredState): (res: Option<LayeredState>)
    ensures res.Some? ==>
      res.value.capacity == st.capacity && res.value.generation == st.generation
      && AllEvaluated(res.value.layers) && res.value.tally.numEvaluations >= st.tally.numEvaluations
    ensures res.Some? && 0 <= cfg.gp.numElites && WithinCapacity(st.layers, st.capacity) ==> WithinCapacity(res.value.layers, st.capacity)
  {
    match InterLayerBreed(cfg.gp, st.capacity, st.addedLayer, st.layers, st.parents, st.nextId, st.rng)
    case None => None
    case Some(g) =>
      match EvaluateLayers(cfg.gp.problem, cfg.gp.stopOnOptimal, g.layers, st.tally)
      case None => None
      case Some((layers, t)) =>
        Some(st.(layers := layers, parents := g.parents, nextId := g.nextId, rng := g.rng, tally := t))
  }

  /**
   * step: layer indices recorded, the added-layer flag reset and the layers
   * updated; then, unless the run should terminate, the generation
   * advances and the population is bred layer by layer and evaluated. A
   * population within capacity stays so.
   */
  function Step(cfg: LayeredConfig, st: LayeredState): (res: Option<LayeredState>)
    ensures res.Some? ==> res.value.capacity == st.capacity
    ensures res.Some? ==>
      (res.value.generation == st.generation && Terminates(cfg, res.value))
      || (res.value.generation == st.generation + 1 && AllEvaluated(res.value.layers)
          && res.value.tally.numEvaluations >= st.tally.numEvaluations)
    ensures res.Some? && 0 <= cfg.gp.numElites && WithinCapacity(st.layers, st.capacity) ==> WithinCapacity(res.value.layers, st.capacity)
  {
    var indexed := UpdateLayerIndices(st.layers);
    IndicesKeepCapacity(st.layers, st.capacity);
    UpdateAndBreed(cfg, st.(layers := indexed, addedLayer := false))
  }

  /** Recording layer indices changes no layer's size. */
  lemma IndicesKeepCapacity(layers: seq<seq<Individual>>, capacity: int)
    ensures WithinCapacity(layers, capacity) ==> WithinCapacity(UpdateLayerIndices(layers), capacity)
  {
  }

  /** step after the layer indices are recorded: the layers updated, then the generation advanced and bred unless the run should terminate. */
  function UpdateAndBreed(cfg: LayeredConfig, st: LayeredState): (res: Option<LayeredState>)
    ensures res.Some? ==> res.value.capacity == st.capacity
    ensures res.Some? ==>
      (res.value.generation == st.generation && Terminates(cfg, res.value))
      || (res.value.generation == st.generation + 1 && AllEvaluated(res.value.layers)
          && res.value.tally.numEvaluations >= st.tally.numEvaluations)
    ensures res.Some? && 0 <= cfg.gp.numElites && WithinCapacity(st.layers, st.capacity) ==> WithinCapacity(res.value.layers, st.capacity)
  {
    match UpdateLayers(cfg, st)
    case None => None
    case Some(s1) =>
      if Terminates(cfg, s1) then Some(s1)
      else
        BreedAndEvaluate(cfg, s1.(generation := s1.generation + 1))
  }
}

=== FILE: layers.dfy ===
/**
 * The ALPS layer scheme: the layer capacity, the polynomial age ceilings,
 * the move-up test, the schedules for adding a layer and regenerating
 * layer 0, and the aging of elites that served as parents.
 */
module Layers {
  import opened Wrappers
  import opened Individuals
  import opened GP

  // --------------------------------------------------------- capacity

  function Abs(x: int): nat
  {
    if x < 0 then -x else x
  }

  /** Java's `/` on int: the quotient of the magnitudes, negative when the signs differ (truncation toward zero). */
  function JavaDiv(a: int, b: int): (q: int)
    requires b != 0
    ensures q < 0 ==> (a < 0) != (b < 0)
  {
    var m := Abs(a) / Abs(b);
    if (a < 0) == (b < 0) then m else -m
  }

  /**
   * On natural operands Java's division agrees with Dafny's; on a negative
   * dividend it rounds toward zero, so it is odd in the dividend, where
   * Dafny's rounds down.
   */
  lemma JavaDivTruncates(a: int, b: int)
    requires b > 0
    ensures a >= 0 ==> JavaDiv(a, b) == a / b
    ensures JavaDiv(-a, b) == -JavaDiv(a, b)
    ensures JavaDiv(-7, 2) == -3 && -7 / 2 == -4
  {
  }

  /**
   * The layer capacity popSize / numLayers in integer division; a layer
   * count of 0 throws (None). With a natural population size and a positive
   * count, full layers fit in the population and one more member per layer
   * would not.
   */
  function Capacity(popSize: int, numLayers: int): (c: Option<int>)
    ensures c.None? <==> numLayers == 0
    ensures c.Some? && popSize >= 0 && numLayers > 0 ==>
      0 <= c.value && c.value * numLayers <= popSize < (c.value + 1) * numLayers
  {
    if numLayers == 0 then None
    else
      var q := JavaDiv(popSize, numLayers);
      if popSize >= 0 && numLayers > 0 then
        assert q == popSize / numLayers;
        assert popSize == q * numLayers + popSize % numLayers;
        Some(q)
      else Some(q)
  }

  // ----------------------------------------------------- age ceilings

  /**
   * calculateMaxAge, Hornby's polynomial scheme: ageGap for layer 0,
   * 2 ageGap for layer 1, no ceiling (-1) for the last layer of
   * maxNumLayers, and i^2 ageGap for any other layer i. Layers 0 and 1 are
   * tested first, so with one or two layers the top one keeps a ceiling.
   */
  function CalculateMaxAge(layerIndex: int, ageGap: int, maxNumLayers: int): int
  {
    if layerIndex == 0 then ageGap
    else if layerIndex == 1 then ageGap * 2
    else if layerIndex == maxNumLayers - 1 then -1
    else layerIndex * layerIndex * ageGap
  }

  /** i < j with 2 <= i gives i^2 g < j^2 g for a positive g. */
  lemma SquaresIncrease(i: int, j: int, g: int)
    requires 2 <= i < j && g > 0
    ensures i * i * g < j * j * g
  {
    assert i * i < i * j by {
      assert i * j - i * i == i * (j - i);
    }
    assert i * j < j * j by {
      assert j * j - i * j == j * (j - i);
    }
    assert j * j * g - i * i * g == (j * j - i * i) * g;
  }

  /**
   * With a positive age gap the ceilings strictly increase from layer to
   * layer below the last one, and only the last layer (from index 2 on)
   * has no ceiling.
   */
  lemma CeilingsIncrease(i: int, j: int, ageGap: int, maxNumLayers: int)
    requires 0 <= i < j && ageGap > 0
    requires j <= 1 || j < maxNumLayers - 1
    ensures 0 < CalculateMaxAge(i, ageGap, maxNumLayers) < CalculateMaxAge(j, ageGap, maxNumLayers)
  {
    if i >= 2 {
      SquaresIncrease(i, j, ageGap);
    } else if j > 2 {
      SquaresIncrease(2, j, ageGap);
      assert 2 * 2 * ageGap == 4 * ageGap;
    } else if j == 2 {
      assert 2 * 2 * ageGap == 4 * ageGap;
    }
  }

  /** The ceiling is unbounded (not positive) exactly on the last layer from index 2 on, given a positive gap. */
  lemma OnlyTopUnbounded(i: int, ageGap: int, maxNumLayers: int)
    requires i >= 0 && ageGap > 0
    ensures CalculateMaxAge(i, ageGap, maxNumLayers) <= 0 <==> i >= 2 && i == maxNumLayers - 1
  {
    if i >= 2 && i != maxNumLayers - 1 {
      assert i * i >= 4 by {
        assert i * i - 4 == (i - 2) * (i + 2);
      }
      assert i * i * ageGap > 0;
    }
  }

  /** The ceilings for an age gap of 10 and nine layers: 10, 20, 40, 90, 160, 250, 360, 490 and none for the top. */
  lemma CeilingsExample()
    ensures CalculateMaxAge(0, 10, 9) == 10 && CalculateMaxAge(1, 10, 9) == 20
    ensures CalculateMaxAge(2, 10, 9) == 40 && CalculateMaxAge(3, 10, 9) == 90
    ensures CalculateMaxAge(6, 10, 9) == 360 && CalculateMaxAge(7, 10, 9) == 490
    ensures CalculateMaxAge(8, 10, 9) == -1
  {
  }

  /**
   * moveUpCriteria: an individual leaves layer `layer` once its age is
   * above that layer's ceiling, provided the ceiling is positive; so never
   * from the unbounded top layer.
   */
  predicate MoveUpCriteria(age: int, layer: int, ageGap: int, maxNumLayers: int)
  {
    var maxAge := CalculateMaxAge(layer, ageGap, maxNumLayers);
    maxAge > 0 && age > maxAge
  }

  /**
   * Nobody leaves the last of three or more layers; an individual old
   * enough to leave a layer stays old enough as it ages; and with a positive
   * gap, one that may leave layer j (below the top) may leave every lower
   * layer.
   */
  lemma MoveUpFacts(age: int, age': int, i: int, j: int, ageGap: int, maxNumLayers: int)
    requires 0 <= i < j && ageGap > 0
    requires j <= 1 || j < maxNumLayers - 1
    ensures maxNumLayers >= 3 ==> !MoveUpCriteria(age, maxNumLayers - 1, ageGap, maxNumLayers)
    ensures MoveUpCriteria(age, j, ageGap, maxNumLayers) && age <= age' ==> MoveUpCriteria(age', j, ageGap, maxNumLayers)
    ensures MoveUpCriteria(age, j, ageGap, maxNumLayers) ==> MoveUpCriteria(age, i, ageGap, maxNumLayers)
  {
    CeilingsIncrease(i, j, ageGap, maxNumLayers);
  }

  // --------------------------------------------------------- schedules

  /**
   * The ALPS doAddLayer: never once maxNumLayers layers exist; otherwise as
   * soon as the generation reaches the ceiling of the current top layer.
   */
  function AlpsDoAddLayer(numLayers: int, generation: int, ageGap: int, maxNumLayers: int): (r: bool)
    ensures numLayers >= maxNumLayers ==> !r
    ensures numLayers < maxNumLayers ==> (r <==> generation >= CalculateMaxAge(numLayers - 1, ageGap, maxNumLayers))
  {
    if numLayers >= maxNumLayers then false
    else generation >= CalculateMaxAge(numLayers - 1, ageGap, maxNumLayers)
  }

  /**
   * The schedule with an age gap of 10 and nine layers: with seven layers
   * the eighth is due at generation 360; with eight the ninth is not due at
   * 361 but is at 490; with nine nothing more is added.
   */
  lemma AddLayerExamples()
    ensures AlpsDoAddLayer(7, 360, 10, 9)
    ensures !AlpsDoAddLayer(8, 361, 10, 9)
    ensures AlpsDoAddLayer(8, 490, 10, 9)
    ensures !AlpsDoAddLayer(9, 491, 10, 9)
  {
  }

  /**
   * The base scheme's test shared by doRegenerateInitialLayer and
   * doAddLayer: not in generation 0, and otherwise once ageGap generations
   * have passed since the last event.
   */
  predicate AgeGapReached(generation: int, ageGap: int, last: int)
  {
    generation != 0 && generation - last >= ageGap
  }

  /**
   * After an event at generation last >= 0 with a positive gap, the next
   * one falls due exactly ageGap generations later: not before, and from
   * then on.
   */
  lemma AgeGapPeriod(generation: int, ageGap: int, last: int)
    requires last >= 0 && ageGap > 0 && generation >= last
    ensures AgeGapReached(generation, ageGap, last) <==> generation >= last + ageGap
  {
  }

  // ------------------------------------------------------ elite aging

  /** No two individuals of s share an id. */
  predicate DistinctIds(s: seq<Individual>)
  {
    forall i, j :: 0 <= i < j < |s| ==> s[i].id != s[j].id
  }

  /** Some individual of s has the id (parents.contains, which compares ids). */
  predicate HasId(s: seq<Individual>, id: Option<nat>)
  {
    exists k :: 0 <= k < |s| && s[k].id == id
  }

  /** The ids occurring in s. */
  function IdsOf(s: seq<Individual>): set<Option<nat>>
  {
    set x | x in s :: x.id
  }

  /** A list splits into its head and tail: ids distinct overall means distinct in the tail and a head id new to it. */
  lemma SplitIds(s: seq<Individual>)
    requires s != []
    ensures IdsOf(s) == {s[0].id} + IdsOf(s[1..])
    ensures DistinctIds(s) <==> DistinctIds(s[1..]) && s[0].id !in IdsOf(s[1..])
  {
    assert s == [s[0]] + s[1..];
    assert forall y :: y in s <==> y == s[0] || y in s[1..];
    if DistinctIds(s) {
      forall y | y in s[1..]
        ensures y.id != s[0].id
      {
        var m :| 0 <= m < |s[1..]| && s[1..][m] == y;
        assert s[m + 1] == y;
      }
      forall a, b | 0 <= a < b < |s[1..]|
        ensures s[1..][a].id != s[1..][b].id
      {
        assert s[1..][a] == s[a + 1] && s[1..][b] == s[b + 1];
      }
    }
    if DistinctIds(s[1..]) && s[0].id !in IdsOf(s[1..]) {
      forall a, b | 0 <= a < b < |s|
        ensures s[a].id != s[b].id
      {
        assert s[b] == s[1..][b - 1];
        if a > 0 {
          assert s[a] == s[1..][a - 1];
        } else {
          assert s[b] in s[1..];
        }
      }
    }
  }

  /** Removing the first holder of an id from a list without repeated ids drops exactly that id and keeps the rest distinct. */
  lemma {:induction false} RemoveFirstIds(s: seq<Individual>, id: Option<nat>)
    requires DistinctIds(s)
    ensures DistinctIds(RemoveFirst(s, id))
    ensures IdsOf(RemoveFirst(s, id)) == IdsOf(s) - {id}
  {
    if s != [] {
      SplitIds(s);
      if s[0].id != id {
        RemoveFirstIds(s[1..], id);
        var rest := RemoveFirst(s[1..], id);
        assert RemoveFirst(s, id) == [s[0]] + rest;
        assert ([s[0]] + rest)[1..] == rest;
        SplitIds([s[0]] + rest);
      }
    }
  }

  /** The ids of the elite positions [|layer| - n, |layer| - i) still to be handled. */
  function EliteIds(layer: seq<Individual>, i: nat, n: nat): set<Option<nat>>
    requires i <= n <= |layer|
  {
    set k | |layer| - n <= k < |layer| - i :: layer[k].id
  }

  /** One pass of updateElitesAges' loop: the elite at |layer| - 1 - i ages and leaves the parent list if it was a parent. */
  function AgeOne(layer: seq<Individual>, parents: seq<Individual>, i: nat): (res: (seq<Individual>, seq<Individual>))
    requires i < |layer|
    ensures |res.0| == |layer|
    ensures forall k :: 0 <= k < |layer| && k != |layer| - 1 - i ==> res.0[k] == layer[k]
    ensures res.0[|layer| - 1 - i] == layer[|layer| - 1 - i].(age := res.0[|layer| - 1 - i].age)
  {
    var idx := |layer| - 1 - i;
    var e := layer[idx];
    if HasId(parents, e.id) then (layer[idx := e.(age := e.age + 1)], RemoveFirst(parents, e.id))
    else (layer, parents)
  }

  /** One pass changes no id, so ids stay distinct. */
  lemma AgeOneDistinct(layer: seq<Individual>, parents: seq<Individual>, i: nat)
    requires i < |layer| && DistinctIds(layer)
    ensures DistinctIds(AgeOne(layer, parents, i).0)
  {
    var layer1 := AgeOne(layer, parents, i).0;
    forall a, b | 0 <= a < b < |layer1|
      ensures layer1[a].id != layer1[b].id
    {
      assert layer1[a].id == layer[a].id && layer1[b].id == layer[b].id;
    }
  }

  /** One pass removes at most the aged elite's id from the parent list, so other ids keep their parenthood. */
  lemma AgeOneKeepsOthers(layer: seq<Individual>, parents: seq<Individual>, i: nat, id: Option<nat>)
    requires i < |layer| && id != layer[|layer| - 1 - i].id
    ensures HasId(AgeOne(layer, parents, i).1, id) == HasId(parents, id)
  {
    var parents1 := AgeOne(layer, parents, i).1;
    if HasId(parents, id) {
      var m :| 0 <= m < |parents| && parents[m].id == id;
      assert parents[m] in parents1;
      var m' :| 0 <= m' < |parents1| && parents1[m'] == parents[m];
    }
    if HasId(parents1, id) {
      var m :| 0 <= m < |parents1| && parents1[m].id == id;
      assert parents1[m] in parents;
      var m' :| 0 <= m' < |parents| && parents[m'] == parents1[m];
    }
  }

  /** One pass only ever removes from the parent list. */
  lemma AgeOneShrinksParents(layer: seq<Individual>, parents: seq<Individual>, i: nat)
    requires i < |layer|
    ensures forall y :: y in AgeOne(layer, parents, i).1 ==> y in parents
  {
  }

  /** One pass hands over the aged elite's id: the ids still to handle lose exactly it. */
  lemma AgeOneEliteIds(layer: seq<Individual>, parents: seq<Individual>, i: nat, n: nat)
    requires i < n <= |layer| && DistinctIds(layer)
    ensures var layer1 := AgeOne(layer, parents, i).0;
      EliteIds(layer, i, n) == EliteIds(layer1, i + 1, n) + {layer[|layer| - 1 - i].id}
      && layer[|layer| - 1 - i].id !in EliteIds(layer1, i + 1, n)
  {
    var layer1 := AgeOne(layer, parents, i).0;
    var idx := |layer| - 1 - i;
    var e := layer[idx];
    forall x | x in EliteIds(layer, i, n)
      ensures x in EliteIds(layer1, i + 1, n) + {e.id}
    {
      var k :| |layer| - n <= k < |layer| - i && layer[k].id == x;
      if k != idx {
        assert layer1[k].id == x;
      }
    }
    forall x | x in EliteIds(layer1, i + 1, n) + {e.id}
      ensures x in EliteIds(layer, i, n)
    {
      if x != e.id {
        var k :| |layer| - n <= k < |layer| - i - 1 && layer1[k].id == x;
        assert layer[k].id == x;
      } else {
        assert layer[idx].id == x;
      }
    }
    forall k | |layer| - n <= k < |layer| - i - 1
      ensures layer1[k].id != e.id
    {
      assert layer1[k].id == layer[k].id;
    }
  }

  /** One pass drops the aged elite's id from a parent list without repeated ids. */
  lemma AgeOneParentIds(layer: seq<Individual>, parents: seq<Individual>, i: nat)
    requires i < |layer| && DistinctIds(parents)
    ensures var parents1 := AgeOne(layer, parents, i).1;
      DistinctIds(parents1) && IdsOf(parents1) == IdsOf(parents) - {layer[|layer| - 1 - i].id}
  {
    var e := layer[|layer| - 1 - i];
    if HasId(parents, e.id) {
      RemoveFirstIds(parents, e.id);
    } else {
      assert forall y :: y in parents ==> y.id != e.id;
    }
  }

  /** What one pass keeps: distinct ids, the other elites' parenthood, and the bookkeeping of ids still to handle. */
  lemma AgeOneFacts(layer: seq<Individual>, parents: seq<Individual>, i: nat, n: nat)
    requires i < n <= |layer| && DistinctIds(layer)
    ensures var (layer1, parents1) := AgeOne(layer, parents, i);
      var e := layer[|layer| - 1 - i];
      DistinctIds(layer1)
      && (forall k :: |layer| - n <= k < |layer| - i - 1 ==> HasId(parents1, layer[k].id) == HasId(parents, layer[k].id))
      && (forall y :: y in parents1 ==> y in parents)
      && EliteIds(layer, i, n) == EliteIds(layer1, i + 1, n) + {e.id}
      && e.id !in EliteIds(layer1, i + 1, n)
      && (DistinctIds(parents) ==> DistinctIds(parents1) && IdsOf(parents1) == IdsOf(parents) - {e.id})
  {
    var e := layer[|layer| - 1 - i];
    AgeOneDistinct(layer, parents, i);
    forall k | |layer| - n <= k < |layer| - i - 1
      ensures HasId(AgeOne(layer, parents, i).1, layer[k].id) == HasId(parents, layer[k].id)
    {
      assert layer[k].id != layer[|layer| - 1 - i].id;
      AgeOneKeepsOthers(layer, parents, i, layer[k].id);
    }
    AgeOneShrinksParents(layer, parents, i);
    AgeOneEliteIds(layer, parents, i, n);
    if DistinctIds(parents) {
      AgeOneParentIds(layer, parents, i);
    }
  }

  /**
   * The loop of updateElitesAges from elite i on: each elite at position
   * |layer| - 1 - j, for i <= j < n, that is among the parents ages by one
   * and leaves the parent list. Only the elites' ages change; with no id
   * repeated, each elite ages exactly when it was a parent, and exactly the
   * elites' ids leave the parent list.
   */
  function AgeElites(layer: seq<Individual>, parents: seq<Individual>, i: nat, n: nat): (res: (seq<Individual>, seq<Individual>))
    requires i <= n <= |layer|
    ensures |res.0| == |layer|
    ensures forall k :: 0 <= k < |layer| ==> res.0[k] == layer[k].(age := res.0[k].age)
    ensures forall k :: 0 <= k < |layer| && !(|layer| - n <= k < |layer| - i) ==> res.0[k] == layer[k]
    ensures DistinctIds(layer) ==>
      forall k :: |layer| - n <= k < |layer| - i ==>
        res.0[k].age == layer[k].age + (if HasId(parents, layer[k].id) then 1 else 0)
    ensures forall y :: y in res.1 ==> y in parents
    ensures DistinctIds(layer) && DistinctIds(parents) ==>
      DistinctIds(res.1) && IdsOf(res.1) == IdsOf(parents) - EliteIds(layer, i, n)
    decreases n - i
  {
    if i == n then
      assert EliteIds(layer, i, n) == {};
      (layer, parents)
    else
      var (layer1, parents1) := AgeOne(layer, parents, i);
      if DistinctIds(layer) then
        AgeOneFacts(layer, parents, i, n);
        AgeElites(layer1, parents1, i + 1, n)
      else
        AgeElites(layer1, parents1, i + 1, n)
  }

  /**
   * updateElitesAges: the last numElites members of the layer are the
   * elites; each that was a parent ages by one and leaves the parent list.
   * More elites than members reaches index -1 and throws (None).
   */
  function UpdateElitesAges(layer: seq<Individual>, parents: seq<Individual>, numElites: int): (res: Option<(seq<Individual>, seq<Individual>)>)
    ensures res.None? <==> numElites > |layer|
    ensures res.Some? && numElites <= 0 ==> res.value == (layer, parents)
    ensures res.Some? && numElites > 0 ==> res.value == AgeElites(layer, parents, 0, numElites)
  {
    if numElites > |layer| then None
    else if numElites <= 0 then Some((layer, parents))
    else Some(AgeElites(layer, parents, 0, numElites))
  }

  /** Insertion into a list without repeated ids, of an individual whose id is new to it, repeats no id. */
  lemma {:induction false} InsertKeepsDistinct(x: Individual, s: seq<Individual>)
    requires SortedByFitness(s) && DistinctIds(s)
    requires forall y :: y in s ==> y.id != x.id
    ensures DistinctIds(InsertByFitness(x, s))
  {
    var r := InsertByFitness(x, s);
    if s == [] {
    } else if x.fitness < s[0].fitness {
      assert r == [x] + s;
      forall a, b | 0 <= a < b < |r|
        ensures r[a].id != r[b].id
      {
        if a == 0 {
          assert r[b] == s[b - 1];
        } else {
          assert r[a] == s[a - 1] && r[b] == s[b - 1];
        }
      }
    } else {
      assert s == [s[0]] + s[1..];
      SortedTail(s);
      var rest := InsertByFitness(x, s[1..]);
      assert DistinctIds(s[1..]) by {
        forall a, b | 0 <= a < b < |s[1..]|
          ensures s[1..][a].id != s[1..][b].id
        {
          assert s[1..][a] == s[a + 1] && s[1..][b] == s[b + 1];
        }
      }
      InsertKeepsDistinct(x, s[1..]);
      assert r == [s[0]] + rest;
      forall a, b | 0 <= a < b < |r|
        ensures r[a].id != r[b].id
      {
        if a == 0 {
          assert r[b] == rest[b - 1];
          assert rest[b - 1] in rest;
          if rest[b - 1] != x {
            assert rest[b - 1] in s[1..];
            var m :| 0 <= m < |s[1..]| && s[1..][m] == rest[b - 1];
            assert s[m + 1] == rest[b - 1];
          }
        } else {
          assert r[a] == rest[a - 1] && r[b] == rest[b - 1];
        }
      }
    }
  }

  /** Sorting a list without repeated ids repeats no id. */
  lemma {:induction false} SortKeepsDistinct(s: seq<Individual>)
    requires DistinctIds(s)
    ensures DistinctIds(SortByFitness(s))
  {
    if s != [] {
      var front := s[..|s| - 1];
      assert s == front + [s[|s| - 1]];
      assert DistinctIds(front) by {
        forall a, b | 0 <= a < b < |front|
          ensures front[a].id != front[b].id
        {
          assert front[a] == s[a] && front[b] == s[b];
        }
      }
      SortKeepsDistinct(front);
      forall y | y in SortByFitness(front)
        ensures y.id != s[|s| - 1].id
      {
        assert y in front;
        var m :| 0 <= m < |front| && front[m] == y;
        assert s[m] == y;
      }
      InsertKeepsDistinct(s[|s| - 1], SortByFitness(front));
    }
  }
}

=== FILE: mutation.dfy ===
/**
 * Point mutation (the PointMutation operator): every node of a copy is, with
 * the mutation probability, replaced by a random primitive of the same
 * arity, a random terminal, or, for an ephemeral constant, a fresh Gaussian
 * value. The tree keeps its shape and its node numbers.
 */
module Mutation {
  import opened Prims
  import opened Tree
  import opened Wrappers
  import opened Rand
  import opened Individuals

  /** The configuration mutation reads: the function and terminal sets and the per-node probability. */
  datatype MutationConfig = MutationConfig(functionSet: seq<Prim>, terminalSet: seq<Prim>, mutationProb: real)

  /** The names of the members of fs whose arity is not a. */
  function MismatchNames(fs: seq<Prim>, a: nat): set<string>
  {
    if fs == [] then {}
    else (if Arity(fs[0]) != a then {Name(fs[0])} else {}) + MismatchNames(fs[1..], a)
  }

  lemma {:induction false} MismatchNamesHas(fs: seq<Prim>, a: nat, k: nat)
    requires k < |fs| && Arity(fs[k]) != a
    ensures Name(fs[k]) in MismatchNames(fs, a)
  {
    if k > 0 {
      MismatchNamesHas(fs[1..], a, k - 1);
    }
  }

  /** There are no more mismatching names than members, and fewer when some member matches. */
  lemma {:induction false} MismatchNamesCard(fs: seq<Prim>, a: nat)
    ensures |MismatchNames(fs, a)| <= |fs|
    ensures (exists k :: 0 <= k < |fs| && Arity(fs[k]) == a) ==> |MismatchNames(fs, a)| < |fs|
  {
    if fs != [] {
      MismatchNamesCard(fs[1..], a);
      if exists k :: 0 <= k < |fs| && Arity(fs[k]) == a {
        var k :| 0 <= k < |fs| && Arity(fs[k]) == a;
        if k > 0 {
          assert Arity(fs[1..][k - 1]) == a;
        }
      }
    }
  }

  lemma SubsetCard<T>(a: set<T>, b: set<T>)
    requires a <= b
    ensures |a| <= |b|
    decreases |a|
  {
    if a != {} {
      var x :| x in a;
      SubsetCard(a - {x}, b - {x});
    }
  }

  /**
   * getRandomFunctionNode: draws from the function set until a primitive
   * of the wanted arity turns up, recording the names of the misses; once
   * as many distinct names have missed as the set has members it gives up
   * (null). The fuel bounds the number of draws.
   */
  function RandomFunction(arity: nat, fs: seq<Prim>, tried: set<string>, r: Rng, fuel: nat): (res: (Option<Prim>, Rng))
    requires tried <= MismatchNames(fs, arity)
    ensures res.0.Some? ==> res.0.value in fs && Arity(res.0.value) == arity
    ensures res.0.None? ==> (forall k :: 0 <= k < |fs| ==> Arity(fs[k]) != arity) || res.1.pos == r.pos + fuel
    ensures r.pos <= res.1.pos <= r.pos + fuel
    decreases fuel
  {
    if |tried| >= |fs| then
      MismatchNamesCard(fs, arity);
      SubsetCard(tried, MismatchNames(fs, arity));
      (None, r)
    else if fuel == 0 then (None, r)
    else
      var (k, r1) := RandBetween(r, 0, |fs| - 1);
      if Arity(fs[k]) == arity then (Some(fs[k]), r1)
      else
        MismatchNamesHas(fs, arity, k);
        RandomFunction(arity, fs, tried + {Name(fs[k])}, r1, fuel - 1)
  }

  /** A function set without a primitive of the wanted arity yields nothing, without a single draw. */
  lemma RandomFunctionNoCandidate(arity: nat, fs: seq<Prim>, r: Rng, fuel: nat)
    requires forall k :: 0 <= k < |fs| ==> Arity(fs[k]) != arity
    requires forall j, k :: 0 <= j < k < |fs| ==> Name(fs[j]) != Name(fs[k])
    ensures RandomFunction(arity, fs, {}, r, fuel).0.None?
  {
  }

  /** A first draw that lands on a primitive of the wanted arity is the one returned. */
  lemma RandomFunctionFirstHit(arity: nat, fs: seq<Prim>, r: Rng, fuel: nat)
    requires fuel > 0 && |fs| > 0 && Arity(fs[r.ints(r.pos) % |fs|]) == arity
    ensures RandomFunction(arity, fs, {}, r, fuel).0 == Some(fs[r.ints(r.pos) % |fs|])
  {
  }

  /** getRandomTerminalNode: a uniform draw from the terminal set; an empty set makes nextInt throw (None). */
  function RandomTerminal(ts: seq<Prim>, r: Rng): (res: Option<(Prim, Rng)>)
    ensures res.Some? <==> |ts| > 0
    ensures res.Some? ==> res.value.0 in ts && res.value.1 == r.(pos := r.pos + 1)
  {
    if |ts| == 0 then None
    else
      var (k, r1) := RandBetween(r, 0, |ts| - 1);
      Some((ts[k], r1))
  }

  /**
   * replaceNode: the new primitive takes the old node's place and number
   * and, unless it is a terminal, adopts the old node's children.
   */
  function ReplaceNode(t: Node, p: seq<nat>, newPrim: Prim): (r: Node)
    requires ValidPath(t, p)
    ensures ValidPath(r, p) && At(r, p).prim == newPrim && At(r, p).num == At(t, p).num
    ensures !IsTerminal(newPrim) ==> At(r, p).kids == At(t, p).kids
    ensures IsTerminal(newPrim) ==> At(r, p).kids == []
    ensures forall q :: ValidPath(t, q) && Diverge(p, q) ==> ValidPath(r, q) && At(r, q) == At(t, q)
  {
    var orig := At(t, p);
    var q := Node(newPrim, orig.num, if IsTerminal(newPrim) then [] else orig.kids);
    ReplaceAt(t, p, q);
    forall v | ValidPath(t, v) && Diverge(p, v)
      ensures ValidPath(Replace(t, p, q), v) && At(Replace(t, p, q), v) == At(t, v)
    {
      ReplaceElsewhere(t, p, q, v);
    }
    Replace(t, p, q)
  }

  // ------------------------------------------------------------ skeletons

  /** Same numbers, same arities and same terminal/function split everywhere; the primitives may differ. */
  predicate SameSkeleton(a: Node, b: Node)
    decreases a
  {
    a.num == b.num && Arity(a.prim) == Arity(b.prim) && |a.kids| == |b.kids|
    && forall i :: 0 <= i < |a.kids| ==> SameSkeleton(a.kids[i], b.kids[i])
  }

  lemma {:induction false} SkeletonRefl(a: Node)
    ensures SameSkeleton(a, a)
    decreases a
  {
    forall i | 0 <= i < |a.kids|
      ensures SameSkeleton(a.kids[i], a.kids[i])
    {
      SkeletonRefl(a.kids[i]);
    }
  }

  lemma {:induction false} SkeletonTrans(a: Node, b: Node, c: Node)
    requires SameSkeleton(a, b) && SameSkeleton(b, c)
    ensures SameSkeleton(a, c)
    decreases a
  {
    forall i | 0 <= i < |a.kids|
      ensures SameSkeleton(a.kids[i], c.kids[i])
    {
      SkeletonTrans(a.kids[i], b.kids[i], c.kids[i]);
    }
  }

  /** Trees with the same skeleton have the same numbered printout, numbers, size and depth, and are well formed together. */
  lemma {:induction false} SkeletonFacts(a: Node, b: Node)
    requires SameSkeleton(a, b)
    ensures Show(a, true) == Show(b, true)
    ensures Nums(a) == Nums(b) && Size(a) == Size(b) && Depth(a) == Depth(b)
    ensures WellFormed(a) <==> WellFormed(b)
    decreases a, 1
  {
    SkeletonKidsFacts(a.kids, b.kids);
  }

  lemma {:induction false} SkeletonKidsFacts(ks: seq<Node>, ls: seq<Node>)
    requires |ks| == |ls| && forall i :: 0 <= i < |ks| ==> SameSkeleton(ks[i], ls[i])
    ensures ShowKids(ks, true) == ShowKids(ls, true)
    ensures NumsKids(ks) == NumsKids(ls) && SizeKids(ks) == SizeKids(ls) && DepthKids(ks) == DepthKids(ls)
    ensures (forall i :: 0 <= i < |ks| ==> WellFormed(ks[i])) <==> (forall i :: 0 <= i < |ls| ==> WellFormed(ls[i]))
    decreases ks, 0
  {
    if ks != [] {
      SkeletonFacts(ks[0], ls[0]);
      SkeletonKidsFacts(ks[1..], ls[1..]);
      SizeKidsCons(ks);
      SizeKidsCons(ls);
      assert forall i :: 1 <= i < |ks| ==> ks[1..][i - 1] == ks[i] && ls[1..][i - 1] == ls[i];
    }
  }

  /** Substituting a subtree with the same skeleton keeps the skeleton of the whole tree. */
  lemma {:induction false} ReplaceSkeleton(t: Node, p: seq<nat>, q: Node)
    requires ValidPath(t, p) && SameSkeleton(q, At(t, p))
    ensures SameSkeleton(Replace(t, p, q), t)
    decreases |p|
  {
    if |p| == 0 {
    } else {
      ReplaceSkeleton(t.kids[p[0]], p[1..], q);
      var t' := Replace(t, p, q);
      forall i | 0 <= i < |t'.kids|
        ensures SameSkeleton(t'.kids[i], t.kids[i])
      {
        if i != p[0] {
          SkeletonRefl(t.kids[i]);
        }
      }
    }
  }

  // ------------------------------------------------------------- mutation

  /**
   * One step of mutate's loop, for node number i of the mutant: flip the
   * mutation coin; on heads look the node up (a missing node is the null
   * pointer failure, None), then replace a function by a same-arity
   * function if one is found, give an ephemeral constant a new Gaussian
   * value, or replace any other terminal by a random terminal (itself given
   * a Gaussian value when it is a constant).
   */
  function MutateStep(t: Node, i: int, cfg: MutationConfig, r: Rng, fuel: nat): (res: Option<(Node, Rng)>)
    ensures res.Some? ==> res.value.1.pos > r.pos
    ensures res.Some? && !NextBool(r, cfg.mutationProb).0 ==> res.value.0 == t
    ensures res.Some? && AllTerminals(cfg.terminalSet) && WellFormed(t) ==> SameSkeleton(res.value.0, t)
    ensures res.None? ==> NextBool(r, cfg.mutationProb).0 && (Find(t, i).None? || |cfg.terminalSet| == 0)
  {
    var (heads, r1) := NextBool(r, cfg.mutationProb);
    SkeletonRefl(t);
    if !heads then Some((t, r1))
    else
      match Find(t, i)
      case None => None
      case Some(p) =>
        FindSound(t, i);
        var orig := At(t, p);
        if !IsTerminal(orig.prim) then
          var (f, r2) := RandomFunction(Arity(orig.prim), cfg.functionSet, {}, r1, fuel);
          if f.None? then Some((t, r2))
          else
            var t' := ReplaceNode(t, p, f.value);
            MutantSkeleton(t, p, f.value);
            Some((t', r2))
        else if orig.prim.Const? then
          var (g, r2) := NextGaussian(r1);
          MutantSkeleton(t, p, Const(g));
          Some((ReplaceNode(t, p, Const(g)), r2))
        else
          match RandomTerminal(cfg.terminalSet, r1)
          case None => None
          case Some((np, r2)) =>
            if np.Const? then
              var (g, r3) := NextGaussian(r2);
              MutantSkeleton(t, p, Const(g));
              Some((ReplaceNode(t, p, Const(g)), r3))
            else
              MutantSkeleton(t, p, np);
              Some((ReplaceNode(t, p, np), r2))
  }

  /** replaceNode by a primitive of the old node's arity and terminal status keeps the skeleton of a well-formed tree. */
  lemma MutantSkeleton(t: Node, p: seq<nat>, np: Prim)
    requires ValidPath(t, p)
    ensures WellFormed(t) && Arity(np) == Arity(At(t, p).prim) ==> SameSkeleton(ReplaceNode(t, p, np), t)
  {
    if WellFormed(t) && Arity(np) == Arity(At(t, p).prim) {
      var orig := At(t, p);
      AtWellFormed(t, p);
      var q := Node(np, orig.num, if IsTerminal(np) then [] else orig.kids);
      forall i | 0 <= i < |q.kids|
        ensures SameSkeleton(q.kids[i], orig.kids[i])
      {
        SkeletonRefl(orig.kids[i]);
      }
      ReplaceSkeleton(t, p, q);
    }
  }

  /** mutate's loop over node numbers i, i + 1, ..., n - 1. */
  function MutateFrom(t: Node, i: int, n: int, cfg: MutationConfig, r: Rng, fuel: nat): (res: Option<(Node, Rng)>)
    ensures res.Some? ==> res.value.1.pos >= r.pos + (if i < n then n - i else 0)
    ensures res.Some? && AllTerminals(cfg.terminalSet) && WellFormed(t) ==> SameSkeleton(res.value.0, t)
    decreases n - i
  {
    if i >= n then SkeletonRefl(t); Some((t, r))
    else
      match MutateStep(t, i, cfg, r, fuel)
      case None => None
      case Some((t1, r1)) =>
        var res := MutateFrom(t1, i + 1, n, cfg, r1, fuel);
        if res.Some? && AllTerminals(cfg.terminalSet) && WellFormed(t) then
          SkeletonFacts(t1, t);
          SkeletonTrans(res.value.0, t1, t);
          res
        else res
  }

  /**
   * mutate: a copy of the individual, unevaluated with fitness and hits
   * reset, whose nodes numbered 0 .. numNodes - 1 are each considered for
   * mutation once. None is a failure of the source (a node number missing
   * from the tree, or an empty terminal set).
   */
  function Mutate(ind: Individual, cfg: MutationConfig, r: Rng, fuel: nat): (res: Option<(Individual, Rng)>)
    ensures res.Some? ==>
      var m := res.value.0;
      !m.evaluated && m.fitness == 0.0 && m.hits == 0
      && m.id == ind.id && m.age == ind.age && m.optimal == ind.optimal && m.currentLayer == ind.currentLayer
      && m.numNodes == Size(ind.root)
  {
    var c := SetFitness(Copy(ind).(evaluated := false), 0.0).(hits := 0);
    match MutateFrom(c.root, 0, ind.numNodes, cfg, r, fuel)
    case None => None
    case Some((root, r1)) => Some((c.(root := root), r1))
  }

  /**
   * A mutant of a well-formed tree whose terminal set holds only terminals
   * has the same numbered printout, numbers, size and depth as the
   * original: only primitives change, never the shape.
   */
  lemma MutateKeepsSkeleton(ind: Individual, cfg: MutationConfig, r: Rng, fuel: nat)
    requires WellFormed(ind.root) && AllTerminals(cfg.terminalSet) && Mutate(ind, cfg, r, fuel).Some?
    ensures var m := Mutate(ind, cfg, r, fuel).value.0;
      Show(m.root, true) == Show(Copy(ind).root, true)
      && Nums(m.root) == Range(0, Size(ind.root))
      && Size(m.root) == Size(ind.root) && Depth(m.root) == Depth(ind.root)
      && WellFormed(m.root)
  {
    var c := Copy(ind);
    SameShapeFacts(c.root, ind.root);
    var m := Mutate(ind, cfg, r, fuel).value.0;
    SkeletonFacts(m.root, c.root);
  }

  /** With probability 0 no coin shows heads: the mutant prints like the original. */
  lemma ZeroProbabilityUnchanged(ind: Individual, cfg: MutationConfig, r: Rng, fuel: nat)
    requires cfg.mutationProb <= 0.0
    ensures Mutate(ind, cfg, r, fuel).Some?
    ensures Mutate(ind, cfg, r, fuel).value.0.root == Copy(ind).root
    ensures ToString(Mutate(ind, cfg, r, fuel).value.0) == ToString(ind)
  {
    var c := SetFitness(Copy(ind).(evaluated := false), 0.0).(hits := 0);
    ZeroProbabilityLoop(c.root, 0, ind.numNodes, cfg, r, fuel);
  }

  lemma {:induction false} ZeroProbabilityLoop(t: Node, i: int, n: int, cfg: MutationConfig, r: Rng, fuel: nat)
    requires cfg.mutationProb <= 0.0
    ensures MutateFrom(t, i, n, cfg, r, fuel).Some? && MutateFrom(t, i, n, cfg, r, fuel).value.0 == t
    decreases n - i
  {
    if i < n {
      var (heads, r1) := NextBool(r, cfg.mutationProb);
      assert MutateStep(t, i, cfg, r, fuel) == Some((t, r1));
      ZeroProbabilityLoop(t, i + 1, n, cfg, r1, fuel);
    }
  }

  /** When numNodes is the tree's size every node number is present, so only an empty terminal set can make mutation fail. */
  lemma MutateDefined(ind: Individual, cfg: MutationConfig, r: Rng, fuel: nat)
    requires WellFormed(ind.root) && ind.numNodes <= Size(ind.root)
    requires |cfg.terminalSet| > 0 && AllTerminals(cfg.terminalSet)
    ensures Mutate(ind, cfg, r, fuel).Some?
  {
    var c := SetFitness(Copy(ind).(evaluated := false), 0.0).(hits := 0);
    SameShapeFacts(c.root, ind.root);
    assert c.root == Copy(ind).root;
    assert Nums(c.root) == Range(0, Size(ind.root));
    forall j | 0 <= j < ind.numNodes
      ensures j in Nums(c.root)
    {
      assert Nums(c.root)[j] == j;
    }
    MutateLoopDefined(c.root, 0, ind.numNodes, cfg, r, fuel);
  }

  lemma {:induction false} MutateLoopDefined(t: Node, i: int, n: int, cfg: MutationConfig, r: Rng, fuel: nat)
    requires 0 <= i && n <= |Nums(t)| && forall j :: i <= j < n ==> j in Nums(t)
    requires WellFormed(t) && |cfg.terminalSet| > 0 && AllTerminals(cfg.terminalSet)
    ensures MutateFrom(t, i, n, cfg, r, fuel).Some?
    decreases n - i
  {
    if i < n {
      FindComplete(t, i);
      var s := MutateStep(t, i, cfg, r, fuel);
      var (t1, r1) := s.value;
      SkeletonFacts(t1, t);
      MutateLoopDefined(t1, i + 1, n, cfg, r1, fuel);
    }
  }
}

=== FILE: pareto.dfy ===
/**
 * The Pareto operators (ParetoOperators): the per-objective "better"
 * tests, domination with its tie rules, the global non-dominated front
 * with its domination map, tournament trimming and deletion.
 * Individuals are identified by id, as their equals method does.
 */
module Pareto {
  import opened Wrappers
  import opened Rand
  import opened Individuals
  import opened Selection
  import opened Diversity

  /** The objective pairs and triple a Pareto run optimises. */
  datatype Objectives = AgeDensity | AgeFitness | DensityFitness | AgeDensityFitness

  predicate UsesAge(o: Objectives) { o == AgeDensity || o == AgeFitness || o == AgeDensityFitness }
  predicate UsesDensity(o: Objectives) { o == AgeDensity || o == DensityFitness || o == AgeDensityFitness }
  predicate UsesFitness(o: Objectives) { o == AgeFitness || o == DensityFitness || o == AgeDensityFitness }

  type Densities = map<Option<string>, real>

  /** Every individual's tag has a density (a missing one is a null dereference in the source). */
  predicate Covers(dens: Densities, pop: seq<Individual>)
  {
    forall k :: 0 <= k < |pop| ==> pop[k].tag in dens
  }

  /** isBetterAge: strictly younger. */
  predicate BetterAge(a: Individual, b: Individual) { a.age < b.age }

  /** isBetterDensity: a strictly rarer tag. */
  predicate BetterDensity(a: Individual, b: Individual, dens: Densities)
    requires a.tag in dens && b.tag in dens
  {
    dens[a.tag] - dens[b.tag] < 0.0
  }

  /** isBetterFitness: strictly fitter. */
  predicate BetterFitness(a: Individual, b: Individual) { a.fitness - b.fitness > 0.0 }

  /** isBetterOnOne: better on at least one of the active objectives. */
  function BetterOnOne(a: Individual, b: Individual, o: Objectives, dens: Densities): (r: bool)
    requires a.tag in dens && b.tag in dens
    ensures r <==> ((UsesAge(o) && a.age < b.age)
                    || (UsesDensity(o) && dens[a.tag] < dens[b.tag])
                    || (UsesFitness(o) && a.fitness > b.fitness))
  {
    match o
    case AgeDensity => BetterAge(a, b) || BetterDensity(a, b, dens)
    case AgeFitness => BetterAge(a, b) || BetterFitness(a, b)
    case DensityFitness => BetterDensity(a, b, dens) || BetterFitness(a, b)
    case AgeDensityFitness => BetterAge(a, b) || BetterDensity(a, b, dens) || BetterFitness(a, b)
  }

  /** individualsEqualOnObjectives: no difference on any active objective. */
  function EqualOnObjectives(ageDiff: int, densityDiff: real, fitnessComparison: int, o: Objectives): (r: bool)
    ensures r <==> (UsesAge(o) ==> ageDiff == 0) && (UsesDensity(o) ==> densityDiff == 0.0)
                   && (UsesFitness(o) ==> fitnessComparison == 0)
  {
    match o
    case AgeDensityFitness => ageDiff == 0 && densityDiff == 0.0 && fitnessComparison == 0
    case AgeDensity => ageDiff == 0 && densityDiff == 0.0
    case AgeFitness => ageDiff == 0 && fitnessComparison == 0
    case DensityFitness => densityDiff == 0.0 && fitnessComparison == 0
  }

  /** The two individuals agree on every active objective. */
  predicate Tied(a: Individual, b: Individual, dens: Densities, o: Objectives)
    requires a.tag in dens && b.tag in dens
  {
    EqualOnObjectives(a.age - b.age, dens[a.tag] - dens[b.tag], CompareTo(a, b), o)
  }

  /**
   * individualIsDominated(a, b): outside a tie, a is dominated when it is
   * better on no active objective. On a tie a is dominated, except that
   * with size tie-breaking on and objectives other than age/fitness a
   * strictly smaller a is not.
   */
  function IsDominated(a: Individual, b: Individual, dens: Densities, sizeBreak: bool, o: Objectives): (r: bool)
    requires a.tag in dens && b.tag in dens
    ensures !Tied(a, b, dens, o) ==> (r <==> !BetterOnOne(a, b, o, dens))
    ensures Tied(a, b, dens, o) ==> (r <==> !(o != AgeFitness && sizeBreak && a.numNodes < b.numNodes))
  {
    var tie := EqualOnObjectives(a.age - b.age, dens[a.tag] - dens[b.tag], CompareTo(a, b), o);
    var ret := !tie && !BetterOnOne(a, b, o, dens);
    if tie then
      if o != AgeFitness && sizeBreak then
        if a.numNodes < b.numNodes then false
        else if b.numNodes < a.numNodes then true
        else true
      else true
    else ret
  }

  /** b is at least as good as a on every active objective and strictly better on one: Pareto dominance. */
  predicate ParetoDominates(b: Individual, a: Individual, dens: Densities, o: Objectives)
    requires a.tag in dens && b.tag in dens
  {
    (UsesAge(o) ==> b.age <= a.age) && (UsesDensity(o) ==> dens[b.tag] <= dens[a.tag])
    && (UsesFitness(o) ==> b.fitness >= a.fitness)
    && ((UsesAge(o) && b.age < a.age) || (UsesDensity(o) && dens[b.tag] < dens[a.tag])
        || (UsesFitness(o) && b.fitness > a.fitness))
  }

  /** Away from ties, domination is exactly Pareto dominance, and a tie is never Pareto dominance. */
  lemma DominatedIsParetoDominance(a: Individual, b: Individual, dens: Densities, sizeBreak: bool, o: Objectives)
    requires a.tag in dens && b.tag in dens
    ensures !Tied(a, b, dens, o) ==> (IsDominated(a, b, dens, sizeBreak, o) <==> ParetoDominates(b, a, dens, o))
    ensures Tied(a, b, dens, o) ==> !ParetoDominates(b, a, dens, o)
  {
  }

  /** Outside ties domination is asymmetric. */
  lemma DominationAsymmetric(a: Individual, b: Individual, dens: Densities, sizeBreak: bool, o: Objectives)
    requires a.tag in dens && b.tag in dens
    requires !Tied(a, b, dens, o) && IsDominated(a, b, dens, sizeBreak, o)
    ensures !IsDominated(b, a, dens, sizeBreak, o)
  {
    DominatedIsParetoDominance(a, b, dens, sizeBreak, o);
    assert !Tied(b, a, dens, o);
  }

  /** An individual always dominates itself (a tie of equal size). */
  lemma SelfDominated(a: Individual, dens: Densities, sizeBreak: bool, o: Objectives)
    requires a.tag in dens
    ensures IsDominated(a, a, dens, sizeBreak, o)
  {
  }

  // --------------------------------------------------------------- front

  /** The whole-population densities the front and the trimming use. */
  function PopDensities(pop: seq<Individual>): (dens: Densities)
    ensures Covers(dens, pop)
  {
    var d := TagDensities(pop, |pop|);
    assert forall k :: 0 <= k < |pop| ==> pop[k].tag == TagsOf(pop)[k];
    d.value
  }

  /**
   * w eliminates l in the front computation: w dominates l, unless w comes
   * earlier and was itself found dominated by l (the domination map).
   */
  predicate Beats(pop: seq<Individual>, dens: Densities, sizeBreak: bool, o: Objectives, w: int, l: int)
    requires Covers(dens, pop)
  {
    0 <= w < |pop| && 0 <= l < |pop| && w != l
    && IsDominated(pop[l], pop[w], dens, sizeBreak, o)
    && !(w < l && IsDominated(pop[w], pop[l], dens, sizeBreak, o))
  }

  /** Individual i is in the front: nothing eliminates it. */
  predicate Survives(pop: seq<Individual>, dens: Densities, sizeBreak: bool, o: Objectives, i: int)
    requires Covers(dens, pop)
  {
    forall w :: 0 <= w < |pop| ==> !Beats(pop, dens, sizeBreak, o, w, i)
  }

  /**
   * One row of getGlobalNonDominatedFront: individual i is compared with
   * every j; when j dominates i, and the pair (i, j) was not recorded
   * earlier, i is marked dominated and (j, i) recorded.
   */
  method ScanRow(pop: seq<Individual>, dens: Densities, sizeBreak: bool, o: Objectives, i: int,
                 dominationMap: set<(int, int)>) returns (map': set<(int, int)>, isDominated: bool)
    requires Covers(dens, pop) && 0 <= i < |pop|
    requires forall w, l :: (w, l) in dominationMap <==> 0 <= l < i && Beats(pop, dens, sizeBreak, o, w, l)
    ensures forall w, l :: (w, l) in map' <==> 0 <= l <= i && Beats(pop, dens, sizeBreak, o, w, l)
    ensures isDominated <==> !Survives(pop, dens, sizeBreak, o, i)
  {
    map' := dominationMap;
    isDominated := false;
    var j := 0;
    while j < |pop|
      invariant 0 <= j <= |pop|
      invariant forall w, l :: (w, l) in map' <==>
        (0 <= l < i && Beats(pop, dens, sizeBreak, o, w, l)) || (l == i && w < j && Beats(pop, dens, sizeBreak, o, w, i))
      invariant isDominated <==> exists w :: 0 <= w < j && Beats(pop, dens, sizeBreak, o, w, i)
    {
      assert (i, j) in map' <==> j < i && Beats(pop, dens, sizeBreak, o, i, j);
      if (i, j) !in map' && j != i && IsDominated(pop[i], pop[j], dens, sizeBreak, o) {
        assert Beats(pop, dens, sizeBreak, o, j, i);
        isDominated := true;
        map' := map' + {(j, i)};
      } else {
        assert !Beats(pop, dens, sizeBreak, o, j, i);
      }
      j := j + 1;
    }
  }

  /**
   * getGlobalNonDominatedFront: every individual is compared with every
   * other; when j dominates i the pair is recorded, and a recorded pair
   * stops the reverse elimination later. The result flags the members of
   * the front. The densities are those of the whole population
   * (PopDensities).
   */
  method GlobalFront(pop: seq<Individual>, dens: Densities, sizeBreak: bool, o: Objectives) returns (inFront: seq<bool>)
    requires Covers(dens, pop)
    ensures |inFront| == |pop|
    ensures forall i :: 0 <= i < |pop| ==> (inFront[i] <==> Survives(pop, dens, sizeBreak, o, i))
  {
    var dominationMap: set<(int, int)> := {};
    inFront := [];
    var i := 0;
    while i < |pop|
      invariant 0 <= i <= |pop| && |inFront| == i
      invariant forall k :: 0 <= k < i ==> (inFront[k] <==> Survives(pop, dens, sizeBreak, o, k))
      invariant forall w, l :: (w, l) in dominationMap <==> 0 <= l < i && Beats(pop, dens, sizeBreak, o, w, l)
    {
      var isDominated;
      dominationMap, isDominated := ScanRow(pop, dens, sizeBreak, o, i, dominationMap);
      ghost var before := inFront;
      inFront := inFront + [!isDominated];
      assert forall k :: 0 <= k < i ==> inFront[k] == before[k];
      i := i + 1;
    }
  }

  /** Of two individuals that dominate each other, the later one eliminates the earlier and not the reverse. */
  lemma MutualTieKeepsLater(pop: seq<Individual>, sizeBreak: bool, o: Objectives, i: int, j: int)
    requires 0 <= i < j < |pop|
    requires IsDominated(pop[i], pop[j], PopDensities(pop), sizeBreak, o)
    requires IsDominated(pop[j], pop[i], PopDensities(pop), sizeBreak, o)
    ensures !Survives(pop, PopDensities(pop), sizeBreak, o, i)
    ensures !Beats(pop, PopDensities(pop), sizeBreak, o, i, j)
  {
    assert Beats(pop, PopDensities(pop), sizeBreak, o, j, i);
  }

  /** A front member is not Pareto-dominated by any later individual. */
  lemma FrontMemberUndominatedByLater(pop: seq<Individual>, sizeBreak: bool, o: Objectives, i: int, j: int)
    requires 0 <= i < j < |pop| && Survives(pop, PopDensities(pop), sizeBreak, o, i)
    ensures !ParetoDominates(pop[j], pop[i], PopDensities(pop), o)
  {
    var dens := PopDensities(pop);
    assert !Beats(pop, dens, sizeBreak, o, j, i);
    DominatedIsParetoDominance(pop[i], pop[j], dens, sizeBreak, o);
  }

  /** The front as a set of individuals, by id. */
  function FrontIds(pop: seq<Individual>, inFront: seq<bool>): (r: set<Option<nat>>)
    requires |inFront| == |pop|
  {
    set i | 0 <= i < |pop| && inFront[i] :: pop[i].id
  }

  /** The front of a population, as a set of ids, in closed form. */
  function FrontSet(pop: seq<Individual>, sizeBreak: bool, o: Objectives): (r: set<Option<nat>>)
  {
    set i | 0 <= i < |pop| && Survives(pop, PopDensities(pop), sizeBreak, o, i) :: pop[i].id
  }

  /** The ids flagged by globalFront are the front in closed form. */
  lemma FrontIdsAreFrontSet(pop: seq<Individual>, inFront: seq<bool>, sizeBreak: bool, o: Objectives)
    requires |inFront| == |pop|
    requires forall i :: 0 <= i < |pop| ==> (inFront[i] <==> Survives(pop, PopDensities(pop), sizeBreak, o, i))
    ensures FrontIds(pop, inFront) == FrontSet(pop, sizeBreak, o)
  {
  }

  // ------------------------------------------------------------ trimming

  /** getTournamentIndices: up to min(tournamentSize, size) distinct indices, drawn into an insertion-ordered set. */
  function TournamentIndices(n: nat, tSize: int, r: Rng, fuel: nat): (res: (seq<nat>, Rng))
    requires n > 0
    ensures Distinct(res.0) && forall j :: 0 <= j < |res.0| ==> res.0[j] < n
    ensures |res.0| <= (if tSize >= n then n else tSize) || res.0 == []
    ensures |res.0| >= (if tSize >= n then n else tSize) || res.1.pos == r.pos + fuel
  {
    var size := if tSize >= n then n else tSize;
    Entrants(n, size, r, fuel)
  }

  /**
   * The reason an individual may leave the population in deletion: an
   * individual with its id met another one, of a different id, that is
   * in the front or dominates it.
   */
  ghost predicate Beaten(y: Individual, among: seq<Individual>, dens: Densities, front: set<Option<nat>>,
                         sizeBreak: bool, o: Objectives)
  {
    exists c, d :: c in among && d in among && c.id == y.id && d.id != c.id && c.tag in dens && d.tag in dens
      && (d.id in front || IsDominated(c, d, dens, sizeBreak, o))
  }

  /** Being beaten among some individuals is being beaten among any collection holding them. */
  lemma BeatenWidens(y: Individual, among: seq<Individual>, among': seq<Individual>, dens: Densities,
                     front: set<Option<nat>>, sizeBreak: bool, o: Objectives)
    requires Beaten(y, among, dens, front, sizeBreak, o)
    requires forall z :: z in among ==> z in among'
    ensures Beaten(y, among', dens, front, sizeBreak, o)
  {
    var c, d :| c in among && d in among && c.id == y.id && d.id != c.id && c.tag in dens && d.tag in dens
      && (d.id in front || IsDominated(c, d, dens, sizeBreak, o));
    assert c in among' && d in among';
  }

  /** Removing c's id after c met d, in the front or dominating it, removes only beaten individuals. */
  lemma RemovedIsBeaten(pop0: seq<Individual>, pop: seq<Individual>, c: Individual, d: Individual, tour: seq<Individual>,
                        dens: Densities, front: set<Option<nat>>, sizeBreak: bool, o: Objectives)
    requires forall y :: y in pop0 && y !in pop ==> Beaten(y, tour, dens, front, sizeBreak, o)
    requires c in tour && d in tour && d.id != c.id && c.tag in dens && d.tag in dens
    requires d.id in front || IsDominated(c, d, dens, sizeBreak, o)
    ensures forall y :: y in pop0 && y !in RemoveFirst(pop, c.id) ==> Beaten(y, tour, dens, front, sizeBreak, o)
  {
    forall y | y in pop0 && y !in RemoveFirst(pop, c.id)
      ensures Beaten(y, tour, dens, front, sizeBreak, o)
    {
      if y in pop {
        assert y.id == c.id;
      }
    }
  }

  /**
   * One tournament of doSingleTagDeletion: each entrant not already
   * removed and not in the front meets every other entrant not removed;
   * it is removed (and its comparisons stop) when the other is in the
   * front or dominates it, and otherwise the other is removed if the
   * entrant dominates it.
   */
  method TrimTournament(pop0: seq<Individual>, dens: Densities, front: set<Option<nat>>, tour: seq<Individual>,
                        sizeBreak: bool, o: Objectives) returns (pop: seq<Individual>)
    requires Covers(dens, tour)
    ensures forall y :: y in pop ==> y in pop0
    ensures forall y :: y in pop0 && y.id in front ==> y in pop
    ensures |pop| <= |pop0|
    ensures forall y :: y in pop0 && y !in pop ==> Beaten(y, tour, dens, front, sizeBreak, o)
    ensures |tour| <= 1 ==> pop == pop0
  {
    pop := pop0;
    var dominated: set<Option<nat>> := {};
    var a := 0;
    while a < |tour|
      invariant 0 <= a <= |tour|
      invariant forall y :: y in pop ==> y in pop0
      invariant forall y :: y in pop0 && y.id in front ==> y in pop
      invariant |pop| <= |pop0|
      invariant forall y :: y in pop0 && y !in pop ==> Beaten(y, tour, dens, front, sizeBreak, o)
      invariant |tour| <= 1 ==> pop == pop0
    {
      var c1 := tour[a];
      if c1.id !in dominated && c1.id !in front {
        var b := 0;
        var stop := false;
        while b < |tour| && !stop
          invariant 0 <= b <= |tour|
          invariant forall y :: y in pop ==> y in pop0
          invariant forall y :: y in pop0 && y.id in front ==> y in pop
          invariant |pop| <= |pop0|
          invariant forall y :: y in pop0 && y !in pop ==> Beaten(y, tour, dens, front, sizeBreak, o)
          invariant |tour| <= 1 ==> pop == pop0
        {
          var c2 := tour[b];
          if c1.id != c2.id && c2.id !in dominated {
            if c2.id in front || IsDominated(c1, c2, dens, sizeBreak, o) {
              dominated := dominated + {c1.id};
              RemovedIsBeaten(pop0, pop, c1, c2, tour, dens, front, sizeBreak, o);
              pop := RemoveFirst(pop, c1.id);
              stop := true;
            } else if IsDominated(c2, c1, dens, sizeBreak, o) {
              dominated := dominated + {c2.id};
              RemovedIsBeaten(pop0, pop, c2, c1, tour, dens, front, sizeBreak, o);
              pop := RemoveFirst(pop, c2.id);
            }
          }
          b := b + 1;
        }
      }
      a := a + 1;
    }
  }

  /** Densities covering a population cover every sub-collection of it. */
  lemma CoversSubset(dens: Densities, pop: seq<Individual>, pop0: seq<Individual>)
    requires Covers(dens, pop0) && forall y :: y in pop ==> y in pop0
    ensures Covers(dens, pop)
  {
    forall k | 0 <= k < |pop|
      ensures pop[k].tag in dens
    {
      assert pop[k] in pop0;
    }
  }

  /** The tournament's entrants, in drawing order. */
  function Entries(pop: seq<Individual>, indices: seq<nat>): (tour: seq<Individual>)
    requires forall j :: 0 <= j < |indices| ==> indices[j] < |pop|
    ensures |tour| == |indices| && forall k :: 0 <= k < |tour| ==> tour[k] == pop[indices[k]]
    ensures forall y :: y in tour ==> y in pop
  {
    seq(|indices|, k requires 0 <= k < |indices| => pop[indices[k]])
  }

  /**
   * doSingleTagDeletion: tournaments over the current population, with the
   * densities fixed beforehand, until it is no larger than the target or
   * than the front. The source loops for as long as that takes; here at
   * most fuel tournaments are held, and done says whether the loop ended
   * on its own condition.
   */
  method SingleTagDeletion(pop0: seq<Individual>, targetSize: int, front: set<Option<nat>>, sizeBreak: bool,
                           o: Objectives, tSize: int, r0: Rng, fuel: nat)
    returns (pop: seq<Individual>, r: Rng, done: bool)
    ensures forall y :: y in pop ==> y in pop0
    ensures forall y :: y in pop0 && y.id in front ==> y in pop
    ensures |pop| <= |pop0|
    ensures done ==> |pop| <= targetSize || |pop| <= |front|
    ensures forall y :: y in pop0 && y !in pop ==> Beaten(y, pop0, PopDensities(pop0), front, sizeBreak, o)
    ensures tSize <= 1 ==> pop == pop0
    ensures tSize <= 1 && |pop0| > targetSize && |pop0| > |front| ==> !done
  {
    var dens := PopDensities(pop0);
    pop := pop0;
    r := r0;
    var round := 0;
    while round < fuel && |pop| > targetSize && |pop| > |front|
      invariant forall y :: y in pop ==> y in pop0
      invariant forall y :: y in pop0 && y.id in front ==> y in pop
      invariant |pop| <= |pop0|
      invariant Covers(dens, pop)
      invariant forall y :: y in pop0 && y !in pop ==> Beaten(y, pop0, dens, front, sizeBreak, o)
      invariant tSize <= 1 ==> pop == pop0
    {
      var (indices, r1) := TournamentIndices(|pop|, tSize, r, fuel);
      var tour := Entries(pop, indices);
      CoversSubset(dens, tour, pop);
      var next := TrimTournament(pop, dens, front, tour, sizeBreak, o);
      TournamentBeatenStays(pop0, pop, next, tour, dens, front, sizeBreak, o);
      pop := next;
      CoversSubset(dens, pop, pop0);
      r := r1;
      round := round + 1;
    }
    done := !(|pop| > targetSize && |pop| > |front|);
  }

  /** After a tournament over members of pop, the individuals gone from pop0 are still beaten among pop0. */
  lemma TournamentBeatenStays(pop0: seq<Individual>, pop: seq<Individual>, next: seq<Individual>, tour: seq<Individual>,
                              dens: Densities, front: set<Option<nat>>, sizeBreak: bool, o: Objectives)
    requires forall y :: y in pop ==> y in pop0
    requires forall y :: y in tour ==> y in pop
    requires forall y :: y in pop0 && y !in pop ==> Beaten(y, pop0, dens, front, sizeBreak, o)
    requires forall y :: y in pop && y !in next ==> Beaten(y, tour, dens, front, sizeBreak, o)
    ensures forall y :: y in pop0 && y !in next ==> Beaten(y, pop0, dens, front, sizeBreak, o)
  {
    forall y | y in pop0 && y !in next
      ensures Beaten(y, pop0, dens, front, sizeBreak, o)
    {
      if y in pop {
        BeatenWidens(y, tour, pop0, dens, front, sizeBreak, o);
      }
    }
  }

  /**
   * delete: the target is popSize - 1 (popSize for age/fitness, which adds
   * its random individual beforehand); the front is computed, returned at
   * once if it is the whole population, and otherwise the population is
   * trimmed towards the target.
   */
  method Delete(pop0: seq<Individual>, popSize: int, sizeBreak: bool, o: Objectives, tSize: int, r0: Rng, fuel: nat)
    returns (pop: seq<Individual>, front: set<Option<nat>>, r: Rng, done: bool)
    ensures front == FrontSet(pop0, sizeBreak, o)
    ensures forall y :: y in pop0 && y.id in front ==> y in pop
    ensures forall y :: y in pop ==> y in pop0
    ensures |front| == |pop0| ==> pop == pop0
    ensures done ==> |pop| <= (if o != AgeFitness then popSize - 1 else popSize) || |pop| <= |front|
    ensures forall y :: y in pop0 && y !in pop ==> Beaten(y, pop0, PopDensities(pop0), front, sizeBreak, o)
  {
    var targetSize := popSize;
    if o != AgeFitness {
      targetSize := targetSize - 1;
    }
    var inFront := GlobalFront(pop0, PopDensities(pop0), sizeBreak, o);
    front := FrontIds(pop0, inFront);
    FrontIdsAreFrontSet(pop0, inFront, sizeBreak, o);
    if |front| == |pop0| {
      return pop0, front, r0, true;
    }
    pop, r, done := SingleTagDeletion(pop0, targetSize, front, sizeBreak, o, tSize, r0, fuel);
  }
}

=== FILE: paretogp.dfy ===
/**
 * The Pareto run (ParetoGP): objective parsing, breeding popSize - 1
 * offspring by random mating, one random newcomer per generation (grow
 * and full in turn, optionally with a tag never seen before), Pareto
 * deletion with ageing of the survivors, and the tag-level schedule.
 */
module ParetoGP {
  import opened Wrappers
  import opened Rand
  import opened Individuals
  import opened Build
  import opened Problems
  import opened Diversity
  import opened Pareto
  import opened GP

  // ----------------------------------------------------------- objectives

  /** The enum constant names, as the configuration spells them. */
  function ObjectivesName(o: Objectives): string
  {
    match o
    case AgeFitness => "AGE_FITNESS"
    case AgeDensity => "AGE_DENSITY"
    case AgeDensityFitness => "AGE_DENSITY_FITNESS"
    case DensityFitness => "DENSITY_FITNESS"
  }

  /** The enum's values in declaration order. */
  const AllObjectives: seq<Objectives> := [AgeFitness, AgeDensity, AgeDensityFitness, DensityFitness]

  /** The last of vals whose name is s, as the loop over the values keeps the last match. */
  function LastNamed(vals: seq<Objectives>, s: string): (r: Option<Objectives>)
    ensures r.Some? ==> ObjectivesName(r.value) == s && r.value in vals
    ensures r.None? ==> forall v :: v in vals ==> ObjectivesName(v) != s
  {
    if vals == [] then None
    else
      var later := LastNamed(vals[1..], s);
      assert forall v :: v in vals <==> v == vals[0] || v in vals[1..];
      if later.Some? then later
      else if ObjectivesName(vals[0]) == s then Some(vals[0])
      else None
  }

  /**
   * setupObjectives: a missing setting gives DENSITY_FITNESS; a setting
   * equal to a constant's name selects it; anything else falls back to
   * DENSITY_FITNESS.
   */
  function ParseObjectives(setting: Option<string>): (o: Objectives)
    ensures setting.None? ==> o == DensityFitness
    ensures setting.Some? && (exists p :: ObjectivesName(p) == setting.value) ==> ObjectivesName(o) == setting.value
    ensures setting.Some? && !(exists p :: ObjectivesName(p) == setting.value) ==> o == DensityFitness
  {
    match setting
    case None => DensityFitness
    case Some(s) =>
      AllObjectivesListed();
      match LastNamed(AllObjectives, s)
      case None => DensityFitness
      case Some(v) => v
  }

  /** The value list holds every objective. */
  lemma AllObjectivesListed()
    ensures forall p: Objectives :: p in AllObjectives
  {
    forall p: Objectives
      ensures p in AllObjectives
    {
      match p
      case AgeFitness =>
      case AgeDensity =>
      case AgeDensityFitness =>
      case DensityFitness =>
    }
  }

  /** Every objective's own name parses back to it. */
  lemma ParseName(o: Objectives)
    ensures ParseObjectives(Some(ObjectivesName(o))) == o
  {
    var p := ParseObjectives(Some(ObjectivesName(o)));
    assert ObjectivesName(p) == ObjectivesName(o);
  }

  // ------------------------------------------------------ configuration

  datatype ParetoConfig = ParetoConfig(
    gp: GPConfig,
    build: BuildConfig,
    objectivesSetting: Option<string>,
    tagDepth: int,
    sizeBreak: bool,
    tournamentSize: int,
    uniqueTagRandom: bool,
    changeTagLevel: bool,
    tagLevelChangeGens: int,
    maxDepth: int,
    cycleTagLevels: bool)

  /**
   * The run's state: the GP state, the objectives, the construction mode
   * of the next random individual, the tag store (whose current level is
   * the tag level) and the last generation the tag level was due.
   */
  datatype ParetoState = ParetoState(
    run: RunState,
    objectives: Objectives,
    randMethod: int,
    store: TagStore,
    lastTagLevelChangeGen: int)

  // ---------------------------------------------------- random newcomers

  /** randMethod ^= 1 on a two's-complement int. */
  function Flip(m: int): int
  {
    if m % 2 == 0 then m + 1 else m - 1
  }

  /** XOR with 1 flips the lowest bit and keeps the rest; flipping twice restores the mode, and the two construction modes swap. */
  lemma FlipAlternates(m: int)
    ensures Flip(m) / 2 == m / 2 && Flip(m) % 2 != m % 2
    ensures Flip(Flip(m)) == m
    ensures Flip(Grow) == Full && Flip(Full) == Grow
  {
  }

  /** Each individual tagged at the given level and depth. */
  function TagAll(inds: seq<Individual>, level: int, depth: int): (r: seq<Individual>)
    ensures |r| == |inds|
    ensures forall i :: 0 <= i < |r| ==> r[i].tag == Some(TagOf(inds[i].root, level, depth)) && r[i] == inds[i].(tag := r[i].tag)
  {
    seq(|inds|, i requires 0 <= i < |inds| => TagIndividual(inds[i], level, depth))
  }

  /** A collection with one individual appended, the next mode, id counter and generator. */
  datatype Added = Added(pop: seq<Individual>, randMethod: int, nextId: nat, rng: Rng)

  /**
   * addRandomIndividual: a random individual built in the current mode,
   * tagged at the current level, given a new id and appended; the mode
   * flips.
   */
  function AddRandom(cfg: ParetoConfig, pop: seq<Individual>, m: int, level: int, nextId: nat, r: Rng): (res: Option<Added>)
    ensures cfg.build.minBuildDepth > cfg.build.maxBuildDepth ==> res.None?
    ensures res.Some? ==>
      var a := res.value;
      |a.pop| == |pop| + 1 && pop < a.pop
      && a.pop[|pop|].id == Some(nextId) && a.pop[|pop|].tag == Some(TagOf(a.pop[|pop|].root, level, cfg.tagDepth))
      && a.randMethod == Flip(m) && a.nextId == nextId + 1
  {
    match RandomIndividual(cfg.build, m, r)
    case None => None
    case Some((ind, r1)) =>
      var tagged := TagIndividual(ind, level, cfg.tagDepth).(id := Some(nextId));
      Some(Added(pop + [tagged], Flip(m), nextId + 1, r1))
  }

  /** The outcome of the unique-tag search: the last individual built, the mode, the generator and the attempts made. */
  datatype Found = Found(ind: Individual, randMethod: int, rng: Rng, tries: nat)

  /**
   * generateUniqueIndividualSingleLevel's loop: while no individual was
   * built yet, or the last one's tag is known at the current level, and
   * attempts remain, another random individual is built and tagged and the
   * mode flips. None is a failed construction, or no attempt at all (the
   * source then dereferences a null individual).
   */
  function Search(cfg: ParetoConfig, store: TagStore, m: int, r: Rng, tries: nat, maxTries: int, last: Option<Individual>)
    : (res: Option<Found>)
    ensures last.None? && maxTries <= tries ==> res.None?
    ensures res.Some? ==> tries <= res.value.tries && (res.value.tries <= maxTries || res.value.tries == tries)
    ensures res.Some? ==> IsTagUnique(store, res.value.ind.tag, store.current) || res.value.tries >= maxTries
    ensures res.Some? && res.value.tries > tries ==> res.value.ind.tag == Some(TagOf(res.value.ind.root, store.current, cfg.tagDepth))
    decreases maxTries - tries
  {
    if (last.None? || !IsTagUnique(store, last.value.tag, store.current)) && tries < maxTries then
      match RandomIndividual(cfg.build, m, r)
      case None => None
      case Some((ind, r1)) =>
        var x := TagIndividual(ind, store.current, cfg.tagDepth);
        assert x.tag == Some(TagOf(x.root, store.current, cfg.tagDepth));
        Search(cfg, store, Flip(m), r1, tries + 1, maxTries, Some(x))
    else if last.None? then None
    else Some(Found(last.value, m, r, tries))
  }


  /** One failed attempt: the search carries on from the next attempt count with the mode flipped, the advanced generator and the freshly tagged individual. */
  lemma SearchStep(cfg: ParetoConfig, store: TagStore, m: int, r: Rng, tries: nat, maxTries: int, last: Option<Individual>)
    requires last.None? || !IsTagUnique(store, last.value.tag, store.current)
    requires tries < maxTries && RandomIndividual(cfg.build, m, r).Some?
    ensures Search(cfg, store, m, r, tries, maxTries, last)
      == Search(cfg, store, Flip(m), RandomIndividual(cfg.build, m, r).value.1, tries + 1, maxTries,
                Some(TagIndividual(RandomIndividual(cfg.build, m, r).value.0, store.current, cfg.tagDepth)))
  {
  }

  /** The attempt limit: maxUniqueRetries for tag depths above 1, otherwise 100. */
  function MaxTries(cfg: ParetoConfig, store: TagStore): int
  {
    if cfg.tagDepth > 1 then cfg.build.maxUniqueRetries else 100
  }

  /**
   * generateUniqueIndividualSingleLevel: the search from no individual and
   * no attempts; the final individual's tag is recorded at the current
   * level whether or not it was unique.
   */
  function GenerateUnique(cfg: ParetoConfig, store: TagStore, m: int, r: Rng): (res: Option<(Found, TagStore)>)
    ensures MaxTries(cfg, store) < 1 ==> res.None?
    ensures res.Some? ==>
      var (f, store') := res.value;
      1 <= f.tries <= MaxTries(cfg, store)
      && f.ind.tag == Some(TagOf(f.ind.root, store.current, cfg.tagDepth))
      && (IsTagUnique(store, f.ind.tag, store.current) || f.tries == MaxTries(cfg, store))
      && store' == AddTag(store, f.ind.tag, store.current)
      && !IsTagUnique(store', f.ind.tag, store.current)
  {
    match Search(cfg, store, m, r, 0, MaxTries(cfg, store), None)
    case None => None
    case Some(f) =>
      AddedTagNotUnique(store, f.ind.tag, store.current);
      Some((f, AddTag(store, f.ind.tag, store.current)))
  }

  /** When the first individual built already has a new tag, the search stops after one attempt. */
  lemma FirstUniqueStops(cfg: ParetoConfig, store: TagStore, m: int, r: Rng)
    requires MaxTries(cfg, store) >= 1 && RandomIndividual(cfg.build, m, r).Some?
    requires var ind := RandomIndividual(cfg.build, m, r).value.0;
      IsTagUnique(store, TagIndividual(ind, store.current, cfg.tagDepth).tag, store.current)
    ensures GenerateUnique(cfg, store, m, r).Some? && GenerateUnique(cfg, store, m, r).value.0.tries == 1
  {
    var (ind, r1) := RandomIndividual(cfg.build, m, r).value;
    var t := TagIndividual(ind, store.current, cfg.tagDepth);
    assert Search(cfg, store, Flip(m), r1, 1, MaxTries(cfg, store), Some(t)) == Some(Found(t, Flip(m), r1, 1));
  }

  /**
   * addUniqueRandomIndividual: the population's tags are collected (twice,
   * as the source passes the population for both collections), a
   * tag-unique individual is searched for, given a new id and appended.
   */
  function AddUniqueRandom(cfg: ParetoConfig, pop: seq<Individual>, m: int, store: TagStore, nextId: nat, r: Rng)
    : (res: Option<(Added, TagStore)>)
    ensures res.Some? ==>
      var (a, store') := res.value;
      var level := store.current;
      var known := TagsAt(store, level) + TagSet(pop);
      |a.pop| == |pop| + 1 && pop < a.pop && a.pop[|pop|].id == Some(nextId) && a.nextId == nextId + 1
      && a.pop[|pop|].tag == Some(TagOf(a.pop[|pop|].root, level, cfg.tagDepth))
      && GetTags(store', level) == Some(known + {a.pop[|pop|].tag})
  {
    var s1 := CollectTags(store, pop, store.current);
    var s2 := CollectTags(s1, pop, store.current);
    assert TagsAt(s1, store.current) == TagsAt(store, store.current) + TagSet(pop);
    assert TagsAt(s2, store.current) == TagsAt(store, store.current) + TagSet(pop);
    match GenerateUnique(cfg, s2, m, r)
    case None => None
    case Some((f, s3)) =>
      var ind := f.ind.(id := Some(nextId));
      Some((Added(pop + [ind], f.randMethod, nextId + 1, f.rng), s3))
  }

  /** A newcomer found before the attempts ran out carries a tag seen neither before nor in the population. */
  lemma UniqueNewcomerIsNew(cfg: ParetoConfig, pop: seq<Individual>, m: int, store: TagStore, nextId: nat, r: Rng)
    requires cfg.tagDepth <= 1
    requires AddUniqueRandom(cfg, pop, m, store, nextId, r).Some?
    requires var s2 := CollectTags(CollectTags(store, pop, store.current), pop, store.current);
      GenerateUnique(cfg, s2, m, r).value.0.tries < 100
    ensures var a := AddUniqueRandom(cfg, pop, m, store, nextId, r).value.0;
      a.pop[|pop|].tag !in TagsAt(store, store.current) + TagSet(pop)
  {
    var s1 := CollectTags(store, pop, store.current);
    var s2 := CollectTags(s1, pop, store.current);
    assert TagsAt(s2, store.current) == TagsAt(store, store.current) + TagSet(pop);
  }

  // ----------------------------------------------------------------- init

  /** Each individual tagged at level 0 and aged 1, nothing else changed. */
  function TagAndAge(pop: seq<Individual>, depth: int): (r: seq<Individual>)
    ensures |r| == |pop|
    ensures forall i :: 0 <= i < |r| ==>
      r[i].age == 1 && r[i].tag == Some(TagOf(r[i].root, 0, depth)) && r[i] == pop[i].(tag := r[i].tag, age := 1)
  {
    seq(|pop|, i requires 0 <= i < |pop| => pop[i].(tag := Some(TagOf(pop[i].root, 0, depth)), age := 1))
  }

  /**
   * init: GP's init (the population filled and evaluated), then each
   * individual tagged at level 0 and aged 1, every tag collected at
   * level 0, the objectives parsed, grow mode first.
   */
  function ParetoInit(cfg: ParetoConfig, nextId: nat, r: Rng): (res: Option<ParetoState>)
    ensures res.Some? ==>
      var st := res.value;
      (cfg.build.popSize >= 0 ==> |st.run.population| == cfg.build.popSize)
      && (forall i :: 0 <= i < |st.run.population| ==>
            st.run.population[i].age == 1 && st.run.population[i].tag == Some(TagOf(st.run.population[i].root, 0, cfg.tagDepth)))
      && st.store.current == 0 && GetTags(st.store, 0) == Some(TagSet(st.run.population))
      && st.objectives == ParseObjectives(cfg.objectivesSetting)
      && st.run.generation == 0 && st.randMethod == Grow
    ensures res.Some? ==>
      var run := res.value.run;
      (forall i :: 0 <= i < |run.population| ==> run.population[i].evaluated)
      && run.numEvaluations == |run.population| && run.bestFitness <= 1.0
      && ((exists i :: 0 <= i < |run.population| && run.population[i].fitness == 1.0) ==> run.foundOptimal)
  {
    match StartRun(cfg.gp.problem, cfg.build, nextId, r)
    case None => None
    case Some(run) =>
      var pop := TagAndAge(run.population, cfg.tagDepth);
      var store := CollectTags(TagStore([], 0), pop, 0);
      assert TagsAt(TagStore([], 0), 0) == {};
      Some(ParetoState(run.(population := pop), ParseObjectives(cfg.objectivesSetting), Grow, store, 0))
  }

  // ------------------------------------------------------------- breeding

  /**
   * breedAndMutate: offspring by random mating (the constructor forces it)
   * or replication until popSize - 1 exist, then the mutation pass.
   */
  function BreedAndMutate(cfg: GPConfig, pop: seq<Individual>, nextId: nat, r: Rng): (res: Option<Brood>)
    ensures res.Some? ==> |res.value.offspring| == if cfg.popSize < 1 then 0 else cfg.popSize - 1
    ensures res.Some? ==> AllBred(res.value.offspring, pop, res.value.nextId)
  {
    match BreedFrom(cfg.(scheme := RandomMating), pop, Brood([], nextId, r), cfg.popSize - 1)
    case None => None
    case Some(b) =>
      match DoMutation(cfg, b.offspring, b.nextId, b.rng)
      case None => None
      case Some((off, n1, r1)) =>
        MutatedAreBred(b.offspring, off, pop, b.nextId, n1);
        Some(b.(offspring := off, nextId := n1, rng := r1))
  }

  /** With crossover and mutation probabilities of 0 every offspring is a replicate of a member of the population. */
  lemma BreedWithoutCrossover(cfg: GPConfig, pop: seq<Individual>, nextId: nat, r: Rng)
    requires cfg.crossProb <= 0.0 && cfg.mutation.mutationProb <= 0.0 && BreedAndMutate(cfg, pop, nextId, r).Some?
    ensures forall m :: 0 <= m < |BreedAndMutate(cfg, pop, nextId, r).value.offspring| ==>
      ReplicaOf(BreedAndMutate(cfg, pop, nextId, r).value.offspring[m], pop)
  {
    NoCrossoverOnlyReplicates(cfg.(scheme := RandomMating), pop, Brood([], nextId, r), cfg.popSize - 1);
  }

  /** The evaluated newcomers of a generation, with the run's record and counters. */
  datatype Bred = Bred(offspring: seq<Individual>, tally: Tally, randMethod: int, nextId: nat, rng: Rng)

  /** Offspring bred, mutated and tagged, with a tagged random individual added for age/fitness. */
  function Newcomers(cfg: ParetoConfig, st: ParetoState): (res: Option<Added>)
    ensures res.Some? ==>
      |res.value.pop| == (if cfg.gp.popSize < 1 then 0 else cfg.gp.popSize - 1) + (if st.objectives == AgeFitness then 1 else 0)
      && forall i :: 0 <= i < |res.value.pop| ==> res.value.pop[i].tag.Some?
  {
    var level := st.store.current;
    match BreedAndMutate(cfg.gp, st.run.population, st.run.nextId, st.run.rng)
    case None => None
    case Some(b) =>
      var tagged := TagAll(b.offspring, level, cfg.tagDepth);
      if st.objectives == AgeFitness then AddRandom(cfg, tagged, st.randMethod, level, b.nextId, b.rng)
      else Some(Added(tagged, st.randMethod, b.nextId, b.rng))
  }

  /**
   * The first half of breed: the newcomers, all evaluated before the
   * deletion, with the run's record updated.
   */
  function Offspring(cfg: ParetoConfig, st: ParetoState): (res: Option<Bred>)
    ensures res.Some? ==>
      |res.value.offspring| == (if cfg.gp.popSize < 1 then 0 else cfg.gp.popSize - 1) + (if st.objectives == AgeFitness then 1 else 0)
      && forall i :: 0 <= i < |res.value.offspring| ==> res.value.offspring[i].evaluated && res.value.offspring[i].tag.Some?
  {
    match Newcomers(cfg, st)
    case None => None
    case Some(a) =>
      var t := Tally(st.run.best, st.run.bestFitness, st.run.foundOptimal, st.run.numEvaluations);
      match EvaluateTagged(cfg.gp.problem, a.pop, t)
      case None => None
      case Some((off, t')) => Some(Bred(off, t', a.randMethod, a.nextId, a.rng))
  }

  /** evaluatePop on the newcomers: every one comes back evaluated and with its tag. */
  function EvaluateTagged(p: BoolProblem, pop: seq<Individual>, t: Tally): (res: Option<(seq<Individual>, Tally)>)
    ensures res.Some? ==> |res.value.0| == |pop|
    ensures res.Some? ==> forall i :: 0 <= i < |pop| ==> res.value.0[i].evaluated && res.value.0[i].tag == pop[i].tag
  {
    var res := EvaluateAll(p, pop, t);
    if res.Some? then
      EvaluateKeepsTags(p, pop, t);
      res
    else res
  }

  /** Evaluation leaves every tag and tree as it was. */
  lemma EvaluateKeepsTags(p: BoolProblem, pop: seq<Individual>, t: Tally)
    requires EvaluateAll(p, pop, t).Some?
    ensures forall j :: 0 <= j < |pop| ==>
      EvaluateAll(p, pop, t).value.0[j].tag == pop[j].tag && EvaluateAll(p, pop, t).value.0[j].root == pop[j].root
  {
    forall j | 0 <= j < |pop|
      ensures EvaluateAll(p, pop, t).value.0[j].tag == pop[j].tag && EvaluateAll(p, pop, t).value.0[j].root == pop[j].root
    {
      EvaluateKeepsTag(p, pop, t, j);
    }
  }

  /** Evaluation changes only fitness, hits and the optimal and evaluated flags. */
  lemma {:induction false} EvaluateKeepsTag(p: BoolProblem, pop: seq<Individual>, t: Tally, j: nat)
    requires EvaluateAll(p, pop, t).Some? && j < |pop|
    ensures EvaluateAll(p, pop, t).value.0[j].tag == pop[j].tag
    ensures EvaluateAll(p, pop, t).value.0[j].root == pop[j].root
    decreases |pop|
  {
    EvaluateAllCons(p, pop, t);
    if j > 0 {
      var t1 := EvaluateOne(p, pop[0], t).value.1;
      EvaluateKeepsTag(p, pop[1..], t1, j - 1);
      assert EvaluateAll(p, pop, t).value.0[j] == EvaluateAll(p, pop[1..], t1).value.0[j - 1];
    }
  }

  /** Each individual one generation older (ageIncr). */
  function AgeAll(pop: seq<Individual>): (r: seq<Individual>)
    ensures |r| == |pop| && forall i :: 0 <= i < |r| ==> r[i] == pop[i].(age := pop[i].age + 1)
  {
    seq(|pop|, i requires 0 <= i < |pop| => pop[i].(age := pop[i].age + 1))
  }

  /** Every member of the merged population's front is in pop, one generation older. */
  predicate KeepsFront(merged: seq<Individual>, pop: seq<Individual>, sizeBreak: bool, o: Objectives)
  {
    forall y :: y in merged && y.id in FrontSet(merged, sizeBreak, o) ==> y.(age := y.age + 1) in pop
  }

  /** Keeping the front survives adding members. */
  lemma KeepsFrontGrows(merged: seq<Individual>, pop: seq<Individual>, pop': seq<Individual>, sizeBreak: bool, o: Objectives)
    requires KeepsFront(merged, pop, sizeBreak, o)
    requires forall y :: y in pop ==> y in pop'
    ensures KeepsFront(merged, pop', sizeBreak, o)
  {
  }

  /**
   * The deletion half of breed: the evaluated offspring join the
   * population, Pareto deletion trims it and the survivors age by one.
   * Every member of the merged population's front survives, one
   * generation older, and the trimmed population is no larger than the
   * target or than the front. None is deletion still running when the
   * fuel runs out.
   */
  method TrimAndAge(cfg: ParetoConfig, merged: seq<Individual>, o: Objectives, r: Rng)
    returns (res: Option<(seq<Individual>, Rng)>)
    ensures res.Some? ==> KeepsFront(merged, res.value.0, cfg.sizeBreak, o)
    ensures res.Some? ==> forall z :: z in res.value.0 ==> z.(age := z.age - 1) in merged
    ensures res.Some? ==>
      |res.value.0| <= (if o != AgeFitness then cfg.gp.popSize - 1 else cfg.gp.popSize)
      || |res.value.0| <= |FrontSet(merged, cfg.sizeBreak, o)|
  {
    var survivors, front, r1, done := Delete(merged, cfg.gp.popSize, cfg.sizeBreak, o, cfg.tournamentSize, r, cfg.gp.fuel);
    if !done {
      return None;
    }
    var aged := AgeAll(survivors);
    AgedMembers(survivors);
    res := Some((aged, r1));
  }

  /** Ageing maps members to members one generation older, and back. */
  lemma AgedMembers(pop: seq<Individual>)
    ensures forall y :: y in pop ==> y.(age := y.age + 1) in AgeAll(pop)
    ensures forall z :: z in AgeAll(pop) ==> z.(age := z.age - 1) in pop
  {
    var aged := AgeAll(pop);
    forall y | y in pop
      ensures y.(age := y.age + 1) in aged
    {
      var i :| 0 <= i < |pop| && pop[i] == y;
      assert aged[i] == y.(age := y.age + 1);
    }
    forall z | z in aged
      ensures z.(age := z.age - 1) in pop
    {
      var i :| 0 <= i < |aged| && aged[i] == z;
      assert z.(age := z.age - 1) == pop[i];
    }
  }

  /**
   * The closing part of breed for objectives other than age/fitness: one
   * random individual, tag-unique if so configured and otherwise tagged
   * once more, is appended and evaluated.
   */
  function AddNewcomer(cfg: ParetoConfig, pop: seq<Individual>, m: int, store: TagStore, nextId: nat, r: Rng)
    : (res: Option<(Added, TagStore)>)
    ensures res.Some? ==>
      var a := res.value.0;
      |a.pop| == |pop| + 1 && pop < a.pop && a.pop[|pop|].evaluated && a.pop[|pop|].tag.Some?
      && a.pop[|pop|].id == Some(nextId)
      && forall y :: y in pop ==> y in a.pop
  {
    var level := store.current;
    var added: Option<(Added, TagStore)> :=
      if cfg.uniqueTagRandom then AddUniqueRandom(cfg, pop, m, store, nextId, r)
      else
        match AddRandom(cfg, pop, m, level, nextId, r)
        case None => None
        case Some(a) => Some((a.(pop := pop + [TagIndividual(a.pop[|pop|], level, cfg.tagDepth)]), store));
    match added
    case None => None
    case Some((a, store')) =>
      match Fitness(cfg.gp.problem, a.pop[|pop|])
      case None => None
      case Some(e) =>
        var out := pop + [e];
        assert forall y :: y in pop ==> y in out;
        Some((a.(pop := out), store'))
  }

  /**
   * breed: newcomers bred and evaluated, deletion with ageing, then for
   * objectives other than age/fitness one evaluated random individual.
   */
  method ParetoBreed(cfg: ParetoConfig, st: ParetoState) returns (res: Option<ParetoState>)
    ensures res.Some? ==> Offspring(cfg, st).Some?
    ensures res.Some? ==>
      KeepsFront(st.run.population + Offspring(cfg, st).value.offspring, res.value.run.population, cfg.sizeBreak, st.objectives)
    ensures res.Some? && st.objectives != AgeFitness ==>
      var pop := res.value.run.population;
      |pop| > 0 && pop[|pop| - 1].evaluated && pop[|pop| - 1].tag.Some?
    ensures res.Some? ==> res.value.objectives == st.objectives && res.value.run.generation == st.run.generation
  {
    var bred := Offspring(cfg, st);
    if bred.None? {
      return None;
    }
    var b := bred.value;
    var merged := st.run.population + b.offspring;
    var trimmed := TrimAndAge(cfg, merged, st.objectives, b.rng);
    if trimmed.None? {
      return None;
    }
    res := Settle(cfg, st, b, merged, trimmed.value.0, trimmed.value.1);
  }

  /**
   * The end of breed: the run takes the offspring's tallies and the
   * trimmed, aged population, to which objectives other than age/fitness
   * add their evaluated random newcomer.
   */
  method Settle(cfg: ParetoConfig, st: ParetoState, b: Bred, merged: seq<Individual>, aged: seq<Individual>, r1: Rng)
    returns (res: Option<ParetoState>)
    requires KeepsFront(merged, aged, cfg.sizeBreak, st.objectives)
    ensures res.Some? ==> KeepsFront(merged, res.value.run.population, cfg.sizeBreak, st.objectives)
    ensures res.Some? && st.objectives != AgeFitness ==>
      var pop := res.value.run.population;
      |pop| > 0 && pop[|pop| - 1].evaluated && pop[|pop| - 1].tag.Some?
    ensures res.Some? ==> res.value.objectives == st.objectives && res.value.run.generation == st.run.generation
    ensures res.Some? && st.objectives == AgeFitness ==> res.value.run.population == aged
  {
    var run := st.run.(best := b.tally.best, bestFitness := b.tally.bestFitness, foundOptimal := b.tally.foundOptimal,
                       numEvaluations := b.tally.numEvaluations);
    if st.objectives == AgeFitness {
      return Some(st.(run := run.(population := aged, nextId := b.nextId, rng := r1), randMethod := b.randMethod));
    }
    var n := AddNewcomer(cfg, aged, b.randMethod, st.store, b.nextId, r1);
    if n.None? {
      return None;
    }
    var (a, store) := n.value;
    KeepsFrontGrows(merged, aged, a.pop, cfg.sizeBreak, st.objectives);
    res := Some(st.(run := run.(population := a.pop, nextId := a.nextId, rng := a.rng), randMethod := a.randMethod, store := store));
  }

  // ----------------------------------------------------------------- step

  /** Whether the tag level was due this generation, and the level it was set to, if any. */
  datatype Schedule = NotDue | Due(newLevel: Option<int>)

  /**
   * step's tag-level schedule: when enabled, a generation g > 0 with g + 1
   * divisible by tagLevelChangeGens is due; the level then goes one deeper
   * while it is below maxDepth - 1, and otherwise back to 0 if cycling is
   * on. None is the division by zero of a zero period.
   */
  function TagLevelSchedule(cfg: ParetoConfig, generation: int, level: int): (res: Option<Schedule>)
    ensures res.None? <==> cfg.changeTagLevel && generation > 0 && cfg.tagLevelChangeGens == 0
    ensures res.Some? && res.value.Due? ==> cfg.changeTagLevel && generation > 0 && (generation + 1) % cfg.tagLevelChangeGens == 0
    ensures res.Some? && res.value.Due? && level < cfg.maxDepth - 1 ==> res.value.newLevel == Some(level + 1)
    ensures res.Some? && res.value.Due? && level >= cfg.maxDepth - 1 ==>
      res.value.newLevel == (if cfg.cycleTagLevels then Some(0) else None)
  {
    if !cfg.changeTagLevel || generation <= 0 then Some(NotDue)
    else if cfg.tagLevelChangeGens == 0 then None
    else if (generation + 1) % cfg.tagLevelChangeGens != 0 then Some(NotDue)
    else if level < cfg.maxDepth - 1 then Some(Due(Some(level + 1)))
    else if cfg.cycleTagLevels then Some(Due(Some(0)))
    else Some(Due(None))
  }

  /** A tag level within [0, maxDepth - 1] stays there. */
  lemma TagLevelStaysInTree(cfg: ParetoConfig, generation: int, level: int)
    requires 0 <= level <= cfg.maxDepth - 1
    requires TagLevelSchedule(cfg, generation, level).Some?
    ensures var s := TagLevelSchedule(cfg, generation, level).value;
      s.Due? && s.newLevel.Some? ==> 0 <= s.newLevel.value <= cfg.maxDepth - 1
  {
  }

  /** With a period of 1, every generation from 1 on is due. */
  lemma EveryGenerationDue(cfg: ParetoConfig, generation: int, level: int)
    requires cfg.changeTagLevel && cfg.tagLevelChangeGens == 1 && generation > 0
    ensures TagLevelSchedule(cfg, generation, level).Some? && TagLevelSchedule(cfg, generation, level).value.Due?
  {
  }

  /** The GP step with the Pareto breed: nothing when the run should terminate. */
  method Advance(cfg: ParetoConfig, st: ParetoState) returns (res: Option<ParetoState>)
    ensures res.Some? && DoTerminate(cfg.gp, st.run) ==> res.value == st
    ensures res.Some? && !DoTerminate(cfg.gp, st.run) ==>
      res.value.run.generation == st.run.generation + 1
      && forall j :: 0 <= j < |res.value.run.population| ==> res.value.run.population[j].evaluated
    ensures res.Some? ==> res.value.objectives == st.objectives
  {
    if DoTerminate(cfg.gp, st.run) {
      return Some(st);
    }
    var next := ParetoBreed(cfg, st.(run := st.run.(generation := st.run.generation + 1)));
    if next.None? {
      return None;
    }
    var ev := EvaluatePop(cfg.gp.problem, next.value.run);
    if ev.None? {
      return None;
    }
    res := Some(next.value.(run := ev.value));
  }

  /** The schedule's outcome applied: a due generation is recorded and the level set if one was chosen. */
  function ApplySchedule(st: ParetoState, s: Schedule): (r: ParetoState)
    ensures r.run == st.run && r.objectives == st.objectives && r.randMethod == st.randMethod
    ensures s.NotDue? ==> r == st
    ensures s.Due? ==> r.lastTagLevelChangeGen == st.run.generation
    ensures s.Due? && s.newLevel.Some? ==> r.store.current == s.newLevel.value && NumTags(r.store.entries) == NumTags(st.store.entries)
    ensures s.Due? && s.newLevel.None? ==> r.store == st.store
  {
    match s
    case NotDue => st
    case Due(newLevel) =>
      var store := if newLevel.Some? then SetTagLevel(st.store, newLevel.value) else st.store;
      st.(store := store, lastTagLevelChangeGen := st.run.generation)
  }

  /** step: the GP step with the Pareto breed, then the tag-level schedule on the resulting generation. */
  method ParetoStep(cfg: ParetoConfig, st: ParetoState) returns (res: Option<ParetoState>)
    ensures res.Some? && DoTerminate(cfg.gp, st.run) ==> res.value.run == st.run
    ensures res.Some? && !DoTerminate(cfg.gp, st.run) ==>
      res.value.run.generation == st.run.generation + 1
      && forall j :: 0 <= j < |res.value.run.population| ==> res.value.run.population[j].evaluated
    ensures res.Some? ==> res.value.objectives == st.objectives
  {
    var cur := Advance(cfg, st);
    if cur.None? {
      return None;
    }
    var sched := TagLevelSchedule(cfg, cur.value.run.generation, cur.value.store.current);
    if sched.None? {
      return None;
    }
    res := Some(ApplySchedule(cur.value, sched.value));
  }
}

=== FILE: prims.dfy ===
/**
 * The primitive node kinds of a genome tree: the boolean functions, the
 * indexed data and address bit terminals, ephemeral constants and any other
 * named function or terminal of a configured function/terminal set.
 */
module Prims {

  /** Decimal digits of a natural number, most significant first. */
  function NatToString(n: nat): (s: string)
    ensures |s| > 0
    ensures forall k :: 0 <= k < |s| ==> '0' <= s[k] <= '9'
    decreases n
  {
    if n < 10 then [DigitChar(n)] else NatToString(n / 10) + [DigitChar(n % 10)]
  }

  function DigitChar(d: nat): (c: char)
    requires d < 10
    ensures '0' <= c <= '9'
  {
    ['0', '1', '2', '3', '4', '5', '6', '7', '8', '9'][d]
  }

  /** The text Java's string concatenation produces for an int. */
  function IntToString(i: int): (s: string)
    ensures |s| > 0
    ensures forall k :: 0 <= k < |s| ==> s[k] == '-' || '0' <= s[k] <= '9'
  {
    if i < 0 then "-" + NatToString(-i) else NatToString(i)
  }

  datatype Prim =
    | And | Or | Nor | Xor | Not | If
      /** Data bit terminal (Di, and the fixed D0 .. D7 classes). */
    | D(index: int)
      /** Address bit terminal (Ai, and the fixed A0 .. A2 classes). */
    | A(index: int)
      /** Ephemeral random constant, identified by its printed value. */
    | Const(text: string)
      /** Any other configured node: its printed name and its arity. */
    | Op(name: string, arity: nat)

  /** The node's toString. */
  function Name(p: Prim): string
  {
    match p
    case And => "AND"
    case Or => "OR"
    case Nor => "NOR"
    case Xor => "XOR"
    case Not => "NOT"
    case If => "IF"
    case D(i) => "D" + IntToString(i)
    case A(i) => "A" + IntToString(i)
    case Const(t) => t
    case Op(n, _) => n
  }

  /** The number of child slots the node's constructor allocates. */
  function Arity(p: Prim): nat
  {
    match p
    case And => 2
    case Or => 2
    case Nor => 2
    case Xor => 2
    case Not => 1
    case If => 3
    case D(_) => 0
    case A(_) => 0
    case Const(_) => 0
    case Op(_, k) => k
  }

  /** A node is a terminal exactly when it has no child slots. */
  predicate IsTerminal(p: Prim)
  {
    Arity(p) == 0
  }

  /** Characters that a printed tree uses as structure. */
  predicate IsSeparator(c: char)
  {
    c == ' ' || c == '(' || c == ')'
  }

  /** A name that can be printed and read back as one token. */
  predicate PlainName(s: string)
  {
    |s| > 0 && forall k :: 0 <= k < |s| ==> !IsSeparator(s[k])
  }

  lemma BuiltinNamesPlain(p: Prim)
    requires !p.Const? && !p.Op?
    ensures PlainName(Name(p))
  {
  }

  lemma {:induction false} IndexedNamesDistinct(i: int, j: int)
    ensures Name(D(i)) == Name(D(j)) <==> i == j
    ensures Name(A(i)) == Name(A(j)) <==> i == j
    ensures Name(D(i)) != Name(A(j))
  {
    IntToStringInjective(i, j);
    var si, sj := IntToString(i), IntToString(j);
    assert si == ("D" + si)[1..] && sj == ("D" + sj)[1..];
    assert si == ("A" + si)[1..] && sj == ("A" + sj)[1..];
    assert Name(D(i))[0] == 'D' && Name(A(j))[0] == 'A';
  }

  lemma {:induction false} NatToStringInjective(m: nat, n: nat)
    ensures NatToString(m) == NatToString(n) <==> m == n
    decreases m + n
  {
    if m != n && NatToString(m) == NatToString(n) {
      if m < 10 && n < 10 {
      } else if m < 10 || n < 10 {
        NatToStringLength(m);
        NatToStringLength(n);
      } else {
        var sm, sn := NatToString(m / 10), NatToString(n / 10);
        assert sm + [DigitChar(m % 10)] == sn + [DigitChar(n % 10)];
        assert |sm| == |sn|;
        assert sm == (sm + [DigitChar(m % 10)])[..|sm|];
        assert sn == (sn + [DigitChar(n % 10)])[..|sn|];
        NatToStringInjective(m / 10, n / 10);
        assert DigitChar(m % 10) == (sm + [DigitChar(m % 10)])[|sm|];
        assert DigitChar(n % 10) == (sn + [DigitChar(n % 10)])[|sn|];
        DigitCharInjective(m % 10, n % 10);
      }
    }
  }

  lemma DigitCharInjective(a: nat, b: nat)
    requires a < 10 && b < 10
    ensures DigitChar(a) == DigitChar(b) <==> a == b
  {
  }

  lemma NatToStringLength(n: nat)
    ensures |NatToString(n)| == 1 <==> n < 10
  {
  }

  lemma {:induction false} IntToStringInjective(i: int, j: int)
    ensures IntToString(i) == IntToString(j) <==> i == j
  {
    if i < 0 && j < 0 {
      var si, sj := NatToString(-i), NatToString(-j);
      if "-" + si == "-" + sj {
        assert si == ("-" + si)[1..];
        assert sj == ("-" + sj)[1..];
      }
      NatToStringInjective(-i, -j);
    } else if i >= 0 && j >= 0 {
      NatToStringInjective(i, j);
    } else if i < 0 {
      assert IntToString(i)[0] == '-';
      assert '0' <= IntToString(j)[0] <= '9';
    } else {
      assert IntToString(j)[0] == '-';
      assert '0' <= IntToString(i)[0] <= '9';
    }
  }

  /** A terminal set proper: every member is a terminal. */
  predicate AllTerminals(ts: seq<Prim>)
  {
    forall k :: 0 <= k < |ts| ==> IsTerminal(ts[k])
  }

  /** A function set proper: every member has at least one child slot. */
  predicate AllFunctions(fs: seq<Prim>)
  {
    forall k :: 0 <= k < |fs| ==> Arity(fs[k]) >= 1
  }
}

=== FILE: problems.dfy ===
/**
 * The boolean benchmark problems: the k-address-bit multiplexer and even
 * n-parity, their target tables, and fitness as the fraction of test cases
 * a tree gets right.
 */
module Problems {
  import opened Prims
  import opened Tree
  import opened Wrappers
  import opened Individuals
  import opened BoolNodes

  datatype BoolProblem =
      /** The multiplexer with k address bits. */
    | Multiplexer(k: nat)
      /** Even n-parity. */
    | Parity(n: nat)

  /** The "n" parameter of parity, 5 when it is absent. */
  function ParityInputs(param: Option<nat>): (n: nat)
    ensures param.None? ==> n == 5
    ensures param.Some? ==> n == param.value
  {
    match param
    case Some(v) => v
    case None => 5
  }

  /** Number of data bits of a multiplexer: 2^k. */
  function NumDataBits(k: nat): nat
  {
    Pow2(k)
  }

  /** The number of inputs: 2^k + k for the multiplexer, n for parity. */
  function NumInputs(p: BoolProblem): nat
  {
    match p
    case Multiplexer(k) => NumDataBits(k) + k
    case Parity(n) => n
  }

  /** The number of test cases, 2 to the number of inputs. */
  function Combinations(p: BoolProblem): (c: nat)
    ensures c >= 1
  {
    Pow2(NumInputs(p))
  }

  /** What the address terminals read: a multiplexer's data-bit count, nothing for parity. */
  function MuxInfo(p: BoolProblem): Option<int>
  {
    match p
    case Multiplexer(k) => Some(NumDataBits(k) as int)
    case Parity(_) => None
  }

  /** Integer.toBinaryString for a non-negative int. */
  function BinaryString(t: nat): (s: string)
    decreases t
  {
    (if t < 2 then [] else BinaryString(t / 2)) + [if t % 2 == 1 then '1' else '0']
  }

  function CountOnes(s: string): nat
  {
    if s == [] then 0 else (if s[0] == '1' then 1 else 0) + CountOnes(s[1..])
  }

  /** The number of set bits, counted arithmetically. */
  function PopCount(t: nat): nat
    decreases t
  {
    if t == 0 then 0 else t % 2 + PopCount(t / 2)
  }

  lemma CountOnesAppend(a: string, b: string)
    ensures CountOnes(a + b) == CountOnes(a) + CountOnes(b)
  {
    if a != [] {
      assert (a + b)[1..] == a[1..] + b;
      CountOnesAppend(a[1..], b);
    } else {
      assert a + b == b;
    }
  }

  /** Counting '1' characters of the binary string counts the set bits. */
  lemma {:induction false} BinaryOnesArePopCount(t: nat)
    ensures CountOnes(BinaryString(t)) == PopCount(t)
    decreases t
  {
    var last := [if t % 2 == 1 then '1' else '0'];
    if t >= 2 {
      BinaryOnesArePopCount(t / 2);
      CountOnesAppend(BinaryString(t / 2), last);
    } else {
      assert BinaryString(t) == last;
    }
  }

  /** Java's right shift of a non-negative int: the count is taken mod 32. */
  function ShiftRight(i: nat, s: int): nat
  {
    var d := Pow2(s % 32);
    QuotientNat(i, d);
    i / d
  }

  /** The quotient of a non-negative number by a positive one is non-negative. */
  lemma QuotientNat(i: nat, d: nat)
    requires d > 0
    ensures i / d >= 0
  {
  }

  /**
   * The target of test case i: for the multiplexer the bit of i selected by
   * i >> numDataBits, for parity whether i has an even number of 1 bits in
   * its binary string.
   */
  function Target(p: BoolProblem, i: nat): bool
  {
    match p
    case Multiplexer(k) => JavaBitTest(i, ShiftRight(i, NumDataBits(k)))
    case Parity(_) => CountOnes(BinaryString(i)) % 2 == 0
  }

  /** init: the target table, one entry per test case. */
  function TargetTable(p: BoolProblem): (r: seq<bool>)
    ensures |r| == Combinations(p)
    ensures forall i :: 0 <= i < |r| ==> r[i] == Target(p, i)
  {
    seq(Combinations(p), i requires 0 <= i => Target(p, i))
  }

  /** The parity table marks exactly the test cases with an even number of set bits. */
  lemma ParityTargets(n: nat, i: nat)
    ensures Target(Parity(n), i) <==> PopCount(i) % 2 == 0
  {
    BinaryOnesArePopCount(i);
  }

  lemma Pow2Add(a: nat, b: nat)
    ensures Pow2(a + b) == Pow2(a) * Pow2(b)
  {
    if a > 0 {
      Pow2Add(a - 1, b);
    }
  }

  lemma DivBound(i: nat, m: nat, n: nat)
    requires m >= 1 && i < m * n
    ensures i / m < n
  {
  }

  /**
   * The multiplexer's address i >> numDataBits of a test case is below
   * numDataBits, so for fewer than 31 data bits the target is a data bit of
   * the test case, the one the address bits select.
   */
  lemma MultiplexerTargets(k: nat, i: nat)
    requires NumDataBits(k) < 31 && i < Combinations(Multiplexer(k))
    ensures ShiftRight(i, NumDataBits(k)) < NumDataBits(k)
    ensures i < 0x8000_0000 ==> (Target(Multiplexer(k), i) <==> Bit(i, ShiftRight(i, NumDataBits(k))))
  {
    var d := NumDataBits(k);
    ShiftBelow32(i, d);
    AddressBound(i, d, k);
  }

  /** Below 32 the shift count is used as it is. */
  lemma ShiftBelow32(i: nat, d: nat)
    requires d < 32
    ensures ShiftRight(i, d) == i / Pow2(d)
  {
    assert d % 32 == d;
  }

  /** Shifting a number below 2^(d + k) right by d leaves a number below 2^k. */
  lemma AddressBound(i: nat, d: nat, k: nat)
    requires i < Pow2(d + k)
    ensures i / Pow2(d) < Pow2(k)
  {
    Pow2Add(d, k);
    DivBound(i, Pow2(d), Pow2(k));
  }

  /** Hits over test cases i, i + 1, ... below the table's end; None when an evaluation fails. */
  function CountHits(t: Node, mux: Option<int>, table: seq<bool>, i: nat): (r: Option<nat>)
    requires i <= |table|
    ensures r.Some? ==> r.value <= |table| - i
    decreases |table| - i
  {
    if i == |table| then Some(0)
    else
      match Eval(t, mux, i)
      case None => None
      case Some(b) =>
        match CountHits(t, mux, table, i + 1)
        case None => None
        case Some(h) => Some(h + if b == table[i] then 1 else 0)
  }

  /** Every test case is hit exactly when the count is the number of cases. */
  lemma {:induction false} AllHitsIffPerfect(t: Node, mux: Option<int>, table: seq<bool>, i: nat)
    requires i <= |table| && CountHits(t, mux, table, i).Some?
    ensures CountHits(t, mux, table, i).value == |table| - i <==>
      forall j :: i <= j < |table| ==> Eval(t, mux, j) == Some(table[j])
    decreases |table| - i
  {
    if i < |table| {
      AllHitsIffPerfect(t, mux, table, i + 1);
    }
  }

  /** One correct case gives at least one hit; one wrong case forbids a perfect count. */
  lemma {:induction false} HitsBetween(t: Node, mux: Option<int>, table: seq<bool>, i: nat, good: nat, bad: nat)
    requires i <= good < |table| && i <= bad < |table| && CountHits(t, mux, table, i).Some?
    requires Eval(t, mux, good) == Some(table[good]) && Eval(t, mux, bad) != Some(table[bad])
    ensures 0 < CountHits(t, mux, table, i).value < |table| - i
    decreases |table| - i
  {
    AllHitsIffPerfect(t, mux, table, i);
    HitsPositive(t, mux, table, i, good);
  }

  lemma {:induction false} HitsPositive(t: Node, mux: Option<int>, table: seq<bool>, i: nat, good: nat)
    requires i <= good < |table| && CountHits(t, mux, table, i).Some?
    requires Eval(t, mux, good) == Some(table[good])
    ensures CountHits(t, mux, table, i).value > 0
    decreases |table| - i
  {
    if i < good {
      HitsPositive(t, mux, table, i + 1, good);
    }
  }

  /**
   * fitness: an evaluated individual is left alone; otherwise hits are the
   * matching test cases, fitness is hits / combinations and the individual
   * is marked evaluated. None stands for an evaluation that throws.
   */
  function Fitness(p: BoolProblem, ind: Individual): (r: Option<Individual>)
    ensures ind.evaluated ==> r == Some(ind)
    ensures !ind.evaluated && r.Some? ==>
      var c := r.value;
      c.evaluated && 0 <= c.hits <= Combinations(p)
      && c.fitness == c.hits as real / Combinations(p) as real
      && 0.0 <= c.fitness <= 1.0
      && (c.fitness == 1.0 <==> c.hits == Combinations(p))
      && (c.fitness == 1.0 ==> c.optimal)
      && c == ind.(hits := c.hits, fitness := c.fitness, optimal := c.optimal, evaluated := true)
  {
    if ind.evaluated then Some(ind)
    else
      var table := TargetTable(p);
      match CountHits(ind.root, MuxInfo(p), table, 0)
      case None => None
      case Some(h) =>
        var c := Combinations(p);
        var f := h as real / c as real;
        RatioFacts(h, c);
        Some(SetFitness(ind.(hits := h), f).(evaluated := true))
  }

  lemma RatioFacts(h: nat, c: nat)
    requires 1 <= c && h <= c
    ensures 0.0 <= h as real / c as real <= 1.0
    ensures h as real / c as real == 1.0 <==> h == c
  {
    if h as real / c as real == 1.0 {
      assert h as real == c as real;
    }
  }

  /** A perfect individual is one right on every test case. */
  lemma PerfectIffAllCorrect(p: BoolProblem, ind: Individual)
    requires !ind.evaluated && Fitness(p, ind).Some?
    ensures Fitness(p, ind).value.fitness == 1.0 <==>
      forall j :: 0 <= j < Combinations(p) ==> Eval(ind.root, MuxInfo(p), j) == Some(Target(p, j))
  {
    AllHitsIffPerfect(ind.root, MuxInfo(p), TargetTable(p), 0);
  }

  /** Every test case evaluating means the count is defined. */
  lemma {:induction false} CountHitsDefined(t: Node, mux: Option<int>, table: seq<bool>, i: nat)
    requires i <= |table|
    requires forall j :: i <= j < |table| ==> Eval(t, mux, j).Some?
    ensures CountHits(t, mux, table, i).Some?
    decreases |table| - i
  {
    if i < |table| {
      CountHitsDefined(t, mux, table, i + 1);
    }
  }

  /** The textbook 6-multiplexer: (IF (AND A0 A1) D3 (IF A0 D1 (IF A1 D2 D0))). */
  function Mux6Solution(): Node
  {
    Node(If, 0, [Apply2(And, Leaf(A(0)), Leaf(A(1))), Leaf(D(3)),
      Node(If, 0, [Leaf(A(0)), Leaf(D(1)), Node(If, 0, [Leaf(A(1)), Leaf(D(2)), Leaf(D(0))])])])
  }

  /** The value of the textbook solution on a test case: the data bit its address bits A0, A1 select. */
  lemma Mux6Eval(j: nat)
    requires j < 64
    ensures Eval(Mux6Solution(), Some(4), j) ==
      Some(if Bit(j, 4) && Bit(j, 5) then Bit(j, 3) else if Bit(j, 4) then Bit(j, 1) else if Bit(j, 5) then Bit(j, 2) else Bit(j, 0))
  {
    var m := Some(4);
    var inner := Node(If, 0, [Leaf(A(1)), Leaf(D(2)), Leaf(D(0))]);
    var mid := Node(If, 0, [Leaf(A(0)), Leaf(D(1)), inner]);
    BitTerminals(0, 4, m, j);
    BitTerminals(1, 4, m, j);
    BitTerminals(2, 4, m, j);
    BitTerminals(3, 4, m, j);
    BinarySemantics(Leaf(A(0)), Leaf(A(1)), m, j);
    IfSemantics(Leaf(A(1)), Leaf(D(2)), Leaf(D(0)), Leaf(D(0)), m, j);
    IfSemantics(Leaf(A(0)), Leaf(D(1)), inner, inner, m, j);
    IfSemantics(Apply2(And, Leaf(A(0)), Leaf(A(1))), Leaf(D(3)), mid, mid, m, j);
  }

  lemma Mux6Target(j: nat)
    requires j < 64
    ensures Target(Multiplexer(2), j) ==
      (if Bit(j, 4) && Bit(j, 5) then Bit(j, 3) else if Bit(j, 4) then Bit(j, 1) else if Bit(j, 5) then Bit(j, 2) else Bit(j, 0))
  {
    assert Pow2(0) == 1 && Pow2(1) == 2 && Pow2(2) == 4 && Pow2(3) == 8 && Pow2(4) == 16 && Pow2(5) == 32;
    var a := j / 16;
    assert a < 4;
    assert ShiftRight(j, NumDataBits(2)) == a;
    assert j / 32 == a / 2;
    assert Bit(j, 4) <==> a % 2 == 1;
    assert Bit(j, 5) <==> a / 2 == 1;
    assert Target(Multiplexer(2), j) == Bit(j, a);
  }

  lemma Mux6Case(j: nat)
    requires j < 64
    ensures Eval(Mux6Solution(), Some(4), j) == Some(Target(Multiplexer(2), j))
  {
    Mux6Eval(j);
    Mux6Target(j);
  }

  /** The textbook solution is right on all 64 test cases of the 6-multiplexer and scores fitness 1. */
  lemma Mux6SolutionPerfect()
    ensures forall j :: 0 <= j < 64 ==> Eval(Mux6Solution(), Some(4), j) == Some(Target(Multiplexer(2), j))
    ensures Fitness(Multiplexer(2), NewIndividual(Mux6Solution())).Some?
    ensures Fitness(Multiplexer(2), NewIndividual(Mux6Solution())).value.fitness == 1.0
    ensures Fitness(Multiplexer(2), NewIndividual(Mux6Solution())).value.optimal
  {
    forall j | 0 <= j < 64
      ensures Eval(Mux6Solution(), Some(4), j) == Some(Target(Multiplexer(2), j))
    {
      Mux6Case(j);
    }
    assert Pow2(2) == 4 && Pow2(6) == 64;
    var p := Multiplexer(2);
    var ind := NewIndividual(Mux6Solution());
    assert MuxInfo(p) == Some(4);
    assert Combinations(p) == 64;
    CountHitsDefined(ind.root, MuxInfo(p), TargetTable(p), 0);
    PerfectIffAllCorrect(p, ind);
  }

  /** The lone terminal D0 is right on test case 0 and wrong on test case 18, so its fitness lies strictly between 0 and 1. */
  lemma Mux6SingleTerminalImperfect()
    ensures Fitness(Multiplexer(2), NewIndividual(Leaf(D(0)))).Some?
    ensures 0.0 < Fitness(Multiplexer(2), NewIndividual(Leaf(D(0)))).value.fitness < 1.0
  {
    assert Pow2(2) == 4 && Pow2(4) == 16 && Pow2(6) == 64;
    var p := Multiplexer(2);
    var ind := NewIndividual(Leaf(D(0)));
    var table := TargetTable(p);
    assert Combinations(p) == 64;
    assert Pow2(0) == 1 && Pow2(1) == 2;
    assert Eval(ind.root, MuxInfo(p), 0) == Some(table[0]);
    Mux6Case18();
    assert Eval(ind.root, MuxInfo(p), 18) != Some(table[18]);
    CountHitsDefined(ind.root, MuxInfo(p), table, 0);
    HitsBetween(ind.root, MuxInfo(p), table, 0, 0, 18);
  }

  /** Test case 18 (binary 010010) addresses data bit 1, which is set, while bit 0 is clear. */
  lemma Mux6Case18()
    ensures Target(Multiplexer(2), 18)
    ensures Eval(Leaf(D(0)), MuxInfo(Multiplexer(2)), 18) == Some(false)
  {
    Mux6Address18();
    assert Unsigned32(18) == 18;
    assert Pow2(0) == 1 && Pow2(1) == 2;
    assert Bit(18, 1) by {
      assert 18 / 2 == 9;
    }
    assert !Bit(18, 0);
  }

  /** With four data bits, test case 18 addresses data bit 1. */
  lemma Mux6Address18()
    ensures NumDataBits(2) == 4 && ShiftRight(18, 4) == 1
  {
    assert Pow2(4) == 16 by {
      assert Pow2(0) == 1 && Pow2(1) == 2 && Pow2(2) == 4 && Pow2(3) == 8;
    }
    assert 18 / 16 == 1;
  }

  function Parity2Solution(): Node
  {
    Apply2(Or, Apply2(And, Leaf(D(0)), Leaf(D(1))), Apply2(Nor, Leaf(D(0)), Leaf(D(1))))
  }

  lemma Parity2Case(j: nat)
    requires j < 4
    ensures Eval(Parity2Solution(), None, j) == Some(Target(Parity(2), j))
  {
    assert Pow2(0) == 1 && Pow2(1) == 2;
    BitTerminals(0, 0, None, j);
    BitTerminals(1, 0, None, j);
    BinarySemantics(Leaf(D(0)), Leaf(D(1)), None, j);
    BinarySemantics(Apply2(And, Leaf(D(0)), Leaf(D(1))), Apply2(Nor, Leaf(D(0)), Leaf(D(1))), None, j);
    ParityTargets(2, j);
    TwoBitParity(j);
  }

  /** A two-bit input has an even number of ones exactly when its bits agree. */
  lemma TwoBitParity(j: nat)
    requires j < 4
    ensures PopCount(j) % 2 == 0 <==> Bit(j, 0) == Bit(j, 1)
  {
    assert Pow2(0) == 1 && Pow2(1) == 2;
    if j == 0 {
      assert PopCount(0) == 0;
    } else if j == 1 {
      assert PopCount(1) == 1;
    } else if j == 2 {
      assert PopCount(2) == 1;
    } else {
      assert PopCount(3) == 2;
    }
  }

  /** Even 2-parity is solved by (OR (AND D0 D1) (NOR D0 D1)). */
  lemma Parity2SolutionPerfect()
    ensures Fitness(Parity(2), NewIndividual(Parity2Solution())).Some?
    ensures Fitness(Parity(2), NewIndividual(Parity2Solution())).value.fitness == 1.0
  {
    var p := Parity(2);
    var ind := NewIndividual(Parity2Solution());
    assert Pow2(0) == 1 && Pow2(1) == 2 && Pow2(2) == 4;
    assert Combinations(p) == 4;
    forall j | 0 <= j < 4
      ensures Eval(ind.root, MuxInfo(p), j) == Some(Target(p, j))
    {
      Parity2Case(j);
    }
    CountHitsDefined(ind.root, MuxInfo(p), TargetTable(p), 0);
    PerfectIffAllCorrect(p, ind);
  }
}

=== FILE: rand.dfy ===
/**
 * The run's random number generator (the Context helpers over
 * java.util.Random), replaced by an explicit oracle: a stream of raw draws
 * read from a position that every draw advances. Any stream is allowed, so
 * every statement proved about a consumer holds for every possible sequence
 * of random outcomes.
 */
module Rand {

  /** Raw integer draws, printed forms of Gaussian constants, and the read position. */
  datatype Rng = Rng(ints: nat -> nat, gauss: nat -> string, pos: nat)

  /** The resolution of java.util.Random.nextDouble: multiples of 2^-53. */
  const DoubleSteps: nat := 9007199254740992

  /** randBetween(min, max): a draw in [min, max]; the source's nextInt rejects an empty range. */
  function RandBetween(r: Rng, lo: int, hi: int): (res: (int, Rng))
    requires lo <= hi
    ensures lo <= res.0 <= hi
    ensures res.1 == r.(pos := r.pos + 1)
  {
    (lo + r.ints(r.pos) % (hi - lo + 1), r.(pos := r.pos + 1))
  }

  /** Every value of the range is the outcome of some draw. */
  lemma RandBetweenReaches(r: Rng, lo: int, hi: int, v: int)
    requires lo <= v <= hi
    ensures RandBetween(r.(ints := (_ => (v - lo) as nat)), lo, hi).0 == v
  {
  }

  /** randDouble / nextDouble: a multiple of 2^-53 in [0, 1). */
  function NextDouble(r: Rng): (res: (real, Rng))
    ensures 0.0 <= res.0 < 1.0
    ensures res.1 == r.(pos := r.pos + 1)
  {
    ((r.ints(r.pos) % DoubleSteps) as real / DoubleSteps as real, r.(pos := r.pos + 1))
  }

  /** nextBool as written: the coin shows true when the double is at most p. */
  function NextBoolAsWritten(r: Rng, p: real): (res: (bool, Rng))
    ensures res.1 == r.(pos := r.pos + 1)
    ensures res.0 <==> NextDouble(r).0 <= p
  {
    var (u, r') := NextDouble(r);
    (u <= p, r')
  }

  /** A zero draw makes the as-written coin show true even for probability 0. */
  lemma NextBoolAsWrittenZeroProbability(r: Rng)
    requires r.ints(r.pos) == 0
    ensures NextBoolAsWritten(r, 0.0).0
  {
  }

  /**
   * The coin with the strict comparison, so that it shows true with
   * probability p: never for p <= 0 and always for p >= 1.
   */
  function NextBool(r: Rng, p: real): (res: (bool, Rng))
    ensures res.1 == r.(pos := r.pos + 1)
    ensures p <= 0.0 ==> !res.0
    ensures 1.0 <= p ==> res.0
    ensures res.0 <==> NextDouble(r).0 < p
  {
    var (u, r') := NextDouble(r);
    (u < p, r')
  }

  /** The Gaussian constant draw used by mutation, as its printed form. */
  function NextGaussian(r: Rng): (res: (string, Rng))
    ensures res.1 == r.(pos := r.pos + 1)
  {
    (r.gauss(r.pos), r.(pos := r.pos + 1))
  }
}

=== FILE: selection.dfy ===
/**
 * Parent selection: tournament selection (the best of tournamentSize
 * distinct random individuals, or of the whole population when the
 * tournament would cover it) and random mating selection, each choosing two
 * parent indices with one retry for distinct parents.
 */
module Selection {
  import opened Wrappers
  import opened Rand
  import opened Individuals

  /**
   * The scan of selectFromAllIndividuals and selectOne from position i of
   * the visiting order, holding the best fitness so far bf and its index
   * bi: an entry replaces the best only when strictly fitter, so ties go to
   * the entry visited first. The result is either the incoming index, when
   * nothing later beats bf, or the first visited entry of greatest fitness.
   */
  function BestFrom(pop: seq<Individual>, order: seq<nat>, i: nat, bf: real, bi: nat): (k: nat)
    requires i <= |order| && forall j :: 0 <= j < |order| ==> order[j] < |pop|
    ensures (k == bi && forall j :: i <= j < |order| ==> pop[order[j]].fitness <= bf)
      || (exists m :: (i <= m < |order| && k == order[m] && pop[k].fitness > bf
            && (forall j :: i <= j < |order| ==> pop[order[j]].fitness <= pop[k].fitness)
            && (forall j :: i <= j < m ==> pop[order[j]].fitness < pop[k].fitness)))
    decreases |order| - i
  {
    if i == |order| then bi
    else
      var f := pop[order[i]].fitness;
      if f > bf then BestFrom(pop, order, i + 1, f, order[i])
      else BestFrom(pop, order, i + 1, bf, bi)
  }

  /** The best of the visited entries, starting from the source's sentinel fitness -1 and index 0. */
  function Winner(pop: seq<Individual>, order: seq<nat>): (k: nat)
    requires forall j :: 0 <= j < |order| ==> order[j] < |pop|
  {
    BestFrom(pop, order, 0, -1.0, 0)
  }

  /**
   * With some entry above the sentinel, the winner is an entry of greatest
   * fitness and every entry visited before it is strictly less fit; with
   * none, the winner is index 0 whether or not it took part.
   */
  lemma WinnerIsFirstBest(pop: seq<Individual>, order: seq<nat>)
    requires forall j :: 0 <= j < |order| ==> order[j] < |pop|
    ensures (exists j :: 0 <= j < |order| && pop[order[j]].fitness > -1.0) ==>
      exists m :: 0 <= m < |order| && Winner(pop, order) == order[m]
        && (forall j :: 0 <= j < |order| ==> pop[order[j]].fitness <= pop[order[m]].fitness)
        && (forall j :: 0 <= j < m ==> pop[order[j]].fitness < pop[order[m]].fitness)
    ensures (forall j :: 0 <= j < |order| ==> pop[order[j]].fitness <= -1.0) ==> Winner(pop, order) == 0
  {
  }

  /** The indices 0 .. n - 1 in order. */
  function AllIndices(n: nat): (r: seq<nat>)
    ensures |r| == n && forall j :: 0 <= j < n ==> r[j] == j
  {
    seq(n, j => j)
  }

  /** selectFromAllIndividuals: the first individual of greatest fitness, 0 for an empty population. */
  function SelectFromAll(pop: seq<Individual>): (k: nat)
    ensures |pop| == 0 ==> k == 0
    ensures |pop| > 0 ==> k < |pop|
    ensures (exists j :: 0 <= j < |pop| && pop[j].fitness > -1.0) ==>
      (forall j :: 0 <= j < |pop| ==> pop[j].fitness <= pop[k].fitness)
      && (forall j :: 0 <= j < k ==> pop[j].fitness < pop[k].fitness)
  {
    if exists j :: 0 <= j < |pop| && pop[j].fitness > -1.0 then
      ScanAllFindsBest(pop);
      Winner(pop, AllIndices(|pop|))
    else
      ScanAllFindsNone(pop);
      Winner(pop, AllIndices(|pop|))
  }

  /** Scanning the whole population in order finds its first fittest member once some fitness is above the sentinel. */
  lemma ScanAllFindsBest(pop: seq<Individual>)
    requires exists j :: 0 <= j < |pop| && pop[j].fitness > -1.0
    ensures var w := Winner(pop, AllIndices(|pop|));
      w < |pop| && (forall j :: 0 <= j < |pop| ==> pop[j].fitness <= pop[w].fitness)
      && (forall j :: 0 <= j < w ==> pop[j].fitness < pop[w].fitness)
  {
    var order := AllIndices(|pop|);
    var j0 :| 0 <= j0 < |pop| && pop[j0].fitness > -1.0;
    assert pop[order[j0]].fitness > -1.0;
    var m := WinnerPosition(pop, order);
    assert order[m] == m;
    forall j | 0 <= j < |pop|
      ensures pop[j].fitness <= pop[m].fitness
    {
      assert order[j] == j;
    }
    forall j | 0 <= j < m
      ensures pop[j].fitness < pop[m].fitness
    {
      assert order[j] == j;
    }
  }

  /** The position in the visiting order of the winner, once some entry is above the sentinel. */
  lemma WinnerPosition(pop: seq<Individual>, order: seq<nat>) returns (m: nat)
    requires forall j :: 0 <= j < |order| ==> order[j] < |pop|
    requires exists j :: 0 <= j < |order| && pop[order[j]].fitness > -1.0
    ensures m < |order| && Winner(pop, order) == order[m]
    ensures forall j :: 0 <= j < |order| ==> pop[order[j]].fitness <= pop[order[m]].fitness
    ensures forall j :: 0 <= j < m ==> pop[order[j]].fitness < pop[order[m]].fitness
  {
    WinnerIsFirstBest(pop, order);
    m :| 0 <= m < |order| && Winner(pop, order) == order[m]
      && (forall j :: 0 <= j < |order| ==> pop[order[j]].fitness <= pop[order[m]].fitness)
      && (forall j :: 0 <= j < m ==> pop[order[j]].fitness < pop[order[m]].fitness);
  }

  /** With no fitness above the sentinel the scan keeps index 0. */
  lemma ScanAllFindsNone(pop: seq<Individual>)
    requires forall j :: 0 <= j < |pop| ==> pop[j].fitness <= -1.0
    ensures Winner(pop, AllIndices(|pop|)) == 0
  {
    var order := AllIndices(|pop|);
    WinnerIsFirstBest(pop, order);
    forall j | 0 <= j < |order|
      ensures pop[order[j]].fitness <= -1.0
    {
      assert order[j] == j;
    }
  }

  predicate Distinct(s: seq<nat>)
  {
    forall i, j :: 0 <= i < j < |s| ==> s[i] != s[j]
  }

  /**
   * The tournament's index set: random indices below n are added until it
   * holds tournamentSize of them; a repeat adds nothing. The set is kept in
   * the order of first draw. The fuel bounds the number of draws.
   */
  function DrawEntrants(n: nat, tSize: int, picked: seq<nat>, r: Rng, fuel: nat): (res: (seq<nat>, Rng))
    requires n > 0 || tSize <= |picked|
    requires Distinct(picked) && forall j :: 0 <= j < |picked| ==> picked[j] < n
    ensures picked <= res.0 && Distinct(res.0)
    ensures forall j :: 0 <= j < |res.0| ==> res.0[j] < n
    ensures |res.0| <= |picked| || |res.0| <= tSize
    ensures |res.0| >= tSize || res.1.pos == r.pos + fuel
    ensures r.pos <= res.1.pos <= r.pos + fuel
    decreases fuel
  {
    if |picked| >= tSize || fuel == 0 then (picked, r)
    else
      var (k, r1) := RandBetween(r, 0, n - 1);
      var next := if k in picked then picked else picked + [k];
      DrawEntrants(n, tSize, next, r1, fuel - 1)
  }

  /** The tournament's entrants, drawn into an empty set. */
  function Entrants(n: nat, tSize: int, r: Rng, fuel: nat): (res: (seq<nat>, Rng))
    requires n > 0 || tSize <= 0
    ensures Distinct(res.0) && forall j :: 0 <= j < |res.0| ==> res.0[j] < n
    ensures |res.0| <= tSize || res.0 == []
    ensures |res.0| >= tSize || res.1.pos == r.pos + fuel
  {
    DrawEntrants(n, tSize, [], r, fuel)
  }

  /**
   * The bucket count of a java.util.HashSet after n insertions into a new
   * set: 16 buckets, doubled whenever the size passes three quarters of
   * the table.
   */
  function TableSize(n: nat): (c: nat)
    ensures c >= 16 && n * 4 <= c * 3
    ensures c == 16 || (c / 2) * 3 < n * 4
  {
    Grow(n, 16)
  }

  /** The smallest table of c, 2c, 4c, ... buckets whose three quarters hold n entries. */
  function Grow(n: nat, c: nat): (r: nat)
    requires c > 0
    ensures r >= c && n * 4 <= r * 3
    ensures r == c || (r / 2) * 3 < n * 4
    decreases n * 4 - c * 3
  {
    if n * 4 <= c * 3 then c else Grow(n, 2 * c)
  }

  /** The entries of s that fall in bucket b of a table of c buckets, in insertion order. */
  function InBucket(s: seq<nat>, c: nat, b: nat): (r: seq<nat>)
    requires c > 0
    ensures forall x :: x in r <==> x in s && x % c == b
    ensures Distinct(s) ==> Distinct(r)
  {
    if s == [] then []
    else
      var rest := InBucket(s[1..], c, b);
      assert forall x :: x in s <==> x == s[0] || x in s[1..] by {
        assert s == [s[0]] + s[1..];
      }
      assert Distinct(s) ==> s[0] !in s[1..];
      (if s[0] % c == b then [s[0]] else []) + rest
  }

  /** Buckets b .. c - 1, one after the other. */
  function BucketsFrom(s: seq<nat>, c: nat, b: nat): (r: seq<nat>)
    requires 0 < c && b <= c
    ensures forall x :: x in r <==> x in s && b <= x % c
    decreases c - b
  {
    if b == c then [] else InBucket(s, c, b) + BucketsFrom(s, c, b + 1)
  }

  /**
   * The order in which a java.util.HashSet of the indices s, inserted in
   * that order, hands them out: bucket by bucket, and within a bucket in
   * insertion order. An index below 65536 is its own hash, so its bucket
   * is the index modulo the table size.
   */
  function HashOrder(s: seq<nat>): (r: seq<nat>)
    ensures forall x :: x in r <==> x in s
  {
    BucketsFrom(s, TableSize(|s|), 0)
  }

  predicate Increasing(s: seq<nat>)
  {
    forall i, j :: 0 <= i < j < |s| ==> s[i] < s[j]
  }

  /** Distinct indices below 16 come out of the buckets of a 16-bucket table from b on in increasing order. */
  lemma {:induction false} SmallBucketsIncreasing(s: seq<nat>, b: nat)
    requires b <= 16 && Distinct(s) && forall x :: x in s ==> x < 16
    ensures Increasing(BucketsFrom(s, 16, b))
    decreases 16 - b
  {
    if b < 16 {
      SmallBucketsIncreasing(s, b + 1);
      SmallBucket(s, b);
      var head := InBucket(s, 16, b);
      var tail := BucketsFrom(s, 16, b + 1);
      assert forall x :: x in s ==> x % 16 == x;
      assert forall x :: x in tail ==> b < x;
      IncreasingJoin(head, tail, b);
    }
  }

  /** With distinct indices below 16, bucket b of a 16-bucket table holds b itself if it was drawn, and nothing else. */
  lemma {:induction false} SmallBucket(s: seq<nat>, b: nat)
    requires Distinct(s) && forall x :: x in s ==> x < 16
    ensures InBucket(s, 16, b) == if b in s then [b] else []
    decreases |s|
  {
    if s != [] {
      assert s == [s[0]] + s[1..];
      assert s[0] in s && s[0] % 16 == s[0];
      assert Distinct(s[1..]) by {
        forall i, j | 0 <= i < j < |s[1..]|
          ensures s[1..][i] != s[1..][j]
        {
          assert s[1..][i] == s[i + 1] && s[1..][j] == s[j + 1];
        }
      }
      assert s[0] !in s[1..] && forall x :: x in s[1..] ==> x in s;
      SmallBucket(s[1..], b);
    }
  }

  /** At most the index b, followed by increasing indices above b, is increasing. */
  lemma IncreasingJoin(head: seq<nat>, tail: seq<nat>, b: nat)
    requires |head| <= 1 && (forall x :: x in head ==> x == b)
    requires Increasing(tail) && forall x :: x in tail ==> b < x
    ensures Increasing(head + tail)
  {
    forall i, j | 0 <= i < j < |head + tail|
      ensures (head + tail)[i] < (head + tail)[j]
    {
      if i < |head| {
        assert (head + tail)[i] == head[i] && head[i] in head;
        assert (head + tail)[j] == tail[j - |head|] && tail[j - |head|] in tail;
      } else {
        assert (head + tail)[i] == tail[i - |head|] && (head + tail)[j] == tail[j - |head|];
      }
    }
  }

  /**
   * At most twelve distinct entrants, all below 16, keep the table at 16
   * buckets and come out of the HashSet in increasing index order.
   */
  lemma SmallHashOrderIncreasing(s: seq<nat>)
    requires |s| <= 12 && Distinct(s) && forall x :: x in s ==> x < 16
    ensures Increasing(HashOrder(s))
  {
    SmallBucketsIncreasing(s, 0);
  }

  /** Some entrant of e is fitter than the sentinel -1. */
  predicate AboveSentinel(pop: seq<Individual>, e: seq<nat>)
  {
    exists x :: x in e && x < |pop| && pop[x].fitness > -1.0
  }

  /**
   * w is an entrant of e of greatest fitness, and every entry the order o
   * visits before it is strictly less fit.
   */
  ghost predicate FirstFittest(pop: seq<Individual>, e: seq<nat>, o: seq<nat>, w: nat)
  {
    w in e && w < |pop|
    && (forall x :: x in e && x < |pop| ==> pop[x].fitness <= pop[w].fitness)
    && exists m :: 0 <= m < |o| && w == o[m] && VisitedBeforeLessFit(pop, o, m)
  }

  /** Every entry the order o visits before position m is strictly less fit than o[m]. */
  predicate VisitedBeforeLessFit(pop: seq<Individual>, o: seq<nat>, m: nat)
    requires m < |o| && o[m] < |pop|
  {
    forall j :: 0 <= j < m && o[j] < |pop| ==> pop[o[j]].fitness < pop[o[m]].fitness
  }

  /** The winner among the entrants e when they are visited in the HashSet's order. */
  function HashWinner(pop: seq<Individual>, e: seq<nat>): (w: nat)
    requires forall j :: 0 <= j < |e| ==> e[j] < |pop|
    ensures |pop| > 0 ==> w < |pop|
    ensures AboveSentinel(pop, e) ==> FirstFittest(pop, e, HashOrder(e), w)
  {
    var o := HashOrder(e);
    HashWinnerBest(pop, e, o);
    Winner(pop, o)
  }

  /** HashWinner's contract, for any visiting order o of the entrants e. */
  lemma HashWinnerBest(pop: seq<Individual>, e: seq<nat>, o: seq<nat>)
    requires forall j :: 0 <= j < |e| ==> e[j] < |pop|
    requires forall x :: x in o <==> x in e
    ensures forall j :: 0 <= j < |o| ==> o[j] < |pop|
    ensures AboveSentinel(pop, e) ==> FirstFittest(pop, e, o, Winner(pop, o))
  {
    assert forall j :: 0 <= j < |o| ==> o[j] in e;
    if AboveSentinel(pop, e) {
      var x0 :| x0 in e && x0 < |pop| && pop[x0].fitness > -1.0;
      assert x0 in o;
      var m := WinnerPosition(pop, o);
      forall x | x in e && x < |pop|
        ensures pop[x].fitness <= pop[o[m]].fitness
      {
        assert x in o;
      }
    }
  }

  /**
   * At most twelve distinct entrants below 16 are visited in increasing
   * order, so a tie among the fittest goes to the lowest index.
   */
  lemma SmallHashWinnerLowest(pop: seq<Individual>, e: seq<nat>)
    requires |e| <= 12 && Distinct(e) && forall j :: 0 <= j < |e| ==> e[j] < |pop| <= 16
    requires AboveSentinel(pop, e)
    ensures forall x :: x in e && pop[x].fitness == pop[HashWinner(pop, e)].fitness ==> HashWinner(pop, e) <= x
  {
    var w := HashWinner(pop, e);
    SmallHashOrderIncreasing(e);
    IncreasingFirstFittestIsLowest(pop, e, HashOrder(e), w);
  }

  /** Under an increasing visiting order, the first of the fittest is the lowest index among them. */
  lemma IncreasingFirstFittestIsLowest(pop: seq<Individual>, e: seq<nat>, o: seq<nat>, w: nat)
    requires Increasing(o) && forall x :: x in e ==> x in o
    requires FirstFittest(pop, e, o, w)
    ensures forall x :: x in e && x < |pop| && pop[x].fitness == pop[w].fitness ==> w <= x
  {
    var m :| 0 <= m < |o| && w == o[m] && VisitedBeforeLessFit(pop, o, m);
    forall x | x in e && x < |pop| && pop[x].fitness == pop[w].fitness
      ensures w <= x
    {
      var j :| 0 <= j < |o| && o[j] == x;
      assert m <= j;
    }
  }

  /** A selection result: the chosen index and the generator after the draws. */
  datatype Pick = Pick(index: nat, rng: Rng)

  /**
   * Tournament selectOne: the whole population competes when the
   * tournament size reaches its size; otherwise tournamentSize distinct
   * random entrants do, visited in the HashSet's order, and the first
   * visited of the fittest wins.
   */
  function TournamentSelectOne(pop: seq<Individual>, tSize: int, r: Rng, fuel: nat): (res: Pick)
    ensures |pop| > 0 ==> res.index < |pop|
    ensures tSize >= |pop| ==> res == Pick(SelectFromAll(pop), r)
    ensures tSize < |pop| ==> var e := Entrants(|pop|, tSize, r, fuel).0;
      AboveSentinel(pop, e) ==> FirstFittest(pop, e, HashOrder(e), res.index)
  {
    if tSize >= |pop| then Pick(SelectFromAll(pop), r)
    else
      var (entrants, r1) := Entrants(|pop|, tSize, r, fuel);
      Pick(HashWinner(pop, entrants), r1)
  }

  /**
   * In a population of at most 16 with a tournament of at most twelve,
   * a tie among the fittest entrants goes to the lowest index.
   */
  lemma SmallTournamentTieGoesToLowestIndex(pop: seq<Individual>, tSize: int, r: Rng, fuel: nat)
    requires tSize < |pop| <= 16 && tSize <= 12
    requires AboveSentinel(pop, Entrants(|pop|, tSize, r, fuel).0)
    ensures var e := Entrants(|pop|, tSize, r, fuel).0;
      var w := TournamentSelectOne(pop, tSize, r, fuel).index;
      forall x :: x in e && pop[x].fitness == pop[w].fitness ==> w <= x
  {
    SmallHashWinnerLowest(pop, Entrants(|pop|, tSize, r, fuel).0);
  }

  /** A pair of parent indices and the generator after the draws. */
  datatype Parents = Parents(first: nat, second: nat, rng: Rng)

  /** Tournament select: two winners; when they coincide the second tournament is run once more. */
  function TournamentSelect(pop: seq<Individual>, tSize: int, r: Rng, fuel: nat): (res: Parents)
    ensures |pop| > 0 ==> res.first < |pop| && res.second < |pop|
    ensures res.first == TournamentSelectOne(pop, tSize, r, fuel).index
  {
    var a := TournamentSelectOne(pop, tSize, r, fuel);
    var b := TournamentSelectOne(pop, tSize, a.rng, fuel);
    if b.index == a.index then
      var c := TournamentSelectOne(pop, tSize, b.rng, fuel);
      Parents(a.index, c.index, c.rng)
    else Parents(a.index, b.index, b.rng)
  }

  /** When the tournament covers the whole population both parents are the same best individual. */
  lemma WholePopulationTournamentSameParents(pop: seq<Individual>, tSize: int, r: Rng, fuel: nat)
    requires tSize >= |pop|
    ensures TournamentSelect(pop, tSize, r, fuel) == Parents(SelectFromAll(pop), SelectFromAll(pop), r)
  {
  }

  /** Random mating selectOne: a uniform index; nextInt rejects an empty population (None). */
  function RandomSelectOne(pop: seq<Individual>, r: Rng): (res: Option<Pick>)
    ensures res.Some? <==> |pop| > 0
    ensures res.Some? ==> res.value.index < |pop| && res.value.rng == r.(pos := r.pos + 1)
  {
    if |pop| == 0 then None
    else
      var (k, r1) := RandBetween(r, 0, |pop| - 1);
      Some(Pick(k, r1))
  }

  /** Random mating select: two uniform indices, the second redrawn once if it repeats the first. */
  function RandomMatingSelect(pop: seq<Individual>, r: Rng): (res: Option<Parents>)
    ensures res.Some? <==> |pop| > 0
    ensures res.Some? ==> res.value.first < |pop| && res.value.second < |pop|
    ensures res.Some? ==> res.value.rng.pos == r.pos + 2 || res.value.rng.pos == r.pos + 3
    ensures res.Some? && res.value.first == res.value.second ==> res.value.rng.pos == r.pos + 3
  {
    if |pop| == 0 then None
    else
      var a := RandomSelectOne(pop, r).value;
      var b := RandomSelectOne(pop, a.rng).value;
      if b.index == a.index then
        var c := RandomSelectOne(pop, b.rng).value;
        Some(Parents(a.index, c.index, c.rng))
      else Some(Parents(a.index, b.index, b.rng))
  }

  /** Random mating never looks at fitness: populations of equal size get the same parents from the same draws. */
  lemma RandomMatingIgnoresFitness(pop1: seq<Individual>, pop2: seq<Individual>, r: Rng)
    requires |pop1| == |pop2|
    ensures RandomMatingSelect(pop1, r) == RandomMatingSelect(pop2, r)
  {
  }
}

=== FILE: tree.dfy ===
/**
 * Genome trees (the Node class): fixed-arity trees of primitives with a
 * node number on every node, the lisp-style printers, depth, size, the
 * pre-order node list, paths (a node's position, standing in for Java object
 * identity and parent links) and subtree substitution.
 */
module Tree {
  import opened Prims
  import opened Wrappers

  /** A node: its primitive, its node number and its children in slot order. */
  datatype Node = Node(prim: Prim, num: int, kids: seq<Node>)

  /** Every node has exactly as many children as its primitive's arity. */
  predicate WellFormed(t: Node)
    decreases t
  {
    |t.kids| == Arity(t.prim) && forall i :: 0 <= i < |t.kids| ==> WellFormed(t.kids[i])
  }

  /** A well-formed node is a terminal exactly when it has no children. */
  lemma TerminalIffLeaf(t: Node)
    requires WellFormed(t)
    ensures IsTerminal(t.prim) <==> |t.kids| == 0
  {
  }

  // ---------------------------------------------------------------- printing

  /** The label a printer writes for a node: its name or its number. */
  function Label(t: Node, numbered: bool): string
  {
    if numbered then IntToString(t.num) else Name(t.prim)
  }

  /**
   * subtreeToString (numbered = false) and subtreeToNumberedString
   * (numbered = true): a terminal is its label, a function is "(" label,
   * then " " and each child, then ")".
   */
  function Show(t: Node, numbered: bool): string
    decreases t
  {
    if IsTerminal(t.prim) then Label(t, numbered)
    else "(" + Label(t, numbered) + ShowKids(t.kids, numbered) + ")"
  }

  function ShowKids(ks: seq<Node>, numbered: bool): string
    decreases ks
  {
    if ks == [] then "" else " " + Show(ks[0], numbered) + ShowKids(ks[1..], numbered)
  }

  function Print(t: Node): string
  {
    Show(t, false)
  }

  // ------------------------------------------------------- pre-order, size

  /** subtreeFrom: the nodes of the subtree in pre-order. */
  function Preorder(t: Node): seq<Node>
    decreases t
  {
    [t] + PreorderKids(t.kids)
  }

  function PreorderKids(ks: seq<Node>): seq<Node>
    decreases ks
  {
    if ks == [] then [] else Preorder(ks[0]) + PreorderKids(ks[1..])
  }

  /** sizeFrom: the number of nodes in the subtree, the length of its pre-order list (PreorderLength). */
  function Size(t: Node): nat
    decreases t
  {
    1 + SizeKids(t.kids)
  }

  function SizeKids(ks: seq<Node>): nat
    decreases ks
  {
    if ks == [] then 0 else Size(ks[0]) + SizeKids(ks[1..])
  }

  /** The size is the length of the pre-order node list. */
  lemma {:induction false} PreorderLength(t: Node)
    ensures |Preorder(t)| == Size(t)
    decreases t
  {
    PreorderKidsLength(t.kids);
  }

  lemma {:induction false} PreorderKidsLength(ks: seq<Node>)
    ensures |PreorderKids(ks)| == SizeKids(ks)
    decreases ks
  {
    if ks != [] {
      PreorderLength(ks[0]);
      PreorderKidsLength(ks[1..]);
    }
  }

  /** The pre-order node numbers. */
  function Nums(t: Node): seq<int>
    decreases t
  {
    [t.num] + NumsKids(t.kids)
  }

  function NumsKids(ks: seq<Node>): seq<int>
    decreases ks
  {
    if ks == [] then [] else Nums(ks[0]) + NumsKids(ks[1..])
  }

  /** Nums lists the number of each pre-order node, in order. */
  lemma {:induction false} NumsArePreorderNums(t: Node)
    ensures |Nums(t)| == Size(t) == |Preorder(t)|
    ensures forall i :: 0 <= i < Size(t) ==> Nums(t)[i] == Preorder(t)[i].num
    decreases t
  {
    NumsKidsArePreorderNums(t.kids);
    PreorderKidsLength(t.kids);
  }

  lemma {:induction false} NumsKidsArePreorderNums(ks: seq<Node>)
    ensures |NumsKids(ks)| == SizeKids(ks) == |PreorderKids(ks)|
    ensures forall i :: 0 <= i < SizeKids(ks) ==> NumsKids(ks)[i] == PreorderKids(ks)[i].num
    decreases ks
  {
    if ks != [] {
      NumsArePreorderNums(ks[0]);
      NumsKidsArePreorderNums(ks[1..]);
      PreorderLength(ks[0]);
      PreorderKidsLength(ks[1..]);
    }
  }

  /** The integers start, start + 1, ..., start + n - 1. */
  function Range(start: int, n: nat): (r: seq<int>)
    ensures |r| == n
    ensures forall i :: 0 <= i < n ==> r[i] == start + i
  {
    seq(n, i => start + i)
  }

  // ----------------------------------------------------------------- depth

  /** depthFrom: 0 for a leaf, otherwise one more than the deepest child. */
  function Depth(t: Node): nat
    decreases t
  {
    if t.kids == [] then 0 else 1 + DepthKids(t.kids)
  }

  function DepthKids(ks: seq<Node>): nat
    decreases ks
  {
    if ks == [] then 0
    else
      var d0, dr := Depth(ks[0]), DepthKids(ks[1..]);
      if d0 < dr then dr else d0
  }

  // ----------------------------------------------------------------- paths

  /** A path of child indices from the root that leads to a node. */
  predicate ValidPath(t: Node, p: seq<nat>)
    decreases |p|
  {
    |p| == 0 || (p[0] < |t.kids| && ValidPath(t.kids[p[0]], p[1..]))
  }

  /** The subtree at a path. */
  function At(t: Node, p: seq<nat>): Node
    requires ValidPath(t, p)
    decreases |p|
  {
    if |p| == 0 then t else At(t.kids[p[0]], p[1..])
  }

  /**
   * swapNode: the tree with the subtree at path p replaced by q; every
   * node off that path keeps its primitive and its (possibly stale) number.
   */
  function Replace(t: Node, p: seq<nat>, q: Node): Node
    requires ValidPath(t, p)
    decreases |p|
  {
    if |p| == 0 then q
    else t.(kids := t.kids[p[0] := Replace(t.kids[p[0]], p[1..], q)])
  }

  /** getDepth: the number of parent links from the node at p to the root. */
  function NodeDepth(p: seq<nat>): nat
  {
    |p|
  }

  // --------------------------------------------------------------- numbering

  /** numberAndCountNodes: numbers the nodes start, start + 1, ... in pre-order. */
  function Renumber(t: Node, start: int): Node
    decreases t
  {
    Node(t.prim, start, RenumberKids(t.kids, start + 1))
  }

  function RenumberKids(ks: seq<Node>, start: int): seq<Node>
    decreases ks
  {
    if ks == [] then [] else [Renumber(ks[0], start)] + RenumberKids(ks[1..], start + Size(ks[0]))
  }

  /** Two trees with the same primitives in the same places, numbers aside. */
  predicate SameShape(a: Node, b: Node)
    decreases a
  {
    a.prim == b.prim && |a.kids| == |b.kids|
    && forall i :: 0 <= i < |a.kids| ==> SameShape(a.kids[i], b.kids[i])
  }

  /**
   * findNode: a stack-driven depth-first search; popping a node checks it and
   * pushes its children in slot order, so the last child is searched first.
   * The result is the path of the first node met whose number is k.
   */
  function Find(t: Node, k: int): Option<seq<nat>>
    decreases t
  {
    if t.num == k then Some([]) else FindKids(t.kids, k, |t.kids|)
  }

  /** Searches children n - 1 down to 0. */
  function FindKids(ks: seq<Node>, k: int, n: nat): Option<seq<nat>>
    requires n <= |ks|
    decreases ks, n
  {
    if n == 0 then None
    else
      match Find(ks[n - 1], k)
      case Some(p) => Some([n - 1] + p)
      case None => FindKids(ks, k, n - 1)
  }

  // ============================================================ size facts

  lemma SizeKidsCons(ks: seq<Node>)
    requires ks != []
    ensures SizeKids(ks) == Size(ks[0]) + SizeKids(ks[1..])
  {
  }

  /** Replacing one child changes the children's total size by the difference. */
  lemma {:induction false} SizeKidsUpdate(ks: seq<Node>, i: nat, x: Node)
    requires i < |ks|
    ensures SizeKids(ks[i := x]) == SizeKids(ks) - Size(ks[i]) + Size(x)
    decreases ks
  {
    var ks' := ks[i := x];
    if i == 0 {
      assert ks'[1..] == ks[1..];
    } else {
      assert ks'[1..] == ks[1..][i - 1 := x];
      SizeKidsUpdate(ks[1..], i - 1, x);
    }
  }

  // =========================================================== depth facts

  /** DepthKids is the maximum depth over the children (0 for none). */
  lemma {:induction false} DepthKidsIsMax(ks: seq<Node>)
    ensures forall i :: 0 <= i < |ks| ==> Depth(ks[i]) <= DepthKids(ks)
    ensures ks != [] ==> exists i :: 0 <= i < |ks| && Depth(ks[i]) == DepthKids(ks)
    ensures ks == [] ==> DepthKids(ks) == 0
    decreases ks
  {
    if ks != [] {
      DepthKidsIsMax(ks[1..]);
      forall i | 0 <= i < |ks|
        ensures Depth(ks[i]) <= DepthKids(ks)
      {
        if i > 0 {
          assert ks[i] == ks[1..][i - 1];
        }
      }
      if Depth(ks[0]) < DepthKids(ks[1..]) {
        var j :| 0 <= j < |ks[1..]| && Depth(ks[1..][j]) == DepthKids(ks[1..]);
        assert ks[j + 1] == ks[1..][j];
      }
    }
  }

  /** Replacing one child by x: the children's depth is at least x's and at most the larger of the two. */
  lemma DepthKidsUpdate(ks: seq<Node>, i: nat, x: Node)
    requires i < |ks|
    ensures Depth(x) <= DepthKids(ks[i := x])
    ensures DepthKids(ks[i := x]) <= if DepthKids(ks) < Depth(x) then Depth(x) else DepthKids(ks)
  {
    var ks' := ks[i := x];
    DepthKidsIsMax(ks);
    DepthKidsIsMax(ks');
    var j :| 0 <= j < |ks'| && Depth(ks'[j]) == DepthKids(ks');
    assert ks'[i] == x;
    if j != i {
      assert ks'[j] == ks[j];
    }
  }

  /** Depth bounds the length of every path, and some path attains it. */
  lemma {:induction false} DepthIsLongestPath(t: Node, p: seq<nat>)
    requires ValidPath(t, p)
    ensures |p| <= Depth(t)
    decreases |p|
  {
    if |p| > 0 {
      DepthKidsIsMax(t.kids);
      DepthIsLongestPath(t.kids[p[0]], p[1..]);
    }
  }

  lemma {:induction false} DepthAttained(t: Node)
    ensures exists p :: ValidPath(t, p) && |p| == Depth(t)
    decreases t
  {
    if t.kids == [] {
      assert ValidPath(t, []);
    } else {
      DepthKidsIsMax(t.kids);
      var i :| 0 <= i < |t.kids| && Depth(t.kids[i]) == DepthKids(t.kids);
      DepthAttained(t.kids[i]);
      var q :| ValidPath(t.kids[i], q) && |q| == Depth(t.kids[i]);
      var p: seq<nat> := [i] + q;
      assert p[1..] == q;
      assert ValidPath(t, p);
    }
  }

  // ============================================================ swapNode

  /** Paths that part ways: neither is a prefix of the other. */
  predicate Diverge(p: seq<nat>, r: seq<nat>)
    decreases |p|
  {
    |p| > 0 && |r| > 0 && (p[0] != r[0] || Diverge(p[1..], r[1..]))
  }

  /** After swapNode the substituted subtree sits at the cross point. */
  lemma {:induction false} ReplaceAt(t: Node, p: seq<nat>, q: Node)
    requires ValidPath(t, p)
    ensures ValidPath(Replace(t, p, q), p) && At(Replace(t, p, q), p) == q
    decreases |p|
  {
    if |p| > 0 {
      ReplaceAt(t.kids[p[0]], p[1..], q);
    }
  }

  /** swapNode leaves every subtree off the cross point's path unchanged. */
  lemma {:induction false} ReplaceElsewhere(t: Node, p: seq<nat>, q: Node, r: seq<nat>)
    requires ValidPath(t, p) && ValidPath(t, r) && Diverge(p, r)
    ensures ValidPath(Replace(t, p, q), r) && At(Replace(t, p, q), r) == At(t, r)
    decreases |p|
  {
    if p[0] != r[0] {
      var t' := Replace(t, p, q);
      assert t'.kids[r[0]] == t.kids[r[0]];
      ValidPathSameSubtree(t, t', r);
    } else {
      ReplaceElsewhere(t.kids[p[0]], p[1..], q, r[1..]);
    }
  }

  /** A path whose first step leads into the same child is valid in both trees and leads to the same node. */
  lemma ValidPathSameSubtree(t: Node, t': Node, r: seq<nat>)
    requires ValidPath(t, r) && |r| > 0 && r[0] < |t'.kids| && t'.kids[r[0]] == t.kids[r[0]]
    ensures ValidPath(t', r) && At(t', r) == At(t, r)
  {
  }

  /** swapNode's size: the recipient loses the replaced subtree and gains q. */
  lemma {:induction false} ReplaceSize(t: Node, p: seq<nat>, q: Node)
    requires ValidPath(t, p)
    ensures Size(Replace(t, p, q)) == Size(t) - Size(At(t, p)) + Size(q)
    decreases |p|
  {
    if |p| > 0 {
      ReplaceSize(t.kids[p[0]], p[1..], q);
      SizeKidsUpdate(t.kids, p[0], Replace(t.kids[p[0]], p[1..], q));
    }
  }

  /**
   * swapNode's depth: at least the cross point's depth plus q's depth, and at
   * most the larger of that and the recipient's depth.
   */
  lemma {:induction false} ReplaceDepth(t: Node, p: seq<nat>, q: Node)
    requires ValidPath(t, p)
    ensures NodeDepth(p) + Depth(q) <= Depth(Replace(t, p, q))
    ensures Depth(Replace(t, p, q)) <= if Depth(t) < NodeDepth(p) + Depth(q) then NodeDepth(p) + Depth(q) else Depth(t)
    decreases |p|
  {
    if |p| > 0 {
      var c := Replace(t.kids[p[0]], p[1..], q);
      ReplaceDepth(t.kids[p[0]], p[1..], q);
      DepthKidsUpdate(t.kids, p[0], c);
      DepthKidsIsMax(t.kids);
    }
  }

  /** swapNode keeps trees well formed when q is. */
  lemma {:induction false} ReplaceWellFormed(t: Node, p: seq<nat>, q: Node)
    requires ValidPath(t, p) && WellFormed(t) && WellFormed(q)
    ensures WellFormed(Replace(t, p, q))
    decreases |p|
  {
    if |p| > 0 {
      ReplaceWellFormed(t.kids[p[0]], p[1..], q);
      var t' := Replace(t, p, q);
      forall i | 0 <= i < |t'.kids|
        ensures WellFormed(t'.kids[i])
      {
        if i != p[0] {
          assert t'.kids[i] == t.kids[i];
        }
      }
    }
  }

  lemma AtWellFormed(t: Node, p: seq<nat>)
    requires ValidPath(t, p) && WellFormed(t)
    ensures WellFormed(At(t, p))
    decreases |p|
  {
  }

  // =========================================================== numbering

  lemma RangeSplit(s: int, a: nat, b: nat)
    ensures Range(s, a) + Range(s + a, b) == Range(s, a + b)
  {
  }

  /**
   * numberAndCountNodes: the pre-order numbers become start, start + 1, ...,
   * one per node, and nothing but the numbers changes.
   */
  lemma {:induction false} RenumberNumbers(t: Node, start: int)
    ensures Nums(Renumber(t, start)) == Range(start, Size(t))
    ensures SameShape(Renumber(t, start), t)
    decreases t
  {
    RenumberKidsNumbers(t.kids, start + 1);
    assert Size(t) == 1 + SizeKids(t.kids);
    assert [start] + Range(start + 1, SizeKids(t.kids)) == Range(start, Size(t));
  }

  lemma {:induction false} RenumberKidsNumbers(ks: seq<Node>, start: int)
    ensures NumsKids(RenumberKids(ks, start)) == Range(start, SizeKids(ks))
    ensures |RenumberKids(ks, start)| == |ks|
    ensures forall i :: 0 <= i < |ks| ==> SameShape(RenumberKids(ks, start)[i], ks[i])
    decreases ks
  {
    if ks != [] {
      RenumberNumbers(ks[0], start);
      RenumberKidsNumbers(ks[1..], start + Size(ks[0]));
      RangeSplit(start, Size(ks[0]), SizeKids(ks[1..]));
      var rs := RenumberKids(ks, start);
      forall i | 0 <= i < |ks|
        ensures SameShape(rs[i], ks[i])
      {
        if i > 0 {
          assert rs[i] == RenumberKids(ks[1..], start + Size(ks[0]))[i - 1];
          assert ks[i] == ks[1..][i - 1];
        }
      }
    }
  }

  /** Trees of the same shape print alike, are equally large and deep, and are well formed together. */
  lemma {:induction false} SameShapeFacts(a: Node, b: Node)
    requires SameShape(a, b)
    ensures Print(a) == Print(b) && Size(a) == Size(b) && Depth(a) == Depth(b)
    ensures WellFormed(a) <==> WellFormed(b)
    decreases a
  {
    SameShapeKidsFacts(a.kids, b.kids);
  }

  lemma {:induction false} SameShapeKidsFacts(ks: seq<Node>, ls: seq<Node>)
    requires |ks| == |ls| && forall i :: 0 <= i < |ks| ==> SameShape(ks[i], ls[i])
    ensures ShowKids(ks, false) == ShowKids(ls, false) && SizeKids(ks) == SizeKids(ls)
    ensures DepthKids(ks) == DepthKids(ls)
    ensures (forall i :: 0 <= i < |ks| ==> WellFormed(ks[i])) <==> (forall i :: 0 <= i < |ls| ==> WellFormed(ls[i]))
    decreases ks
  {
    if ks != [] {
      SameShapeFacts(ks[0], ls[0]);
      SameShapeKidsFacts(ks[1..], ls[1..]);
      forall i | 0 <= i < |ks|
        ensures WellFormed(ks[i]) <==> WellFormed(ls[i])
      {
        SameShapeFacts(ks[i], ls[i]);
      }
    }
  }

  lemma {:induction false} SameShapeTrans(a: Node, b: Node, c: Node)
    requires SameShape(a, b) && SameShape(b, c)
    ensures SameShape(a, c)
    decreases a
  {
    forall i | 0 <= i < |a.kids|
      ensures SameShape(a.kids[i], c.kids[i])
    {
      SameShapeTrans(a.kids[i], b.kids[i], c.kids[i]);
    }
  }

  // ============================================================ findNode

  /** findNode only returns a path to a node with the requested number. */
  lemma {:induction false} FindSound(t: Node, k: int)
    ensures Find(t, k).Some? ==> ValidPath(t, Find(t, k).value) && At(t, Find(t, k).value).num == k
    decreases t
  {
    if t.num != k {
      FindKidsSound(t.kids, k, |t.kids|);
    }
  }

  lemma {:induction false} FindKidsSound(ks: seq<Node>, k: int, n: nat)
    requires n <= |ks|
    ensures FindKids(ks, k, n).Some? ==>
      var p := FindKids(ks, k, n).value;
      |p| > 0 && p[0] < |ks| && ValidPath(ks[p[0]], p[1..]) && At(ks[p[0]], p[1..]).num == k
    decreases ks, n
  {
    if n > 0 {
      FindSound(ks[n - 1], k);
      match Find(ks[n - 1], k)
      case Some(p) =>
        assert ([n - 1] + p)[1..] == p;
      case None =>
        FindKidsSound(ks, k, n - 1);
    }
  }

  /** findNode finds a node exactly when some node carries the number. */
  lemma {:induction false} FindComplete(t: Node, k: int)
    ensures Find(t, k).Some? <==> k in Nums(t)
    decreases t
  {
    FindKidsComplete(t.kids, k, |t.kids|);
    assert t.kids[..|t.kids|] == t.kids;
  }

  lemma {:induction false} FindKidsComplete(ks: seq<Node>, k: int, n: nat)
    requires n <= |ks|
    ensures FindKids(ks, k, n).Some? <==> k in NumsKids(ks[..n])
    decreases ks, n
  {
    if n > 0 {
      FindComplete(ks[n - 1], k);
      FindKidsComplete(ks, k, n - 1);
      NumsKidsSnoc(ks[..n - 1], ks[n - 1]);
      assert ks[..n] == ks[..n - 1] + [ks[n - 1]];
    }
  }

  lemma {:induction false} NumsKidsSnoc(ks: seq<Node>, x: Node)
    ensures NumsKids(ks + [x]) == NumsKids(ks) + Nums(x)
    decreases ks
  {
    if ks == [] {
      assert ([x])[1..] == [];
    } else {
      assert (ks + [x])[1..] == ks[1..] + [x];
      NumsKidsSnoc(ks[1..], x);
    }
  }

  /** After numberAndCountNodes, findNode(k) succeeds exactly for 0 <= k < size. */
  lemma FindAfterRenumber(t: Node, k: int)
    ensures Find(Renumber(t, 0), k).Some? <==> 0 <= k < Size(t)
  {
    RenumberNumbers(t, 0);
    FindComplete(Renumber(t, 0), k);
    if 0 <= k < Size(t) {
      assert Range(0, Size(t))[k] == k;
    }
  }
}

=== FILE: wrappers.dfy ===
/** Optional values and results with an error, as used throughout the model. */
module Wrappers {
  datatype Option<T> = None | Some(value: T)
  {
    predicate IsSome() { Some? }
  }

  datatype Result<T, E> = Ok(value: T) | Err(error: E)
  {
    predicate IsOk() { Ok? }
  }
}
